=== FILE: README.md ===
# eunu-log: a verified model of the blog's hand-written logic

eunu-log is a personal blog. Most of its code renders pages, but several
pieces of hand-written logic sit inside it. This project models each one
as pure Dafny functions, with small loops where the source loops, and
proves what the code promises about them:

- **Table of contents** (`Markdown`, `TocForest`): the heading scan of
  raw MDX with the pattern `^(#{1,6})\s+(.+)$` (global, multi-line); the
  anchor slugger `generateHeadingId`; the per-document count map that
  numbers repeated slugs; and the stack that nests headings into a
  forest.
- **Posts and resume data** (`Feed`, `MdxFeeds`, `SeriesPage`,
  `SeriesNavigation`, `BlogList`, `PostList`, `Search`,
  `ResumeStageOrder`), covering:
  - reading-time estimation and its fallback;
  - the newest-first feed and the posts of a series;
  - series grouping and the previous/next lookup;
  - the category tabs and both post filters;
  - the command-palette actions;
  - the stable priority sort of resume stages.
- **Navigation state** (`MobileNav`, `ScrollVisibility`): the
  highlighted item of the bottom bar, and the scroll hook written as a
  transition function over scroll and resize events.
- **Typing animation** (`TypingAnimation`): the tag-aware prefix
  `getDisplayText`, and the timer that advances it.
- **Algorithm visualizers** (`GraphTraversal`, `BinarySearch`,
  `TwoPointer`, `SlidingWindow`, `SortingVisualization`,
  `DPVisualization`): the array algorithms without the pacing, state
  updates and colouring. The random draws become parameters.
- **Corpus scripts** (`NekaracubaCorpus`, `TossAnalysis`):
  - URL normalisation and topic scoring;
  - LINE link extraction;
  - dedupe, sort and quota-based selection of records;
  - article URL extraction, keyword ranking and the integer fields of the
    summary.

Shared pieces:

- `Wrappers`: `Option`.
- `Seqs`: filtering, counting, distinctness, subsequences and de-duplication.
- `Strings`:
  - JavaScript white space and `trim`;
  - substring search;
  - the code-point string order;
  - lower-casing;
  - decimal rendering;
  - `join`.
- `Sorting`: a stable insertion sort over a total preorder, with its
  permutation, order and stability lemmas. Every sort of the source
  maps onto it.

Where the code and its tests or comments disagree, the model follows the
code:

- A heading of punctuation only gets the empty id.
- A suffixed id such as `x-1` is never recorded, so ids are distinct only
  among headings that share a slug.
- `parseHeadingsFromMdx` returns a forest, while `markdown.test.ts`
  expects flat records. Its pre-order listing is the test's sequence.
- `getSearchActions` lists the navigation actions before the posts,
  although `search.test.ts` expects the posts first.

Each action's `perform` closure is modelled by the address it opens.

## Model

The heading parser `Markdown.ParseHeadingsFromMdx` numbers ids with the corrected count map `Markdown.NumberIds` (see Findings); `Markdown.NumberIdsAsWritten` is the numbering as written.

| member | source | states |
|---|---|---|
| Markdown.SquashRuns | src/lib/markdown.ts:11-12 | each run of the class becomes one `-`; the result never grows, and with `-` in the class it never holds `--` |
| Markdown.SlugShape | src/lib/markdown.ts:6-13 | every id holds only lower-case ASCII word characters, the listed Hangul blocks and `-`, with no white space and never `--` |
| Markdown.SlugOfSlugShaped | src/lib/markdown.ts:6-13 | a string that already has slug shape is its own slug |
| Markdown.SlugIdempotent | src/lib/markdown.ts:6-13 | slugging a slug changes nothing |
| Markdown.SlugExample | src/lib/markdown.test.ts:15-19 | "Redis 개요" slugs to "redis-개요" |
| Markdown.TestSlugs | src/lib/markdown.test.ts:15-24 | both heading texts of the test slug to the ids the test expects |
| Markdown.PunctuationOnlySlug | src/lib/markdown.ts:9-13 | a heading of punctuation only ("!!!") gets the empty id |
| Markdown.MatchAt | src/lib/markdown.ts:25 | a match at a line start has 1 to 6 `#`, then white space, then text starting with a non-space character that runs to the line end |
| Markdown.Scan | src/lib/markdown.ts:25-31 | every reported heading is a heading line of the input, at strictly increasing positions |
| Markdown.ScanFirstMatch | src/lib/markdown.ts:25-31 | the `exec` loop reports the first match at or after the search position, then resumes after that match |
| Markdown.ScanEmpty | src/lib/markdown.ts:25-31 | the scan reports nothing exactly when no position from the start on matches |
| Markdown.ScanHeadingLine | src/lib/markdown.ts:25-35 | a line of 1 to 6 `#`, a space and a text yields one heading with that level and the trimmed text |
| Markdown.NewlineAfterHashes | src/lib/markdown.ts:25 | `\s+` can match the line feed, so "##\nFoo" yields a level-2 heading "Foo" |
| Markdown.IndentedIsNotHeading | src/lib/markdown.ts:25 | an indented heading line (" ## Foo") yields nothing |
| Markdown.HeadingsOfSound | src/lib/markdown.ts:25-35 | every heading of a document is a heading line of it, with its level and its trimmed text |
| Markdown.AssignIdsSpec | src/lib/markdown.ts:37-45 | the k-th heading's id is its slug, numbered by how many earlier headings share that slug |
| Markdown.NumberIdsFrom | src/lib/markdown.ts:37-45 | with a count map that agrees with the slugs already seen, each id is the slug numbered by its earlier occurrences |
| Markdown.SameSlugDistinctIds | src/lib/markdown.ts:37-45 | two headings with the same slug never get the same id |
| Markdown.NumberedSlugCollides | src/lib/markdown.ts:39-45 | suffixed ids are not recorded, so slugs "a", "a", "a-1" give ids "a", "a-1", "a-1" |
| Markdown.ParseHeadingsFromMdx | src/lib/markdown.ts:17-75 | with ids numbered the intended way (see Findings), a missing or empty input gives no entries; otherwise the pre-order listing is the document's headings in order, the forest is properly nested and equals the reference nesting, and its roots are exactly the top-level headings |
| Markdown.ParseExample | src/lib/markdown.test.ts:6-29 | the test document gives the three headings with ids "redis-개요", "성능-포인트" and "redis-개요-1", the second nested under the first |
| Markdown.NumberIdsAsWritten | src/lib/markdown.ts:28-45 | the numbering against a plain object literal keeps one id per heading, each starting with its slug |
| Markdown.AsWrittenAgrees | src/lib/markdown.ts:28-45 | away from names the object inherits, the numbering against the plain object is the count-map numbering |
| Markdown.AsWrittenFound | src/lib/markdown.ts:39-42 | a slug the object already answers for is suffixed with the text of that value |
| Markdown.ProtoHeadingsCollide | src/lib/markdown.ts:28-45 | as written, two `__proto__` headings both get "__proto__-[object Object]"; corrected, they get "__proto__" and "__proto__-1" |
| Markdown.ConstructorHeadingId | src/lib/markdown.ts:28-45 | as written, the first `constructor` heading gets the id "constructor-function Object() { [native code] }"; corrected, it gets "constructor" |
| TocForest.BuildForest | src/lib/markdown.ts:54-67 | the stack loop builds a forest whose pre-order listing is its input, which is properly nested, whose roots are the top-level headings, and which equals the reference nesting |
| TocForest.NestFlattens | src/lib/markdown.ts:54-67 | the reference nesting lists every heading exactly once, in document order |
| TocForest.NestWellNested | src/lib/markdown.ts:54-67 | in the reference nesting every child is deeper than its parent, and no later sibling is deeper than an earlier one |
| TocForest.NestDetermined | src/lib/markdown.ts:54-67 | a properly nested forest is fixed by its pre-order listing |
| TocForest.NestPair | src/lib/markdown.ts:55-65 | a deeper heading becomes the child of the previous one whatever the level gap; a heading that is not deeper becomes its sibling |
| TocForest.DescendantsDeeper | src/lib/markdown.ts:55-65 | everything under entries deeper than a level is deeper than that level |
| ResumeStageOrder.OrderIsStableSort | src/lib/resume-stage-order.ts:12-28 | sorting by (priority, input index) is the stable sort by priority |
| ResumeStageOrder.OrderIsPermutation | src/lib/resume-stage-order.ts:12-28 | the output is a permutation of the input |
| ResumeStageOrder.OrderIsSorted | src/lib/resume-stage-order.ts:3-10 | the output is non-decreasing in priority: problem, decision, implementation, verification, result, extension |
| ResumeStageOrder.OrderIsStable | src/lib/resume-stage-order.ts:21-25 | stages with the same key keep their input order |
| ResumeStageOrder.OrderEmpty | src/lib/resume-stage-order.test.ts:49-51 | no stages in, no stages out |
| ResumeStageOrder.OrderIdempotent | src/lib/resume-stage-order.ts:12-28 | ordering twice is the same as ordering once |
| ResumeStageOrder.OrderKeys | src/lib/resume-stage-order.ts:12-28 | the output's key sequence is the ascending arrangement of the input's keys |
| ResumeStageOrder.CoreStagesExample | src/lib/resume-stage-order.test.ts:6-24 | five stages given out of order come out problem, decision, implementation, verification, result |
| ResumeStageOrder.ExtensionExample | src/lib/resume-stage-order.test.ts:26-47 | extensions go last and keep their input order |
| ResumeStageOrder.PriorityInjective | src/lib/resume-stage-order.ts:3-10 | different keys have different priorities |
| MdxFeeds.CalculateReadingTime | src/lib/mdx-feeds.ts:118-125 | the estimate is at least one minute, and for a non-empty cleaned text it is the number of started 500-character blocks |
| MdxFeeds.ReadingTimeOf | src/lib/mdx-feeds.ts:123-124 | `Math.ceil(length / 500) \|\| 1` is at least 1, is 1 for length 0, and otherwise brackets the length between two multiples of 500 |
| MdxFeeds.ReadingTimeLeast | src/lib/mdx-feeds.ts:124 | the estimate is the least whole number of minutes that covers the text |
| MdxFeeds.CleanContent | src/lib/mdx-feeds.ts:119-122 | the cleaned text holds no `#`, `*` or backtick |
| MdxFeeds.StripMarkupKeeps | src/lib/mdx-feeds.ts:122 | the last replace deletes exactly the markers and keeps every other character in order |
| MdxFeeds.LinkBecomesDollarOne | src/lib/mdx-feeds.ts:121 | a one-line link `[text](url)` becomes the two characters `$1`, because the pattern has no capture group |
| MdxFeeds.ImageRemoved | src/lib/mdx-feeds.ts:120 | a one-line image `![alt](src)` disappears |
| MdxFeeds.ReplaceLinksNoBracket | src/lib/mdx-feeds.ts:120-121 | text without `[` passes both link replaces unchanged |
| MdxFeeds.CloseParen | src/lib/mdx-feeds.ts:120-121 | the lazy `.*?\)` ends at the first `)` on the same line |
| MdxFeeds.ResolveReadingTime | src/lib/mdx-feeds.ts:145-152 | a present non-zero reading time is kept; a missing or zero one is computed from non-empty MDX text; nothing else changes it |
| MdxFeeds.ResolveIdempotent | src/lib/mdx-feeds.ts:145-152 | resolving a resolved reading time changes nothing |
| MdxFeeds.DateComparator | src/lib/mdx-feeds.ts:225-231 | the comparator returns -1 exactly when the first date is not older, so equal dates also give -1 |
| MdxFeeds.SortedFeedData | src/lib/mdx-feeds.ts:203-231 | the listing is a permutation of the posts whose metadata loaded |
| MdxFeeds.SortedFeedNewestFirst | src/lib/mdx-feeds.test.ts:5-12 | each listed date is no later than the one before it |
| MdxFeeds.SortedFeedContents | src/lib/mdx-feeds.ts:211-222 | a post is listed iff its metadata loaded |
| MdxFeeds.SeriesPosts | src/lib/mdx-feeds.ts:265-271 | the result holds the listed posts of the series, and only those |
| MdxFeeds.SeriesPostsContents | src/lib/mdx-feeds.ts:265-271 | a post is returned iff it loaded and belongs to the series |
| MdxFeeds.SeriesPostsOrdered | src/lib/mdx-feeds.test.ts:14-20 | series posts come in non-decreasing series order |
| Feed.Somes | src/lib/mdx-feeds.ts:222 | the filter drops the failed loads and keeps every loaded post |
| SeriesPage.CollectCorrect | src/app/series/page.tsx:20-35 | the `forEach` builds one entry per series id, with that series' posts in input order and the title of its first post; posts without series are skipped |
| SeriesPage.IndexOfId | src/app/series/page.tsx:25 | the lookup finds the entry with the id, or reports that there is none |
| SeriesPage.LatestFromIsMax | src/app/series/page.tsx:43-46 | the reduce yields the maximum of the start value and all the dates |
| SeriesPage.MakeGroup | src/app/series/page.tsx:38-54 | a group keeps its entry's id, title and posts, rearranged |
| SeriesPage.GetSeriesGroups | src/app/series/page.tsx:19-56 | the groups are a rearrangement of one group per map entry |
| SeriesPage.GroupsPerSeries | src/app/series/page.tsx:20-37 | the group ids are exactly the ids of the posts' series, and no two groups share an id |
| SeriesPage.GroupContents | src/app/series/page.tsx:20-54 | every group holds exactly its series' posts, ordered by series order with ties in input order; its title is that of the first such post; its latest date is the newest of their dates |
| SeriesPage.GroupStable | src/app/series/page.tsx:39-41 | posts with the same series order keep their input order |
| SeriesPage.GroupLatest | src/app/series/page.tsx:43-46 | the latest date is one of the posts' dates and no post is newer |
| SeriesPage.GroupsNewestFirst | src/app/series/page.tsx:55 | groups are listed by latest date, newest first |
| SeriesPage.MembersNone | src/app/series/page.tsx:23 | a series id no post has gets no posts |
| SeriesNavigation.FindByOrder | src/components/blog/SeriesNavigation/SeriesNavigation.tsx:23-24 | a found post is in the list and has the requested series order |
| SeriesNavigation.FindByOrderFirst | src/components/blog/SeriesNavigation/SeriesNavigation.tsx:23-24 | `find` returns nothing exactly when no post has the order, and otherwise the first such post in list order |
| SeriesNavigation.PrevNextDiffer | src/components/blog/SeriesNavigation/SeriesNavigation.tsx:23-24 | when both neighbours exist they are different posts, two series positions apart |
| SeriesNavigation.SlotFor | src/components/blog/SeriesNavigation/SeriesNavigation.tsx:81-106 | a slot is a placeholder exactly when there is no post, and otherwise links to `/blog/<slug>` with the post's title |
| SeriesNavigation.Slots | src/components/blog/SeriesNavigation/SeriesNavigation.tsx:23-24 | each slot is empty exactly when no post has the neighbouring order |
| BlogList.Categories | src/app/blog/BlogListClient.tsx:14-19 | the first tab is "All" |
| BlogList.CategoriesSpec | src/app/blog/BlogListClient.tsx:14-19 | after "All" come exactly the non-empty categories of the posts, each once, in strictly ascending string order |
| BlogList.UniqueCategories | src/app/blog/BlogListClient.tsx:15-17 | the set of categories holds no repeats |
| BlogList.FilteredPosts | src/app/blog/BlogListClient.tsx:29-32 | under "All" the posts are shown unchanged |
| BlogList.FilteredPostsSpec | src/app/blog/BlogListClient.tsx:31 | under any other tab, exactly the posts of that category are shown, in their original order |
| BlogList.ResetActive | src/app/blog/BlogListClient.tsx:23-27 | an active tab among the categories stays, and any other becomes "All" |
| BlogList.ResetActiveValid | src/app/blog/BlogListClient.tsx:23-27 | after the reset the active tab is always a tab, and a second reset changes nothing |
| PostList.FilteredPosts | src/components/PostList.tsx:17-21 | a post is kept iff the filter is "All" or one of its tags equals the filter ignoring case |
| PostList.FilteredPostsSpec | src/components/PostList.tsx:17-21 | "All" keeps every post; every filter keeps the input order; under "Dev" or "Life" a post without tags is dropped |
| PostList.ToLowerEqualsWord | src/components/PostList.tsx:20 | a tag lower-cases to an ASCII word exactly when it has the word's length and each character lower-cases to the word's letter |
| PostList.DevMatches | src/components/PostList.tsx:20 | a tag matches "Dev" iff it spells `dev` in any mix of cases |
| Search.GetSearchActions | src/lib/search.ts:7-46 | there are three actions more than posts: the three navigation actions first, then one action per post in input order |
| Search.NavigationFirst | src/lib/search.ts:18-45 | the first three actions are home, blog and resume, with shortcuts g-h, g-b and g-r |
| Search.KeywordsMention | src/lib/search.ts:12 | a post's keywords start with its title and a space and contain its category, its description and each tag ("undefined" when it has no tags) |
| Search.KeywordsShape | src/lib/search.ts:12 | the keywords are title, category, the space-joined tags and description, separated by single spaces |
| Search.TestPostAction | src/lib/search.test.ts:6-20 | the test's post gives id "redis-basics", name "Redis Basics", section "블로그 포스트" and keywords containing "Redis", as the fourth action |
| MobileNav.NavItems | src/components/layout/Header/MobileBottomNav.tsx:39-81 | the bar has five items; the first and last (theme and search) have no link, and the middle one links to `/` |
| MobileNav.ActiveRule | src/components/layout/Header/MobileBottomNav.tsx:169-179 | an item without link is never active; the home item is active iff the path is `/`; any other item is active iff the path starts with its link |
| MobileNav.BlogPrefixExample | src/components/layout/Header/MobileBottomNav.tsx:178 | the prefix test has no segment boundary: `/blogroll` highlights the blog item |
| MobileNav.AtMostOneActive | src/components/layout/Header/MobileBottomNav.tsx:39-81 | for every path at most one of the five items is active |
| ScrollVisibility.InitialBothVisible | src/components/layout/Header/useScrollVisibility.ts:13-16 | before the first effect both bars are visible |
| ScrollVisibility.BlogPostPathSpec | src/components/layout/Header/useScrollVisibility.ts:18-20 | a path is a blog-post path iff it is `/blog/` followed by a non-empty segment without `/` |
| ScrollVisibility.BlogPostPathExamples | src/components/layout/Header/useScrollVisibility.ts:18-20 | `/blog/redis` is a blog-post path; `/blog/`, `/blog`, `/blog/a/b` and `/` are not |
| ScrollVisibility.RouteOf | src/components/layout/Header/useScrollVisibility.ts:29-30 | the route is home iff the path is `/`, hides the bar on scroll iff it is a blog-post path, and never both |
| ScrollVisibility.ResolveHome | src/components/layout/Header/useScrollVisibility.ts:53-75 | off the home page there is no opinion and the flag is kept; on it the bar is shown iff the page was revealed before or the position is at least 32, which sets the flag |
| ScrollVisibility.UpdateVisibility | src/components/layout/Header/useScrollVisibility.ts:41-51 | a state update is issued iff the new visibility differs; an equal one changes nothing |
| ScrollVisibility.ShowAll | src/components/layout/Header/useScrollVisibility.ts:77-84 | the header is shown and the last position is kept |
| ScrollVisibility.Setup | src/components/layout/Header/useScrollVisibility.ts:27-86 | after setup the header is shown, the last position is the current one, and off the home page both bars are visible |
| ScrollVisibility.HandleScroll | src/components/layout/Header/useScrollVisibility.ts:88-132 | off mobile or at 12 or less the header shows and the position is recorded; a move smaller than 6 keeps the header and the last position; a larger move shows the header iff it went up and records the position; the reveal flag never drops |
| ScrollVisibility.HandleResize | src/components/layout/Header/useScrollVisibility.ts:134-138 | leaving the mobile layout shows the header; on mobile nothing changes |
| ScrollVisibility.ScrollConsistent | src/components/layout/Header/useScrollVisibility.ts:88-132 | a scroll keeps the relation between the bars and the reveal flag |
| ScrollVisibility.RunConsistent | src/components/layout/Header/useScrollVisibility.ts:27-147 | every state reached from setup by scrolls and resizes keeps that relation |
| ScrollVisibility.ScrollReveals | src/components/layout/Header/useScrollVisibility.ts:58-72 | on the home page a scroll at 32 or beyond reveals the bottom bar |
| ScrollVisibility.HomeRevealIsSticky | src/components/layout/Header/useScrollVisibility.ts:53-75 | once the home page has seen a position of 32 or more, the bottom bar stays visible after any later events |
| ScrollVisibility.OffHomeBottomBar | src/components/layout/Header/useScrollVisibility.ts:54-124 | off the home page the bottom bar is hidden only on a blog-post path, together with the header |
| ScrollVisibility.BlogPostBottomBar | src/components/layout/Header/useScrollVisibility.ts:107-129 | on a blog-post path a mobile scroll below the top zone hides the bar iff it moves down by 6 or more, or moves less while the bar was hidden |
| TypingAnimation.GetDisplayText | src/app/_components/TypingAnimation.tsx:27-57 | the character loop with its early exit emits exactly the reference cut of the input's pieces: whole tags and the first n visible characters |
| TypingAnimation.CutIsPrefix | src/app/_components/TypingAnimation.tsx:36-48 | the output is made of whole pieces, so a tag is emitted whole or not at all |
| TypingAnimation.DisplayCount | src/app/_components/TypingAnimation.tsx:47-53 | the number of visible characters shown is the smaller of the request and the total |
| TypingAnimation.CutZero | src/app/_components/TypingAnimation.tsx:46-53 | asking for no characters gives exactly the tags before the first visible character |
| TypingAnimation.DisplayMonotone | src/app/_components/TypingAnimation.tsx:33-56 | the output for n is a prefix of the output for n + 1 |
| TypingAnimation.TrailingTagDropped | src/app/_components/TypingAnimation.tsx:36-44 | a tag still open at the end of the input is never emitted |
| TypingAnimation.DisplayIsPrefix | src/app/_components/TypingAnimation.tsx:33-56 | without a `<` inside a tag, every output is a prefix of the input |
| TypingAnimation.RenderWellTagged | src/app/_components/TypingAnimation.tsx:33-56 | for well-formed markup the pieces put back together are the input |
| TypingAnimation.StripCount | src/app/_components/TypingAnimation.tsx:62 | for well-formed markup, the length after the tag-stripping regex is the number of visible characters the scanner counts |
| TypingAnimation.Tick | src/app/_components/TypingAnimation.tsx:59-74 | a finished animation stays put; otherwise a tick shows one more character or, at the total, marks the animation complete |
| TypingAnimation.TicksProgress | src/app/_components/TypingAnimation.tsx:62-70 | the index grows by one per tick up to the stripped length, and the next tick sets the completion flag |
| TypingAnimation.AnimationShowsAll | src/app/_components/TypingAnimation.tsx:59-74 | for well-formed markup with some text, the finished animation shows the whole input |
| GraphTraversal.Dfs | src/components/visualization/GraphTraversalVisualization.tsx:198-210 | the recursive search marks its start and only ever marks nodes that can be reached |
| GraphTraversal.DfsSound | src/components/visualization/GraphTraversalVisualization.tsx:198-210 | a finished call lists its start first, no node twice, exactly the newly marked nodes, and every neighbour of what it lists is marked |
| GraphTraversal.RunDfsSound | src/components/visualization/GraphTraversalVisualization.tsx:194-214 | depth-first search lists the start first and no node twice, and lists every neighbour of every node it lists |
| GraphTraversal.DfsReachesAll | src/components/visualization/GraphTraversalVisualization.tsx:194-214 | every node reachable from the start along listed connections is listed by depth-first search |
| GraphTraversal.FixedDfs | src/components/visualization/GraphTraversalVisualization.tsx:178-214 | depth-first from node 1 on the visualizer's graph gives [1, 2, 5, 6, 3, 7, 4, 8, 9] |
| GraphTraversal.RunBfs | src/components/visualization/GraphTraversalVisualization.tsx:217-240 | the queue loop, which marks nodes as it queues them, yields the reference breadth-first order |
| GraphTraversal.EnqueueNeighbors | src/components/visualization/GraphTraversalVisualization.tsx:230-235 | the inner loop queues exactly the unmarked neighbours, in list order, and marks them |
| GraphTraversal.EnqueueAll | src/components/visualization/GraphTraversalVisualization.tsx:230-235 | queueing only marks nodes within the bound, and each newly marked node is queued once |
| GraphTraversal.EnqueueKeeps | src/components/visualization/GraphTraversalVisualization.tsx:230-235 | queueing keeps the old queue in front and keeps marked nodes exactly the listed and queued ones, with no repeats |
| GraphTraversal.BfsSound | src/components/visualization/GraphTraversalVisualization.tsx:217-240 | breadth-first order starts at the start, lists no node twice, and lists every neighbour of every node it lists |
| GraphTraversal.BfsReachesAll | src/components/visualization/GraphTraversalVisualization.tsx:217-240 | every node reachable from the start is listed by breadth-first search |
| GraphTraversal.FixedBfs | src/components/visualization/GraphTraversalVisualization.tsx:178-240 | breadth-first from node 1 on the visualizer's graph gives [1, 2, ..., 9] |
| GraphTraversal.FixedSymmetric | src/components/visualization/GraphTraversalVisualization.tsx:180-188 | every connection of the graph is listed both ways |
| GraphTraversal.FixedConnected | src/components/visualization/GraphTraversalVisualization.tsx:180-188 | any two nodes of the graph are joined by a walk along listed connections |
| GraphTraversal.WalkLevel | src/components/visualization/GraphTraversalVisualization.tsx:180-188 | no walk from node 1 reaches a node in fewer steps than its depth in the tree |
| GraphTraversal.FixedBfsByDistance | src/components/visualization/GraphTraversalVisualization.tsx:224-236 | breadth-first order from node 1 is non-decreasing in hop distance from node 1 |
| BinarySearch.InitialArray | src/components/visualization/BinarySearchVisualization.tsx:147-155 | the twelve cells hold 5, 10, ..., 60 and strictly ascend |
| BinarySearch.InitialTarget | src/components/visualization/BinarySearchVisualization.tsx:156-158 | the target drawn from a cell index is an element of the array, the value of that cell |
| BinarySearch.Mid | src/components/visualization/BinarySearchVisualization.tsx:201 | the floor midpoint lies in the interval and leaves at most half of it on either side |
| BinarySearch.HalvingsMonotone | src/components/visualization/BinarySearchVisualization.tsx:183-227 | the step bound grows with the array length |
| BinarySearch.Narrow | src/components/visualization/BinarySearchVisualization.tsx:219-225 | moving `left` past a smaller middle, or `right` before a larger one, never drops a cell that holds the target |
| BinarySearch.Search | src/components/visualization/BinarySearchVisualization.tsx:171-234 | a reported index holds the target; on a sorted array holding the target the search finds it; it never takes more steps than halving the length allows |
| BinarySearch.InitialArrayFourSteps | src/components/visualization/BinarySearchVisualization.tsx:147-155 | on the twelve-cell array the bound is four steps |
| BinarySearch.SearchInitial | src/components/visualization/BinarySearchVisualization.tsx:147-234 | the visualizer's search always finds the drawn target at its own index, in one to four steps |
| TwoPointer.InitialArray | src/components/visualization/TwoPointerVisualization.tsx:164-175 | the array is 1, 2, ..., 10 and strictly ascends |
| TwoPointer.Advance | src/components/visualization/TwoPointerVisualization.tsx:233-240 | moving the pointer whose element is too small, or too large, skips no pair that sums to the target |
| TwoPointer.Search | src/components/visualization/TwoPointerVisualization.tsx:183-245 | every probe has `left < right`, so the branch for both pointers on one cell never runs; each step moves one pointer by one; a miss takes exactly `n - 1` steps; a reported pair sums to the target; on a sorted array any pair summing to the target is found |
| TwoPointer.SearchInitial | src/components/visualization/TwoPointerVisualization.tsx:164-245 | on 1..10 with target 15 the search finds a pair that sums to 15 |
| SlidingWindow.InitialArray | src/components/visualization/SlidingWindowVisualization.tsx:182-196 | each of the ten cells is its draw plus one, so between 1 and 9 |
| SlidingWindow.ClampWindowSize | src/components/visualization/SlidingWindowVisualization.tsx:298-301 | the size is always between 2 and 5, equals the input when that is in range, and is the nearer bound otherwise |
| SlidingWindow.Slide | src/components/visualization/SlidingWindowVisualization.tsx:243 | subtracting the leaving cell and adding the entering one gives the next window's sum |
| SlidingWindow.FirstWindow | src/components/visualization/SlidingWindowVisualization.tsx:217-221 | the first loop sums the first `w` cells |
| SlidingWindow.Scan | src/components/visualization/SlidingWindowVisualization.tsx:205-275 | every window start is visited in order; the reported sum is the largest window sum, and the reported start is the first window that reaches it, since only a strictly larger sum replaces it |
| DPVisualization.ClampN | src/components/visualization/DPVisualization.tsx:280 | n is always between 2 and 12, equals the input when that is in range, and is the nearer bound otherwise |
| DPVisualization.InitializeTable | src/components/visualization/DPVisualization.tsx:184-192 | the table has cells 0 to n, all empty |
| DPVisualization.Fibonacci | src/components/visualization/DPVisualization.tsx:208-261 | every cell is filled, cell 0 is 0, cell 1 is 1, each later cell is the sum of the two before it, and cell i is the i-th Fibonacci number |
| DPVisualization.FibSums | src/components/visualization/DPVisualization.tsx:251 | a table of Fibonacci numbers satisfies the recurrence the loop writes |
| DPVisualization.FibTwelve | src/components/visualization/DPVisualization.tsx:280 | at the largest n the clamp allows, the last cell is 144 |
| SortingVisualization.InitialBars | src/components/visualization/SortingVisualization.tsx:112-122 | ten bars, each with its random value in [1, 6) and its position as identity |
| SortingVisualization.Swap | src/components/visualization/SortingVisualization.tsx:147 | the two cells trade places and every other cell is unchanged |
| SortingVisualization.Partition | src/components/visualization/SortingVisualization.tsx:132-164 | Lomuto partition only rearranges its range, puts the pivot at the returned index, everything smaller before it and everything else after it |
| SortingVisualization.QuickSortHelper | src/components/visualization/SortingVisualization.tsx:166-175 | the recursion sorts its range and only rearranges it |
| SortingVisualization.QuickSort | src/components/visualization/SortingVisualization.tsx:177 | quick sort returns a sorted permutation of the bars |
| SortingVisualization.MergeMultiset | src/components/visualization/SortingVisualization.tsx:189-232 | merging keeps every bar of both halves, no more and no fewer |
| SortingVisualization.MergeSorted | src/components/visualization/SortingVisualization.tsx:189-232 | merging two sorted halves gives a sorted result |
| SortingVisualization.MergeStable | src/components/visualization/SortingVisualization.tsx:202 | because ties take the left bar first, bars of equal value keep left-half-then-right-half order |
| SortingVisualization.MergeSortPermutes | src/components/visualization/SortingVisualization.tsx:234-241 | the recursive merge sort is a permutation |
| SortingVisualization.MergeSortSorted | src/components/visualization/SortingVisualization.tsx:234-241 | the recursive merge sort is sorted |
| SortingVisualization.MergeSortStable | src/components/visualization/SortingVisualization.tsx:234-241 | bars of equal value leave merge sort in their input order |
| SortingVisualization.MergeRange | src/components/visualization/SortingVisualization.tsx:189-232 | the in-place merge writes the merge of the two halves into the range and leaves the rest of the array alone |
| SortingVisualization.MergeSortHelper | src/components/visualization/SortingVisualization.tsx:234-241 | the in-place recursion replaces its range by the merge sort of that range |
| SortingVisualization.MergeSort | src/components/visualization/SortingVisualization.tsx:243 | merge sort returns a sorted, stable permutation of the bars |
| SortingVisualization.Heapify | src/components/visualization/SortingVisualization.tsx:254-292 | sifting down only rearranges the heap part below the start and restores the max-heap property there |
| SortingVisualization.RootIsMax | src/components/visualization/SortingVisualization.tsx:254-292 | in a max-heap no bar exceeds the root |
| SortingVisualization.BuildHeap | src/components/visualization/SortingVisualization.tsx:295-297 | the build loop turns the array into a max-heap holding the same bars |
| SortingVisualization.HeapSort | src/components/visualization/SortingVisualization.tsx:251-309 | heap sort returns a sorted permutation of the bars |
| TossAnalysis.UrlAt | scripts/analysis/generate_toss_analysis.py:81-82 | a match is an article URL found at that position and runs to the end of the id characters, as the greedy class does |
| TossAnalysis.FindUrls | scripts/analysis/generate_toss_analysis.py:82 | every URL found is an article URL that occurs in the text |
| TossAnalysis.ExtractUrls | scripts/analysis/generate_toss_analysis.py:81-82 | the URLs come out distinct and in ascending order, each an article URL of the text |
| TossAnalysis.ExtractUrlsComplete | scripts/analysis/generate_toss_analysis.py:81-82 | every URL that starts on a boundary is reported: at the start of the text, or after a character that is neither an id character `[A-Za-z0-9_-]` nor `/` |
| TossAnalysis.UrlAtPrefixed | scripts/analysis/generate_toss_analysis.py:82 | the article prefix and an id followed by a non-id character match as exactly that URL |
| TossAnalysis.GluedUrlMissed | scripts/analysis/generate_toss_analysis.py:82 | a URL glued to the end of another (`.../ahttps://toss.tech/article/b`) is swallowed: only `.../ahttps` is reported |
| TossAnalysis.TriesIffUncovered | scripts/analysis/generate_toss_analysis.py:82 | `findall` tries a position exactly when no match it made earlier extends past that position |
| TossAnalysis.FindUrlsTried | scripts/analysis/generate_toss_analysis.py:82 | a URL is reported if and only if it is the match at some position the scan tries |
| TossAnalysis.ExtractUrlsMembers | scripts/analysis/generate_toss_analysis.py:81-82 | `sorted(set(...))` keeps every match and adds none |
| TossAnalysis.ExtractUrlsExactly | scripts/analysis/generate_toss_analysis.py:81-82 | a URL is listed if and only if it is matched at a position that no earlier match covers, boundary or not |
| TossAnalysis.LetterBeforeUrl | scripts/analysis/generate_toss_analysis.py:81-82 | in `xhttps://toss.tech/article/a` the URL after `x` is listed, although `x` is an id character and so not a boundary |
| TossAnalysis.SortByCountStable | scripts/analysis/generate_toss_analysis.py:122 | sorting by descending count keeps the items of each count in dictionary order |
| TossAnalysis.Keys | scripts/analysis/generate_toss_analysis.py:115-120 | every counted key is a lower-cased token of at least three characters |
| TossAnalysis.KeysMembership | scripts/analysis/generate_toss_analysis.py:115-120 | a string is a key iff it has at least three characters and is the lower-case form of some token |
| TossAnalysis.TokenFrequencies | scripts/analysis/generate_toss_analysis.py:115-120 | the counting loop keeps the keys in first-seen order and maps each key to the number of its occurrences |
| TossAnalysis.TopItems | scripts/analysis/generate_toss_analysis.py:122 | at most twelve entries, in non-increasing count, each one of the input's |
| TossAnalysis.TopItemsComplete | scripts/analysis/generate_toss_analysis.py:122 | an entry left out means twelve were kept, none with a smaller count |
| TossAnalysis.TopItemsTies | scripts/analysis/generate_toss_analysis.py:122 | entries of equal count are kept in their first-seen order, as a stable sort keeps them |
| TossAnalysis.TopKeywordsOf | scripts/analysis/generate_toss_analysis.py:115-122 | the top keywords are keys of the tokens, twelve most frequent first, ties in first-seen order |
| TossAnalysis.ScoresOf | scripts/analysis/generate_toss_analysis.py:111-113 | one score per category; each is the number of its keywords that occur in the text, and is 0 iff none occurs |
| TossAnalysis.CategoryScores | scripts/analysis/generate_toss_analysis.py:111-113 | the scores cover exactly the fixed categories |
| TossAnalysis.CategoryScoresCount | scripts/analysis/generate_toss_analysis.py:22-68 | each category's score counts its keywords that occur in the lower-cased text |
| TossAnalysis.TotalScoreConcat | scripts/analysis/generate_toss_analysis.py:137-140 | totals over two batches of articles add up |
| TossAnalysis.SumScores | scripts/analysis/generate_toss_analysis.py:136-140 | the totals fail exactly when some article scores a category that is not a key; otherwise each total is the sum of the articles' scores |
| TossAnalysis.WordCountRange | scripts/analysis/generate_toss_analysis.py:147-148 | with no articles both are 0; otherwise each is some article's word count and every count lies between them |
| TossAnalysis.Generate | scripts/analysis/generate_toss_analysis.py:135-150 | the summary counts the articles, totals each category over all of them, and brackets the word counts; it fails only on an unknown category |
| Strings.KeywordHits | scripts/analysis/generate_toss_analysis.py:113 | the count is at most the number of keywords and is 0 exactly when none occurs |
| Strings.KeywordHitsCountsMatches | scripts/analysis/build_nekaracuba_corpus.py:116 | the count is the number of keywords, repeats included, that occur in the text |
| Search.ActionIdsDistinct | src/lib/search.ts:7-45 | the action ids repeat nothing exactly when the post slugs repeat nothing and none is `home`, `blog` or `resume` |
| Search.ActionTargets | src/lib/search.ts:14-41 | a post's action opens `/blog/<slug>`; the navigation actions open `/`, `/blog` and `/resume` |
| NekaracubaCorpus.CollapseSlashes | scripts/analysis/build_nekaracuba_corpus.py:84 | `re.sub(r"/+", "/", path)` never lengthens the path and keeps its first character (its output on every input is fixed by `CollapseRun` and `CollapseKeeps`) |
| NekaracubaCorpus.CollapseSlashesSound | scripts/analysis/build_nekaracuba_corpus.py:84 | after collapsing no two slashes are adjacent, and the characters other than `/` are exactly the input's, in order (that no run is deleted outright is `CollapseRun`) |
| NekaracubaCorpus.CollapseRun | scripts/analysis/build_nekaracuba_corpus.py:84 | a doubled slash anywhere in the path collapses exactly as one slash does, so each run of `/` becomes one `/`; with `CollapseKeeps` this determines the result for every path |
| NekaracubaCorpus.CollapseKeeps | scripts/analysis/build_nekaracuba_corpus.py:84 | a path without adjacent slashes is left unchanged |
| NekaracubaCorpus.TrimTrailingSlashes | scripts/analysis/build_nekaracuba_corpus.py:84 | `rstrip("/")` keeps the longest prefix that does not end in `/`, removing only slashes |
| NekaracubaCorpus.NormalizePath | scripts/analysis/build_nekaracuba_corpus.py:84-86 | the path is never empty, has no adjacent slashes, ends in `/` only when it is `/`, and keeps every other character in order; inner runs are kept as one slash by `NormalizePathRun` |
| NekaracubaCorpus.NormalizePathRun | scripts/analysis/build_nekaracuba_corpus.py:84-86 | a run of slashes inside the path normalises as a single slash, so `/a//b` and `/a/b` give the same path |
| NekaracubaCorpus.NormalizePathIdempotent | scripts/analysis/build_nekaracuba_corpus.py:84-86 | normalising a normalised path changes nothing |
| NekaracubaCorpus.NormalizePathClean | scripts/analysis/build_nekaracuba_corpus.py:84-86 | a non-empty path without adjacent slashes or trailing slash is already normal |
| NekaracubaCorpus.NormalizePathExample | scripts/analysis/build_nekaracuba_corpus.py:84-86 | `//a///b/` becomes `/a/b`, and the empty path and `///` become `/` |
| NekaracubaCorpus.NormalizeUrl | scripts/analysis/build_nekaracuba_corpus.py:81-87 | the host is the input's host lower-cased, the path is the input's path normalised (runs collapsed, trailing slashes dropped, `/` when empty), parameters, query and fragment are dropped and the scheme is kept; the result is a normal URL |
| NekaracubaCorpus.NormalizeUrlFixes | scripts/analysis/build_nekaracuba_corpus.py:81-87 | a URL already in normal form is its own normalisation |
| NekaracubaCorpus.NormalizeUrlIdempotent | scripts/analysis/build_nekaracuba_corpus.py:81-87 | normalising twice is the same as normalising once |
| NekaracubaCorpus.TopicScores | scripts/analysis/build_nekaracuba_corpus.py:114-116 | one score per topic, in the topics' order |
| NekaracubaCorpus.TopicScoresCount | scripts/analysis/build_nekaracuba_corpus.py:114-116 | each topic's score is the number of its keywords, repeats included, that occur in the lower-cased title and tags |
| NekaracubaCorpus.FirstMax | scripts/analysis/build_nekaracuba_corpus.py:117 | `max(scores, key=scores.get)` picks a largest score, the earliest one among equals |
| NekaracubaCorpus.FirstMaxUnique | scripts/analysis/build_nekaracuba_corpus.py:117 | only one index is the first maximum |
| NekaracubaCorpus.InferTopic | scripts/analysis/build_nekaracuba_corpus.py:112-120 | the topic is `other` iff every score is 0; otherwise it is the topic with the largest score, ties going to the earliest topic |
| NekaracubaCorpus.SlugRun | scripts/analysis/build_nekaracuba_corpus.py:206 | a run of `[^"/]` characters stops at the first `"` or `/` or at the end |
| NekaracubaCorpus.MatchAt | scripts/analysis/build_nekaracuba_corpus.py:206-207 | a reported match is the link pattern at that position with the captured slug, and ends after the closing `/"` |
| NekaracubaCorpus.MatchAtComplete | scripts/analysis/build_nekaracuba_corpus.py:206-207 | wherever the pattern occurs, the matcher reports it, with that slug |
| NekaracubaCorpus.NoHrefInside | scripts/analysis/build_nekaracuba_corpus.py:206-207 | no other `href="` starts inside a match, so the left-to-right scan loses none |
| NekaracubaCorpus.FindAll | scripts/analysis/build_nekaracuba_corpus.py:207 | `re.findall` reports only slugs of matches at or after the start |
| NekaracubaCorpus.FindAllComplete | scripts/analysis/build_nekaracuba_corpus.py:207 | every match at or after the start is reported |
| NekaracubaCorpus.SortedKept | scripts/analysis/build_nekaracuba_corpus.py:207-212 | the set, filter and sort give distinct, ascending slugs, exactly the kept ones found |
| NekaracubaCorpus.LineSlugs | scripts/analysis/build_nekaracuba_corpus.py:205-212 | the slugs are distinct, ascending, matched in the page, and none starts with author, tag or page or is one of the four section names |
| NekaracubaCorpus.LineSlugsComplete | scripts/analysis/build_nekaracuba_corpus.py:205-212 | every matched slug that passes the filter is listed |
| NekaracubaCorpus.LineSlugsAscending | scripts/analysis/build_nekaracuba_corpus.py:208 | the slugs strictly ascend |
| NekaracubaCorpus.PathPart | scripts/analysis/build_nekaracuba_corpus.py:82 | the path stops at the first `?`, `#` or `;` of the slug and holds none of them |
| NekaracubaCorpus.StripEnd | scripts/analysis/build_nekaracuba_corpus.py:82 | `strip()` at the end keeps the longest prefix that does not end in white space, removing only white space |
| NekaracubaCorpus.SlugPath | scripts/analysis/build_nekaracuba_corpus.py:82 | what of the slug reaches the path holds no `?`, `#`, `;`, tab or line break |
| NekaracubaCorpus.SlugPathTrailingSpace | scripts/analysis/build_nekaracuba_corpus.py:82 | white space at the end of a slug does not reach the path |
| NekaracubaCorpus.SlugPathDropsInside | scripts/analysis/build_nekaracuba_corpus.py:82 | a tab or line break inside a slug is deleted from the path |
| NekaracubaCorpus.SlugPathPlain | scripts/analysis/build_nekaracuba_corpus.py:82 | a slug without query marks or white space reaches the path unchanged |
| NekaracubaCorpus.LineLinkUrl | scripts/analysis/build_nekaracuba_corpus.py:214 | every built link is a normal `https` URL |
| NekaracubaCorpus.LinePathClean | scripts/analysis/build_nekaracuba_corpus.py:214 | for a plain locale and slug the path is `/<locale>/blog/<slug>`, with no adjacent slashes and no trailing slash |
| NekaracubaCorpus.LineLinkPlain | scripts/analysis/build_nekaracuba_corpus.py:214 | normalising leaves the path of a plain slug's link as built |
| NekaracubaCorpus.DistinctLinks | scripts/analysis/build_nekaracuba_corpus.py:214 | different plain slugs give different links |
| NekaracubaCorpus.ExtractLineLinks | scripts/analysis/build_nekaracuba_corpus.py:205-214 | one normal `https` link per kept slug |
| NekaracubaCorpus.ExtractLineLinksDistinct | scripts/analysis/build_nekaracuba_corpus.py:205-214 | when the kept slugs are plain, the links repeat nothing |
| NekaracubaCorpus.DedupeRecords | scripts/analysis/build_nekaracuba_corpus.py:323-332 | the records keep their order, repeat no link, cover every input link, and each is the first record with its link |
| NekaracubaCorpus.NewerOrSameTotalPreorder | scripts/analysis/build_nekaracuba_corpus.py:336 | descending (date, title) is a total preorder |
| NekaracubaCorpus.NewerOrSameTies | scripts/analysis/build_nekaracuba_corpus.py:336 | two records tie exactly when both date and title are equal |
| NekaracubaCorpus.SortRecords | scripts/analysis/build_nekaracuba_corpus.py:335-336 | the result is a permutation, ordered by (date, title) descending |
| NekaracubaCorpus.SortRecordsStable | scripts/analysis/build_nekaracuba_corpus.py:335-336 | records with equal date and title keep their input order, as Python's stable sort with `reverse=True` keeps them |
| NekaracubaCorpus.Take | scripts/analysis/build_nekaracuba_corpus.py:345-353 | a company gives at most the room left, no link twice, and only candidates whose link is not yet selected |
| NekaracubaCorpus.TakeComplete | scripts/analysis/build_nekaracuba_corpus.py:345-353 | a company that gives fewer than the room has no unselected link left |
| NekaracubaCorpus.PhaseOne | scripts/analysis/build_nekaracuba_corpus.py:343-353 | one batch per company in company order, at most fifteen records each, drawn from that company's candidates |
| NekaracubaCorpus.PhaseOneFacts | scripts/analysis/build_nekaracuba_corpus.py:343-353 | phase one repeats no link and selects only candidates of the listed companies whose link was not selected before |
| NekaracubaCorpus.Extras | scripts/analysis/build_nekaracuba_corpus.py:358-363 | phase two's candidates are every record, company by company, whose link phase one did not select |
| NekaracubaCorpus.SelectRecords | scripts/analysis/build_nekaracuba_corpus.py:339-374 | at most one hundred records are selected |
| NekaracubaCorpus.SelectRecordsCount | scripts/analysis/build_nekaracuba_corpus.py:339-374 | the selection repeats no link, draws only from the candidates, and has min(100, number of distinct candidate links) records |
| NekaracubaCorpus.SelectRecordsOrder | scripts/analysis/build_nekaracuba_corpus.py:355-374 | a full phase one is cut to one hundred; otherwise phase one comes first, then extras newest first |
| TossAnalysis.FindUrlsComplete | scripts/analysis/generate_toss_analysis.py:82 | every URL that starts on a boundary at or after the scan's start is reported (the exact condition is `TossAnalysis.ExtractUrlsExactly`) |
| TossAnalysis.TopKeywords | scripts/analysis/generate_toss_analysis.py:122 | at most twelve keys, each one of the items' |
| TossAnalysis.TopKeysSound | scripts/analysis/generate_toss_analysis.py:115-122 | the top keywords are at most twelve distinct keys in non-increasing frequency, and any key left out means twelve were kept, none less frequent |
| Markdown.NumberIds | src/lib/markdown.ts:37-45 | the corrected numbering gives one id per heading, each starting with its slug |
| Markdown.IdFor | src/lib/markdown.ts:42 | a numbered id starts with its slug and is longer than it exactly when the number is not 0 |
| Strings.Trim | src/lib/markdown.ts:33 | `trim()` removes the white space at both ends and nothing else: the result is the slice between them and neither end is white space |
| Strings.TrimNoop | src/lib/markdown.ts:33 | text without white space at either end is its own trim |
| Strings.ToLower | src/components/PostList.tsx:20 | no ASCII upper-case letter survives lower-casing, and nothing gets shorter |
| Strings.ToLowerTwice | src/components/PostList.tsx:20 | lower-casing twice is the same as lower-casing once |
| Strings.ToLowerConcat | src/components/PostList.tsx:20 | lower-casing works character by character |
| Strings.StrLeTotalOrder | src/app/blog/BlogListClient.tsx:18 | string order is total, transitive and antisymmetric, as the default sort needs |
| Strings.NatToStringInjective | src/lib/markdown.ts:42 | different counts give different suffix texts |

## Left out

- MdxFeeds.CalculateReadingTime: the model counts Unicode code points. JavaScript's `length` counts UTF-16 code units, so a character above U+FFFF, such as an emoji, adds 2 in the source and 1 in the model.
- TypingAnimation.GetDisplayText: the model steps one code point at a time. The source steps one UTF-16 code unit at a time, so it can show half of a surrogate pair.
- TypingAnimation.Tick: compares the index with the number of visible code points. The source compares it with `text.replace(/<[^>]*>/g, '').length` (src/app/_components/TypingAnimation.tsx:62), which counts UTF-16 code units, so each character above U+FFFF gets one tick in the model and two in the source.
- TypingAnimation.TicksProgress: counts ticks against the same code-point total as `Tick`. For text with characters above U+FFFF the source needs one more tick per such character before it is complete.
- BlogList.Categories: the model sorts categories by code point (`Strings.StrLe`). The default `sort()` compares UTF-16 code units, so the two orders differ when a character above U+FFFF is compared with one in U+E000–U+FFFF.
- Feed.Post: `readingTime` and `series.order` are integers. The source accepts any JavaScript number from `z.number()`, fractions included.
- ScrollVisibility.HandleScroll: scroll positions are integers. The browser's `scrollY` can be fractional. The threshold comparisons are the same for integer positions.
- SlidingWindow.ClampWindowSize: takes an integer. The source clamps `Number(value)`, so a fraction such as 2.5 passes the clamp and then indexes outside the array. NaN is not modelled either.
- DPVisualization.ClampN: takes an integer, so two inputs the source accepts are not modelled. The source clamps with `Math.max(2, Math.min(12, Number(value)))` (src/components/visualization/DPVisualization.tsx:280).
  - A fraction such as 2.5 passes the clamp. The table loop (`i <= n`, line 186) then builds floor(n) + 1 cells, and the final message reads `dp[n].value` (line 261) on a missing cell, which throws a `TypeError`.
  - NaN also passes, because `Math.max` and `Math.min` return NaN. The table loop builds no cells, and `dp[0].value = 0` (line 213) throws a `TypeError`.
- DPVisualization.Fibonacci: requires `n >= 1`. The source only calls it with `n` from the clamp, which is at least 2.
- MdxFeeds.SortedFeedData: the date comparator never returns 0, so it is inconsistent for equal dates, and JavaScript leaves the order of such posts to the engine.
  - The model sorts stably.
  - It promises only the newest-first order and the contents, not where equal dates land.
- SeriesPage.GetSeriesGroups: the group comparator also never returns 0. Groups with equal latest dates are ordered stably in the model and in an engine-chosen order in the source.
- Strings.ToLower: maps only A–Z, KELVIN SIGN (to `k`) and LATIN CAPITAL LETTER I WITH DOT ABOVE (to `i` plus a combining dot), and keeps every other character.
  - The callers compare the result with ASCII words, ASCII keywords and Hangul, which no other mapping produces.
  - The exception is the host name in `NekaracubaCorpus.NormalizeUrl`, where Python's `lower()` also lower-cases non-ASCII letters.
- NekaracubaCorpus.NormalizeUrl: works on the components `urlparse` returns; the URL parser itself is not modelled.
  - `url.strip()` and `urlsplit`'s deletion of tabs and line breaks are modelled only where the script builds the URL from scraped text, the LINE links (`SlugPath`).
  - The leading-control strip of `urlsplit` never applies to these URLs, which start with `https`.
- NekaracubaCorpus.ExtractLineLinksDistinct: proved for slugs without white space or a `?`, `#` or `;` (`PlainSlugs`). Slugs that differ only in such characters can normalise to the same link, as `SlugPathTrailingSpace` and `SlugPathDropsInside` show.
- TossAnalysis: the token list of `tokenize`, the lower-cased article text and each article's category scores are inputs. The internals of the token regex and the HTML parsing of `fetch_article` (title, article text, excerpt) are not modelled.
- `avg_word_count` (floating-point division and rounding) and `generated_at_utc` (the clock): both are left out of the summary.
- `to_iso_datetime`: depends on Python's date-time and e-mail libraries. Record dates are given strings.
- The network and file parts of the Python scripts are not modelled: the `fetch_*`, `get_*` and `write_*` functions and the thread pool. This includes the Coupang feed's `link.split("?")[0]`.
- Content loading is not modelled. Posts arrive as a list in which a failed metadata load is `None`. This covers:
  - `findAllContentFolders`, `loadMetadata`, `getFolderSlug` and `getFeedData` in `mdx-feeds.ts`;
  - `getMdxSource` in `markdown.ts`;
  - the zod schema;
  - the `new-post` and `convert-md-to-mdx` scripts.
- Rendering is not modelled: JSX, Three.js scenes, framer-motion, CSS and icons.
- The visualizers' `await sleep` pacing, `setState` calls and status colours are not modelled, nor is the playback state of the graph visualizer.
- BinarySearch.Search and TwoPointer.Search: the target is an integer. The source reads it with `Number(e.target.value)`, so it can be a fraction or NaN. With NaN every `===` and `<` test is false, so the binary search always moves `right` to `mid - 1` and the two-pointer loop always moves `right`. The contracts still hold for such targets, because no cell and no pair sum equals a fraction or NaN, but the model does not show these runs.
- Random draws are parameters:
  - the binary-search target index;
  - the sliding-window cells;
  - the sort bar values, which are reals in the source and only compared, so they are integers here.
- ScrollVisibility: `window`, the media query and `sessionStorage` are inputs. Event listeners and their removal on unmount are not modelled.
- TypingAnimation.Tick: models one timer tick; the interval, its cleanup and the cursor blink are not modelled.
- External services are not modelled: the view counter, Supabase, analytics, page trackers, Giscus and Mermaid rendering, with Mermaid's scale clamping (floating point).
- The `ScrollWorkflow` progress arithmetic (floating point) is not modelled.
- Clock- or template-only output is not modelled: `feed.xml`, the sitemap and the Open Graph image route.
- ResumeStageOrder: `resume.ts` does not define the `ExperienceStage` type that the ordering imports. The stage keys are taken from `STAGE_PRIORITY`.
- The tests of modules whose source is not part of this model (`feeds.test.ts`, `FeedCard.test.tsx`) are not modelled.

## Findings

| source | as written | input that shows it | evidently intended | confidence | as-written member | corrected member |
|---|---|---|---|---|---|---|
| src/lib/markdown.ts:28-45 | `idCounts` is a plain object literal, so `idCounts[id]` finds the members every object inherits. For the slugs `__proto__` and `constructor` the lookup is not `undefined`: the id is suffixed with the text of the inherited value, and the count is never stored. | Two headings `# __proto__` both get the id `__proto__-[object Object]`. One heading `# constructor` gets `constructor-function Object() { [native code] }`. | A count map without inherited keys (a `Map`, or `Object.create(null)`). That gives `__proto__`, `__proto__-1`, and `constructor`, so headings with the same slug never share an id. | not executed | Markdown.NumberIdsAsWritten, Markdown.ProtoHeadingsCollide, Markdown.ConstructorHeadingId | Markdown.NumberIds, Markdown.SameSlugDistinctIds |

=== FILE: binary_search.dfy ===
/** The array logic of the binary-search visualizer: the fixed array of
    multiples of five, the target drawn from it, and the search loop. */
module BinarySearch {
  import opened Seqs

  const Size := 12

  /** `initializeArray`: the values 5, 10, ..., 60. */
  function InitialArray(): (a: seq<int>)
    ensures |a| == Size && StrictlyAscending(a)
    ensures forall i :: 0 <= i < Size ==> a[i] == (i + 1) * 5
  {
    seq(Size, i requires 0 <= i < Size => (i + 1) * 5)
  }

  /** The default target: the value at the index `Math.floor(Math.random()
      * 12)` names, passed in as `pick`. */
  function InitialTarget(pick: int): (t: int)
    requires 0 <= pick < Size
    ensures t in InitialArray() && t == (pick + 1) * 5
  {
    InitialArray()[pick]
  }

  /** `Math.floor((left + right) / 2)`; both ends are non-negative while the
      loop runs, so Dafny's division agrees with the floor. */
  function Mid(left: int, right: int): (m: int)
    requires 0 <= left <= right
    ensures left <= m <= right
    ensures m - left <= (right - left + 1) / 2 && right - m <= (right - left + 1) / 2
  {
    (left + right) / 2
  }

  /** How many halvings an interval of `n` elements survives: the most
      iterations the loop can make on it. */
  function Halvings(n: nat): (k: nat)
    ensures n > 0 ==> k > 0
  {
    if n == 0 then 0 else 1 + Halvings(n / 2)
  }

  lemma {:induction false} HalvingsMonotone(m: nat, n: nat)
    requires m <= n
    ensures Halvings(m) <= Halvings(n)
  {
    if m > 0 {
      HalvingsMonotone(m / 2, n / 2);
    }
  }

  /** Where the target can be: every index holding it lies in `[left, right]`. */
  predicate Bracketed(arr: seq<int>, target: int, left: int, right: int) {
    forall k :: 0 <= k < |arr| && arr[k] == target ==> left <= k <= right
  }

  /** Discarding the half that cannot hold the target keeps it bracketed. */
  lemma Narrow(arr: seq<int>, target: int, left: int, right: int, mid: int)
    requires Ascending(arr) && 0 <= left <= mid <= right < |arr| && arr[mid] != target
    requires Bracketed(arr, target, left, right)
    ensures arr[mid] < target ==> Bracketed(arr, target, mid + 1, right)
    ensures arr[mid] > target ==> Bracketed(arr, target, left, mid - 1)
  {
    forall k | 0 <= k < |arr| && arr[k] == target ensures k != mid && (arr[mid] < target ==> mid < k) && (arr[mid] > target ==> k < mid) {
      if k < mid {
        assert arr[k] <= arr[mid];
      } else if k > mid {
        assert arr[mid] <= arr[k];
      }
    }
  }

  /** An interval at most half as long survives one halving fewer. */
  lemma HalvingsStep(n: nat, m: nat)
    requires n > 0 && m <= n / 2
    ensures Halvings(m) + 1 <= Halvings(n)
  {
    HalvingsMonotone(m, n / 2);
  }

  datatype Outcome = Found(index: nat, steps: nat) | NotFound(steps: nat)

  /** `binarySearch`. The target, if present in a sorted array, always lies
      in `[left, right]`; "found" is reported only on a hit, "not found" only
      when the interval is empty, and the interval at least halves each
      step. */
  method Search(arr: seq<int>, target: int) returns (r: Outcome)
    ensures r.Found? ==> r.index < |arr| && arr[r.index] == target
    ensures r.Found? ==> 1 <= r.steps
    ensures Ascending(arr) && target in arr ==> r.Found?
    ensures r.steps <= Halvings(|arr|)
  {
    var left, right, steps := 0, |arr| - 1, 0;
    while left <= right
      invariant 0 <= left <= |arr| && -1 <= right < |arr| && left <= right + 1
      invariant Ascending(arr) ==> Bracketed(arr, target, left, right)
      invariant steps + Halvings(right - left + 1) <= Halvings(|arr|)
      decreases right - left
    {
      steps := steps + 1;
      var mid := Mid(left, right);
      var n := right - left + 1;
      assert Halvings(n) == 1 + Halvings(n / 2);
      if arr[mid] == target {
        return Found(mid, steps);
      }
      if Ascending(arr) {
        Narrow(arr, target, left, right, mid);
      }
      if arr[mid] < target {
        left := mid + 1;
      } else {
        right := mid - 1;
      }
      var m := right - left + 1;
      assert m <= n / 2;
      HalvingsStep(n, m);
      assert steps + Halvings(m) <= Halvings(|arr|);
    }
    return NotFound(steps);
  }

  /** On the visualizer's array every search ends within four steps. */
  lemma InitialArrayFourSteps()
    ensures Halvings(|InitialArray()|) == 4
  {
    assert Halvings(12) == 1 + Halvings(6);
    assert Halvings(6) == 1 + Halvings(3);
    assert Halvings(3) == 1 + Halvings(1);
    assert Halvings(1) == 1 + Halvings(0);
  }

  /** The default target is always found. */
  method SearchInitial(pick: int) returns (r: Outcome)
    requires 0 <= pick < Size
    ensures r.Found? && r.index == pick && 1 <= r.steps <= 4
  {
    var a := InitialArray();
    r := Search(a, InitialTarget(pick));
    InitialArrayFourSteps();
  }
}

=== FILE: blog_list.dfy ===
/** The blog list page: the category tabs built from the posts, the
    posts shown for the active tab, and the rule that sends an unknown
    active tab back to "All". */
module BlogList {
  import opened Seqs
  import opened Strings
  import opened Sorting
  import opened Feed

  const AllCategory := "All"

  function CategoriesOf(posts: seq<Post>): (r: seq<string>)
    ensures |r| == |posts|
    ensures forall k :: 0 <= k < |r| ==> r[k] == posts[k].category
  {
    seq(|posts|, k requires 0 <= k < |posts| => posts[k].category)
  }

  /** The distinct non-empty categories (`filter(Boolean)` drops the empty
      string) in insertion order, as the `Set` holds them. */
  function UniqueCategories(posts: seq<Post>): (r: seq<string>)
    ensures Distinct(r)
  {
    Dedup(Filter(CategoriesOf(posts), (c: string) => |c| > 0))
  }

  /** `["All", ...Array.from(uniqueCategories).sort()]`. */
  function Categories(posts: seq<Post>): (r: seq<string>)
    ensures |r| >= 1 && r[0] == AllCategory
  {
    [AllCategory] + SortBy(UniqueCategories(posts), StrLe)
  }

  /** After "All" come the non-empty categories of the posts, each once,
      in ascending string order. */
  lemma CategoriesSpec(posts: seq<Post>)
    ensures var rest := Categories(posts)[1..];
            && (forall i, j :: 0 <= i < j < |rest| ==> StrLt(rest[i], rest[j]))
            && (forall c :: c in rest <==> |c| > 0 && exists k :: 0 <= k < |posts| && posts[k].category == c)
  {
    var u := UniqueCategories(posts);
    var rest := Categories(posts)[1..];
    assert rest == SortBy(u, StrLe);
    StrLeTotalOrder();
    SortBySorted(u, StrLe);
    DistinctByPermutation(u, rest, (x: string) => x);
    forall c ensures c in rest <==> |c| > 0 && exists k :: 0 <= k < |posts| && posts[k].category == c {
      assert c in rest <==> c in multiset(u);
      UniqueCategoryMember(posts, c);
    }
  }

  /** A string is among the unique categories exactly when it is the
      non-empty category of some post. */
  lemma UniqueCategoryMember(posts: seq<Post>, c: string)
    ensures c in UniqueCategories(posts) <==> |c| > 0 && exists k :: 0 <= k < |posts| && posts[k].category == c
  {
    var f := Filter(CategoriesOf(posts), (x: string) => |x| > 0);
    if |c| > 0 && exists k :: 0 <= k < |posts| && posts[k].category == c {
      var k :| 0 <= k < |posts| && posts[k].category == c;
      assert CategoriesOf(posts)[k] == c;
      assert c in f;
    }
    if c in UniqueCategories(posts) {
      assert c in f;
      var k :| 0 <= k < |CategoriesOf(posts)| && CategoriesOf(posts)[k] == c;
    }
  }

  /** The posts shown for the active tab. */
  function FilteredPosts(posts: seq<Post>, active: string): (r: seq<Post>)
    ensures active == AllCategory ==> r == posts
  {
    if active == AllCategory then posts else Filter(posts, (p: Post) => p.category == active)
  }

  /** Under any other tab the list keeps exactly the posts of that
      category, in their original order. */
  lemma FilteredPostsSpec(posts: seq<Post>, active: string)
    requires active != AllCategory
    ensures forall p :: p in FilteredPosts(posts, active) <==> p in posts && p.category == active
    ensures IsSubsequence(FilteredPosts(posts, active), posts)
  {
    FilterIsSubsequence(posts, (p: Post) => p.category == active);
  }

  /** The effect: an active tab that is not among the categories becomes
      "All"; a known one is kept. */
  function ResetActive(categories: seq<string>, active: string): (r: string)
    ensures active in categories ==> r == active
    ensures active !in categories ==> r == AllCategory
  {
    if active in categories then active else AllCategory
  }

  /** After the effect the active tab is always one of the tabs, and
      running the effect again changes nothing. */
  lemma ResetActiveValid(posts: seq<Post>, active: string)
    ensures ResetActive(Categories(posts), active) in Categories(posts)
    ensures ResetActive(Categories(posts), ResetActive(Categories(posts), active)) == ResetActive(Categories(posts), active)
  {
  }
}

=== FILE: dp_visualization.dfy ===
/** The table logic of the dynamic-programming visualizer: a table of
    `n + 1` empty cells filled bottom-up with Fibonacci numbers. */
module DPVisualization {
  import opened Wrappers

  const DefaultN := 8

  /** `Math.max(2, Math.min(12, value))` on the number typed in. */
  function ClampN(v: int): (n: int)
    ensures 2 <= n <= 12
    ensures 2 <= v <= 12 <==> n == v
    ensures v < 2 ==> n == 2
    ensures v > 12 ==> n == 12
  {
    if v < 2 then 2 else if v > 12 then 12 else v
  }

  /** The reference sequence: F(0) = 0, F(1) = 1, F(i) = F(i-1) + F(i-2). */
  function Fib(i: nat): nat {
    if i < 2 then i else Fib(i - 1) + Fib(i - 2)
  }

  /** `initializeTable`: cells `0..n`, every value `null`. */
  function InitializeTable(n: nat): (cells: seq<Option<int>>)
    ensures |cells| == n + 1 && forall i :: 0 <= i <= n ==> cells[i].None?
  {
    seq(n + 1, i => None)
  }

  /** `fibonacci`: the two base cases, then each cell from the two before
      it. When it finishes every cell holds a number, each cell past the
      first two is the sum of its two predecessors, and cell `i` holds
      F(i). */
  method Fibonacci(cells: seq<Option<int>>, n: int) returns (dp: seq<Option<int>>)
    requires 1 <= n && |cells| == n + 1
    ensures |dp| == n + 1
    ensures dp[0] == Some(0) && dp[1] == Some(1)
    ensures forall i :: 0 <= i <= n ==> dp[i].Some?
    ensures forall i :: 2 <= i <= n ==> dp[i].value == dp[i - 1].value + dp[i - 2].value
    ensures forall i :: 0 <= i <= n ==> dp[i] == Some(Fib(i))
  {
    dp := cells[0 := Some(0)][1 := Some(1)];
    var i := 2;
    while i <= n
      invariant 2 <= i <= n + 1 && |dp| == n + 1
      invariant forall k :: 0 <= k < i ==> dp[k] == Some(Fib(k))
    {
      var i1, i2, next := i - 1, i - 2, i + 1;
      FibStep(dp, i, i1, i2, next);
      dp := dp[i := Some(dp[i1].value + dp[i2].value)];
      i := next;
    }
    FibSums(dp, n);
  }

  /** Filling cell `i` from the two cells before it extends the filled
      prefix by one. */
  lemma FibStep(dp: seq<Option<int>>, i: nat, i1: nat, i2: nat, next: nat)
    requires 2 <= i < |dp| && i1 == i - 1 && i2 == i - 2 && next == i + 1
    requires forall k :: 0 <= k < i ==> dp[k] == Some(Fib(k))
    ensures var d := dp[i := Some(dp[i1].value + dp[i2].value)];
            forall k :: 0 <= k < next ==> d[k] == Some(Fib(k))
  {
    assert Fib(i) == Fib(i1) + Fib(i2);
  }

  /** A table of Fibonacci numbers has each cell past the first two equal
      to the sum of its two predecessors. */
  lemma FibSums(dp: seq<Option<int>>, n: int)
    requires |dp| == n + 1 && forall k :: 0 <= k <= n ==> dp[k] == Some(Fib(k))
    ensures forall i :: 2 <= i <= n ==> dp[i].value == dp[i - 1].value + dp[i - 2].value
  {
    forall i | 2 <= i <= n ensures dp[i].value == dp[i - 1].value + dp[i - 2].value {
      assert Fib(i) == Fib(i - 1) + Fib(i - 2);
    }
  }

  /** At the largest `n` the last cell is 144. */
  lemma FibTwelve()
    ensures Fib(12) == 144
  {
    assert Fib(2) == 1 && Fib(3) == 2 && Fib(4) == 3 && Fib(5) == 5 && Fib(6) == 8;
    assert Fib(7) == 13 && Fib(8) == 21 && Fib(9) == 34 && Fib(10) == 55 && Fib(11) == 89;
  }
}

=== FILE: feed.dfy ===
/** The post record that the listing, series, navigation and search code
    share: the validated `meta.json` front matter of one post. */
module Feed {
  import opened Wrappers
  import opened Seqs
  import opened Strings
  import opened Sorting

  /** The optional `series` block: which series, its title, and the post's
      position in it. */
  datatype SeriesInfo = SeriesInfo(id: string, title: string, order: int)

  /** One post. Optional fields are `Option`s; `readingTime` is a whole
      number of minutes. */
  datatype Post = Post(
    slug: string,
    title: string,
    description: string,
    date: string,
    category: string,
    tags: Option<seq<string>>,
    readingTime: Option<int>,
    series: Option<SeriesInfo>)

  /** `post.series?.order ?? 0`: the order used when sorting series posts. */
  function SeriesOrder(p: Post): int {
    if p.series.Some? then p.series.value.order else 0
  }

  /** `post.series?.id === id`. */
  predicate InSeries(p: Post, id: string) {
    p.series.Some? && p.series.value.id == id
  }

  /** "`a` may come before `b`" when ordering by series position. */
  predicate OrderLe(a: Post, b: Post) {
    SeriesOrder(a) <= SeriesOrder(b)
  }

  lemma OrderLeTotal()
    ensures TotalPreorder(OrderLe)
  {
  }

  /** The posts at series position `o`. */
  function HasOrder(o: int): Post -> bool {
    (p: Post) => SeriesOrder(p) == o
  }

  /** "`a` may come before `b`" when ordering newest first by date string. */
  predicate DateDescLe(a: Post, b: Post) {
    StrLe(b.date, a.date)
  }

  /** The values of the present entries, in order. */
  function Somes<T>(xs: seq<Option<T>>): (r: seq<T>)
    ensures forall k :: 0 <= k < |r| ==> Some(r[k]) in xs
    ensures forall k :: 0 <= k < |xs| && xs[k].Some? ==> xs[k].value in r
  {
    var f := Filter(xs, (x: Option<T>) => x.Some?);
    var r := seq(|f|, k requires 0 <= k < |f| => f[k].value);
    assert forall k :: 0 <= k < |xs| && xs[k].Some? ==> xs[k].value in r by {
      forall k | 0 <= k < |xs| && xs[k].Some? ensures xs[k].value in r {
        assert xs[k] in f;
        var j :| 0 <= j < |f| && f[j] == xs[k];
        assert r[j] == xs[k].value;
      }
    }
    r
  }
}

=== FILE: graph_traversal.dfy ===
/** The traversal cores of the graph visualizer: a recursive depth-first
    search and a queue-based breadth-first search over a list of nodes,
    each listing its neighbours in a fixed order. */
module GraphTraversal {
  import opened Seqs

  datatype GraphNode = GraphNode(id: int, connections: seq<int>)

  /** The visualizer's graph: a root with three subtrees, each connection
      listed at both ends. */
  const Nodes: seq<GraphNode> := [
    GraphNode(1, [2, 3, 4]),
    GraphNode(2, [1, 5, 6]),
    GraphNode(3, [1, 7]),
    GraphNode(4, [1, 8, 9]),
    GraphNode(5, [2]),
    GraphNode(6, [2]),
    GraphNode(7, [3]),
    GraphNode(8, [4]),
    GraphNode(9, [4])
  ]

  /** `nodes.find(n => n.id === id)?.connections`, with no neighbours
      when no node has that id. */
  function Neighbors(nodes: seq<GraphNode>, id: int): seq<int> {
    if |nodes| == 0 then []
    else if nodes[0].id == id then nodes[0].connections
    else Neighbors(nodes[1..], id)
  }

  function Elems(s: seq<int>): (r: set<int>)
    ensures forall k :: 0 <= k < |s| ==> s[k] in r
  {
    if |s| == 0 then {} else {s[0]} + Elems(s[1..])
  }

  /** Every id some node lists as a connection. */
  function Connections(nodes: seq<GraphNode>): set<int> {
    if |nodes| == 0 then {} else Elems(nodes[0].connections) + Connections(nodes[1..])
  }

  lemma {:induction false} NeighborsAreConnections(nodes: seq<GraphNode>, x: int)
    ensures forall k :: 0 <= k < |Neighbors(nodes, x)| ==> Neighbors(nodes, x)[k] in Connections(nodes)
  {
    if |nodes| > 0 && nodes[0].id != x {
      NeighborsAreConnections(nodes[1..], x);
    }
  }

  /** Every id that can ever be visited from `start`: a finite bound for
      the termination arguments. */
  function Universe(nodes: seq<GraphNode>, start: int): (u: set<int>)
    ensures start in u
    ensures NeighborsIn(nodes, u)
  {
    forall x ensures forall k :: 0 <= k < |Neighbors(nodes, x)| ==> Neighbors(nodes, x)[k] in Connections(nodes) {
      NeighborsAreConnections(nodes, x);
    }
    {start} + Connections(nodes)
  }

  /** Every listed neighbour lies in `univ`. */
  ghost predicate NeighborsIn(nodes: seq<GraphNode>, univ: set<int>) {
    forall x, k :: 0 <= k < |Neighbors(nodes, x)| ==> Neighbors(nodes, x)[k] in univ
  }

  lemma NeighborsInUniverse(nodes: seq<GraphNode>, univ: set<int>, x: int)
    requires NeighborsIn(nodes, univ)
    ensures forall k :: 0 <= k < |Neighbors(nodes, x)| ==> Neighbors(nodes, x)[k] in univ
  {
  }

  /** Every neighbour of a listed node is visited. */
  ghost predicate Closed(nodes: seq<GraphNode>, path: seq<int>, visited: set<int>) {
    forall j, k :: 0 <= j < |path| && 0 <= k < |Neighbors(nodes, path[j])| ==> Neighbors(nodes, path[j])[k] in visited
  }

  lemma SubsetSmaller(univ: set<int>, a: set<int>, b: set<int>, x: int)
    requires a <= b && x in b && x !in a && x in univ
    ensures |univ - b| < |univ - a|
  {
    var da := univ - a;
    var db := univ - b;
    SubsetCard(db, da - {x});
  }

  lemma SubsetCard(a: set<int>, b: set<int>)
    requires a <= b
    ensures |a| <= |b|
  {
    assert b == a + (b - a);
    assert a * (b - a) == {};
  }

  lemma DistinctConcat(a: seq<int>, b: seq<int>)
    requires Distinct(a) && Distinct(b)
    requires forall i, j :: 0 <= i < |a| && 0 <= j < |b| ==> a[i] != b[j]
    ensures Distinct(a + b)
  {
    forall i, j | 0 <= i < j < |a + b| ensures (a + b)[i] != (a + b)[j] {
      if i < |a| && j >= |a| {
        assert (a + b)[i] == a[i] && (a + b)[j] == b[j - |a|];
      }
    }
  }

  /** The progress of a search: what is visited and the order of visits. */
  datatype Walk = Walk(visited: set<int>, path: seq<int>)

  /** The inner `dfs(u)`: mark and record `u`, then search each unvisited
      neighbour in listed order. */
  function Dfs(nodes: seq<GraphNode>, univ: set<int>, u: int, v: set<int>): (w: Walk)
    requires NeighborsIn(nodes, univ) && u in univ && v <= univ && u !in v
    ensures v + {u} <= w.visited <= univ
    decreases |univ - v|, 0, 0
  {
    SubsetSmaller(univ, v, v + {u}, u);
    var rest := DfsList(nodes, univ, Neighbors(nodes, u), v + {u});
    Walk(rest.visited, [u] + rest.path)
  }

  /** The `for` loop over a neighbour list. */
  function DfsList(nodes: seq<GraphNode>, univ: set<int>, ns: seq<int>, v: set<int>): (w: Walk)
    requires NeighborsIn(nodes, univ) && v <= univ && forall k :: 0 <= k < |ns| ==> ns[k] in univ
    ensures v <= w.visited <= univ
    decreases |univ - v|, 1, |ns|
  {
    if |ns| == 0 then Walk(v, [])
    else if ns[0] in v then DfsList(nodes, univ, ns[1..], v)
    else
      var first := Dfs(nodes, univ, ns[0], v);
      SubsetSmaller(univ, v, first.visited, ns[0]);
      var rest := DfsList(nodes, univ, ns[1..], first.visited);
      Walk(rest.visited, first.path + rest.path)
  }

  /** `runDFS(start)`. */
  function RunDfs(nodes: seq<GraphNode>, start: int): seq<int> {
    Dfs(nodes, Universe(nodes, start), start, {}).path
  }

  /** What a finished part of the search promises: it lists exactly the
      newly visited nodes, each once, and visits every neighbour of what it
      lists. */
  ghost predicate SearchedFrom(nodes: seq<GraphNode>, v: set<int>, w: Walk) {
    (forall x :: x in w.visited && x !in v <==> x in w.path) &&
    Distinct(w.path) &&
    Closed(nodes, w.path, w.visited)
  }

  lemma {:induction false} DfsSound(nodes: seq<GraphNode>, univ: set<int>, u: int, v: set<int>)
    requires NeighborsIn(nodes, univ) && u in univ && v <= univ && u !in v
    ensures var w := Dfs(nodes, univ, u, v);
            SearchedFrom(nodes, v, w) && |w.path| > 0 && w.path[0] == u
    decreases |univ - v|, 0, 0
  {
    SubsetSmaller(univ, v, v + {u}, u);
    var ns := Neighbors(nodes, u);
    var rest := DfsList(nodes, univ, ns, v + {u});
    DfsListSound(nodes, univ, ns, v + {u});
    var path := [u] + rest.path;
    DistinctConcat([u], rest.path);
    forall j, k | 0 <= j < |path| && 0 <= k < |Neighbors(nodes, path[j])|
      ensures Neighbors(nodes, path[j])[k] in rest.visited
    {
      if j > 0 {
        assert path[j] == rest.path[j - 1];
      }
    }
  }

  lemma {:induction false} DfsListSound(nodes: seq<GraphNode>, univ: set<int>, ns: seq<int>, v: set<int>)
    requires NeighborsIn(nodes, univ) && v <= univ && forall k :: 0 <= k < |ns| ==> ns[k] in univ
    ensures var w := DfsList(nodes, univ, ns, v);
            SearchedFrom(nodes, v, w) && forall k :: 0 <= k < |ns| ==> ns[k] in w.visited
    decreases |univ - v|, 1, |ns|
  {
    if |ns| > 0 {
      if ns[0] in v {
        DfsListSound(nodes, univ, ns[1..], v);
        forall k | 0 < k < |ns| ensures ns[k] in DfsList(nodes, univ, ns, v).visited {
          assert ns[k] == ns[1..][k - 1];
        }
      } else {
        var first := Dfs(nodes, univ, ns[0], v);
        DfsSound(nodes, univ, ns[0], v);
        SubsetSmaller(univ, v, first.visited, ns[0]);
        var rest := DfsList(nodes, univ, ns[1..], first.visited);
        DfsListSound(nodes, univ, ns[1..], first.visited);
        var path := first.path + rest.path;
        forall i, j | 0 <= i < |first.path| && 0 <= j < |rest.path| ensures first.path[i] != rest.path[j] {
          assert first.path[i] in first.path && rest.path[j] in rest.path;
        }
        DistinctConcat(first.path, rest.path);
        forall j, k | 0 <= j < |path| && 0 <= k < |Neighbors(nodes, path[j])|
          ensures Neighbors(nodes, path[j])[k] in rest.visited
        {
          if j < |first.path| {
            assert path[j] == first.path[j];
          } else {
            assert path[j] == rest.path[j - |first.path|];
          }
        }
        forall x ensures x in rest.visited && x !in v <==> x in path {
          if x in first.path {
            assert x in first.visited;
          }
        }
        forall k | 0 < k < |ns| ensures ns[k] in rest.visited {
          assert ns[k] == ns[1..][k - 1];
        }
      }
    }
  }

  /** Depth-first search lists `start` first and no node twice, and lists
      every neighbour of every node it lists. */
  lemma RunDfsSound(nodes: seq<GraphNode>, start: int)
    ensures var path := RunDfs(nodes, start);
            |path| > 0 && path[0] == start && Distinct(path) && Complete(nodes, path)
  {
    var w := Dfs(nodes, Universe(nodes, start), start, {});
    DfsSound(nodes, Universe(nodes, start), start, {});
    forall j, k | 0 <= j < |w.path| && 0 <= k < |Neighbors(nodes, w.path[j])|
      ensures Neighbors(nodes, w.path[j])[k] in w.path
    {
      var y := Neighbors(nodes, w.path[j])[k];
      assert y in w.visited && y !in {};
    }
  }

  /** `xs` is a walk along listed connections. */
  predicate IsWalk(nodes: seq<GraphNode>, xs: seq<int>) {
    forall k :: 0 < k < |xs| ==> xs[k] in Neighbors(nodes, xs[k - 1])
  }

  /** Every neighbour of a listed node is listed. */
  ghost predicate Complete(nodes: seq<GraphNode>, path: seq<int>) {
    forall j, k :: 0 <= j < |path| && 0 <= k < |Neighbors(nodes, path[j])| ==> Neighbors(nodes, path[j])[k] in path
  }

  /** A sequence that contains its start and lists every neighbour of what
      it lists contains every node of every walk from the start. */
  lemma {:induction false} CompleteContainsWalk(nodes: seq<GraphNode>, path: seq<int>, xs: seq<int>)
    requires Complete(nodes, path)
    requires |xs| > 0 && xs[0] in path && IsWalk(nodes, xs)
    ensures forall k :: 0 <= k < |xs| ==> xs[k] in path
  {
    if |xs| > 1 {
      var ns := Neighbors(nodes, xs[0]);
      assert xs[1] in ns;
      var i :| 0 <= i < |ns| && ns[i] == xs[1];
      var j :| 0 <= j < |path| && path[j] == xs[0];
      assert xs[1] in path;
      CompleteContainsWalk(nodes, path, xs[1..]);
      forall k | 0 <= k < |xs| ensures xs[k] in path {
        if k > 0 {
          assert xs[k] == xs[1..][k - 1];
        }
      }
    }
  }

  /** Every node reachable from `start` is listed by the depth-first search
      (and, by `RunDfsSound`, listed once). */
  lemma DfsReachesAll(nodes: seq<GraphNode>, start: int, xs: seq<int>)
    requires |xs| > 0 && xs[0] == start && IsWalk(nodes, xs)
    ensures forall k :: 0 <= k < |xs| ==> xs[k] in RunDfs(nodes, start)
  {
    RunDfsSound(nodes, start);
    CompleteContainsWalk(nodes, RunDfs(nodes, start), xs);
  }

  /** Queueing the unvisited entries of a neighbour list, marking each as
      it is queued. `path` holds the queue here. */
  function EnqueueAll(nodes: seq<GraphNode>, univ: set<int>, ns: seq<int>, visited: set<int>, queue: seq<int>): (r: Walk)
    requires visited <= univ && forall k :: 0 <= k < |ns| ==> ns[k] in univ
    ensures visited <= r.visited <= univ
    decreases |ns|
  {
    if |ns| == 0 then Walk(visited, queue)
    else if ns[0] in visited then EnqueueAll(nodes, univ, ns[1..], visited, queue)
    else EnqueueAll(nodes, univ, ns[1..], visited + {ns[0]}, queue + [ns[0]])
  }

  /** Each queued neighbour leaves the unmarked part of `univ`: marked
      and queued entries grow together. */
  lemma {:induction false} EnqueueMeasure(nodes: seq<GraphNode>, univ: set<int>, ns: seq<int>, visited: set<int>, queue: seq<int>)
    requires visited <= univ && forall k :: 0 <= k < |ns| ==> ns[k] in univ
    ensures var r := EnqueueAll(nodes, univ, ns, visited, queue);
            |univ - r.visited| + |r.path| == |univ - visited| + |queue|
    decreases |ns|
  {
    if |ns| > 0 {
      if ns[0] in visited {
        EnqueueMeasure(nodes, univ, ns[1..], visited, queue);
      } else {
        assert univ - (visited + {ns[0]}) == (univ - visited) - {ns[0]};
        EnqueueMeasure(nodes, univ, ns[1..], visited + {ns[0]}, queue + [ns[0]]);
      }
    }
  }

  /** The rest of a breadth-first search from a given queue. */
  function BfsFrom(nodes: seq<GraphNode>, univ: set<int>, queue: seq<int>, visited: set<int>, path: seq<int>): seq<int>
    requires NeighborsIn(nodes, univ) && visited <= univ
    decreases |univ - visited| + |queue|
  {
    if |queue| == 0 then path
    else
      NeighborsInUniverse(nodes, univ, queue[0]);
      var e := EnqueueAll(nodes, univ, Neighbors(nodes, queue[0]), visited, queue[1..]);
      EnqueueMeasure(nodes, univ, Neighbors(nodes, queue[0]), visited, queue[1..]);
      BfsFrom(nodes, univ, e.path, e.visited, path + [queue[0]])
  }

  /** The order `runBFS` visits nodes in. */
  function Bfs(nodes: seq<GraphNode>, start: int): seq<int> {
    BfsFrom(nodes, Universe(nodes, start), [start], {start}, [])
  }

  /** What holds between steps of the search: the marked nodes are the
      listed and the queued ones, nothing is listed or queued twice, and
      every neighbour of a listed node is marked. */
  ghost predicate BfsState(nodes: seq<GraphNode>, queue: seq<int>, visited: set<int>, path: seq<int>) {
    (forall x :: x in visited <==> x in path || x in queue) &&
    Distinct(path + queue) &&
    Closed(nodes, path, visited)
  }

  /** Queueing a neighbour list keeps the queue's old entries in front,
      marks every neighbour, and queues none twice. */
  lemma {:induction false} EnqueueKeeps(nodes: seq<GraphNode>, univ: set<int>, ns: seq<int>, visited: set<int>, queue: seq<int>, path: seq<int>)
    requires visited <= univ && forall k :: 0 <= k < |ns| ==> ns[k] in univ
    requires forall x :: x in visited <==> x in path || x in queue
    requires Distinct(path + queue)
    ensures var r := EnqueueAll(nodes, univ, ns, visited, queue);
            queue <= r.path && visited <= r.visited &&
            (forall k :: 0 <= k < |ns| ==> ns[k] in r.visited) &&
            (forall x :: x in r.visited <==> x in path || x in r.path) &&
            Distinct(path + r.path)
    decreases |ns|
  {
    if |ns| > 0 {
      if ns[0] in visited {
        EnqueueKeeps(nodes, univ, ns[1..], visited, queue, path);
      } else {
        assert ns[0] in univ;
        forall k | 0 <= k < |path + queue| ensures (path + queue)[k] != ns[0] {
          if k < |path| {
            assert (path + queue)[k] == path[k] && path[k] in path;
          } else {
            assert (path + queue)[k] == queue[k - |path|] && queue[k - |path|] in queue;
          }
        }
        DistinctConcat(path + queue, [ns[0]]);
        assert path + (queue + [ns[0]]) == (path + queue) + [ns[0]];
        EnqueueKeeps(nodes, univ, ns[1..], visited + {ns[0]}, queue + [ns[0]], path);
      }
      forall k | 0 < k < |ns| ensures ns[k] in EnqueueAll(nodes, univ, ns, visited, queue).visited {
        assert ns[k] == ns[1..][k - 1];
      }
    }
  }

  /** The search from any consistent state lists what is already listed,
      then the rest, without repeats and closed under neighbours. */
  lemma {:induction false} BfsFromSound(nodes: seq<GraphNode>, univ: set<int>, queue: seq<int>, visited: set<int>, path: seq<int>)
    requires NeighborsIn(nodes, univ) && visited <= univ
    requires BfsState(nodes, queue, visited, path)
    ensures var r := BfsFrom(nodes, univ, queue, visited, path);
            path + queue <= r && Distinct(r) && Complete(nodes, r)
    decreases |univ - visited| + |queue|
  {
    if |queue| == 0 {
      assert path + queue == path;
      forall j, k | 0 <= j < |path| && 0 <= k < |Neighbors(nodes, path[j])|
        ensures Neighbors(nodes, path[j])[k] in path
      {
        var y := Neighbors(nodes, path[j])[k];
        assert y in visited;
        assert y !in queue;
      }
    } else {
      var node := queue[0];
      assert path + queue == (path + [node]) + queue[1..];
      var ns := Neighbors(nodes, node);
      NeighborsInUniverse(nodes, univ, node);
      var e := EnqueueAll(nodes, univ, ns, visited, queue[1..]);
      EnqueueKeeps(nodes, univ, ns, visited, queue[1..], path + [node]);
      EnqueueMeasure(nodes, univ, ns, visited, queue[1..]);
      assert (path + [node]) + queue[1..] <= (path + [node]) + e.path;
      var p1 := path + [node];
      forall j, k | 0 <= j < |p1| && 0 <= k < |Neighbors(nodes, p1[j])|
        ensures Neighbors(nodes, p1[j])[k] in e.visited
      {
        if j < |path| {
          assert p1[j] == path[j];
          assert Neighbors(nodes, path[j])[k] in visited;
        }
      }
      BfsFromSound(nodes, univ, e.path, e.visited, path + [node]);
    }
  }

  /** The breadth-first order starts at `start`, lists no node twice, and
      lists every neighbour of every node it lists. */
  lemma BfsSound(nodes: seq<GraphNode>, start: int)
    ensures |Bfs(nodes, start)| > 0 && Bfs(nodes, start)[0] == start
    ensures Distinct(Bfs(nodes, start))
    ensures Complete(nodes, Bfs(nodes, start))
  {
    BfsFromSound(nodes, Universe(nodes, start), [start], {start}, []);
    assert [] + [start] == [start];
  }

  /** Every node reachable from `start` is listed by the breadth-first
      search. */
  lemma BfsReachesAll(nodes: seq<GraphNode>, start: int, xs: seq<int>)
    requires |xs| > 0 && xs[0] == start && IsWalk(nodes, xs)
    ensures forall k :: 0 <= k < |xs| ==> xs[k] in Bfs(nodes, start)
  {
    BfsSound(nodes, start);
    CompleteContainsWalk(nodes, Bfs(nodes, start), xs);
  }

  /** `runBFS(start)`: the queue loop, marking nodes as they are queued. */
  method RunBfs(nodes: seq<GraphNode>, start: int) returns (path: seq<int>)
    ensures path == Bfs(nodes, start)
  {
    var univ := Universe(nodes, start);
    var visited := {start};
    var queue := [start];
    path := [];
    while |queue| > 0
      invariant visited <= univ
      invariant BfsFrom(nodes, univ, queue, visited, path) == Bfs(nodes, start)
      decreases |univ - visited| + |queue|
    {
      BfsFromStep(nodes, univ, queue, visited, path);
      var node := queue[0];
      path := path + [node];
      NeighborsInUniverse(nodes, univ, node);
      EnqueueMeasure(nodes, univ, Neighbors(nodes, node), visited, queue[1..]);
      visited, queue := EnqueueNeighbors(nodes, univ, Neighbors(nodes, node), visited, queue[1..]);
    }
  }

  /** The inner `for` loop of `runBFS`. */
  method EnqueueNeighbors(nodes: seq<GraphNode>, univ: set<int>, ns: seq<int>, visited0: set<int>, queue0: seq<int>)
    returns (visited: set<int>, queue: seq<int>)
    requires visited0 <= univ && forall k :: 0 <= k < |ns| ==> ns[k] in univ
    ensures Walk(visited, queue) == EnqueueAll(nodes, univ, ns, visited0, queue0)
  {
    visited, queue := visited0, queue0;
    var i := 0;
    while i < |ns|
      invariant 0 <= i <= |ns|
      invariant visited <= univ
      invariant EnqueueAll(nodes, univ, ns[i..], visited, queue) == EnqueueAll(nodes, univ, ns, visited0, queue0)
    {
      assert ns[i..][0] == ns[i] && ns[i..][1..] == ns[i + 1..];
      var m := ns[i];
      if m !in visited {
        visited := visited + {m};
        queue := queue + [m];
      }
      i := i + 1;
    }
    assert ns[i..] == [];
  }

  lemma BfsFromStep(nodes: seq<GraphNode>, univ: set<int>, queue: seq<int>, visited: set<int>, path: seq<int>)
    requires NeighborsIn(nodes, univ) && visited <= univ && |queue| > 0
    ensures var e := EnqueueAll(nodes, univ, Neighbors(nodes, queue[0]), visited, queue[1..]);
            BfsFrom(nodes, univ, queue, visited, path) == BfsFrom(nodes, univ, e.path, e.visited, path + [queue[0]])
  {
    NeighborsInUniverse(nodes, univ, queue[0]);
  }

  /** A neighbour list whose entries are all marked queues nothing. */
  lemma {:induction false} EnqueueNone(nodes: seq<GraphNode>, univ: set<int>, ns: seq<int>, visited: set<int>, queue: seq<int>)
    requires visited <= univ && forall k :: 0 <= k < |ns| ==> ns[k] in visited
    ensures EnqueueAll(nodes, univ, ns, visited, queue) == Walk(visited, queue)
    decreases |ns|
  {
    if |ns| > 0 {
      EnqueueNone(nodes, univ, ns[1..], visited, queue);
    }
  }

  /** Once every neighbour of every queued node is marked, the search
      lists the queue as it stands and stops. */
  lemma {:induction false} BfsDrain(nodes: seq<GraphNode>, univ: set<int>, queue: seq<int>, visited: set<int>, path: seq<int>)
    requires NeighborsIn(nodes, univ) && visited <= univ
    requires forall j, k :: 0 <= j < |queue| && 0 <= k < |Neighbors(nodes, queue[j])| ==>
               Neighbors(nodes, queue[j])[k] in visited
    ensures BfsFrom(nodes, univ, queue, visited, path) == path + queue
    decreases |queue|
  {
    if |queue| > 0 {
      var ns := Neighbors(nodes, queue[0]);
      assert forall k :: 0 <= k < |ns| ==> ns[k] in visited by {
        forall k | 0 <= k < |ns| ensures ns[k] in visited {
          assert Neighbors(nodes, queue[0])[k] in visited;
        }
      }
      EnqueueNone(nodes, univ, ns, visited, queue[1..]);
      BfsFromStep(nodes, univ, queue, visited, path);
      forall j, k | 0 <= j < |queue[1..]| && 0 <= k < |Neighbors(nodes, queue[1..][j])|
        ensures Neighbors(nodes, queue[1..][j])[k] in visited
      {
        assert queue[1..][j] == queue[j + 1];
      }
      BfsDrain(nodes, univ, queue[1..], visited, path + [queue[0]]);
      assert path + [queue[0]] + queue[1..] == path + queue;
    }
  }
}

module GraphTraversalExamples {
  import opened GraphTraversal

  /** The adjacency table of the visualizer's graph. */
  function Adjacent(id: int): seq<int> {
    if id == 1 then [2, 3, 4]
    else if id == 2 then [1, 5, 6]
    else if id == 3 then [1, 7]
    else if id == 4 then [1, 8, 9]
    else if id == 5 || id == 6 then [2]
    else if id == 7 then [3]
    else if id == 8 || id == 9 then [4]
    else []
  }

  lemma FixedNeighbors(id: int)
    ensures Neighbors(Nodes, id) == Adjacent(id)
  {
    assert Nodes[9..] == [];
    assert Nodes[8..][0] == GraphNode(9, [4]) && Nodes[8..][1..] == Nodes[9..];
    assert Neighbors(Nodes[8..], id) == if id == 9 then [4] else Neighbors(Nodes[9..], id);
    assert Nodes[7..][0] == GraphNode(8, [4]) && Nodes[7..][1..] == Nodes[8..];
    assert Neighbors(Nodes[7..], id) == if id == 8 then [4] else Neighbors(Nodes[8..], id);
    assert Nodes[6..][0] == GraphNode(7, [3]) && Nodes[6..][1..] == Nodes[7..];
    assert Neighbors(Nodes[6..], id) == if id == 7 then [3] else Neighbors(Nodes[7..], id);
    assert Nodes[5..][0] == GraphNode(6, [2]) && Nodes[5..][1..] == Nodes[6..];
    assert Neighbors(Nodes[5..], id) == if id == 6 then [2] else Neighbors(Nodes[6..], id);
    assert Nodes[4..][0] == GraphNode(5, [2]) && Nodes[4..][1..] == Nodes[5..];
    assert Neighbors(Nodes[4..], id) == if id == 5 then [2] else Neighbors(Nodes[5..], id);
    assert Nodes[3..][0] == GraphNode(4, [1, 8, 9]) && Nodes[3..][1..] == Nodes[4..];
    assert Neighbors(Nodes[3..], id) == if id == 4 then [1, 8, 9] else Neighbors(Nodes[4..], id);
    assert Nodes[2..][0] == GraphNode(3, [1, 7]) && Nodes[2..][1..] == Nodes[3..];
    assert Neighbors(Nodes[2..], id) == if id == 3 then [1, 7] else Neighbors(Nodes[3..], id);
    assert Nodes[1..][0] == GraphNode(2, [1, 5, 6]) && Nodes[1..][1..] == Nodes[2..];
    assert Neighbors(Nodes[1..], id) == if id == 2 then [1, 5, 6] else Neighbors(Nodes[2..], id);
    assert Nodes[0..][0] == GraphNode(1, [2, 3, 4]) && Nodes[0..][1..] == Nodes[1..];
    assert Neighbors(Nodes[0..], id) == if id == 1 then [2, 3, 4] else Neighbors(Nodes[1..], id);
    assert Nodes[0..] == Nodes;
  }

  lemma ConnectionsOfFirst(nodes: seq<GraphNode>)
    requires |nodes| > 0
    ensures forall k :: 0 <= k < |nodes[0].connections| ==> nodes[0].connections[k] in Connections(nodes)
    ensures Connections(nodes[1..]) <= Connections(nodes)
  {
  }

  lemma FourConnections(ns: seq<GraphNode>)
    requires |ns| >= 4
    requires ns[0].connections == [2, 3, 4] && ns[1].connections == [1, 5, 6]
    requires ns[2].connections == [1, 7] && ns[3].connections == [1, 8, 9]
    ensures forall id :: 1 <= id <= 9 ==> id in Connections(ns)
  {
    ConnectionsOfFirst(ns);
    ConnectionsOfFirst(ns[1..]);
    ConnectionsOfFirst(ns[2..]);
    ConnectionsOfFirst(ns[3..]);
    assert ns[1..][0] == ns[1] && ns[2..][0] == ns[2] && ns[3..][0] == ns[3];
    assert ns[1..][1..] == ns[2..] && ns[2..][1..] == ns[3..];
    var c0, c1, c2, c3 := Connections(ns), Connections(ns[1..]), Connections(ns[2..]), Connections(ns[3..]);
    assert ns[0].connections[0] == 2 && ns[0].connections[1] == 3 && ns[0].connections[2] == 4;
    assert 2 in c0 && 3 in c0 && 4 in c0;
    assert ns[1].connections[0] == 1 && ns[1].connections[1] == 5 && ns[1].connections[2] == 6;
    assert 1 in c1 && 5 in c1 && 6 in c1;
    assert ns[2].connections[1] == 7;
    assert 7 in c2;
    assert ns[3].connections[1] == 8 && ns[3].connections[2] == 9;
    assert 8 in c3 && 9 in c3;
    assert c3 <= c2 <= c1 <= c0;
  }

  /** Every node of the graph is a connection of some node. */
  lemma FixedConnections()
    ensures forall id :: 1 <= id <= 9 ==> id in Connections(Nodes)
  {
    FourConnections(Nodes);
  }

  /** The facts every step of the worked examples needs. */
  ghost predicate FixedBound(g: seq<GraphNode>, u: set<int>) {
    NeighborsIn(g, u) && (forall id :: 1 <= id <= 9 ==> id in u) &&
    (forall id :: Neighbors(g, id) == Adjacent(id))
  }

  lemma FixedBoundHolds()
    ensures FixedBound(Nodes, Universe(Nodes, 1))
  {
    FixedConnections();
    forall id ensures Neighbors(Nodes, id) == Adjacent(id) {
      FixedNeighbors(id);
    }
  }

  /** One call of `dfs(x)`, given the result of its neighbour loop. */
  lemma DfsNode(g: seq<GraphNode>, u: set<int>, x: int, v: set<int>, v2: set<int>, w: Walk)
    requires FixedBound(g, u) && 1 <= x <= 9 && v <= u && x !in v && v2 == v + {x}
    requires DfsList(g, u, Adjacent(x), v2) == w
    ensures Dfs(g, u, x, v) == Walk(w.visited, [x] + w.path)
  {
  }

  /** A neighbour already visited is skipped. */
  lemma DfsSkip(g: seq<GraphNode>, u: set<int>, ns: seq<int>, v: set<int>, w: Walk)
    requires FixedBound(g, u) && v <= u && forall k :: 0 <= k < |ns| ==> 1 <= ns[k] <= 9
    requires |ns| > 0 && ns[0] in v && DfsList(g, u, ns[1..], v) == w
    ensures DfsList(g, u, ns, v) == w
  {
  }

  /** An unvisited neighbour is searched, then the rest of the list. */
  lemma DfsVisit(g: seq<GraphNode>, u: set<int>, ns: seq<int>, v: set<int>, w1: Walk, w2: Walk)
    requires FixedBound(g, u) && v <= u && forall k :: 0 <= k < |ns| ==> 1 <= ns[k] <= 9
    requires |ns| > 0 && ns[0] !in v
    requires Dfs(g, u, ns[0], v) == w1
    requires DfsList(g, u, ns[1..], w1.visited) == w2
    ensures DfsList(g, u, ns, v) == Walk(w2.visited, w1.path + w2.path)
  {
  }

  lemma DfsDone(g: seq<GraphNode>, u: set<int>, v: set<int>)
    requires FixedBound(g, u) && v <= u
    ensures DfsList(g, u, [], v) == Walk(v, [])
  {
  }

  /** A node whose only neighbour is already visited is a leaf. */
  lemma DfsLeaf(g: seq<GraphNode>, u: set<int>, x: int, p: int, v: set<int>, v2: set<int>)
    requires FixedBound(g, u) && 1 <= x <= 9 && 1 <= p <= 9 && v <= u && x !in v && v2 == v + {x}
    requires Adjacent(x) == [p] && p in v2
    ensures Dfs(g, u, x, v) == Walk(v2, [x])
  {
    DfsDone(g, u, v2);
    DfsSkip(g, u, [p], v2, Walk(v2, []));
    DfsNode(g, u, x, v, v2, Walk(v2, []));
  }

  lemma DfsTwo(g: seq<GraphNode>, u: set<int>)
    requires FixedBound(g, u)
    ensures Dfs(g, u, 2, {1}) == Walk({1, 2, 5, 6}, [2, 5, 6])
  {
    DfsLeaf(g, u, 5, 2, {1, 2}, {1, 2, 5});
    DfsLeaf(g, u, 6, 2, {1, 2, 5}, {1, 2, 5, 6});
    DfsDone(g, u, {1, 2, 5, 6});
    DfsVisit(g, u, [6], {1, 2, 5}, Walk({1, 2, 5, 6}, [6]), Walk({1, 2, 5, 6}, []));
    DfsVisit(g, u, [5, 6], {1, 2}, Walk({1, 2, 5}, [5]), Walk({1, 2, 5, 6}, [6]));
    DfsSkip(g, u, [1, 5, 6], {1, 2}, Walk({1, 2, 5, 6}, [5, 6]));
    DfsNode(g, u, 2, {1}, {1, 2}, Walk({1, 2, 5, 6}, [5, 6]));
  }

  lemma DfsThree(g: seq<GraphNode>, u: set<int>)
    requires FixedBound(g, u)
    ensures Dfs(g, u, 3, {1, 2, 5, 6}) == Walk({1, 2, 3, 5, 6, 7}, [3, 7])
  {
    var after := {1, 2, 3, 5, 6, 7};
    DfsLeaf(g, u, 7, 3, {1, 2, 3, 5, 6}, after);
    DfsDone(g, u, after);
    DfsVisit(g, u, [7], {1, 2, 3, 5, 6}, Walk(after, [7]), Walk(after, []));
    DfsSkip(g, u, [1, 7], {1, 2, 3, 5, 6}, Walk(after, [7]));
    DfsNode(g, u, 3, {1, 2, 5, 6}, {1, 2, 3, 5, 6}, Walk(after, [7]));
  }

  lemma DfsFour(g: seq<GraphNode>, u: set<int>)
    requires FixedBound(g, u)
    ensures Dfs(g, u, 4, {1, 2, 3, 5, 6, 7}) == Walk({1, 2, 3, 4, 5, 6, 7, 8, 9}, [4, 8, 9])
  {
    var all := {1, 2, 3, 4, 5, 6, 7, 8, 9};
    var with8 := {1, 2, 3, 4, 5, 6, 7, 8};
    DfsLeaf(g, u, 8, 4, {1, 2, 3, 4, 5, 6, 7}, with8);
    DfsLeaf(g, u, 9, 4, with8, all);
    DfsDone(g, u, all);
    DfsVisit(g, u, [9], with8, Walk(all, [9]), Walk(all, []));
    DfsVisit(g, u, [8, 9], {1, 2, 3, 4, 5, 6, 7}, Walk(with8, [8]), Walk(all, [9]));
    DfsSkip(g, u, [1, 8, 9], {1, 2, 3, 4, 5, 6, 7}, Walk(all, [8, 9]));
    DfsNode(g, u, 4, {1, 2, 3, 5, 6, 7}, {1, 2, 3, 4, 5, 6, 7}, Walk(all, [8, 9]));
  }

  lemma DfsOne(g: seq<GraphNode>, u: set<int>)
    requires FixedBound(g, u)
    ensures Dfs(g, u, 1, {}).path == [1, 2, 5, 6, 3, 7, 4, 8, 9]
  {
    var all := {1, 2, 3, 4, 5, 6, 7, 8, 9};
    DfsTwo(g, u);
    DfsThree(g, u);
    DfsFour(g, u);
    DfsDone(g, u, all);
    DfsVisit(g, u, [4], {1, 2, 3, 5, 6, 7}, Walk(all, [4, 8, 9]), Walk(all, []));
    DfsVisit(g, u, [3, 4], {1, 2, 5, 6}, Walk({1, 2, 3, 5, 6, 7}, [3, 7]), Walk(all, [4, 8, 9]));
    DfsVisit(g, u, [2, 3, 4], {1}, Walk({1, 2, 5, 6}, [2, 5, 6]), Walk(all, [3, 7, 4, 8, 9]));
    DfsNode(g, u, 1, {}, {1}, Walk(all, [2, 5, 6, 3, 7, 4, 8, 9]));
  }

  /** Depth-first from node 1: each subtree in full before the next. */
  lemma FixedDfs()
    ensures RunDfs(Nodes, 1) == [1, 2, 5, 6, 3, 7, 4, 8, 9]
  {
    FixedBoundHolds();
    DfsOne(Nodes, Universe(Nodes, 1));
  }

  /** A neighbour already marked is not queued again. */
  lemma EnqueueSkip(g: seq<GraphNode>, u: set<int>, ns: seq<int>, v: set<int>, q: seq<int>, r: Walk)
    requires FixedBound(g, u) && v <= u && forall k :: 0 <= k < |ns| ==> 1 <= ns[k] <= 9
    requires |ns| > 0 && ns[0] in v && EnqueueAll(g, u, ns[1..], v, q) == r
    ensures EnqueueAll(g, u, ns, v, q) == r
  {
  }

  /** An unmarked neighbour is marked and queued. */
  lemma EnqueueAdd(g: seq<GraphNode>, u: set<int>, ns: seq<int>, v: set<int>, v2: set<int>, q: seq<int>, r: Walk)
    requires FixedBound(g, u) && v <= u && forall k :: 0 <= k < |ns| ==> 1 <= ns[k] <= 9
    requires |ns| > 0 && ns[0] !in v && v2 == v + {ns[0]}
    requires EnqueueAll(g, u, ns[1..], v2, q + [ns[0]]) == r
    ensures EnqueueAll(g, u, ns, v, q) == r
  {
  }

  lemma EnqueueDone(g: seq<GraphNode>, u: set<int>, v: set<int>, q: seq<int>)
    requires FixedBound(g, u) && v <= u
    ensures EnqueueAll(g, u, [], v, q) == Walk(v, q)
  {
  }

  /** One dequeue: list the head `x` of the queue `[x] + rest`, then
      continue with what its neighbours left in the queue. */
  lemma BfsStep(g: seq<GraphNode>, u: set<int>, x: int, rest: seq<int>, q: seq<int>, v: set<int>,
                p: seq<int>, p2: seq<int>, e: Walk, res: seq<int>)
    requires FixedBound(g, u) && 1 <= x <= 9 && v <= u && q == [x] + rest && p2 == p + [x]
    requires EnqueueAll(g, u, Adjacent(x), v, rest) == e
    requires BfsFrom(g, u, e.path, e.visited, p2) == res
    ensures BfsFrom(g, u, q, v, p) == res
  {
    assert q[0] == x && q[1..] == rest;
  }

  /** Dequeuing a node whose only neighbour is already marked. */
  lemma BfsLeaf(g: seq<GraphNode>, u: set<int>, x: int, a: int, rest: seq<int>, q: seq<int>, v: set<int>,
                p: seq<int>, p2: seq<int>, res: seq<int>)
    requires FixedBound(g, u) && 1 <= x <= 9 && 1 <= a <= 9 && v <= u && q == [x] + rest && p2 == p + [x]
    requires Adjacent(x) == [a] && a in v
    requires BfsFrom(g, u, rest, v, p2) == res
    ensures BfsFrom(g, u, q, v, p) == res
  {
    EnqueueDone(g, u, v, rest);
    EnqueueSkip(g, u, [a], v, rest, Walk(v, rest));
    BfsStep(g, u, x, rest, q, v, p, p2, Walk(v, rest), res);
  }

  lemma BfsEnd(g: seq<GraphNode>, u: set<int>, v: set<int>, p: seq<int>)
    requires FixedBound(g, u) && v <= u
    ensures BfsFrom(g, u, [], v, p) == p
  {
  }

  /** The second level drains: 5, 6, 7, 8 and 9 have nothing left to queue. */
  lemma BfsLeaves(g: seq<GraphNode>, u: set<int>)
    requires FixedBound(g, u)
    ensures BfsFrom(g, u, [5, 6, 7, 8, 9], {1, 2, 3, 4, 5, 6, 7, 8, 9}, [1, 2, 3, 4])
              == [1, 2, 3, 4, 5, 6, 7, 8, 9]
  {
    var all := {1, 2, 3, 4, 5, 6, 7, 8, 9};
    var res := [1, 2, 3, 4, 5, 6, 7, 8, 9];
    BfsEnd(g, u, all, res);
    BfsLeaf(g, u, 9, 4, [], [9], all, [1, 2, 3, 4, 5, 6, 7, 8], res, res);
    BfsLeaf(g, u, 8, 4, [9], [8, 9], all, [1, 2, 3, 4, 5, 6, 7], [1, 2, 3, 4, 5, 6, 7, 8], res);
    BfsLeaf(g, u, 7, 3, [8, 9], [7, 8, 9], all, [1, 2, 3, 4, 5, 6], [1, 2, 3, 4, 5, 6, 7], res);
    BfsLeaf(g, u, 6, 2, [7, 8, 9], [6, 7, 8, 9], all, [1, 2, 3, 4, 5], [1, 2, 3, 4, 5, 6], res);
    BfsLeaf(g, u, 5, 2, [6, 7, 8, 9], [5, 6, 7, 8, 9], all, [1, 2, 3, 4], [1, 2, 3, 4, 5], res);
  }

  /** Dequeuing 1 queues its three neighbours. */
  lemma EnqueueOne(g: seq<GraphNode>, u: set<int>)
    requires FixedBound(g, u)
    ensures EnqueueAll(g, u, Adjacent(1), {1}, []) == Walk({1, 2, 3, 4}, [2, 3, 4])
  {
    var e := Walk({1, 2, 3, 4}, [2, 3, 4]);
    EnqueueDone(g, u, {1, 2, 3, 4}, [2, 3, 4]);
    EnqueueAdd(g, u, [4], {1, 2, 3}, {1, 2, 3, 4}, [2, 3], e);
    EnqueueAdd(g, u, [3, 4], {1, 2}, {1, 2, 3}, [2], e);
    EnqueueAdd(g, u, [2, 3, 4], {1}, {1, 2}, [], e);
  }

  /** Dequeuing 2 queues 5 and 6. */
  lemma EnqueueTwo(g: seq<GraphNode>, u: set<int>)
    requires FixedBound(g, u)
    ensures EnqueueAll(g, u, Adjacent(2), {1, 2, 3, 4}, [3, 4])
              == Walk({1, 2, 3, 4, 5, 6}, [3, 4, 5, 6])
  {
    var e := Walk({1, 2, 3, 4, 5, 6}, [3, 4, 5, 6]);
    EnqueueDone(g, u, {1, 2, 3, 4, 5, 6}, [3, 4, 5, 6]);
    EnqueueAdd(g, u, [6], {1, 2, 3, 4, 5}, {1, 2, 3, 4, 5, 6}, [3, 4, 5], e);
    EnqueueAdd(g, u, [5, 6], {1, 2, 3, 4}, {1, 2, 3, 4, 5}, [3, 4], e);
    EnqueueSkip(g, u, [1, 5, 6], {1, 2, 3, 4}, [3, 4], e);
  }

  /** Dequeuing 3 queues 7. */
  lemma EnqueueThree(g: seq<GraphNode>, u: set<int>)
    requires FixedBound(g, u)
    ensures EnqueueAll(g, u, Adjacent(3), {1, 2, 3, 4, 5, 6}, [4, 5, 6])
              == Walk({1, 2, 3, 4, 5, 6, 7}, [4, 5, 6, 7])
  {
    var e := Walk({1, 2, 3, 4, 5, 6, 7}, [4, 5, 6, 7]);
    EnqueueDone(g, u, {1, 2, 3, 4, 5, 6, 7}, [4, 5, 6, 7]);
    EnqueueAdd(g, u, [7], {1, 2, 3, 4, 5, 6}, {1, 2, 3, 4, 5, 6, 7}, [4, 5, 6], e);
    EnqueueSkip(g, u, [1, 7], {1, 2, 3, 4, 5, 6}, [4, 5, 6], e);
  }

  /** Dequeuing 4 queues 8 and 9. */
  lemma EnqueueFour(g: seq<GraphNode>, u: set<int>)
    requires FixedBound(g, u)
    ensures EnqueueAll(g, u, Adjacent(4), {1, 2, 3, 4, 5, 6, 7}, [5, 6, 7])
              == Walk({1, 2, 3, 4, 5, 6, 7, 8, 9}, [5, 6, 7, 8, 9])
  {
    var e := Walk({1, 2, 3, 4, 5, 6, 7, 8, 9}, [5, 6, 7, 8, 9]);
    EnqueueDone(g, u, {1, 2, 3, 4, 5, 6, 7, 8, 9}, [5, 6, 7, 8, 9]);
    EnqueueAdd(g, u, [9], {1, 2, 3, 4, 5, 6, 7, 8}, {1, 2, 3, 4, 5, 6, 7, 8, 9}, [5, 6, 7, 8], e);
    EnqueueAdd(g, u, [8, 9], {1, 2, 3, 4, 5, 6, 7}, {1, 2, 3, 4, 5, 6, 7, 8}, [5, 6, 7], e);
    EnqueueSkip(g, u, [1, 8, 9], {1, 2, 3, 4, 5, 6, 7}, [5, 6, 7], e);
  }

  lemma BfsFour(g: seq<GraphNode>, u: set<int>)
    requires FixedBound(g, u)
    ensures BfsFrom(g, u, [4, 5, 6, 7], {1, 2, 3, 4, 5, 6, 7}, [1, 2, 3])
              == [1, 2, 3, 4, 5, 6, 7, 8, 9]
  {
    BfsLeaves(g, u);
    EnqueueFour(g, u);
    BfsStep(g, u, 4, [5, 6, 7], [4, 5, 6, 7], {1, 2, 3, 4, 5, 6, 7}, [1, 2, 3], [1, 2, 3, 4],
            Walk({1, 2, 3, 4, 5, 6, 7, 8, 9}, [5, 6, 7, 8, 9]), [1, 2, 3, 4, 5, 6, 7, 8, 9]);
  }

  lemma BfsThree(g: seq<GraphNode>, u: set<int>)
    requires FixedBound(g, u)
    ensures BfsFrom(g, u, [3, 4, 5, 6], {1, 2, 3, 4, 5, 6}, [1, 2]) == [1, 2, 3, 4, 5, 6, 7, 8, 9]
  {
    BfsFour(g, u);
    EnqueueThree(g, u);
    BfsStep(g, u, 3, [4, 5, 6], [3, 4, 5, 6], {1, 2, 3, 4, 5, 6}, [1, 2], [1, 2, 3],
            Walk({1, 2, 3, 4, 5, 6, 7}, [4, 5, 6, 7]), [1, 2, 3, 4, 5, 6, 7, 8, 9]);
  }

  lemma BfsTwo(g: seq<GraphNode>, u: set<int>)
    requires FixedBound(g, u)
    ensures BfsFrom(g, u, [2, 3, 4], {1, 2, 3, 4}, [1]) == [1, 2, 3, 4, 5, 6, 7, 8, 9]
  {
    BfsThree(g, u);
    EnqueueTwo(g, u);
    BfsStep(g, u, 2, [3, 4], [2, 3, 4], {1, 2, 3, 4}, [1], [1, 2],
            Walk({1, 2, 3, 4, 5, 6}, [3, 4, 5, 6]), [1, 2, 3, 4, 5, 6, 7, 8, 9]);
  }

  lemma BfsOne(g: seq<GraphNode>, u: set<int>)
    requires FixedBound(g, u)
    ensures BfsFrom(g, u, [1], {1}, []) == [1, 2, 3, 4, 5, 6, 7, 8, 9]
  {
    BfsTwo(g, u);
    EnqueueOne(g, u);
    BfsStep(g, u, 1, [], [1], {1}, [], [1], Walk({1, 2, 3, 4}, [2, 3, 4]), [1, 2, 3, 4, 5, 6, 7, 8, 9]);
  }

  /** Breadth-first from node 1: the first level 2, 3, 4, then the second
      level in the order its parents were dequeued. */
  lemma FixedBfs()
    ensures Bfs(Nodes, 1) == [1, 2, 3, 4, 5, 6, 7, 8, 9]
  {
    FixedBoundHolds();
    BfsOne(Nodes, Universe(Nodes, 1));
  }

  /** Every connection is listed both ways: if `b` is among the
      connections of `a`, then `a` is among those of `b`. */
  lemma FixedSymmetric(a: int)
    ensures forall k :: 0 <= k < |Neighbors(Nodes, a)| ==> a in Neighbors(Nodes, Neighbors(Nodes, a)[k])
  {
    FixedNeighbors(a);
    var ns := Adjacent(a);
    forall k | 0 <= k < |ns| ensures a in Neighbors(Nodes, ns[k]) {
      var b := ns[k];
      FixedNeighbors(b);
      AdjacentSymmetric(a, b);
    }
  }

  lemma AdjacentSymmetric(a: int, b: int)
    requires b in Adjacent(a)
    ensures a in Adjacent(b)
  {
  }

  /** A walk in the adjacency table is a walk in the graph. */
  lemma AdjacentWalk(xs: seq<int>)
    requires forall k :: 0 < k < |xs| ==> xs[k] in Adjacent(xs[k - 1])
    ensures IsWalk(Nodes, xs)
  {
    forall k | 0 < k < |xs| ensures xs[k] in Neighbors(Nodes, xs[k - 1]) {
      FixedNeighbors(xs[k - 1]);
    }
  }

  /** A walk from node 1 down the tree to `id`. */
  function RouteTo(id: int): (xs: seq<int>)
    requires 1 <= id <= 9
    ensures |xs| > 0 && xs[0] == 1 && xs[|xs| - 1] == id
    ensures forall k :: 0 < k < |xs| ==> xs[k] in Adjacent(xs[k - 1])
  {
    if id == 1 then [1]
    else if id <= 4 then [1, id]
    else if id <= 6 then [1, 2, id]
    else if id == 7 then [1, 3, 7]
    else [1, 4, id]
  }

  function Reverse(xs: seq<int>): (r: seq<int>)
    ensures |r| == |xs| && forall k :: 0 <= k < |xs| ==> r[k] == xs[|xs| - 1 - k]
  {
    seq(|xs|, k requires 0 <= k < |xs| => xs[|xs| - 1 - k])
  }

  /** Walking a route backwards stays on the table's edges, which are
      symmetric. */
  lemma ReverseRoute(id: int)
    requires 1 <= id <= 9
    ensures var up := Reverse(RouteTo(id));
            forall k :: 0 < k < |up| ==> up[k] in Adjacent(up[k - 1])
  {
    var down := RouteTo(id);
    var up := Reverse(down);
    forall k | 0 < k < |up| ensures up[k] in Adjacent(up[k - 1]) {
      var n := |down| - 1;
      assert up[k] == down[n - k] && up[k - 1] == down[n - k + 1];
      AdjacentSymmetric(down[n - k], down[n - k + 1]);
    }
  }

  /** The graph is connected: any two nodes are joined by a walk, up from
      the first to node 1 and down to the second. */
  lemma FixedConnected(a: int, b: int)
    requires 1 <= a <= 9 && 1 <= b <= 9
    ensures var xs := Reverse(RouteTo(a)) + RouteTo(b)[1..];
            |xs| > 0 && xs[0] == a && xs[|xs| - 1] == b && IsWalk(Nodes, xs)
  {
    var up, down := Reverse(RouteTo(a)), RouteTo(b);
    ReverseRoute(a);
    var xs := up + down[1..];
    forall k | 0 < k < |xs| ensures xs[k] in Adjacent(xs[k - 1]) {
      if k < |up| {
        assert xs[k] == up[k] && xs[k - 1] == up[k - 1];
      } else if k == |up| {
        assert xs[k] == down[1] && xs[k - 1] == 1 == down[0];
      } else {
        assert xs[k] == down[k - |up| + 1] && xs[k - 1] == down[k - |up|];
      }
    }
    AdjacentWalk(xs);
  }

  /** Hops from node 1 along `RouteTo`. */
  function Level(id: int): (d: nat)
    requires 1 <= id <= 9
    ensures d == |RouteTo(id)| - 1
  {
    if id == 1 then 0 else if id <= 4 then 1 else 2
  }

  /** No walk from node 1 is shorter than `RouteTo`: a node `k` steps
      along any such walk is at most `k` levels down, so `Level` is the
      hop distance. */
  lemma {:induction false} WalkLevel(xs: seq<int>)
    requires |xs| > 0 && xs[0] == 1 && IsWalk(Nodes, xs)
    ensures forall k :: 0 <= k < |xs| ==> 1 <= xs[k] <= 9 && Level(xs[k]) <= k
  {
    if |xs| > 1 {
      var init := xs[..|xs| - 1];
      assert IsWalk(Nodes, init) by {
        forall k | 0 < k < |init| ensures init[k] in Neighbors(Nodes, init[k - 1]) {
          assert init[k] == xs[k] && init[k - 1] == xs[k - 1];
        }
      }
      WalkLevel(init);
      var n := |xs| - 1;
      assert xs[n - 1] == init[n - 1];
      FixedNeighbors(xs[n - 1]);
      assert xs[n] in Adjacent(xs[n - 1]);
      forall k | 0 <= k < |xs| ensures 1 <= xs[k] <= 9 && Level(xs[k]) <= k {
        if k < n {
          assert xs[k] == init[k];
        }
      }
    }
  }

  /** Every listed node is one of the nine, and their hop distances from
      node 1 never decrease along the list. */
  predicate LevelsSorted(b: seq<int>) {
    && (forall i :: 0 <= i < |b| ==> 1 <= b[i] <= 9)
    && (forall i, j :: 0 <= i < j < |b| ==> Level(b[i]) <= Level(b[j]))
  }

  lemma LevelsInOrder(b: seq<int>)
    requires b == [1, 2, 3, 4, 5, 6, 7, 8, 9]
    ensures LevelsSorted(b)
  {
    forall i | 0 <= i < 9 ensures b[i] == i + 1 {
    }
  }

  /** The breadth-first order from node 1 never moves back towards the
      start: the hop distance of the listed nodes is non-decreasing. */
  lemma FixedBfsByDistance(b: seq<int>)
    requires b == Bfs(Nodes, 1)
    ensures |b| == 9 && LevelsSorted(b)
  {
    FixedBfs();
    LevelsInOrder(b);
  }
}

=== FILE: markdown.dfy ===
/** The table-of-contents extractor for raw MDX: the heading scan of the
    pattern `^(#{1,6})\s+(.+)$` (global, multi-line), the anchor slugger
    and the per-document count map that makes repeated slugs distinct.
    The forest built from the headings lives in `TocForest`. */
module Markdown {
  import opened Wrappers
  import opened Seqs
  import opened Strings
  import opened TocForest

  // ---------------------------------------------------------------------
  // Slugs
  // ---------------------------------------------------------------------

  /** ASCII word characters: `\w` without the `u` flag. */
  predicate IsAsciiWord(c: char) {
    ('a' <= c <= 'z') || ('A' <= c <= 'Z') || ('0' <= c <= '9') || c == '_'
  }

  /** The Hangul blocks the slugger keeps: syllables, jamo, compatibility
      jamo and the two extended jamo blocks. */
  predicate IsHangul(c: char) {
    || ('\U{AC00}' <= c <= '\U{D7AF}')
    || ('\U{1100}' <= c <= '\U{11FF}')
    || ('\U{3130}' <= c <= '\U{318F}')
    || ('\U{A960}' <= c <= '\U{A97F}')
    || ('\U{D7B0}' <= c <= '\U{D7FF}')
  }

  /** The characters that survive the slugger's deletion step. */
  predicate IsSlugChar(c: char) {
    IsAsciiWord(c) || IsHangul(c) || IsJsWhitespace(c) || c == '-'
  }

  predicate IsHyphen(c: char) {
    c == '-'
  }

  /** Replaces every maximal run of characters satisfying `p` by one `-`
      (`replace(/p+/g, '-')`); `inRun` says the previous input character
      was already part of a run. */
  function SquashRuns(s: string, p: char -> bool, inRun: bool): (r: string)
    ensures forall i :: 0 <= i < |r| ==> r[i] == '-' || !p(r[i])
    ensures p('-') ==> forall i :: 0 <= i < |r| - 1 ==> !(r[i] == '-' && r[i + 1] == '-')
    ensures p('-') && inRun && |r| > 0 ==> r[0] != '-'
    ensures |r| <= |s|
  {
    if |s| == 0 then []
    else if p(s[0]) then
      if inRun then SquashRuns(s[1..], p, true) else "-" + SquashRuns(s[1..], p, true)
    else [s[0]] + SquashRuns(s[1..], p, false)
  }

  /** Every output character is the `-` or an input character. */
  lemma {:induction false} SquashRunsKeeps(s: string, p: char -> bool, inRun: bool, q: char -> bool)
    requires forall i :: 0 <= i < |s| ==> q(s[i])
    ensures forall i :: 0 <= i < |SquashRuns(s, p, inRun)| ==> SquashRuns(s, p, inRun)[i] == '-' || q(SquashRuns(s, p, inRun)[i])
  {
    if |s| > 0 {
      SquashRunsKeeps(s[1..], p, !inRun || p(s[0]), q);
      SquashRunsKeeps(s[1..], p, p(s[0]), q);
    }
  }

  /** A string with no character of the run class is left alone. */
  lemma {:induction false} SquashRunsNoRun(s: string, p: char -> bool, inRun: bool)
    requires forall i :: 0 <= i < |s| ==> !p(s[i])
    ensures SquashRuns(s, p, inRun) == s
  {
    if |s| > 0 {
      SquashRunsNoRun(s[1..], p, false);
    }
  }

  /** A string with no `--` (and no leading `-` right after a run) is left
      alone by the hyphen squash. */
  lemma {:induction false} SquashHyphensNoDouble(s: string, inRun: bool)
    requires forall i :: 0 <= i < |s| - 1 ==> !(s[i] == '-' && s[i + 1] == '-')
    requires inRun ==> |s| == 0 || s[0] != '-'
    ensures SquashRuns(s, IsHyphen, inRun) == s
  {
    if |s| > 0 {
      SquashHyphensNoDouble(s[1..], s[0] == '-');
      HeadTail(s);
    }
  }

  /** `generateHeadingId`: lower-case, delete everything but ASCII word
      characters, Hangul, white space and `-`, trim, turn white-space runs
      into `-` and collapse `-` runs. */
  function Slug(text: string): string {
    var kept := Filter(ToLower(text), IsSlugChar);
    var spaced := SquashRuns(Trim(kept), IsJsWhitespace, false);
    SquashRuns(spaced, IsHyphen, false)
  }

  /** What a slug can look like: only lower-case ASCII word characters,
      Hangul and `-`, no white space, and never two `-` in a row. */
  predicate IsSlugShaped(s: string) {
    && (forall i :: 0 <= i < |s| ==> IsSlugChar(s[i]) && !IsJsWhitespace(s[i]) && !IsAsciiUpper(s[i]))
    && (forall i :: 0 <= i < |s| - 1 ==> !(s[i] == '-' && s[i + 1] == '-'))
  }

  /** Characters kept by the deletion step, before white space is
      squashed. */
  predicate IsKeptChar(c: char) {
    IsSlugChar(c) && !IsAsciiUpper(c)
  }

  lemma KeptChars(text: string)
    ensures forall i :: 0 <= i < |Filter(ToLower(text), IsSlugChar)| ==> IsKeptChar(Filter(ToLower(text), IsSlugChar)[i])
  {
  }

  lemma TrimKeepsChars(kept: string)
    requires forall i :: 0 <= i < |kept| ==> IsKeptChar(kept[i])
    ensures forall i :: 0 <= i < |Trim(kept)| ==> IsKeptChar(Trim(kept)[i])
  {
    var t := Trim(kept);
    assert forall i :: 0 <= i < |t| ==> t[i] in kept;
  }

  lemma SquashSpacesChars(trimmed: string)
    requires forall i :: 0 <= i < |trimmed| ==> IsKeptChar(trimmed[i])
    ensures forall i :: 0 <= i < |SquashRuns(trimmed, IsJsWhitespace, false)| ==>
              var c := SquashRuns(trimmed, IsJsWhitespace, false)[i]; IsKeptChar(c) && !IsJsWhitespace(c)
  {
    SquashRunsKeeps(trimmed, IsJsWhitespace, false, IsKeptChar);
  }

  predicate IsSpacedChar(c: char) {
    IsKeptChar(c) && !IsJsWhitespace(c)
  }

  lemma SquashHyphensShape(spaced: string)
    requires forall i :: 0 <= i < |spaced| ==> IsSpacedChar(spaced[i])
    ensures IsSlugShaped(SquashRuns(spaced, IsHyphen, false))
  {
    SquashRunsKeeps(spaced, IsHyphen, false, IsSpacedChar);
  }

  /** Every slug is slug-shaped. */
  lemma SlugShape(text: string)
    ensures IsSlugShaped(Slug(text))
  {
    var kept := Filter(ToLower(text), IsSlugChar);
    KeptChars(text);
    TrimKeepsChars(kept);
    SquashSpacesChars(Trim(kept));
    SquashHyphensShape(SquashRuns(Trim(kept), IsJsWhitespace, false));
  }

  /** A slug-shaped string is its own slug. */
  lemma SlugOfSlugShaped(s: string)
    requires IsSlugShaped(s)
    ensures Slug(s) == s
  {
    assert ToLower(s) == s by {
      assert forall i :: 0 <= i < |s| ==> s[i] != '\U{212A}' && s[i] != '\U{0130}';
      ToLowerIdempotent(s);
    }
    assert Filter(s, IsSlugChar) == s by {
      FilterAll(s, IsSlugChar);
    }
    assert Trim(s) == s by {
      TrimNoop(s);
    }
    assert SquashRuns(s, IsJsWhitespace, false) == s by {
      SquashRunsNoRun(s, IsJsWhitespace, false);
    }
    SquashHyphensNoDouble(s, false);
  }

  /** Slugging a slug changes nothing. */
  lemma SlugIdempotent(text: string)
    ensures Slug(Slug(text)) == Slug(text)
  {
    SlugShape(text);
    SlugOfSlugShaped(Slug(text));
  }

  /** A prefix without run characters passes through the squash. */
  lemma {:induction false} SquashRunsPlainPrefix(a: string, b: string, p: char -> bool, inRun: bool)
    requires |a| > 0 && forall i :: 0 <= i < |a| ==> !p(a[i])
    ensures SquashRuns(a + b, p, inRun) == a + SquashRuns(b, p, false)
  {
    assert (a + b)[1..] == a[1..] + b;
    if |a| > 1 {
      SquashRunsPlainPrefix(a[1..], b, p, false);
    }
    HeadTail(a);
  }

  /** The slug read off its five steps. */
  lemma SlugSteps(text: string, lowered: string, spaced: string)
    requires ToLower(text) == lowered
    requires Trim(Filter(lowered, IsSlugChar)) == lowered
    requires SquashRuns(lowered, IsJsWhitespace, false) == spaced
    requires SquashRuns(spaced, IsHyphen, false) == spaced
    ensures Slug(text) == spaced
  {
  }

  /** Lower-casing a capitalised word. */
  lemma LowerFirst(c: char, u: string)
    requires IsAsciiUpper(c)
    requires forall i :: 0 <= i < |u| ==> !IsAsciiUpper(u[i]) && u[i] != '\U{212A}' && u[i] != '\U{0130}'
    ensures ToLower([c] + u) == [(c as int + 32) as char] + u
  {
    assert ([c] + u)[1..] == u;
    ToLowerIdempotent(u);
  }

  /** A single run character between two plain parts becomes one `-`. */
  lemma SquashSingle(a: string, c: char, b: string, p: char -> bool)
    requires |a| > 0 && forall i :: 0 <= i < |a| ==> !p(a[i])
    requires p(c)
    requires forall i :: 0 <= i < |b| ==> !p(b[i])
    ensures SquashRuns(a + [c] + b, p, false) == a + "-" + b
  {
    Assoc(a, [c], b);
    SquashRunsPlainPrefix(a, [c] + b, p, false);
    SquashRunStart(c, b, p);
    Assoc(a, "-", b);
  }

  /** A run character before a plain part becomes one `-`. */
  lemma SquashRunStart(c: char, b: string, p: char -> bool)
    requires p(c) && forall i :: 0 <= i < |b| ==> !p(b[i])
    ensures SquashRuns([c] + b, p, false) == "-" + b
  {
    var cb := [c] + b;
    assert cb[1..] == b;
    SquashRunsNoRun(b, p, true);
  }

  lemma ExampleLower(text: string, u: string, lowered: string)
    requires text == "Redis \U{AC1C}\U{C694}" && u == "edis \U{AC1C}\U{C694}"
    requires lowered == "redis \U{AC1C}\U{C694}"
    ensures ToLower(text) == lowered
  {
    assert text == ['R'] + u;
    LowerFirst('R', u);
    assert lowered == ['r'] + u;
  }

  lemma ExampleSpaces()
    ensures SquashRuns("redis \U{AC1C}\U{C694}", IsJsWhitespace, false) == "redis-\U{AC1C}\U{C694}"
  {
    SquashSingle("redis", ' ', "\U{AC1C}\U{C694}", IsJsWhitespace);
    assert "redis \U{AC1C}\U{C694}" == "redis" + [' '] + "\U{AC1C}\U{C694}";
    assert "redis-\U{AC1C}\U{C694}" == "redis" + "-" + "\U{AC1C}\U{C694}";
  }

  /** A string of slug characters with no white space at its ends comes
      through filtering and trimming unchanged. */
  lemma KeptWhole(s: string)
    requires forall x :: x in s ==> IsSlugChar(x)
    requires |s| > 0 && !IsJsWhitespace(s[0]) && !IsJsWhitespace(s[|s| - 1])
    ensures Trim(Filter(s, IsSlugChar)) == s
  {
    FilterAll(s, IsSlugChar);
    TrimNoop(s);
  }

  lemma ExampleChars(lowered: string)
    requires lowered == "redis \U{AC1C}\U{C694}"
    ensures forall x :: x in lowered ==> IsSlugChar(x)
    ensures |lowered| > 0 && !IsJsWhitespace(lowered[0]) && !IsJsWhitespace(lowered[|lowered| - 1])
  {
    forall i | 0 <= i < |lowered| ensures IsSlugChar(lowered[i]) {
      assert lowered[i] in "redis \U{AC1C}\U{C694}";
    }
  }

  lemma ExampleHyphens(slug: string)
    requires slug == "redis-\U{AC1C}\U{C694}"
    ensures SquashRuns(slug, IsHyphen, false) == slug
  {
    SquashHyphensNoDouble(slug, false);
  }

  /** The slug of the heading text used by the repository's own test:
      "Redis" and the two Hangul syllables of "overview". */
  lemma SlugExample(text: string, lowered: string, slug: string)
    requires text == "Redis \U{AC1C}\U{C694}"
    requires lowered == "redis \U{AC1C}\U{C694}"
    requires slug == "redis-\U{AC1C}\U{C694}"
    ensures Slug(text) == slug
  {
    ExampleLower(text, "edis \U{AC1C}\U{C694}", lowered);
    ExampleSpaces();
    ExampleChars(lowered);
    KeptWhole(lowered);
    ExampleHyphens(slug);
    SlugSteps(text, lowered, slug);
  }

  // ---------------------------------------------------------------------
  // The heading scan
  // ---------------------------------------------------------------------

  /** A heading line as the pattern reports it: where the match starts,
      the number of `#` and the trimmed second group. */
  datatype RawHeading = RawHeading(start: nat, level: nat, text: string)

  /** `^` under the `m` flag: the start of the input or just after a line
      terminator. */
  predicate IsLineStart(s: string, p: nat)
    requires p <= |s|
  {
    p == 0 || IsLineTerminator(s[p - 1])
  }

  predicate IsHash(c: char) {
    c == '#'
  }

  /** What `.` matches: anything but a line terminator. */
  predicate IsLineContent(c: char) {
    !IsLineTerminator(c)
  }

  /** The end of the run of characters satisfying `q` that starts at `i`. */
  function RunEnd(s: string, i: nat, q: char -> bool): (e: nat)
    requires i <= |s|
    ensures i <= e <= |s|
    ensures forall k :: i <= k < e ==> q(s[k])
    ensures e == |s| || !q(s[e])
    decreases |s| - i
  {
    if i == |s| || !q(s[i]) then i else RunEnd(s, i + 1, q)
  }

  /** Where the match at `p` puts its groups. */
  datatype Match = Match(level: nat, textStart: nat, textEnd: nat)

  /** The pattern `^(#{1,6})\s+(.+)$` tried at line start `p`. The hash
      run must be 1 to 6 long and followed by white space: a longer run
      leaves a `#` where `\s` must match, whatever the backtracking. The
      white-space run is taken whole, and the text runs to the next line
      terminator. When the white space runs to the end of the input, the
      only matches left give a white-space-only second group, which the
      parser drops; there is no heading here and none after, so the
      attempt is reported as no match. */
  function MatchAt(s: string, p: nat): (m: Option<Match>)
    requires p <= |s|
    ensures m.Some? ==>
      && 1 <= m.value.level <= 6 && p + m.value.level < m.value.textStart < m.value.textEnd <= |s|
      && (forall k :: p <= k < p + m.value.level ==> s[k] == '#')
      && (forall k :: p + m.value.level <= k < m.value.textStart ==> IsJsWhitespace(s[k]))
      && !IsJsWhitespace(s[m.value.textStart])
      && (forall k :: m.value.textStart <= k < m.value.textEnd ==> !IsLineTerminator(s[k]))
      && (m.value.textEnd == |s| || IsLineTerminator(s[m.value.textEnd]))
  {
    var q := RunEnd(s, p, IsHash);
    var level := q - p;
    if 1 <= level <= 6 && q < |s| && IsJsWhitespace(s[q]) then
      var r := RunEnd(s, q, IsJsWhitespace);
      if r < |s| then Some(Match(level, r, RunEnd(s, r, IsLineContent))) else None
    else None
  }

  /** What the pattern promises about one reported heading of `s`: it
      starts a line, its `#` run of 1 to 6 is followed by white space,
      and its text is a non-empty piece of one line with no white space
      at either end. */
  predicate IsHeadingLine(s: string, h: RawHeading) {
    && h.start < |s| && IsLineStart(s, h.start)
    && 1 <= h.level <= 6 && h.start + h.level < |s|
    && (forall j :: h.start <= j < h.start + h.level ==> s[j] == '#')
    && IsJsWhitespace(s[h.start + h.level])
    && |h.text| > 0
    && !IsJsWhitespace(h.text[0]) && !IsJsWhitespace(h.text[|h.text| - 1])
    && (forall j :: 0 <= j < |h.text| ==> !IsLineTerminator(h.text[j]))
  }

  /** The heading built from a match at a line start satisfies
      `IsHeadingLine`. */
  lemma MatchIsHeadingLine(s: string, p: nat)
    requires p < |s| && IsLineStart(s, p) && MatchAt(s, p).Some?
    ensures IsHeadingLine(s, MatchHeading(s, p))
  {
    var m := MatchAt(s, p).value;
    var raw := s[m.textStart..m.textEnd];
    assert !IsJsWhitespace(raw[0]);
    var t := Trim(raw);
    assert LeadingWhitespace(raw) == 0;
    assert |t| > 0;
    forall j | 0 <= j < |t| ensures !IsLineTerminator(t[j]) {
      assert t[j] == raw[j] == s[m.textStart + j];
    }
  }

  function MatchHeading(s: string, p: nat): RawHeading
    requires p <= |s| && MatchAt(s, p).Some?
  {
    var m := MatchAt(s, p).value;
    RawHeading(p, m.level, Trim(s[m.textStart..m.textEnd]))
  }

  /** The `exec` loop from position `i`: at each line start the pattern
      is tried; after a match the search resumes where the match ended,
      otherwise at the next position. */
  function Scan(s: string, i: nat): (r: seq<RawHeading>)
    requires i <= |s|
    ensures |r| <= |s| - i
    decreases |s| - i
  {
    if i == |s| then []
    else if IsLineStart(s, i) && MatchAt(s, i).Some? then
      [MatchHeading(s, i)] + Scan(s, MatchAt(s, i).value.textEnd)
    else Scan(s, i + 1)
  }

  /** Every heading the scan from `i` reports is a heading line of `s`
      starting at or after `i`, in increasing order of position. */
  ghost predicate ScanSoundFrom(s: string, i: nat, r: seq<RawHeading>) {
    && (forall k :: 0 <= k < |r| ==> i <= r[k].start && IsHeadingLine(s, r[k]))
    && (forall k, l :: 0 <= k < l < |r| ==> r[k].start < r[l].start)
  }

  lemma {:induction false} ScanSound(s: string, i: nat)
    requires i <= |s|
    ensures ScanSoundFrom(s, i, Scan(s, i))
    decreases |s| - i
  {
    if i < |s| {
      if MatchesAt(s, i) {
        var e := MatchEnd(s, i);
        ScanAtMatch(s, i);
        ScanSound(s, e);
        MatchIsHeadingLine(s, i);
        ScanSoundCons(s, i, e, MatchHeading(s, i), Scan(s, e), Scan(s, i));
      } else {
        var j := i + 1;
        ScanNoMatch(s, i, j);
        ScanSound(s, j);
        ScanSoundLater(s, i, j, Scan(s, j), Scan(s, i));
      }
    }
  }

  /** One step of the scan, at a match and elsewhere. */
  lemma ScanAtMatch(s: string, i: nat)
    requires MatchesAt(s, i)
    ensures Scan(s, i) == [MatchHeading(s, i)] + Scan(s, MatchEnd(s, i))
  {
  }

  lemma ScanNoMatch(s: string, i: nat, j: nat)
    requires i < |s| && !MatchesAt(s, i) && j == i + 1
    ensures Scan(s, i) == Scan(s, j)
  {
  }

  lemma ScanSoundLater(s: string, i: nat, j: nat, rest: seq<RawHeading>, r: seq<RawHeading>)
    requires i < j && ScanSoundFrom(s, j, rest) && r == rest
    ensures ScanSoundFrom(s, i, r)
  {
  }

  lemma ScanSoundCons(s: string, i: nat, e: nat, h: RawHeading, rest: seq<RawHeading>, r: seq<RawHeading>)
    requires i < e && h.start == i && IsHeadingLine(s, h) && ScanSoundFrom(s, e, rest)
    requires r == [h] + rest
    ensures ScanSoundFrom(s, i, r)
  {
    forall k | 1 <= k < |r| ensures r[k] == rest[k - 1] {}
  }

  /** The pattern matches at `q`. */
  predicate MatchesAt(s: string, q: nat) {
    q < |s| && IsLineStart(s, q) && MatchAt(s, q).Some?
  }

  /** Where the search resumes after the match at `q`. */
  function MatchEnd(s: string, q: nat): (e: nat)
    requires MatchesAt(s, q)
    ensures q < e <= |s|
  {
    MatchAt(s, q).value.textEnd
  }

  /** The scan from `i` reports the first match at or after `i` and then
      goes on from that match's end. */
  lemma {:induction false} ScanFirstMatch(s: string, i: nat, p: nat)
    requires i <= p && MatchesAt(s, p)
    requires forall q :: i <= q < p ==> !MatchesAt(s, q)
    ensures Scan(s, i) == [MatchHeading(s, p)] + Scan(s, MatchEnd(s, p))
    decreases p - i
  {
    if i < p {
      var j := i + 1;
      ScanNoMatch(s, i, j);
      ScanFirstMatch(s, j, p);
    } else {
      ScanAtMatchAt(s, i, p);
    }
  }

  lemma ScanAtMatchAt(s: string, i: nat, p: nat)
    requires i == p && MatchesAt(s, p)
    ensures Scan(s, i) == [MatchHeading(s, p)] + Scan(s, MatchEnd(s, p))
  {
    ScanAtMatch(s, p);
  }

  /** With no match at or after `i`, the scan reports nothing, and
      conversely. */
  lemma {:induction false} ScanEmpty(s: string, i: nat)
    requires i <= |s|
    ensures Scan(s, i) == [] <==> forall q :: i <= q < |s| ==> !MatchesAt(s, q)
    decreases |s| - i
  {
    if i < |s| {
      var j := i + 1;
      ScanEmpty(s, j);
      if MatchesAt(s, i) {
        ScanAtMatch(s, i);
      } else {
        ScanNoMatch(s, i, j);
      }
    }
  }

  /** `RunEnd` is the first position from `i` that breaks the run. */
  lemma {:induction false} RunEndIs(s: string, i: nat, q: char -> bool, e: nat)
    requires i <= e <= |s|
    requires forall k :: i <= k < e ==> q(s[k])
    requires e == |s| || !q(s[e])
    ensures RunEnd(s, i, q) == e
    decreases e - i
  {
    if i < e {
      RunEndIs(s, i + 1, q, e);
    }
  }

  /** A position that does not hold `#` starts no heading. */
  lemma ScanSkip(s: string, i: nat)
    requires i < |s| && s[i] != '#'
    ensures Scan(s, i) == Scan(s, i + 1)
  {
    assert RunEnd(s, i, IsHash) == i;
  }

  /** The match at a line start `p` with `h` hashes, one space and a
      text from `p + h + 1` to the line end `te`. */
  lemma MatchAtLine(s: string, p: nat, h: nat, te: nat)
    requires 1 <= h <= 6 && p + h + 1 < te <= |s|
    requires forall j :: p <= j < p + h ==> s[j] == '#'
    requires s[p + h] == ' ' && !IsJsWhitespace(s[p + h + 1])
    requires forall j :: p + h + 1 <= j < te ==> !IsLineTerminator(s[j])
    requires te == |s| || IsLineTerminator(s[te])
    ensures MatchAt(s, p) == Some(Match(h, p + h + 1, te))
  {
    RunEndIs(s, p, IsHash, p + h);
    RunEndIs(s, p + h, IsJsWhitespace, p + h + 1);
    RunEndIs(s, p + h + 1, IsLineContent, te);
  }

  /** Line start `p` holds `h` hashes, one space and a text from
      `p + h + 1` that starts with no white space and runs to the line end
      `te`. */
  predicate HeadingLineAt(s: string, p: nat, h: nat, te: nat) {
    && 1 <= h <= 6 && p + h + 1 < te <= |s|
    && IsLineStart(s, p)
    && (forall j :: p <= j < p + h ==> s[j] == '#')
    && s[p + h] == ' ' && !IsJsWhitespace(s[p + h + 1])
    && (forall j :: p + h + 1 <= j < te ==> !IsLineTerminator(s[j]))
    && (te == |s| || IsLineTerminator(s[te]))
  }

  /** The scan at such a line start reports the heading and goes on at
      the line end. */
  lemma ScanLineAt(s: string, p: nat, h: nat, te: nat)
    requires HeadingLineAt(s, p, h, te)
    ensures Scan(s, p) == [RawHeading(p, h, Trim(s[p + h + 1..te]))] + Scan(s, te)
  {
    MatchAtLine(s, p, h, te);
    MatchParts(s, p, h, te);
    ScanAtMatch(s, p);
  }

  /** The heading and the resume position of a known match. */
  lemma MatchParts(s: string, p: nat, h: nat, te: nat)
    requires p < |s| && IsLineStart(s, p) && p + h + 1 <= te <= |s|
    requires MatchAt(s, p) == Some(Match(h, p + h + 1, te))
    ensures MatchesAt(s, p) && MatchEnd(s, p) == te
    ensures MatchHeading(s, p) == RawHeading(p, h, Trim(s[p + h + 1..te]))
  {
  }

  /** A line made of `marker` (1 to 6 `#` and one space) and a text that
      starts with no white space, between line boundaries, is reported as
      one heading, and the scan goes on at the end of the line. */
  lemma ScanHeadingLine(s: string, pre: string, marker: string, text: string, post: string)
    requires s == pre + marker + text + post
    requires |pre| == 0 || IsLineTerminator(pre[|pre| - 1])
    requires 2 <= |marker| <= 7 && marker[|marker| - 1] == ' '
    requires forall j :: 0 <= j < |marker| - 1 ==> marker[j] == '#'
    requires |text| > 0 && !IsJsWhitespace(text[0])
    requires forall j :: 0 <= j < |text| ==> !IsLineTerminator(text[j])
    requires |post| == 0 || IsLineTerminator(post[0])
    ensures Scan(s, |pre|) == [RawHeading(|pre|, |marker| - 1, Trim(text))] + Scan(s, |pre + marker + text|)
  {
    var p, h, te := |pre|, |marker| - 1, |pre + marker + text|;
    HeadingLineParts(s, pre, marker, text, post);
    ScanLineAt(s, p, h, te);
  }

  /** The character-level facts about such a line that `ScanLineAt`
      needs. */
  lemma HeadingLineParts(s: string, pre: string, marker: string, text: string, post: string)
    requires s == pre + marker + text + post
    requires |pre| == 0 || IsLineTerminator(pre[|pre| - 1])
    requires 2 <= |marker| <= 7 && marker[|marker| - 1] == ' '
    requires forall j :: 0 <= j < |marker| - 1 ==> marker[j] == '#'
    requires |text| > 0 && !IsJsWhitespace(text[0])
    requires forall j :: 0 <= j < |text| ==> !IsLineTerminator(text[j])
    requires |post| == 0 || IsLineTerminator(post[0])
    ensures HeadingLineAt(s, |pre|, |marker| - 1, |pre + marker + text|)
    ensures s[|pre| + |marker|..|pre + marker + text|] == text
  {
    var p := |pre|;
    var h := |marker| - 1;
    var ts := p + |marker|;
    var te := ts + |text|;
    assert s[ts..te] == text;
    assert forall j :: 0 <= j < |marker| ==> s[p + j] == marker[j];
    assert forall j :: 0 <= j < |text| ==> s[ts + j] == text[j];
    assert te < |s| ==> s[te] == post[0];
    assert p > 0 ==> s[p - 1] == pre[p - 1];
    forall j | p <= j < p + h ensures s[j] == '#' {
      assert s[p + (j - p)] == marker[j - p];
    }
    forall j | ts <= j < te ensures !IsLineTerminator(s[j]) {
      assert s[ts + (j - ts)] == text[j - ts];
    }
  }

  // ---------------------------------------------------------------------
  // Heading ids
  // ---------------------------------------------------------------------

  /** The id of the heading whose slug `base` has been seen `k` times
      before: the slug itself the first time, then the slug and the count
      joined by `-`. */
  function IdFor(base: string, k: nat): (id: string)
    ensures StartsWith(id, base)
    ensures k == 0 <==> |id| == |base|
  {
    if k == 0 then base else base + "-" + NatToString(k)
  }

  /** The slug of every heading text, in order. */
  function Bases(raw: seq<RawHeading>): (b: seq<string>)
    ensures |b| == |raw|
    ensures forall k :: 0 <= k < |raw| ==> b[k] == Slug(raw[k].text)
  {
    seq(|raw|, k requires 0 <= k < |raw| => Slug(raw[k].text))
  }

  /** Numbers the slugs, `counts` holding how often each slug has been
      seen: the first occurrence keeps the slug and stores 1, a later one
      appends the stored count and increments it. The count map holds
      only the slugs seen so far, as a map with no inherited keys would;
      `NumberIdsAsWritten` is the plain-object version. */
  function NumberIds(bases: seq<string>, counts: map<string, nat>): (ids: seq<string>)
    ensures |ids| == |bases|
    ensures forall k :: 0 <= k < |bases| ==> StartsWith(ids[k], bases[k])
  {
    if |bases| == 0 then []
    else
      var base := bases[0];
      var k := if base in counts then counts[base] else 0;
      [IdFor(base, k)] + NumberIds(bases[1..], counts[base := k + 1])
  }

  /** Attaches an id to every scanned heading, counting slugs from an
      empty map for each document. */
  function AssignIds(raw: seq<RawHeading>): (hs: seq<Heading>)
    ensures |hs| == |raw|
    ensures forall k :: 0 <= k < |raw| ==> hs[k].text == raw[k].text && hs[k].level == raw[k].level
    ensures forall k :: 0 <= k < |raw| ==> hs[k].id == NumberIds(Bases(raw), map[])[k]
  {
    var ids := NumberIds(Bases(raw), map[]);
    seq(|raw|, k requires 0 <= k < |raw| => Heading(ids[k], raw[k].text, raw[k].level))
  }

  /** `counts` records exactly the slugs of `earlier`, each with its
      number of occurrences. */
  ghost predicate CountsAgree(counts: map<string, nat>, earlier: seq<string>) {
    forall b :: (b in counts <==> b in earlier) && (b in counts ==> counts[b] == Count(earlier, b))
  }

  lemma CountsAgreeEmpty()
    ensures CountsAgree(map[], [])
  {
  }

  lemma CountsAgreeStep(counts: map<string, nat>, earlier: seq<string>, base: string)
    requires CountsAgree(counts, earlier)
    ensures var k := if base in counts then counts[base] else 0;
            CountsAgree(counts[base := k + 1], earlier + [base])
  {
    var k := if base in counts then counts[base] else 0;
    assert multiset(earlier + [base]) == multiset(earlier) + multiset{base};
    assert base !in counts ==> Count(earlier, base) == 0;
    forall b ensures b in counts[base := k + 1] <==> b in earlier + [base] {
      assert b in earlier + [base] <==> b in earlier || b == base;
    }
  }

  /** The slugs before the `k`-th one, seen from the rest after the
      first. */
  lemma EarlierShift(earlier: seq<string>, bases: seq<string>, k: nat)
    requires 1 <= k < |bases|
    ensures (earlier + [bases[0]]) + bases[1..][..k - 1] == earlier + bases[..k]
  {
    assert bases[..k] == [bases[0]] + bases[1..][..k - 1];
  }

  /** The first id of a non-empty run. */
  lemma NumberIdsHead(bases: seq<string>, counts: map<string, nat>, earlier: seq<string>)
    requires |bases| > 0 && CountsAgree(counts, earlier)
    ensures NumberIds(bases, counts)[0] == IdFor(bases[0], Count(earlier + bases[..0], bases[0]))
  {
    var base := bases[0];
    assert base !in counts ==> Count(earlier, base) == 0;
    assert earlier + bases[..0] == earlier;
  }

  /** With a count map that agrees with the slugs already seen, the
      `k`-th id is its slug numbered by the occurrences of that slug
      before it. */
  lemma {:induction false} NumberIdsFrom(bases: seq<string>, counts: map<string, nat>, earlier: seq<string>)
    requires CountsAgree(counts, earlier)
    ensures forall k :: 0 <= k < |bases| ==>
      NumberIds(bases, counts)[k] == IdFor(bases[k], Count(earlier + bases[..k], bases[k]))
  {
    if |bases| > 0 {
      var base := bases[0];
      var n := if base in counts then counts[base] else 0;
      var counts' := counts[base := n + 1];
      var tail := bases[1..];
      NumberIdsStep(bases, counts, base, n);
      CountsAgreeStep(counts, earlier, base);
      NumberIdsFrom(tail, counts', earlier + [base]);
      NumberIdsHead(bases, counts, earlier);
      NumberIdsShift(bases, earlier, NumberIds(bases, counts), NumberIds(tail, counts'));
    }
  }

  /** The ids of the rest, numbered after the first slug, extend to the
      whole. */
  lemma NumberIdsShift(bases: seq<string>, earlier: seq<string>, ids: seq<string>, rest: seq<string>)
    requires |bases| > 0 && |ids| > 0 && ids[1..] == rest && |rest| == |bases| - 1
    requires ids[0] == IdFor(bases[0], Count(earlier + bases[..0], bases[0]))
    requires forall k :: 0 <= k < |bases[1..]| ==>
      rest[k] == IdFor(bases[1..][k], Count((earlier + [bases[0]]) + bases[1..][..k], bases[1..][k]))
    ensures forall k :: 0 <= k < |bases| ==> ids[k] == IdFor(bases[k], Count(earlier + bases[..k], bases[k]))
  {
    forall k | 1 <= k < |bases|
      ensures ids[k] == IdFor(bases[k], Count(earlier + bases[..k], bases[k]))
    {
      assert ids[k] == rest[k - 1];
      assert bases[1..][k - 1] == bases[k];
      EarlierShift(earlier, bases, k);
    }
  }

  /** The ids of a document: the `k`-th heading's id is its slug, numbered
      by how many earlier headings share that slug. */
  lemma AssignIdsSpec(raw: seq<RawHeading>)
    ensures forall k :: 0 <= k < |raw| ==>
      AssignIds(raw)[k].id == IdFor(Bases(raw)[k], Count(Bases(raw)[..k], Bases(raw)[k]))
  {
    var b := Bases(raw);
    CountsAgreeEmpty();
    NumberIdsFrom(b, map[], []);
    forall k | 0 <= k < |raw| ensures AssignIds(raw)[k].id == IdFor(b[k], Count(b[..k], b[k])) {
      assert [] + b[..k] == b[..k];
    }
  }

  /** Different occurrence counts of one slug give different ids. */
  lemma IdForInjective(base: string, m: nat, n: nat)
    requires m != n
    ensures IdFor(base, m) != IdFor(base, n)
  {
    if m > 0 && n > 0 && IdFor(base, m) == IdFor(base, n) {
      var a := IdFor(base, m);
      assert a[|base| + 1..] == NatToString(m);
      assert IdFor(base, n)[|base| + 1..] == NatToString(n);
      NatToStringInjective(m, n);
    }
  }

  lemma CountGrows(s: seq<string>, k: nat, l: nat)
    requires k < l <= |s|
    ensures Count(s[..l], s[k]) > Count(s[..k], s[k])
  {
    assert s[..l] == s[..k] + s[k..l];
    assert multiset(s[..l]) == multiset(s[..k]) + multiset(s[k..l]);
    assert s[k..l][0] == s[k];
  }

  /** Two headings of one document with the same slug never get the same
      id. */
  lemma SameSlugDistinctIds(raw: seq<RawHeading>, k: nat, l: nat)
    requires k < l < |raw| && Slug(raw[k].text) == Slug(raw[l].text)
    ensures AssignIds(raw)[k].id != AssignIds(raw)[l].id
  {
    AssignIdsSpec(raw);
    var b := Bases(raw);
    CountGrows(b, k, l);
    IdForInjective(b[k], Count(b[..k], b[k]), Count(b[..l], b[l]));
  }

  /** "a-1" is its own slug. */
  lemma SlugOfNumbered()
    ensures Slug("a-1") == "a-1"
  {
    assert IsSlugShaped("a-1");
    SlugOfSlugShaped("a-1");
  }

  /** Numbering only separates headings with the same slug: a heading whose
      own slug looks like a numbered one (such as the text "a-1", by
      `SlugOfNumbered`) takes the id of an earlier repeat. */
  lemma NumberedSlugCollides(raw: seq<RawHeading>)
    requires |raw| == 3
    requires Slug(raw[0].text) == "a" && Slug(raw[1].text) == "a" && Slug(raw[2].text) == "a-1"
    ensures AssignIds(raw)[1].id == AssignIds(raw)[2].id == "a-1"
  {
    var b := Bases(raw);
    NumberedIds(b);
    assert AssignIds(raw)[1].id == NumberIds(b, map[])[1];
    assert AssignIds(raw)[2].id == NumberIds(b, map[])[2];
  }

  lemma NumberedIds(b: seq<string>)
    requires |b| == 3 && b[0] == "a" && b[1] == "a" && b[2] == "a-1"
    ensures NumberIds(b, map[]) == ["a", "a-1", "a-1"]
  {
    assert b == ["a", "a", "a-1"];
    assert b[1..] == ["a", "a-1"] && b[1..][1..] == ["a-1"] && b[1..][1..][1..] == [];
    assert NumberIds(["a-1"], map["a" := 2]) == [IdFor("a-1", 0)] + [];
    assert NatToString(1) == "1";
    assert IdFor("a", 1) == "a-1";
    assert NumberIds(["a", "a-1"], map["a" := 1]) == [IdFor("a", 1)] + NumberIds(["a-1"], map["a" := 2]);
    assert NumberIds(b, map[]) == [IdFor("a", 0)] + NumberIds(["a", "a-1"], map["a" := 1]);
  }

  // ---------------------------------------------------------------------
  // The count map as written: a plain object literal
  // ---------------------------------------------------------------------

  /** The values a lookup in the plain-object count map can produce: a
      stored count, a string left by `+ 1` on a non-number, or one of the
      members every object inherits from `Object.prototype`. */
  datatype JsValue = Undefined | Num(n: nat) | Str(s: string) | NativeFunction(name: string) | ObjectPrototype

  /** The properties `Object.prototype` provides to an empty object
      literal: its methods and the `__proto__` accessor. */
  function Inherited(key: string): JsValue {
    if key == "__proto__" then ObjectPrototype
    else if key == "constructor" then NativeFunction("Object")
    else if key in {"hasOwnProperty", "isPrototypeOf", "propertyIsEnumerable", "toString", "toLocaleString",
                    "valueOf", "__defineGetter__", "__defineSetter__", "__lookupGetter__", "__lookupSetter__"}
    then NativeFunction(key)
    else Undefined
  }

  /** `obj[key]` on an object literal whose own properties are `own`: the
      `__proto__` accessor wins, then own properties, then inherited
      ones. */
  function Get(own: map<string, JsValue>, key: string): JsValue {
    if key == "__proto__" then ObjectPrototype
    else if key in own then own[key]
    else Inherited(key)
  }

  /** `obj[key] = v` for a primitive `v`: the `__proto__` setter ignores
      it, every other key becomes an own property. */
  function Put(own: map<string, JsValue>, key: string, v: JsValue): map<string, JsValue> {
    if key == "__proto__" then own else own[key := v]
  }

  /** The text of a value in a template literal. */
  function ToText(v: JsValue): string {
    match v
    case Undefined => "undefined"
    case Num(n) => NatToString(n)
    case Str(s) => s
    case NativeFunction(name) => "function " + name + "() { [native code] }"
    case ObjectPrototype => "[object Object]"
  }

  /** `v + 1`: addition for a number, concatenation for anything that
      converts to a string. */
  function PlusOne(v: JsValue): JsValue {
    if v.Num? then Num(v.n + 1) else Str(ToText(v) + "1")
  }

  /** The numbering step exactly as written, against an object literal. */
  function NumberIdsAsWritten(bases: seq<string>, own: map<string, JsValue>): (ids: seq<string>)
    ensures |ids| == |bases|
    ensures forall k :: 0 <= k < |bases| ==> StartsWith(ids[k], bases[k])
  {
    if |bases| == 0 then []
    else
      var base := bases[0];
      var v := Get(own, base);
      if v != Undefined then
        [base + "-" + ToText(v)] + NumberIdsAsWritten(bases[1..], Put(own, base, PlusOne(v)))
      else
        [base] + NumberIdsAsWritten(bases[1..], Put(own, base, Num(1)))
  }

  /** The object's own properties mirror the count map. */
  ghost predicate Mirrors(own: map<string, JsValue>, counts: map<string, nat>) {
    && (forall b :: b in own <==> b in counts)
    && (forall b :: b in counts ==> counts[b] > 0 && own[b] == Num(counts[b]))
  }

  /** Away from the inherited names, the plain object behaves like the
      count map: both versions give the same ids. */
  lemma {:induction false} AsWrittenAgrees(bases: seq<string>, own: map<string, JsValue>, counts: map<string, nat>)
    requires Mirrors(own, counts)
    requires forall k :: 0 <= k < |bases| ==> Inherited(bases[k]) == Undefined
    ensures NumberIdsAsWritten(bases, own) == NumberIds(bases, counts)
  {
    if |bases| > 0 {
      var base := bases[0];
      var k := if base in counts then counts[base] else 0;
      var tail := bases[1..];
      assert Inherited(base) == Undefined;
      AsWrittenStep(bases, own, counts, k);
      NumberIdsStep(bases, counts, base, k);
      assert forall j :: 0 <= j < |tail| ==> Inherited(tail[j]) == Undefined by {
        forall j | 0 <= j < |tail| ensures Inherited(tail[j]) == Undefined {
          assert tail[j] == bases[j + 1];
        }
      }
      AsWrittenAgrees(tail, Put(own, base, Num(k + 1)), counts[base := k + 1]);
    }
  }

  /** One step of both numberings away from the inherited names: the same
      id, and count maps that still mirror each other. */
  lemma AsWrittenStep(bases: seq<string>, own: map<string, JsValue>, counts: map<string, nat>, k: nat)
    requires |bases| > 0 && Mirrors(own, counts) && Inherited(bases[0]) == Undefined
    requires k == if bases[0] in counts then counts[bases[0]] else 0
    ensures NumberIdsAsWritten(bases, own) == [IdFor(bases[0], k)] + NumberIdsAsWritten(bases[1..], Put(own, bases[0], Num(k + 1)))
    ensures Mirrors(Put(own, bases[0], Num(k + 1)), counts[bases[0] := k + 1])
  {
    var base := bases[0];
    assert base != "__proto__";
    MirroredLookup(own, counts, base, k);
    AsWrittenUnfold(bases, own, k);
    MirrorsPut(own, counts, base, k);
  }

  /** Away from `__proto__` and the inherited names, the lookup finds the
      count, or nothing for a slug not seen yet. */
  lemma MirroredLookup(own: map<string, JsValue>, counts: map<string, nat>, base: string, k: nat)
    requires Mirrors(own, counts) && base != "__proto__" && Inherited(base) == Undefined
    requires k == if base in counts then counts[base] else 0
    ensures Get(own, base) == if k == 0 then Undefined else Num(k)
  {
  }

  lemma AsWrittenUnfold(bases: seq<string>, own: map<string, JsValue>, k: nat)
    requires |bases| > 0 && Get(own, bases[0]) == if k == 0 then Undefined else Num(k)
    ensures NumberIdsAsWritten(bases, own) == [IdFor(bases[0], k)] + NumberIdsAsWritten(bases[1..], Put(own, bases[0], Num(k + 1)))
  {
    var v := Get(own, bases[0]);
    if k > 0 {
      assert PlusOne(v) == Num(k + 1);
      assert IdFor(bases[0], k) == bases[0] + "-" + ToText(v);
    }
  }

  lemma MirrorsPut(own: map<string, JsValue>, counts: map<string, nat>, base: string, k: nat)
    requires Mirrors(own, counts) && base != "__proto__"
    requires k == if base in counts then counts[base] else 0
    ensures Mirrors(Put(own, base, Num(k + 1)), counts[base := k + 1])
  {
  }

  /** "__proto__" is its own slug. */
  lemma SlugOfProto()
    ensures Slug("__proto__") == "__proto__"
  {
    assert IsSlugShaped("__proto__");
    SlugOfSlugShaped("__proto__");
  }

  /** "constructor" is its own slug. */
  lemma SlugOfConstructor()
    ensures Slug("constructor") == "constructor"
  {
    assert IsSlugShaped("constructor");
    SlugOfSlugShaped("constructor");
  }

  /** Two headings whose slug is `__proto__` (the text "__proto__", by
      `SlugOfProto`) get the same id as written: the lookup finds the
      inherited accessor, and the store is ignored. The count map tells
      them apart. */
  lemma ProtoHeadingsCollide(bases: seq<string>)
    requires bases == ["__proto__", "__proto__"]
    ensures NumberIdsAsWritten(bases, map[]) == ["__proto__-[object Object]", "__proto__-[object Object]"]
    ensures NumberIds(bases, map[]) == ["__proto__", "__proto__-1"]
  {
    var p := "__proto__";
    assert bases[1..] == [p];
    assert bases[1..][1..] == [];
    assert Get(map[], p) == ObjectPrototype;
    assert Put(map[], p, Str("[object Object]1")) == map[];
    assert NumberIdsAsWritten([p], map[]) == [p + "-" + "[object Object]"];
    assert NumberIdsAsWritten(bases, map[]) == [p + "-" + "[object Object]"] + NumberIdsAsWritten([p], map[]);
    assert NatToString(1) == "1";
    assert IdFor(p, 1) == "__proto__-1";
    assert NumberIds([p], map[p := 1]) == [IdFor(p, 1)];
    assert IdFor(p, 0) == p;
    assert NumberIds(bases, map[]) == [IdFor(p, 0)] + NumberIds([p], map[p := 1]);
    assert p + "-" + "[object Object]" == "__proto__-[object Object]";
  }

  /** The first heading whose slug is `constructor` (the text
      "constructor", by `SlugOfConstructor`) does not keep its slug as
      written: the lookup finds the inherited `Object` function. The count
      map leaves it alone. */
  lemma ConstructorHeadingId(bases: seq<string>)
    requires bases == ["constructor"]
    ensures NumberIdsAsWritten(bases, map[]) == ["constructor-" + ToText(NativeFunction("Object"))]
    ensures NumberIds(bases, map[]) == ["constructor"]
  {
    var c := bases[0];
    InheritedConstructor(c);
    AsWrittenFound(bases, map[]);
    ConstructorIdText(c, ToText(Get(map[], c)));
    assert NumberIds(bases, map[]) == [IdFor(c, 0)] + NumberIds([], map[c := 1]);
  }

  lemma ConstructorIdText(c: string, f: string)
    requires c == "constructor"
    ensures c + "-" + f == "constructor-" + f
  {
  }

  /** The text of the inherited `constructor` property. */
  lemma ObjectConstructorText()
    ensures ToText(NativeFunction("Object")) == "function Object() { [native code] }"
  {
  }

  /** As written, a key the object already answers for is numbered with
      the text of whatever the lookup found. */
  lemma AsWrittenFound(bases: seq<string>, own: map<string, JsValue>)
    requires |bases| > 0 && Get(own, bases[0]) != Undefined
    ensures NumberIdsAsWritten(bases, own)[0] == bases[0] + "-" + ToText(Get(own, bases[0]))
  {
  }

  lemma InheritedConstructor(c: string)
    requires c == "constructor"
    ensures Get(map[], c) == NativeFunction("Object")
  {
    assert c != "__proto__" by {
      assert c[0] != "__proto__"[0];
    }
  }

  // ---------------------------------------------------------------------
  // The parser
  // ---------------------------------------------------------------------

  /** The headings of a document, in order, with their ids. */
  function HeadingsOf(content: string): seq<Heading> {
    AssignIds(Scan(content, 0))
  }

  /** `parseHeadingsFromMdx`: no content (`None` stands for a value that
      is not a string) or the empty string gives no headings; otherwise
      the scanned headings, with ids, are nested by the stack walk. */
  method ParseHeadingsFromMdx(content: Option<string>) returns (toc: seq<Toc>)
    ensures content.None? || content.value == "" ==> toc == []
    ensures content.Some? ==> Flatten(toc) == HeadingsOf(content.value)
    ensures content.Some? ==> WellNested(toc) && toc == Nest(HeadingsOf(content.value))
    ensures content.Some? ==> Roots(toc) == TopLevel(HeadingsOf(content.value))
  {
    if content.None? || content.value == "" {
      if content.Some? {
        assert Scan(content.value, 0) == [];
        assert Nest([]) == [];
        assert TopLevel([]) == [];
      }
      return [];
    }
    toc := BuildForest(HeadingsOf(content.value));
  }

  /** Every heading of a parsed document is a heading line of it, in
      document order, with its level and its trimmed text. */
  lemma HeadingsOfSound(content: string)
    ensures forall k :: 0 <= k < |HeadingsOf(content)| ==>
      IsHeadingLine(content, RawHeading(Scan(content, 0)[k].start, HeadingsOf(content)[k].level, HeadingsOf(content)[k].text))
  {
    ScanSound(content, 0);
  }

  /** A text of two words of kept characters, one space apart, slugs to
      the words joined by `-`. */
  lemma SlugTwoWords(a: string, b: string)
    requires |a| > 0 && |b| > 0
    requires forall i :: 0 <= i < |a| ==> IsPlainWordChar(a[i])
    requires forall i :: 0 <= i < |b| ==> IsPlainWordChar(b[i])
    ensures Slug(a + " " + b) == a + "-" + b
  {
    var t := a + " " + b;
    TwoWordsKept(a, b, t);
    SquashSingle(a, ' ', b, IsJsWhitespace);
    assert a + [' '] + b == t;
    TwoWordsHyphen(a, b, a + "-" + b);
    SlugSteps(t, t, a + "-" + b);
  }

  /** Characters a slug keeps as they are: kept by the deletion step, not
      white space, not `-`, and unchanged by lower-casing. */
  predicate IsPlainWordChar(c: char) {
    IsSpacedChar(c) && c != '-' && c != '\U{212A}' && c != '\U{0130}'
  }

  lemma TwoWordsKept(a: string, b: string, t: string)
    requires t == a + " " + b && |a| > 0 && |b| > 0
    requires forall i :: 0 <= i < |a| ==> IsPlainWordChar(a[i])
    requires forall i :: 0 <= i < |b| ==> IsPlainWordChar(b[i])
    ensures ToLower(t) == t && Trim(Filter(t, IsSlugChar)) == t
  {
    forall i | 0 <= i < |t|
      ensures t[i] != '\U{212A}' && t[i] != '\U{0130}' && !IsAsciiUpper(t[i]) && IsSlugChar(t[i])
    {
      if i < |a| {
        assert t[i] == a[i];
      } else if i > |a| {
        assert t[i] == b[i - |a| - 1];
      }
    }
    ToLowerIdempotent(t);
    FilterAll(t, IsSlugChar);
    assert t[0] == a[0] && t[|t| - 1] == b[|b| - 1];
    TrimNoop(t);
  }

  lemma TwoWordsHyphen(a: string, b: string, u: string)
    requires u == a + "-" + b
    requires forall i :: 0 <= i < |a| ==> IsPlainWordChar(a[i])
    requires forall i :: 0 <= i < |b| ==> IsPlainWordChar(b[i])
    ensures SquashRuns(u, IsHyphen, false) == u
  {
    forall i | 0 <= i < |u| - 1 ensures !(u[i] == '-' && u[i + 1] == '-') {
      if i < |a| {
        assert u[i] == a[i];
      } else {
        assert u[i + 1] == b[i - |a|];
      }
    }
    SquashHyphensNoDouble(u, false);
  }

  /** The heading texts of the repository's own test: "Redis" with the
      Hangul word for "overview", and the Hangul words for "performance
      points". */
  const RedisText := "Redis \U{AC1C}\U{C694}"
  const PointsText := "\U{C131}\U{B2A5} \U{D3EC}\U{C778}\U{D2B8}"
  const RedisId := "redis-\U{AC1C}\U{C694}"
  const PointsId := "\U{C131}\U{B2A5}-\U{D3EC}\U{C778}\U{D2B8}"

  lemma TestSlugs()
    ensures Slug(RedisText) == RedisId && Slug(PointsText) == PointsId
  {
    SlugExample(RedisText, "redis \U{AC1C}\U{C694}", RedisId);
    PointsSlug("\U{C131}\U{B2A5}", "\U{D3EC}\U{C778}\U{D2B8}");
  }

  lemma PointsSlug(a: string, b: string)
    requires a == "\U{C131}\U{B2A5}" && b == "\U{D3EC}\U{C778}\U{D2B8}"
    ensures Slug(PointsText) == PointsId
  {
    PointsWords(a, b);
    SlugTwoWords(a, b);
  }

  lemma PointsWords(a: string, b: string)
    requires a == "\U{C131}\U{B2A5}" && b == "\U{D3EC}\U{C778}\U{D2B8}"
    ensures a + " " + b == PointsText && a + "-" + b == PointsId
    ensures |a| > 0 && |b| > 0
    ensures forall i :: 0 <= i < |a| ==> IsPlainWordChar(a[i])
    ensures forall i :: 0 <= i < |b| ==> IsPlainWordChar(b[i])
  {
  }

  lemma TestTexts()
    ensures Trim(RedisText) == RedisText && Trim(PointsText) == PointsText
    ensures IsLineText(RedisText) && IsLineText(PointsText)
    ensures |RedisText| == 8 && |PointsText| == 6
  {
    PlainText(RedisText);
    PlainText(PointsText);
  }

  /** A one-line text with no white space at its ends. */
  lemma PlainText(t: string)
    requires |t| > 0 && !IsJsWhitespace(t[0]) && !IsJsWhitespace(t[|t| - 1])
    requires forall j :: 0 <= j < |t| ==> !IsLineTerminator(t[j])
    ensures Trim(t) == t && IsLineText(t)
  {
    TrimNoop(t);
  }

  /** A text that fits on one heading line after the marker. */
  predicate IsLineText(t: string) {
    |t| > 0 && !IsJsWhitespace(t[0]) && forall j :: 0 <= j < |t| ==> !IsLineTerminator(t[j])
  }

  /** The document of the test: a blank first line, then a level-2, a
      level-3 and a repeated level-2 heading, each line ended by a line
      feed. */
  lemma TestScan(doc: string)
    requires IsThreeLines(doc, RedisText, PointsText)
    ensures Scan(doc, 0) == [RawHeading(1, 2, RedisText), RawHeading(13, 3, PointsText), RawHeading(24, 2, RedisText)]
  {
    TestTexts();
    ScanThreeLines(doc, RedisText, PointsText);
  }

  /** The three-line document of the test, for any two line texts. */
  predicate IsThreeLines(doc: string, t1: string, t2: string) {
    doc == "\n" + "## " + t1 + "\n" + "### " + t2 + "\n" + "## " + t1 + "\n"
  }

  lemma ScanThreeLines(doc: string, t1: string, t2: string)
    requires IsThreeLines(doc, t1, t2)
    requires IsLineText(t1) && IsLineText(t2) && Trim(t1) == t1 && Trim(t2) == t2
    ensures var e1 := 4 + |t1|;
            var e2 := e1 + 5 + |t2|;
            Scan(doc, 0) == [RawHeading(1, 2, t1), RawHeading(e1 + 1, 3, t2), RawHeading(e2 + 1, 2, t1)]
  {
    ThreeLinesFirst(doc, t1, t2);
    ThreeLinesSecond(doc, t1, t2);
    ThirdLineSplit(doc, t1, t2);
    ThreeLinesThird(doc, t1, t2);
    ThreeLinesEnd(doc, t1, t2);
    Chain3(Scan(doc, 0), Scan(doc, |LineEnd1(t1)|), Scan(doc, |LineEnd2(t1, t2)|), Scan(doc, |LineEnd3(t1, t2)|),
           RawHeading(1, 2, t1), RawHeading(5 + |t1|, 3, t2), RawHeading(10 + |t1| + |t2|, 2, t1));
  }

  /** The document up to the end of its first, second and third heading
      line. */
  function LineEnd1(t1: string): (b: string)
    ensures |b| == 4 + |t1|
  {
    "\n" + "## " + t1
  }

  function LineEnd2(t1: string, t2: string): (b: string)
    ensures |b| == 9 + |t1| + |t2|
  {
    LineEnd1(t1) + "\n" + "### " + t2
  }

  function LineEnd3(t1: string, t2: string): string {
    LineEnd2(t1, t2) + "\n" + "## " + t1
  }

  lemma ThreeLinesFirst(doc: string, t1: string, t2: string)
    requires IsThreeLines(doc, t1, t2) && IsLineText(t1) && Trim(t1) == t1
    ensures Scan(doc, 0) == [RawHeading(1, 2, t1)] + Scan(doc, |LineEnd1(t1)|)
  {
    var m := "## ";
    var r := "\n" + "### " + t2 + "\n" + "## " + t1 + "\n";
    assert doc == "" + "\n" + m + t1 + r;
    assert "" + "\n" + m + t1 == LineEnd1(t1);
    Markers();
    ScanStep(doc, "", m, t1, r);
  }

  lemma ThreeLinesSecond(doc: string, t1: string, t2: string)
    requires IsThreeLines(doc, t1, t2) && IsLineText(t2) && Trim(t2) == t2
    ensures Scan(doc, |LineEnd1(t1)|) == [RawHeading(5 + |t1|, 3, t2)] + Scan(doc, |LineEnd2(t1, t2)|)
  {
    var m := "### ";
    var r := "\n" + "## " + t1 + "\n";
    var b := LineEnd1(t1);
    assert doc == b + "\n" + m + t2 + r;
    Markers();
    ScanStep(doc, b, m, t2, r);
  }

  lemma ThreeLinesThird(doc: string, t1: string, t2: string)
    requires doc == LineEnd2(t1, t2) + "\n" + "## " + t1 + "\n" && IsLineText(t1) && Trim(t1) == t1
    ensures Scan(doc, |LineEnd2(t1, t2)|) == [RawHeading(10 + |t1| + |t2|, 2, t1)] + Scan(doc, |LineEnd3(t1, t2)|)
  {
    Markers();
    ScanStep(doc, LineEnd2(t1, t2), "## ", t1, "\n");
    assert Scan(doc, |LineEnd3(t1, t2)|) == Scan(doc, |LineEnd2(t1, t2) + "\n" + "## " + t1|);
    assert RawHeading(|LineEnd2(t1, t2) + "\n"|, |"## "| - 1, Trim(t1)) == RawHeading(10 + |t1| + |t2|, 2, t1);
  }

  lemma ThirdLineSplit(doc: string, t1: string, t2: string)
    requires IsThreeLines(doc, t1, t2)
    ensures doc == LineEnd2(t1, t2) + "\n" + "## " + t1 + "\n"
  {
  }

  lemma ThreeLinesEnd(doc: string, t1: string, t2: string)
    requires IsThreeLines(doc, t1, t2)
    ensures Scan(doc, |LineEnd3(t1, t2)|) == []
  {
    assert doc == LineEnd3(t1, t2) + "\n";
    ScanFinalNewline(doc, LineEnd3(t1, t2));
  }

  lemma Markers()
    ensures var m2, m3 := "## ", "### ";
      && |m2| == 3 && m2[0] == '#' && m2[1] == '#' && m2[2] == ' '
      && |m3| == 4 && m3[0] == '#' && m3[1] == '#' && m3[2] == '#' && m3[3] == ' '
  {
  }

  /** The scan of a final line feed is empty. */
  lemma ScanFinalNewline(doc: string, body: string)
    requires doc == body + "\n"
    ensures Scan(doc, |body|) == []
  {
    ScanSkip(doc, |body|);
  }

  /** Three steps that each report one element and resume where the next
      starts, ending in nothing. */
  lemma Chain3<T>(r0: seq<T>, r1: seq<T>, r2: seq<T>, r3: seq<T>, h0: T, h1: T, h2: T)
    requires r0 == [h0] + r1 && r1 == [h1] + r2 && r2 == [h2] + r3 && r3 == []
    ensures r0 == [h0, h1, h2]
  {
  }

  /** The scan from the line feed before a heading line: the line feed
      starts nothing, the line is reported, and the scan goes on at its
      end. */
  lemma ScanStep(doc: string, before: string, marker: string, text: string, post: string)
    requires doc == before + "\n" + marker + text + post
    requires 2 <= |marker| <= 7 && marker[|marker| - 1] == ' '
    requires forall j :: 0 <= j < |marker| - 1 ==> marker[j] == '#'
    requires IsLineText(text)
    requires |post| == 0 || IsLineTerminator(post[0])
    ensures Scan(doc, |before|) == [RawHeading(|before + "\n"|, |marker| - 1, Trim(text))] + Scan(doc, |before + "\n" + marker + text|)
  {
    ScanLineFeed(doc, before, marker + text + post);
    ScanHeadingLine(doc, before + "\n", marker, text, post);
  }

  /** A line feed starts no heading. */
  lemma ScanLineFeed(doc: string, before: string, rest: string)
    requires doc == before + "\n" + rest
    ensures Scan(doc, |before|) == Scan(doc, |before + "\n"|)
  {
    assert doc[|before|] == '\n';
    ScanSkip(doc, |before|);
  }

  lemma TestIds(b: seq<string>, i1: string, i2: string)
    requires b == [i1, i2, i1] && i1 != i2
    ensures NumberIds(b, map[]) == [i1, i2, i1 + "-1"]
  {
    var c1 := map[i1 := 1];
    var c2 := c1[i2 := 1];
    assert c2[i1] == 1;
    NumberIdsStep(b, map[], i1, 0);
    NumberIdsStep(b[1..], c1, i2, 0);
    NumberIdsStep(b[1..][1..], c2, i1, 1);
    assert b[1..][1..][1..] == [];
    assert IdFor(i1, 1) == i1 + "-1" by {
      assert NatToString(1) == "1";
    }
  }

  /** One step of the numbering: the first id, and the count it leaves. */
  lemma NumberIdsStep(bases: seq<string>, counts: map<string, nat>, base: string, k: nat)
    requires |bases| > 0 && bases[0] == base
    requires k == if base in counts then counts[base] else 0
    ensures NumberIds(bases, counts) == [IdFor(base, k)] + NumberIds(bases[1..], counts[base := k + 1])
  {
  }

  /** The repository's test: three headings in document order, the repeat
      numbered `-1`, and, nested by level, the level-3 heading under the
      first level-2 one. */
  lemma ParseExample(doc: string)
    requires IsThreeLines(doc, RedisText, PointsText)
    ensures HeadingsOf(doc) == [Heading(RedisId, RedisText, 2), Heading(PointsId, PointsText, 3), Heading(RedisId + "-1", RedisText, 2)]
    ensures Nest(HeadingsOf(doc)) == [Toc(Heading(RedisId, RedisText, 2), [Toc(Heading(PointsId, PointsText, 3), [])]),
                                      Toc(Heading(RedisId + "-1", RedisText, 2), [])]
  {
    TestScan(doc);
    TestHeadings(Scan(doc, 0));
    NestExample(HeadingsOf(doc));
  }

  lemma TestHeadings(raw: seq<RawHeading>)
    requires raw == [RawHeading(1, 2, RedisText), RawHeading(13, 3, PointsText), RawHeading(24, 2, RedisText)]
    ensures AssignIds(raw) == [Heading(RedisId, RedisText, 2), Heading(PointsId, PointsText, 3), Heading(RedisId + "-1", RedisText, 2)]
  {
    TestSlugs();
    TestIdsDiffer();
    ThreeRaw(raw, RedisText, PointsText);
    RepeatedHeadings(raw, RedisText, PointsText, RedisId, PointsId);
  }

  lemma TestIdsDiffer()
    ensures RedisId != PointsId
  {
    assert RedisId[0] != PointsId[0];
  }

  lemma ThreeRaw(raw: seq<RawHeading>, t1: string, t2: string)
    requires raw == [RawHeading(1, 2, t1), RawHeading(13, 3, t2), RawHeading(24, 2, t1)]
    ensures |raw| == 3 && raw[0].text == t1 && raw[1].text == t2 && raw[2].text == t1
    ensures raw[0].level == 2 && raw[1].level == 3 && raw[2].level == 2
  {
  }

  /** Three headings whose first and last slugs agree and differ from the
      middle one: the last gets the suffix `-1`. */
  lemma RepeatedHeadings(raw: seq<RawHeading>, t1: string, t2: string, i1: string, i2: string)
    requires |raw| == 3 && raw[0].text == t1 && raw[1].text == t2 && raw[2].text == t1
    requires Slug(t1) == i1 && Slug(t2) == i2 && i1 != i2
    ensures AssignIds(raw) == [Heading(i1, t1, raw[0].level), Heading(i2, t2, raw[1].level), Heading(i1 + "-1", t1, raw[2].level)]
  {
    var b := Bases(raw);
    SeqThree(b, i1, i2, i1);
    var ids := NumberIds(b, map[]);
    TestIds(b, i1, i2);
    AssignIdsThree(raw, ids);
    assert ids[0] == i1 && ids[1] == i2 && ids[2] == i1 + "-1";
  }

  /** The headings of three raw headings, given their ids. */
  lemma AssignIdsThree(raw: seq<RawHeading>, ids: seq<string>)
    requires |raw| == 3 && NumberIds(Bases(raw), map[]) == ids
    ensures AssignIds(raw) == [Heading(ids[0], raw[0].text, raw[0].level), Heading(ids[1], raw[1].text, raw[1].level),
                               Heading(ids[2], raw[2].text, raw[2].level)]
  {
    var hs := AssignIds(raw);
    assert hs[0] == Heading(ids[0], raw[0].text, raw[0].level);
    assert hs[1] == Heading(ids[1], raw[1].text, raw[1].level);
    assert hs[2] == Heading(ids[2], raw[2].text, raw[2].level);
    SeqThree(hs, hs[0], hs[1], hs[2]);
  }

  lemma NestExample(hs: seq<Heading>)
    requires |hs| == 3 && hs[0].level == 2 && hs[1].level == 3 && hs[2].level == 2
    ensures Nest(hs) == [Toc(hs[0], [Toc(hs[1], [])]), Toc(hs[2], [])]
  {
    assert DeeperEnd(hs, 2, 2) == 2;
    assert DeeperEnd(hs, 1, 2) == 2;
    assert hs[1..2] == [hs[1]] && hs[2..] == [hs[2]];
    NestSingle(hs[1]);
    NestSingle(hs[2]);
  }

  lemma NestSingle(h: Heading)
    ensures Nest([h]) == [Toc(h, [])]
  {
    var s := [h];
    assert DeeperEnd(s, 1, h.level) == 1;
    assert s[1..1] == [] && s[1..] == [];
  }

  /** The newline after the hashes is white space: "##", a line feed and
      "Foo" is a level-2 heading "Foo". */
  lemma NewlineAfterHashes(doc: string)
    requires doc == "##\nFoo"
    ensures Scan(doc, 0) == [RawHeading(0, 2, "Foo")]
  {
    RunEndIs(doc, 0, IsHash, 2);
    RunEndIs(doc, 2, IsJsWhitespace, 3);
    RunEndIs(doc, 3, IsLineContent, 6);
    assert MatchAt(doc, 0) == Some(Match(2, 3, 6));
    assert doc[3..6] == "Foo";
    TrimNoop("Foo");
    assert MatchHeading(doc, 0) == RawHeading(0, 2, "Foo");
    assert Scan(doc, 6) == [];
  }

  /** An indented heading line is not a heading. */
  lemma IndentedIsNotHeading(doc: string)
    requires doc == " ## Foo"
    ensures Scan(doc, 0) == []
  {
    ScanEmpty(doc, 0);
    assert forall q :: 1 <= q < |doc| ==> !IsLineStart(doc, q);
  }

  /** A heading of punctuation only has the empty slug, so its id is
      empty. */
  lemma PunctuationOnlySlug(text: string)
    requires text == "!!!"
    ensures Slug(text) == ""
  {
    ToLowerIdempotent(text);
    FilterNone(text, IsSlugChar);
  }
}

=== FILE: mdx_feeds.dfy ===
/** The pure parts of the feed loader: reading-time estimation from MDX
    text, the fallback rule for a missing reading time, the newest-first
    listing and the posts of one series. File reading and front-matter
    validation are inputs: a loaded post is an `Option<Post>`. */
module MdxFeeds {
  import opened Wrappers
  import opened Seqs
  import opened Strings
  import opened Sorting
  import opened Feed

  // ---------------------------------------------------------------------
  // Link and image removal: the JavaScript global replace of the patterns
  // `!\[.*?\]\(.*?\)` and `\[.*?\]\(.*?\)`.
  // ---------------------------------------------------------------------

  /** The first `)` at or after `k` on the same line: where the lazy
      `\(.*?\)` closes. `.` does not match a line terminator. */
  function CloseParen(s: string, k: nat): (r: Option<nat>)
    requires k <= |s|
    ensures r.Some? ==> k <= r.value < |s| && s[r.value] == ')'
    ensures r.Some? ==> forall j :: k <= j < r.value ==> s[j] != ')' && !IsLineTerminator(s[j])
    decreases |s| - k
  {
    if k == |s| then None
    else if s[k] == ')' then Some(k)
    else if IsLineTerminator(s[k]) then None
    else CloseParen(s, k + 1)
  }

  /** End of the shortest `.*?\]\(.*?\)` starting at `j`: the lazy first
      group grows one character at a time until `](` follows it and a `)`
      closes the second group on the same line. */
  function LinkRest(s: string, j: nat): (r: Option<nat>)
    requires j <= |s|
    ensures r.Some? ==> j + 3 <= r.value <= |s| && s[r.value - 1] == ')'
    decreases |s| - j
  {
    if j + 1 >= |s| then None
    else if s[j] == ']' && s[j + 1] == '(' && CloseParen(s, j + 2).Some? then Some(CloseParen(s, j + 2).value + 1)
    else if IsLineTerminator(s[j]) then None
    else LinkRest(s, j + 1)
  }

  /** End of the match of the link pattern at `i` (the image pattern when
      `image` holds), if any. */
  function LinkAt(s: string, i: nat, image: bool): (r: Option<nat>)
    requires i <= |s|
    ensures r.Some? ==> i + 4 <= r.value <= |s|
  {
    if image then
      if i + 1 < |s| && s[i] == '!' && s[i + 1] == '[' then LinkRest(s, i + 2) else None
    else
      if i < |s| && s[i] == '[' then LinkRest(s, i + 1) else None
  }

  /** `s.replace(pattern, replacement)` with the global flag: matches are
      taken left to right and the search resumes after each one. */
  function ReplaceLinks(s: string, i: nat, image: bool, replacement: string): string
    requires i <= |s|
    decreases |s| - i
  {
    if i == |s| then []
    else if LinkAt(s, i, image).Some? then replacement + ReplaceLinks(s, LinkAt(s, i, image).value, image, replacement)
    else [s[i]] + ReplaceLinks(s, i + 1, image, replacement)
  }

  /** A string without `[` has no link or image to replace. */
  lemma {:induction false} ReplaceLinksNoBracket(s: string, i: nat, image: bool, replacement: string)
    requires i <= |s|
    requires forall j :: i <= j < |s| ==> s[j] != '['
    ensures ReplaceLinks(s, i, image, replacement) == s[i..]
    decreases |s| - i
  {
    if i < |s| {
      ReplaceLinksNoBracket(s, i + 1, image, replacement);
      assert s[i..] == [s[i]] + s[i + 1..];
    }
  }

  /** Markdown markers the last replace deletes. */
  predicate IsMarkup(c: char) {
    c == '#' || c == '*' || c == '`'
  }

  function StripMarkup(s: string): (r: string)
    ensures forall k :: 0 <= k < |r| ==> !IsMarkup(r[k])
  {
    Filter(s, (c: char) => !IsMarkup(c))
  }

  /** The text whose length estimates the reading time: images removed,
      each link replaced by the two characters `$1` (the pattern has no
      group, so `$1` is literal), and the markers `#`, `*`, backtick
      deleted. */
  function CleanContent(content: string): (r: string)
    ensures forall k :: 0 <= k < |r| ==> !IsMarkup(r[k])
  {
    StripMarkup(ReplaceLinks(ReplaceLinks(content, 0, true, ""), 0, false, "$1"))
  }

  /** `Math.ceil(length / 500) || 1`. */
  function ReadingTimeOf(length: nat): (minutes: nat)
    ensures minutes >= 1
    ensures length > 0 ==> (minutes - 1) * 500 < length <= minutes * 500
    ensures length == 0 ==> minutes == 1
  {
    var c := (length + 499) / 500;
    if c == 0 then 1 else c
  }

  /** `calculateReadingTime`: at least one minute, and otherwise the
      number of started 500-character blocks of the cleaned text. */
  function CalculateReadingTime(content: string): (minutes: nat)
    ensures minutes >= 1
    ensures |CleanContent(content)| > 0 ==>
              (minutes - 1) * 500 < |CleanContent(content)| <= minutes * 500
  {
    ReadingTimeOf(|CleanContent(content)|)
  }

  /** The ceiling is the least whole number of minutes that covers the
      text: any other count that covers it is larger. */
  lemma ReadingTimeLeast(length: nat, m: nat)
    requires length > 0 && length <= m * 500
    ensures ReadingTimeOf(length) <= m
  {
  }

  /** Cleaning removes exactly the markers: every other character of the
      link-replaced text survives, in order. */
  lemma StripMarkupKeeps(s: string)
    ensures IsSubsequence(StripMarkup(s), s)
    ensures forall k :: 0 <= k < |s| && !IsMarkup(s[k]) ==> s[k] in StripMarkup(s)
  {
    FilterIsSubsequence(s, (c: char) => !IsMarkup(c));
  }

  /** A link whose text has no `]` and whose target has no `)`, both on
      one line, becomes `$1`; text before it without `[` is kept. */
  lemma {:induction false} LinkBecomesDollarOne(s: string, pre: string, text: string, url: string, post: string)
    requires s == pre + "[" + text + "](" + url + ")" + post
    requires forall j :: 0 <= j < |pre| ==> pre[j] != '['
    requires forall j :: 0 <= j < |text| ==> text[j] != ']' && !IsLineTerminator(text[j])
    requires forall j :: 0 <= j < |url| ==> url[j] != ')' && !IsLineTerminator(url[j])
    ensures ReplaceLinks(s, 0, false, "$1") == pre + "$1" + ReplaceLinks(s, |pre| + |text| + |url| + 4, false, "$1")
  {
    var a := |pre|;
    var j := a + 1 + |text|;
    var e := j + 2 + |url|;
    LinkShape(s, pre, text, url, post);
    LinkFromShape(s, pre, j, e, |pre| + |text| + |url| + 4);
  }

  /** The same, from the positions of `[`, `](` and `)` alone. */
  lemma LinkFromShape(s: string, pre: string, j: nat, e: nat, n: nat)
    requires forall m :: 0 <= m < |pre| ==> pre[m] != '['
    requires |pre| < j && j + 2 <= e < |s|
    requires s[..|pre|] == pre && s[|pre|] == '[' && s[j] == ']' && s[j + 1] == '(' && s[e] == ')'
    requires forall m :: j + 2 <= m < e ==> s[m] != ')' && !IsLineTerminator(s[m])
    requires forall m :: |pre| + 1 <= m < j ==> s[m] != ']' && !IsLineTerminator(s[m])
    requires n == e + 1
    ensures ReplaceLinks(s, 0, false, "$1") == pre + "$1" + ReplaceLinks(s, n, false, "$1")
  {
    var a := |pre|;
    CloseParenAt(s, j + 2, e);
    LinkRestAt(s, a + 1, j, e);
    LinkAtOpen(s, a, e, n);
    var rest := ReplaceLinks(s, n, false, "$1");
    ReplaceAtLink(s, a, n);
    ReplaceLinksPrefix(s, pre, 0);
    assert pre[0..] == pre;
    Assoc(pre, "$1", rest);
  }

  lemma LinkAtOpen(s: string, a: nat, e: nat, n: nat)
    requires a < |s| && s[a] == '[' && LinkRest(s, a + 1) == Some(e + 1) && n == e + 1
    ensures LinkAt(s, a, false) == Some(n)
  {
  }

  /** A link at `a` is replaced and the scan resumes after it. */
  lemma ReplaceAtLink(s: string, a: nat, n: nat)
    requires a < |s| && LinkAt(s, a, false) == Some(n)
    ensures ReplaceLinks(s, a, false, "$1") == "$1" + ReplaceLinks(s, n, false, "$1")
  {
  }

  lemma LinkShape(s: string, pre: string, text: string, url: string, post: string)
    requires s == pre + "[" + text + "](" + url + ")" + post
    requires forall j :: 0 <= j < |text| ==> text[j] != ']' && !IsLineTerminator(text[j])
    requires forall j :: 0 <= j < |url| ==> url[j] != ')' && !IsLineTerminator(url[j])
    ensures var a := |pre|; var j := a + 1 + |text|; var e := j + 2 + |url|;
            && e < |s| && s[..a] == pre && s[a] == '[' && s[j] == ']' && s[j + 1] == '(' && s[e] == ')'
            && (forall m :: j + 2 <= m < e ==> s[m] != ')' && !IsLineTerminator(s[m]))
            && (forall m :: a + 1 <= m < j ==> s[m] != ']' && !IsLineTerminator(s[m]))
  {
    var a := |pre|;
    var j := a + 1 + |text|;
    var e := j + 2 + |url|;
    assert forall m :: j + 2 <= m < e ==> s[m] == url[m - j - 2];
    assert forall m :: a + 1 <= m < j ==> s[m] == text[m - a - 1];
  }

  lemma {:induction false} CloseParenAt(s: string, k: nat, e: nat)
    requires k <= e < |s| && s[e] == ')'
    requires forall m :: k <= m < e ==> s[m] != ')' && !IsLineTerminator(s[m])
    ensures CloseParen(s, k) == Some(e)
    decreases e - k
  {
    if k < e {
      CloseParenAt(s, k + 1, e);
    }
  }

  lemma {:induction false} LinkRestAt(s: string, i: nat, j: nat, e: nat)
    requires i <= j && j + 1 < |s| && s[j] == ']' && s[j + 1] == '(' && CloseParen(s, j + 2) == Some(e)
    requires forall m :: i <= m < j ==> s[m] != ']' && !IsLineTerminator(s[m])
    ensures LinkRest(s, i) == Some(e + 1)
    decreases j - i
  {
    if i < j {
      LinkRestAt(s, i + 1, j, e);
    }
  }

  lemma {:induction false} ReplaceLinksPrefix(s: string, pre: string, i: nat)
    requires |pre| < |s| && i <= |pre| && s[..|pre|] == pre
    requires forall j :: 0 <= j < |pre| ==> pre[j] != '['
    ensures ReplaceLinks(s, i, false, "$1") == pre[i..] + ReplaceLinks(s, |pre|, false, "$1")
    decreases |pre| - i
  {
    if i < |pre| {
      assert s[i] == pre[i];
      ReplaceLinksPrefix(s, pre, i + 1);
      assert pre[i..] == [pre[i]] + pre[i + 1..];
    }
  }

  /** An image `![alt](src)` on one line disappears. */
  lemma ImageRemoved(s: string, alt: string, src: string)
    requires s == "![" + alt + "](" + src + ")"
    requires forall j :: 0 <= j < |alt| ==> alt[j] != ']' && !IsLineTerminator(alt[j])
    requires forall j :: 0 <= j < |src| ==> src[j] != ')' && !IsLineTerminator(src[j])
    ensures ReplaceLinks(s, 0, true, "") == ""
  {
    var j := 2 + |alt|;
    var e := j + 2 + |src|;
    assert s[0] == '!' && s[1] == '[' && s[j] == ']' && s[j + 1] == '(' && s[e] == ')';
    assert forall m :: j + 2 <= m < e ==> s[m] == src[m - j - 2];
    CloseParenAt(s, j + 2, e);
    assert forall m :: 2 <= m < j ==> s[m] == alt[m - 2];
    LinkRestAt(s, 2, j, e);
    assert |s| == e + 1;
  }

  // ---------------------------------------------------------------------
  // Reading-time fallback, listing and series posts.
  // ---------------------------------------------------------------------

  /** The metadata's reading time after loading: kept when present and
      non-zero, otherwise computed from the MDX text when that was read
      and is non-empty (an empty string is falsy), otherwise left as it
      was. */
  function ResolveReadingTime(given: Option<int>, mdx: Option<string>): (r: Option<int>)
    ensures given.Some? && given.value != 0 ==> r == given
    ensures (given.None? || given.value == 0) && mdx.Some? && |mdx.value| > 0 ==>
              r.Some? && r.value >= 1
    ensures r != given ==> mdx.Some? && r == Some(CalculateReadingTime(mdx.value) as int)
  {
    if given.Some? && given.value != 0 then given
    else if mdx.Some? && |mdx.value| > 0 then Some(CalculateReadingTime(mdx.value) as int)
    else given
  }

  /** Applying the rule to its own result changes nothing: a computed
      time is at least one, so it is kept the next time. */
  lemma ResolveIdempotent(given: Option<int>, mdx: Option<string>)
    ensures ResolveReadingTime(ResolveReadingTime(given, mdx), mdx) == ResolveReadingTime(given, mdx)
  {
  }

  /** The comparator of `getSortedFeedData`: 1 (after) when `a` is
      older, -1 otherwise, also for equal dates. */
  function DateComparator(a: Post, b: Post): (c: int)
    ensures c == 1 || c == -1
    ensures c == -1 <==> DateDescLe(a, b)
  {
    StrLeTotalOrder();
    if StrLt(a.date, b.date) then 1 else -1
  }

  lemma DateDescLeTotalPreorder()
    ensures TotalPreorder(DateDescLe)
  {
    StrLeTotalOrder();
  }

  /** `getSortedFeedData`: the posts whose metadata loaded, newest first. */
  function SortedFeedData(loaded: seq<Option<Post>>): (r: seq<Post>)
    ensures multiset(r) == multiset(Somes(loaded))
  {
    SortBy(Somes(loaded), DateDescLe)
  }

  /** The listing is ordered newest first, as the repository's test checks
      pairwise. */
  lemma SortedFeedNewestFirst(loaded: seq<Option<Post>>)
    ensures forall i :: 1 <= i < |SortedFeedData(loaded)| ==>
              StrLe(SortedFeedData(loaded)[i].date, SortedFeedData(loaded)[i - 1].date)
  {
    DateDescLeTotalPreorder();
    SortBySorted(Somes(loaded), DateDescLe);
  }

  /** A post is listed iff its metadata loaded. */
  lemma SortedFeedContents(loaded: seq<Option<Post>>, p: Post)
    ensures p in SortedFeedData(loaded) <==> Some(p) in loaded
  {
    var r := SortedFeedData(loaded);
    assert p in r <==> p in multiset(r);
    if Some(p) in loaded {
      var k :| 0 <= k < |loaded| && loaded[k] == Some(p);
      assert p in Somes(loaded);
    }
    if p in r {
      assert p in multiset(Somes(loaded));
      var k :| 0 <= k < |Somes(loaded)| && Somes(loaded)[k] == p;
    }
  }

  /** `getSeriesPosts(id)`: the listed posts of the series, by series
      order (a stable sort with a consistent comparator). */
  function SeriesPosts(loaded: seq<Option<Post>>, id: string): (r: seq<Post>)
    ensures multiset(r) == multiset(Filter(SortedFeedData(loaded), (p: Post) => InSeries(p, id)))
    ensures forall k :: 0 <= k < |r| ==> InSeries(r[k], id)
  {
    var members := Filter(SortedFeedData(loaded), (p: Post) => InSeries(p, id));
    var r := SortBy(members, OrderLe);
    forall k | 0 <= k < |r| ensures InSeries(r[k], id) {
      assert r[k] in multiset(members);
    }
    r
  }

  /** Exactly the loaded posts of the series are returned. */
  lemma SeriesPostsContents(loaded: seq<Option<Post>>, id: string, p: Post)
    ensures p in SeriesPosts(loaded, id) <==> Some(p) in loaded && InSeries(p, id)
  {
    var members := Filter(SortedFeedData(loaded), (q: Post) => InSeries(q, id));
    assert p in SeriesPosts(loaded, id) <==> p in multiset(members);
    SortedFeedContents(loaded, p);
  }

  /** Series posts come in non-decreasing order, as the repository's test
      checks against a numeric sort of the orders. */
  lemma SeriesPostsOrdered(loaded: seq<Option<Post>>, id: string)
    ensures forall i, j :: 0 <= i < j < |SeriesPosts(loaded, id)| ==>
              SeriesPosts(loaded, id)[i].series.value.order <= SeriesPosts(loaded, id)[j].series.value.order
  {
    var members := Filter(SortedFeedData(loaded), (q: Post) => InSeries(q, id));
    SortBySorted(members, OrderLe);
  }
}

=== FILE: mobile_nav.dfy ===
/** The mobile bottom navigation bar: five fixed items, and the rule that
    decides which of them is highlighted for the current path. */
module MobileNav {
  import opened Wrappers
  import opened Strings

  /** An item of the bar. The theme and search items are buttons with no
      `href`; the others are links. */
  datatype NavItem = NavItem(id: string, href: Option<string>)

  const ThemeItem := NavItem("theme", None)
  const BlogItem := NavItem("blog", Some("/blog"))
  const HomeItem := NavItem("home", Some("/"))
  const ResumeItem := NavItem("resume", Some("/resume"))
  const SearchItem := NavItem("search", None)

  /** The items in display order. */
  function NavItems(): (r: seq<NavItem>)
    ensures |r| == 5
    ensures r[0].href.None? && r[4].href.None?
    ensures r[2].href == Some("/")
  {
    [ThemeItem, BlogItem, HomeItem, ResumeItem, SearchItem]
  }

  /** `isActiveItem`: a missing or empty `href` is never active, the root
      link only on the root itself, every other link on any path it
      prefixes. */
  predicate IsActiveItem(item: NavItem, pathname: string) {
    if item.href.None? || item.href.value == "" then false
    else if item.href.value == "/" then pathname == "/"
    else StartsWith(pathname, item.href.value)
  }

  /** The three cases of the rule, each in both directions. */
  lemma ActiveRule(item: NavItem, pathname: string)
    ensures item.href.None? ==> !IsActiveItem(item, pathname)
    ensures item.href == Some("/") ==> (IsActiveItem(item, pathname) <==> pathname == "/")
    ensures item.href.Some? && item.href.value != "" && item.href.value != "/" ==>
              (IsActiveItem(item, pathname) <==> StartsWith(pathname, item.href.value))
  {
  }

  /** The prefix test has no segment boundary: `/blogroll` highlights the
      blog item, and so does `/blog/any-post`. */
  lemma BlogPrefixExample()
    ensures IsActiveItem(BlogItem, "/blogroll")
    ensures IsActiveItem(BlogItem, "/blog/x")
    ensures !IsActiveItem(HomeItem, "/blog")
  {
    assert "/blogroll"[..5] == "/blog";
    assert "/blog/x"[..5] == "/blog";
  }

  /** Which items are active, as positions in `NavItems()`. */
  function ActiveIndices(pathname: string): (r: set<nat>)
    ensures forall i: nat :: i in r <==> i < 5 && IsActiveItem(NavItems()[i], pathname)
  {
    set i: nat | i < 5 && IsActiveItem(NavItems()[i], pathname)
  }

  /** For every path, at most one of the five items is highlighted: the
      blog and resume prefixes differ at their second character, and `/`
      starts with neither. */
  lemma AtMostOneActive(pathname: string)
    ensures |ActiveIndices(pathname)| <= 1
    ensures forall i, j :: 0 <= i < j < 5 ==>
              !(IsActiveItem(NavItems()[i], pathname) && IsActiveItem(NavItems()[j], pathname))
  {
    var items := NavItems();
    if IsActiveItem(BlogItem, pathname) {
      assert pathname[1] == "/blog"[1] == 'b';
    }
    if IsActiveItem(ResumeItem, pathname) {
      assert pathname[1] == "/resume"[1] == 'r';
    }
    var act := ActiveIndices(pathname);
    if IsActiveItem(BlogItem, pathname) {
      assert act == {1};
    } else if IsActiveItem(ResumeItem, pathname) {
      assert act == {3};
    } else if pathname == "/" {
      assert act == {2};
    } else {
      assert act == {};
    }
  }
}

=== FILE: nekaracuba_corpus.dfy ===
/** The pure helpers of the script that builds the benchmark corpus of
    engineering-blog posts from five companies: URL normalisation, topic
    inference from keyword hits, the LINE blog link scraper, de-duplication,
    the (date, title) ordering and the per-company selection of at most
    `TargetCount` records. The network fetchers around them are not part of
    this model. */
module NekaracubaCorpus {
  import opened Wrappers
  import opened Seqs
  import opened Strings
  import opened Sorting

  const TargetCount: nat := 100
  const MinPerCompany: nat := 15
  const CompanyOrder: seq<string> := ["NAVER", "KAKAO", "LINE", "COUPANG", "BAEMIN"]

  // ---------------------------------------------------------------------
  // URL normalisation

  /** A URL as `urlparse` splits it. */
  datatype Url = Url(scheme: string, netloc: string, path: string, params: string, query: string, fragment: string)

  predicate NoDoubleSlash(s: string) {
    forall i :: 0 <= i < |s| - 1 ==> !(s[i] == '/' && s[i + 1] == '/')
  }

  predicate IsNotSlash(c: char) {
    c != '/'
  }

  /** The characters of `s` other than `/`, in order. */
  function NonSlash(s: string): string {
    Filter(s, IsNotSlash)
  }

  /** `re.sub(r"/+", "/", s)`: every run of slashes becomes one slash and
      nothing else changes. */
  function CollapseSlashes(s: string): (r: string)
    ensures |r| <= |s|
    ensures |s| > 0 ==> |r| > 0 && r[0] == s[0]
  {
    if |s| == 0 then []
    else if |s| >= 2 && s[0] == '/' && s[1] == '/' then CollapseSlashes(s[1..])
    else [s[0]] + CollapseSlashes(s[1..])
  }

  /** The collapsed string has no doubled slash and the same characters
      other than `/`. */
  lemma {:induction false} CollapseSlashesSound(s: string)
    ensures NoDoubleSlash(CollapseSlashes(s))
    ensures NonSlash(CollapseSlashes(s)) == NonSlash(s)
  {
    if |s| > 0 {
      CollapseSlashesSound(s[1..]);
      var rest := CollapseSlashes(s[1..]);
      FilterConcat([s[0]], s[1..], IsNotSlash);
      HeadTail(s);
      if !(|s| >= 2 && s[0] == '/' && s[1] == '/') {
        var r := [s[0]] + rest;
        assert r[1..] == rest;
        FilterConcat([s[0]], rest, IsNotSlash);
        forall i | 0 <= i < |r| - 1 ensures !(r[i] == '/' && r[i + 1] == '/') {
          if i > 0 {
            assert r[i] == rest[i - 1] && r[i + 1] == rest[i];
          }
        }
      }
    }
  }

  /** A path without doubled slashes is left as it is. */
  lemma {:induction false} CollapseKeeps(s: string)
    requires NoDoubleSlash(s)
    ensures CollapseSlashes(s) == s
  {
    if |s| > 0 {
      assert NoDoubleSlash(s[1..]);
      CollapseKeeps(s[1..]);
      HeadTail(s);
    }
  }

  /** A doubled slash anywhere collapses as a single one would: with
      `CollapseKeeps` this fixes the result on every input, since deleting
      one slash of each doubled pair ends in a string without one. */
  lemma {:induction false} CollapseRun(a: string, b: string)
    ensures CollapseSlashes(a + "//" + b) == CollapseSlashes(a + "/" + b)
    decreases |a|
  {
    var s := a + "//" + b;
    var t := a + "/" + b;
    if |a| == 0 {
      assert s[1..] == t;
    } else {
      assert s[0] == t[0] == a[0] && s[1] == t[1];
      assert s[1..] == a[1..] + "//" + b;
      assert t[1..] == a[1..] + "/" + b;
      CollapseRun(a[1..], b);
    }
  }

  /** `s.rstrip("/")`: the longest prefix of `s` that does not end in `/`
      and is followed only by slashes. */
  function TrimTrailingSlashes(s: string): (r: string)
    ensures |r| <= |s| && r == s[..|r|]
    ensures |r| == 0 || r[|r| - 1] != '/'
    ensures forall i :: |r| <= i < |s| ==> s[i] == '/'
  {
    if |s| > 0 && s[|s| - 1] == '/' then TrimTrailingSlashes(s[..|s| - 1]) else s
  }

  lemma NonSlashOfSlashes(s: string)
    requires forall i :: 0 <= i < |s| ==> s[i] == '/'
    ensures NonSlash(s) == []
  {
    FilterNone(s, IsNotSlash);
  }

  /** `normalize_url`'s path rule: runs of slashes collapsed, trailing
      slashes dropped, and the empty path replaced by `/`. */
  function NormalizePath(p: string): (r: string)
    ensures |r| > 0 && NoDoubleSlash(r)
    ensures r == "/" || r[|r| - 1] != '/'
    ensures NonSlash(r) == NonSlash(p)
  {
    var c := CollapseSlashes(p);
    CollapseSlashesSound(p);
    var t := TrimTrailingSlashes(c);
    TrimKeeps(c);
    if t == [] then
      NonSlashOfSlashes("/");
      "/"
    else t
  }

  /** Trimming trailing slashes keeps a slash-clean string clean and
      removes only slashes. */
  lemma TrimKeeps(c: string)
    requires NoDoubleSlash(c)
    ensures NoDoubleSlash(TrimTrailingSlashes(c))
    ensures NonSlash(TrimTrailingSlashes(c)) == NonSlash(c)
  {
    var t := TrimTrailingSlashes(c);
    assert c == t + c[|t|..];
    NonSlashOfSlashes(c[|t|..]);
    FilterConcat(t, c[|t|..], IsNotSlash);
  }

  /** A run of slashes inside a path normalises as one slash: the run rule
      carried through `NormalizePath`. */
  lemma NormalizePathRun(a: string, b: string)
    ensures NormalizePath(a + "//" + b) == NormalizePath(a + "/" + b)
  {
    CollapseRun(a, b);
  }

  /** Normalising a normalised path changes nothing. */
  lemma NormalizePathIdempotent(p: string)
    ensures NormalizePath(NormalizePath(p)) == NormalizePath(p)
  {
    var r := NormalizePath(p);
    CollapseKeeps(r);
    if r == "/" {
      assert TrimTrailingSlashes("/") == TrimTrailingSlashes("");
    }
  }

  /** A slash-clean path that does not end in a slash is already normal. */
  lemma NormalizePathClean(p: string)
    requires |p| > 0 && NoDoubleSlash(p) && p[|p| - 1] != '/'
    ensures NormalizePath(p) == p
  {
    CollapseKeeps(p);
  }

  lemma NormalizePathExample()
    ensures NormalizePath("//a///b/") == "/a/b"
    ensures NormalizePath("") == "/"
    ensures NormalizePath("///") == "/"
  {
    NormalizeMixed("//a///b/");
    NormalizeSlashes("///");
  }

  /** A doubled slash at the front is dropped. */
  lemma CollapseDouble(s: string, t: string, r: string)
    requires s == "/" + t && |t| > 0 && t[0] == '/' && CollapseSlashes(t) == r
    ensures CollapseSlashes(s) == r
  {
    assert s[1..] == t;
  }

  /** Any other first character is kept. */
  lemma CollapseCons(s: string, c: char, t: string, r: string)
    requires s == [c] + t && !(c == '/' && |t| > 0 && t[0] == '/') && CollapseSlashes(t) == r
    ensures CollapseSlashes(s) == [c] + r
  {
    assert s[1..] == t;
  }

  /** `NormalizePath` from its two stages, when something is left. */
  lemma NormalizeFrom(p: string, c: string, t: string)
    requires CollapseSlashes(p) == c && TrimTrailingSlashes(c) == t && t != []
    ensures NormalizePath(p) == t
  {
  }

  lemma NormalizeMixed(p: string)
    requires p == "//a///b/"
    ensures NormalizePath(p) == "/a/b"
  {
    CollapseMixed(p, "///b/");
    TrimOneSlash("/a/b/", "/a/b");
    NormalizeFrom(p, "/a/b/", "/a/b");
  }

  lemma CollapseMixed(p: string, tail: string)
    requires p == "//a" + tail && tail == "///b/"
    ensures CollapseSlashes(p) == "/a/b/"
  {
    CollapseTail(tail);
    CollapseCons("a" + tail, 'a', tail, "/b/");
    CollapseCons("/a" + tail, '/', "a" + tail, "a/b/");
    CollapseDouble(p, "/a" + tail, "/a/b/");
  }

  lemma CollapseTail(tail: string)
    requires tail == "///b/"
    ensures CollapseSlashes(tail) == "/b/"
  {
    CollapseCons("/", '/', "", "");
    CollapseCons("b/", 'b', "/", "/");
    CollapseCons("/b/", '/', "b/", "b/");
    CollapseDouble("//b/", "/b/", "/b/");
    CollapseDouble(tail, "//b/", "/b/");
  }

  /** Trailing slashes after a last non-slash character are dropped. */
  lemma TrimOneSlash(c: string, t: string)
    requires |t| > 0 && t[|t| - 1] != '/' && c == t + "/"
    ensures TrimTrailingSlashes(c) == t
  {
    assert c[..|c| - 1] == t;
  }

  lemma NormalizeSlashes(p: string)
    requires p == "///"
    ensures NormalizePath(p) == "/"
  {
    CollapseCons("/", '/', "", "");
    CollapseDouble("//", "/", "/");
    CollapseDouble(p, "//", "/");
    assert TrimTrailingSlashes("/") == TrimTrailingSlashes("");
  }

  /** The shape `normalize_url` gives every URL. */
  predicate IsNormalUrl(u: Url) {
    && ToLower(u.netloc) == u.netloc
    && |u.path| > 0 && NoDoubleSlash(u.path)
    && (u.path == "/" || u.path[|u.path| - 1] != '/')
    && u.params == "" && u.query == "" && u.fragment == ""
  }

  /** `normalize_url` on the parts `urlparse` produced: the host is
      lower-cased, the path normalised, and parameters, query and fragment
      dropped. */
  function NormalizeUrl(u: Url): (r: Url)
    ensures IsNormalUrl(r)
    ensures r.scheme == u.scheme
    ensures r.netloc == ToLower(u.netloc)
    ensures r.path == NormalizePath(u.path)
    ensures NonSlash(r.path) == NonSlash(u.path)
  {
    ToLowerTwice(u.netloc);
    Url(u.scheme, ToLower(u.netloc), NormalizePath(u.path), "", "", "")
  }

  /** A normal URL is a fixed point, so normalising twice is normalising
      once. */
  lemma NormalizeUrlFixes(u: Url)
    requires IsNormalUrl(u)
    ensures NormalizeUrl(u) == u
  {
    CollapseKeeps(u.path);
    if u.path == "/" {
      assert TrimTrailingSlashes("/") == TrimTrailingSlashes("");
    }
  }

  lemma NormalizeUrlIdempotent(u: Url)
    ensures NormalizeUrl(NormalizeUrl(u)) == NormalizeUrl(u)
  {
    NormalizeUrlFixes(NormalizeUrl(u));
  }

  // ---------------------------------------------------------------------
  // Topic inference

  const TopicNames: seq<string> := ["frontend", "uiux", "design"]

  /** The keyword lists of the three topics, in the same order. */
  const TopicKeywords: seq<seq<string>> := [
    ["frontend", "front-end", "프론트엔드", "web", "react", "next.js", "javascript", "typescript", "ui 개발", "client"],
    ["ux", "ui", "사용자 경험", "접근성", "a11y", "인터랙션", "usability", "research"],
    ["design", "디자인", "design system", "디자인 시스템", "token", "토큰", "컴포넌트", "component"]
  ]

  /** The title and the space-joined tags, lower-cased. */
  function Haystack(title: string, tags: seq<string>): string {
    ToLower(title + " " + Join(tags, " "))
  }

  function TopicScores(haystack: string): (s: seq<nat>)
    ensures |s| == |TopicNames|
  {
    seq(|TopicKeywords|, i requires 0 <= i < |TopicKeywords| => KeywordHits(haystack, TopicKeywords[i]))
  }

  /** A topic's score counts its keywords that occur in the haystack. */
  lemma TopicScoresCount(haystack: string, k: int)
    requires 0 <= k < |TopicNames|
    ensures TopicScores(haystack)[k] == |Filter(TopicKeywords[k], kw => Contains(haystack, kw))|
  {
    KeywordHitsCountsMatches(haystack, TopicKeywords[k]);
  }

  /** The position `max(scores, key=scores.get)` picks: a maximum, and
      the first one. */
  predicate IsFirstMax(s: seq<nat>, k: int) {
    && 0 <= k < |s|
    && (forall j :: 0 <= j < |s| ==> s[j] <= s[k])
    && (forall j :: 0 <= j < k ==> s[j] < s[k])
  }

  function FirstMax(s: seq<nat>): (k: nat)
    requires |s| > 0
    ensures IsFirstMax(s, k)
  {
    if |s| == 1 then 0
    else
      var k := FirstMax(s[..|s| - 1]);
      assert forall j :: 0 <= j < |s| - 1 ==> s[j] == s[..|s| - 1][j];
      if s[|s| - 1] > s[k] then |s| - 1 else k
  }

  /** The first maximum is the only position with both properties. */
  lemma FirstMaxUnique(s: seq<nat>, k: int)
    requires IsFirstMax(s, k)
    ensures forall l :: 0 <= l < |s| && l != k ==> !IsFirstMax(s, l)
  {
    forall l | 0 <= l < |s| && l != k ensures !IsFirstMax(s, l) {
      if l < k {
        assert s[l] < s[k];
      } else {
        assert s[l] <= s[k];
      }
    }
  }

  /** `infer_topic`: "other" when no keyword of any topic occurs, and
      otherwise the topic with the most hits, the earliest on a tie. */
  function InferTopic(title: string, tags: seq<string>): (r: string)
    ensures var s := TopicScores(Haystack(title, tags));
      && (r == "other" <==> forall k :: 0 <= k < |s| ==> s[k] == 0)
      && (forall k :: 0 <= k < |TopicNames| ==> (r == TopicNames[k] <==> s[k] > 0 && IsFirstMax(s, k)))
  {
    var s := TopicScores(Haystack(title, tags));
    var best := FirstMax(s);
    FirstMaxUnique(s, best);
    if s[best] == 0 then "other" else TopicNames[best]
  }

  // ---------------------------------------------------------------------
  // LINE blog links

  /** The locales the link pattern is built for: non-empty and made of
      lower-case letters, so they carry no regular-expression syntax. */
  predicate IsPlainLocale(locale: string) {
    |locale| > 0 && forall i :: 0 <= i < |locale| ==> 'a' <= locale[i] <= 'z'
  }

  /** The literal text before the captured slug. */
  function LinkPrefix(locale: string): string {
    "href=\"/" + locale + "/blog/"
  }

  predicate IsSlugChar(c: char) {
    c != '"' && c != '/'
  }

  predicate IsSlug(s: string) {
    |s| > 0 && forall i :: 0 <= i < |s| ==> IsSlugChar(s[i])
  }

  /** The pattern `href="/{locale}/blog/([^"/]+)/"` matches at `i` with
      `slug` captured. */
  predicate MatchesAt(html: string, locale: string, i: int, slug: string) {
    IsSlug(slug) && OccursAt(html, LinkPrefix(locale) + slug + "/\"", i)
  }

  /** Length of the run of slug characters starting at `k`. */
  function SlugRun(html: string, k: nat): (n: nat)
    requires k <= |html|
    ensures k + n <= |html|
    ensures forall j :: k <= j < k + n ==> IsSlugChar(html[j])
    ensures k + n == |html| || !IsSlugChar(html[k + n])
    decreases |html| - k
  {
    if k == |html| || !IsSlugChar(html[k]) then 0 else 1 + SlugRun(html, k + 1)
  }

  datatype Match = Match(slug: string, end: nat)

  /** The regular-expression engine at one position: the greedy class
      takes the whole run of slug characters, which must then be
      followed by `/"`; backing off cannot help, since a shorter run is
      followed by a slug character rather than `/`. */
  function MatchAt(html: string, locale: string, i: nat): (r: Option<Match>)
    requires i <= |html|
    ensures r.Some? ==> i < r.value.end <= |html| && MatchesAt(html, locale, i, r.value.slug)
    ensures r.Some? ==> r.value.end == i + |LinkPrefix(locale)| + |r.value.slug| + 2
  {
    var p := LinkPrefix(locale);
    if !OccursAt(html, p, i) then None
    else
      var st := i + |p|;
      var n := SlugRun(html, st);
      if n > 0 && st + n + 2 <= |html| && html[st + n] == '/' && html[st + n + 1] == '"' then
        var slug := html[st..st + n];
        assert html[i..st + n + 2] == p + slug + "/\"";
        Some(Match(slug, st + n + 2))
      else None
  }

  /** A run of slug characters that ends before a non-slug character is
      the whole run. */
  lemma {:induction false} SlugRunExact(html: string, k: nat, m: nat)
    requires k + m < |html|
    requires forall j :: k <= j < k + m ==> IsSlugChar(html[j])
    requires !IsSlugChar(html[k + m])
    ensures SlugRun(html, k) == m
    decreases m
  {
    if m > 0 {
      SlugRunExact(html, k + 1, m - 1);
    }
  }

  /** Every match the pattern allows at `i` is the one `MatchAt` finds. */
  lemma MatchAtComplete(html: string, locale: string, i: nat, slug: string)
    requires i <= |html| && MatchesAt(html, locale, i, slug)
    ensures MatchAt(html, locale, i) == Some(Match(slug, i + |LinkPrefix(locale)| + |slug| + 2))
  {
    var p := LinkPrefix(locale);
    var st := i + |p|;
    var q := st + |slug|;
    OccursSplit(html, p + slug, "/\"", i);
    OccursSplit(html, p, slug, i);
    assert html[q..q + 2] == "/\"";
    assert html[q] == '/' && html[q + 1] == '"';
    assert html[st..q] == slug;
    forall j | st <= j < q ensures IsSlugChar(html[j]) {
      assert html[j] == slug[j - st];
    }
    SlugRunExact(html, st, |slug|);
    MatchAtFound(html, locale, i, st, |slug|, q);
  }

  /** The engine's answer when the prefix, a run of slug characters and
      the closing `/"` are all there. */
  lemma MatchAtFound(html: string, locale: string, i: nat, st: nat, n: nat, q: nat)
    requires i <= |html| && OccursAt(html, LinkPrefix(locale), i) && st == i + |LinkPrefix(locale)|
    requires st <= |html| && SlugRun(html, st) == n && n > 0 && q == st + n && q + 2 <= |html|
    requires html[q] == '/' && html[q + 1] == '"'
    ensures MatchAt(html, locale, i) == Some(Match(html[st..q], q + 2))
  {
  }

  /** Every match begins with `href="`. */
  lemma MatchStartsWithHref(html: string, locale: string, k: int, slug: string)
    requires MatchesAt(html, locale, k, slug)
    ensures k + 6 <= |html| && html[k..k + 6] == "href=\""
  {
    var v := LinkPrefix(locale) + slug + "/\"";
    assert html[k..k + |v|] == v;
    assert html[k..k + 6] == v[..6];
  }

  /** Matches cannot overlap: the only quote inside a match other than
      its last character is the one after `href=`, so `href="` starts
      nowhere else inside it. */
  lemma NoHrefInside(html: string, locale: string, i: nat, k: nat)
    requires IsPlainLocale(locale) && i <= |html|
    requires MatchAt(html, locale, i).Some?
    requires i < k < MatchAt(html, locale, i).value.end
    ensures !(k + 6 <= |html| && html[k..k + 6] == "href=\"")
  {
    var m := MatchAt(html, locale, i).value;
    var p := LinkPrefix(locale);
    var e := m.end;
    var w := p + m.slug + "/\"";
    assert html[i..e] == w;
    if k + 6 <= |html| {
      var h := html[k..k + 6];
      if k + 5 >= e - 1 {
        if e - 1 - k < 5 {
          assert h[e - 1 - k] == html[e - 1] == w[|w| - 1] == '"';
        } else {
          assert h[4] == html[e - 2] == w[|w| - 2] == '/';
        }
      } else {
        var q := k + 5 - i;
        assert 5 < q < |w| - 1;
        assert h[5] == html[k + 5] == w[q];
        if q < |p| {
          assert w[q] == p[q];
          if q == 6 {
            assert p[6] == '/';
          } else if q < 7 + |locale| {
            assert p[q] == locale[q - 7];
          } else {
            assert p[q] == "/blog/"[q - 7 - |locale|];
          }
        } else if q < |p| + |m.slug| {
          assert w[q] == m.slug[q - |p|];
        } else {
          assert w[q] == '/';
        }
      }
    }
  }

  /** `s` is captured by a match at `i` or later. */
  ghost predicate MatchedFrom(html: string, locale: string, i: int, s: string) {
    exists k :: i <= k < |html| && MatchesAt(html, locale, k, s)
  }

  lemma MatchedFromEarlier(html: string, locale: string, i: int, ss: seq<string>)
    requires forall j :: 0 <= j < |ss| ==> MatchedFrom(html, locale, i + 1, ss[j])
    ensures forall j :: 0 <= j < |ss| ==> MatchedFrom(html, locale, i, ss[j])
  {
    forall j | 0 <= j < |ss| ensures MatchedFrom(html, locale, i, ss[j]) {
      assert MatchedFrom(html, locale, i + 1, ss[j]);
      var k :| i + 1 <= k < |html| && MatchesAt(html, locale, k, ss[j]);
      assert i <= k;
    }
  }

  lemma MatchedFromLater(html: string, locale: string, i: int, e: int, ss: seq<string>)
    requires i <= e
    requires forall j :: 0 <= j < |ss| ==> MatchedFrom(html, locale, e, ss[j])
    ensures forall j :: 0 <= j < |ss| ==> MatchedFrom(html, locale, i, ss[j])
  {
    forall j | 0 <= j < |ss| ensures MatchedFrom(html, locale, i, ss[j]) {
      assert MatchedFrom(html, locale, e, ss[j]);
      var k :| e <= k < |html| && MatchesAt(html, locale, k, ss[j]);
      assert i <= k;
    }
  }

  lemma MatchedFromCons(html: string, locale: string, i: nat, e: int, s: string, ss: seq<string>)
    requires i < |html| && i <= e && MatchesAt(html, locale, i, s)
    requires forall j :: 0 <= j < |ss| ==> MatchedFrom(html, locale, e, ss[j])
    ensures forall j :: 0 <= j < |[s] + ss| ==> MatchedFrom(html, locale, i, ([s] + ss)[j])
  {
    MatchedFromLater(html, locale, i, e, ss);
    assert MatchedFrom(html, locale, i, s);
    forall j | 1 <= j < |[s] + ss| ensures ([s] + ss)[j] == ss[j - 1] {
    }
  }

  /** `re.findall`: the captured slugs of the non-overlapping matches,
      scanning left to right from `i`. */
  function FindAll(html: string, locale: string, i: nat): (r: seq<string>)
    requires i <= |html|
    ensures forall j :: 0 <= j < |r| ==> MatchedFrom(html, locale, i, r[j])
    decreases |html| - i
  {
    if i == |html| then []
    else
      match MatchAt(html, locale, i)
      case None =>
        var rest := FindAll(html, locale, i + 1);
        MatchedFromEarlier(html, locale, i, rest);
        rest
      case Some(m) =>
        var rest := FindAll(html, locale, m.end);
        MatchedFromCons(html, locale, i, m.end, m.slug, rest);
        [m.slug] + rest
  }

  /** Every match at or after `i` is found. */
  lemma {:induction false} FindAllComplete(html: string, locale: string, i: nat, k: nat, slug: string)
    requires IsPlainLocale(locale) && i <= k <= |html|
    requires MatchesAt(html, locale, k, slug)
    ensures slug in FindAll(html, locale, i)
    decreases |html| - i
  {
    assert k < |html|;
    match MatchAt(html, locale, i)
    case None =>
      if i == k {
        MatchAtComplete(html, locale, k, slug);
      } else {
        FindAllComplete(html, locale, i + 1, k, slug);
      }
    case Some(m) =>
      if i == k {
        MatchAtComplete(html, locale, k, slug);
      } else if k < m.end {
        MatchStartsWithHref(html, locale, k, slug);
        NoHrefInside(html, locale, i, k);
        assert false;
      } else {
        FindAllComplete(html, locale, m.end, k, slug);
      }
  }

  /** The slugs the scraper keeps. */
  predicate IsKeptSlug(s: string) {
    && !StartsWith(s, "author") && !StartsWith(s, "tag") && !StartsWith(s, "page")
    && s !in {"blog", "culture", "opensource", "careers"}
  }

  /** The de-duplicated, filtered, sorted slugs of `extract_line_links`. */
  function LineSlugs(html: string, locale: string): (r: seq<string>)
    ensures Distinct(r) && SortedBy(r, StrLe)
    ensures forall j :: 0 <= j < |r| ==> IsKeptSlug(r[j]) && MatchedFrom(html, locale, 0, r[j])
  {
    var found := FindAll(html, locale, 0);
    var r := SortedKept(found);
    assert forall j :: 0 <= j < |r| ==> MatchedFrom(html, locale, 0, r[j]) by {
      forall j | 0 <= j < |r| ensures MatchedFrom(html, locale, 0, r[j]) {
        var i :| 0 <= i < |found| && found[i] == r[j];
      }
    }
    r
  }

  /** `sorted(slug for slug in set(found) if kept)`. */
  function SortedKept(found: seq<string>): (r: seq<string>)
    ensures Distinct(r) && SortedBy(r, StrLe)
    ensures forall j :: 0 <= j < |r| ==> IsKeptSlug(r[j]) && r[j] in found
    ensures forall x :: x in found && IsKeptSlug(x) ==> x in r
  {
    var kept := Filter(Dedup(found), IsKeptSlug);
    SortKeptFacts(found, kept);
    SortBy(kept, StrLe)
  }

  lemma SortKeptFacts(found: seq<string>, kept: seq<string>)
    requires kept == Filter(Dedup(found), IsKeptSlug)
    ensures var r := SortBy(kept, StrLe);
            && Distinct(r) && SortedBy(r, StrLe)
            && (forall j :: 0 <= j < |r| ==> IsKeptSlug(r[j]) && r[j] in found)
            && (forall x :: x in found && IsKeptSlug(x) ==> x in r)
  {
    FilterDistinct(Dedup(found), IsKeptSlug);
    SortDistinct(kept);
    KeptMembers(found, kept);
    SameMembers(kept, SortBy(kept, StrLe));
  }

  lemma SortDistinct(kept: seq<string>)
    requires Distinct(kept)
    ensures Distinct(SortBy(kept, StrLe)) && SortedBy(SortBy(kept, StrLe), StrLe)
  {
    StrLeTotalOrder();
    SortBySorted(kept, StrLe);
    DistinctPermutation(kept, SortBy(kept, StrLe));
  }

  lemma KeptMembers(found: seq<string>, kept: seq<string>)
    requires kept == Filter(Dedup(found), IsKeptSlug)
    ensures forall x :: x in kept <==> x in found && IsKeptSlug(x)
  {
    var d := Dedup(found);
    forall x ensures x in kept <==> x in found && IsKeptSlug(x) {
      if x in found && IsKeptSlug(x) {
        var i :| 0 <= i < |found| && found[i] == x;
        assert x in d;
        var j :| 0 <= j < |d| && d[j] == x;
      }
      if x in kept {
        var j :| 0 <= j < |kept| && kept[j] == x;
        assert x in d;
      }
    }
  }

  /** Every kept slug the pattern matches anywhere is listed. */
  lemma LineSlugsComplete(html: string, locale: string, k: nat, slug: string)
    requires IsPlainLocale(locale) && k <= |html|
    requires MatchesAt(html, locale, k, slug) && IsKeptSlug(slug)
    ensures slug in LineSlugs(html, locale)
  {
    FindAllComplete(html, locale, 0, k, slug);
  }

  /** The sorted order is strict, as for a sorted set. */
  lemma LineSlugsAscending(html: string, locale: string)
    ensures forall i, j :: 0 <= i < j < |LineSlugs(html, locale)| ==>
              StrLt(LineSlugs(html, locale)[i], LineSlugs(html, locale)[j])
  {
  }

  /** `urlparse` ends the path at the first `?` (query), `#` (fragment) or,
      in the last segment, `;` (parameters); a slug holds no `/`, so the
      path ends at the first of the three inside the slug. */
  function PathPart(slug: string): (r: string)
    ensures |r| <= |slug| && r == slug[..|r|]
    ensures forall i :: 0 <= i < |r| ==> r[i] !in {'?', '#', ';'}
    ensures |r| == |slug| || slug[|r|] in {'?', '#', ';'}
  {
    if |slug| == 0 || slug[0] in {'?', '#', ';'} then []
    else
      var rest := PathPart(slug[1..]);
      assert [slug[0]] + rest == slug[..|rest| + 1];
      [slug[0]] + rest
  }

  /** The characters Python's `str.isspace` accepts, which `strip`
      removes. */
  predicate IsPyWhitespace(c: char) {
    || c == '\t' || c == '\n' || c == '\U{0B}' || c == '\U{0C}' || c == '\r'
    || ('\U{1C}' <= c <= '\U{1F}') || c == ' ' || c == '\U{85}' || c == '\U{A0}'
    || c == '\U{1680}' || ('\U{2000}' <= c <= '\U{200A}') || c == '\U{2028}'
    || c == '\U{2029}' || c == '\U{202F}' || c == '\U{205F}' || c == '\U{3000}'
  }

  /** `rstrip()`: the longest prefix that does not end in whitespace. */
  function StripEnd(s: string): (r: string)
    ensures |r| <= |s| && r == s[..|r|]
    ensures |r| == 0 || !IsPyWhitespace(r[|r| - 1])
    ensures forall i :: |r| <= i < |s| ==> IsPyWhitespace(s[i])
  {
    if |s| > 0 && IsPyWhitespace(s[|s| - 1]) then StripEnd(s[..|s| - 1]) else s
  }

  /** The characters `urlsplit` deletes wherever they occur. */
  predicate IsKeptUrlChar(c: char) {
    c != '\t' && c != '\r' && c != '\n'
  }

  /** What of the slug reaches the path: the URL ends with the slug, so
      `url.strip()` removes the slug's trailing whitespace (the text before
      it ends in `/`); `urlsplit` then deletes tabs and line breaks, and
      the path stops at the first query, fragment or parameter mark. */
  function SlugPath(slug: string): (r: string)
    ensures forall i :: 0 <= i < |r| ==> r[i] !in {'?', '#', ';'} && IsKeptUrlChar(r[i])
  {
    PathPart(Filter(StripEnd(slug), IsKeptUrlChar))
  }

  /** Trailing whitespace on a slug does not reach the link. */
  lemma SlugPathTrailingSpace(slug: string, c: char)
    requires IsPyWhitespace(c)
    ensures SlugPath(slug + [c]) == SlugPath(slug)
  {
    assert (slug + [c])[..|slug|] == slug;
  }

  /** A tab or line break inside a slug does not reach the link. */
  lemma SlugPathDropsInside(a: string, c: char, b: string)
    requires !IsKeptUrlChar(c)
    requires |b| > 0 && !IsPyWhitespace(b[|b| - 1])
    ensures SlugPath(a + [c] + b) == SlugPath(a + b)
  {
    StripEndKeeps(a + [c] + b);
    StripEndKeeps(a + b);
    FilterDropsOne(a, c, b, IsKeptUrlChar);
  }

  lemma StripEndKeeps(s: string)
    requires |s| > 0 && !IsPyWhitespace(s[|s| - 1])
    ensures StripEnd(s) == s
  {
  }

  /** A slug with no whitespace and no query, fragment or parameter mark. */
  predicate PlainSlug(slug: string) {
    forall i :: 0 <= i < |slug| ==> slug[i] !in {'?', '#', ';'} && !IsPyWhitespace(slug[i])
  }

  /** A plain slug reaches the path unchanged. */
  lemma SlugPathPlain(slug: string)
    requires PlainSlug(slug)
    ensures SlugPath(slug) == slug
  {
    assert StripEnd(slug) == slug;
    FilterAll(slug, IsKeptUrlChar);
    assert PathPart(slug) == slug;
  }

  /** The host of every link `extract_line_links` builds. */
  const LineHost := "engineering.linecorp.com"

  /** The normalised form of `https://{host}/{locale}/blog/{slug}`. */
  function LineLinkUrl(host: string, locale: string, slug: string): (r: Url)
    ensures IsNormalUrl(r) && r.scheme == "https"
  {
    NormalizeUrl(Url("https", host, LinePath(locale, slug), "", "", ""))
  }

  /** The path of the link before normalisation. */
  function LinePath(locale: string, slug: string): string {
    "/" + locale + "/blog/" + SlugPath(slug)
  }

  /** Joining two slash-clean strings is slash-clean unless the seam
      doubles a slash. */
  lemma NoDoubleSlashConcat(a: string, b: string)
    requires NoDoubleSlash(a) && NoDoubleSlash(b)
    requires |a| == 0 || |b| == 0 || a[|a| - 1] != '/' || b[0] != '/'
    ensures NoDoubleSlash(a + b)
  {
    var c := a + b;
    forall i | 0 <= i < |c| - 1 ensures !(c[i] == '/' && c[i + 1] == '/') {
      if i + 1 < |a| {
        assert c[i] == a[i] && c[i + 1] == a[i + 1];
      } else if i >= |a| {
        assert c[i] == b[i - |a|] && c[i + 1] == b[i + 1 - |a|];
      } else {
        assert c[i] == a[|a| - 1] && c[i + 1] == b[0];
      }
    }
  }

  /** For a plain slug the path before normalisation is already
      slash-clean and does not end in a slash. */
  lemma LinePathClean(locale: string, slug: string)
    requires IsPlainLocale(locale) && IsSlug(slug) && PlainSlug(slug)
    ensures LinePath(locale, slug) == "/" + locale + "/blog/" + slug
    ensures NoDoubleSlash(LinePath(locale, slug))
    ensures LinePath(locale, slug)[|LinePath(locale, slug)| - 1] != '/'
  {
    SlugPathPlain(slug);
    LocaleBlogClean(locale);
    assert NoDoubleSlash(slug);
    NoDoubleSlashConcat("/" + locale + "/blog/", slug);
    var path := "/" + locale + "/blog/" + slug;
    assert path[|path| - 1] == slug[|slug| - 1];
  }

  /** The fixed part of the path holds no doubled slash. */
  lemma LocaleBlogClean(locale: string)
    requires IsPlainLocale(locale)
    ensures NoDoubleSlash("/" + locale + "/blog/")
  {
    var head := "/" + locale;
    assert NoDoubleSlash(head) by {
      assert forall i :: 1 <= i < |head| ==> head[i] == locale[i - 1];
    }
    var blog := "/blog/";
    assert NoDoubleSlash(blog) by {
      assert blog[1] == 'b' && blog[2] == 'l' && blog[3] == 'o' && blog[4] == 'g';
    }
    NoDoubleSlashConcat(head, blog);
  }

  /** For a plain slug the link's path is exactly `/{locale}/blog/{slug}`. */
  lemma LineLinkPlain(host: string, locale: string, slug: string)
    requires IsPlainLocale(locale) && IsSlug(slug) && PlainSlug(slug)
    ensures LineLinkUrl(host, locale, slug).path == "/" + locale + "/blog/" + slug
  {
    LinePathClean(locale, slug);
    NormalizePathClean(LinePath(locale, slug));
  }

  lemma MatchedSlug(html: string, locale: string, s: string)
    requires MatchedFrom(html, locale, 0, s)
    ensures IsSlug(s)
  {
    var k :| 0 <= k < |html| && MatchesAt(html, locale, k, s);
  }

  lemma PrefixCancel(pre: string, a: string, b: string)
    requires pre + a == pre + b
    ensures a == b
  {
    assert (pre + a)[|pre|..] == a;
    assert (pre + b)[|pre|..] == b;
  }

  /** Distinct plain slugs give distinct links. */
  lemma DistinctLinks(host: string, locale: string, a: string, b: string)
    requires IsPlainLocale(locale) && IsSlug(a) && IsSlug(b) && a != b
    requires PlainSlug(a) && PlainSlug(b)
    ensures LineLinkUrl(host, locale, a) != LineLinkUrl(host, locale, b)
  {
    LineLinkPlain(host, locale, a);
    LineLinkPlain(host, locale, b);
    var pa, pb := LineLinkUrl(host, locale, a).path, LineLinkUrl(host, locale, b).path;
    if pa == pb {
      PrefixCancel("/" + locale + "/blog/", a, b);
    }
  }

  /** One normalised link on `host` per slug, in order. */
  function LinksOfSlugs(host: string, locale: string, slugs: seq<string>): (r: seq<Url>)
    ensures |r| == |slugs|
    ensures forall i :: 0 <= i < |r| ==> r[i] == LineLinkUrl(host, locale, slugs[i])
  {
    seq(|slugs|, i requires 0 <= i < |slugs| => LineLinkUrl(host, locale, slugs[i]))
  }

  /** One normalised link on `host` per kept slug, in slug order. */
  function LineLinksOn(host: string, html: string, locale: string): (r: seq<Url>)
    ensures |r| == |LineSlugs(html, locale)|
    ensures forall i :: 0 <= i < |r| ==> IsNormalUrl(r[i]) && r[i].scheme == "https"
  {
    LinksOfSlugs(host, locale, LineSlugs(html, locale))
  }

  /** `extract_line_links`: the links on the LINE engineering host. */
  function ExtractLineLinks(html: string, locale: string): (r: seq<Url>)
    ensures |r| == |LineSlugs(html, locale)|
    ensures forall i :: 0 <= i < |r| ==> IsNormalUrl(r[i]) && r[i].scheme == "https"
  {
    LineLinksOn(LineHost, html, locale)
  }

  /** No slug carries whitespace or a query, fragment or parameter
      character. */
  predicate PlainSlugs(slugs: seq<string>) {
    forall j :: 0 <= j < |slugs| ==> PlainSlug(slugs[j])
  }

  lemma {:induction false} LineLinksOnDistinct(host: string, html: string, locale: string)
    requires IsPlainLocale(locale) && PlainSlugs(LineSlugs(html, locale))
    ensures Distinct(LineLinksOn(host, html, locale))
  {
    var slugs := LineSlugs(html, locale);
    var r := LineLinksOn(host, html, locale);
    forall i, j | 0 <= i < j < |r| ensures r[i] != r[j] {
      MatchedSlug(html, locale, slugs[i]);
      MatchedSlug(html, locale, slugs[j]);
      DistinctLinks(host, locale, slugs[i], slugs[j]);
    }
  }

  /** When no slug carries whitespace or a query, fragment or parameter
      character, the links are distinct: distinct slugs give distinct paths. */
  lemma ExtractLineLinksDistinct(html: string, locale: string)
    requires IsPlainLocale(locale) && PlainSlugs(LineSlugs(html, locale))
    ensures Distinct(ExtractLineLinks(html, locale))
  {
    LineLinksOnDistinct(LineHost, html, locale);
  }

  // ---------------------------------------------------------------------
  // Records

  /** One post of the corpus. */
  datatype Record = Record(company: string, source: string, title: string, link: string,
                           date: string, topic: string, tags: seq<string>, evidence: string)

  function LinkOf(r: Record): string {
    r.link
  }

  function LinksOf(rs: seq<Record>): set<string> {
    set r | r in rs :: LinkOf(r)
  }

  lemma LinkIn(rs: seq<Record>, i: int)
    requires 0 <= i < |rs|
    ensures rs[i].link in LinksOf(rs)
  {
    assert rs[i] in rs;
    assert LinkOf(rs[i]) in LinksOf(rs);
  }

  lemma LinksOfConcat(a: seq<Record>, b: seq<Record>)
    ensures LinksOf(a + b) == LinksOf(a) + LinksOf(b)
  {
    forall x | x in LinksOf(a + b) ensures x in LinksOf(a) + LinksOf(b) {
      var r :| r in a + b && LinkOf(r) == x;
      if r in a {
        assert LinkOf(r) in LinksOf(a);
      } else {
        assert LinkOf(r) in LinksOf(b);
      }
    }
    forall x | x in LinksOf(a) + LinksOf(b) ensures x in LinksOf(a + b) {
      if x in LinksOf(a) {
        var r :| r in a && LinkOf(r) == x;
        assert r in a + b;
      } else {
        var r :| r in b && LinkOf(r) == x;
        assert r in a + b;
      }
    }
  }

  lemma LinksOfSingleton(x: Record)
    ensures LinksOf([x]) == {x.link}
  {
    LinkIn([x], 0);
    forall y | y in LinksOf([x]) ensures y == x.link {
      var r :| r in [x] && LinkOf(r) == y;
    }
  }

  lemma LinkNotIn(t: seq<Record>, x: string)
    requires forall i :: 0 <= i < |t| ==> t[i].link != x
    ensures x !in LinksOf(t)
  {
    forall y | y in LinksOf(t) ensures y != x {
      var r :| r in t && LinkOf(r) == y;
      var i :| 0 <= i < |t| && t[i] == r;
    }
  }

  lemma LinksOfSnoc(t: seq<Record>, x: Record)
    ensures LinksOf(t + [x]) == LinksOf(t) + {x.link}
  {
    LinksOfConcat(t, [x]);
    LinksOfSingleton(x);
  }

  lemma DistinctInit(rs: seq<Record>, n: nat)
    requires DistinctBy(rs, LinkOf) && n + 1 == |rs|
    ensures DistinctBy(rs[..n], LinkOf)
    ensures rs == rs[..n] + [rs[n]]
    ensures forall i :: 0 <= i < |rs[..n]| ==> rs[..n][i].link != rs[n].link
  {
    assert forall i :: 0 <= i < n ==> rs[..n][i] == rs[i];
  }

  /** Distinct links: as many links as records. */
  lemma {:induction false} LinksOfDistinct(rs: seq<Record>)
    requires DistinctBy(rs, LinkOf)
    ensures |LinksOf(rs)| == |rs|
  {
    if |rs| > 0 {
      var n := |rs| - 1;
      var t := rs[..n];
      DistinctInit(rs, n);
      LinksOfDistinct(t);
      LinksOfSnoc(t, rs[n]);
      LinkNotIn(t, rs[n].link);
    }
  }

  /** `dedupe_records`: the first record of each link, in input order. */
  function DedupeRecords(rs: seq<Record>): (r: seq<Record>)
    ensures DistinctBy(r, LinkOf)
    ensures IsSubsequence(r, rs)
    ensures LinksOf(r) == LinksOf(rs)
    ensures forall i :: 0 <= i < |r| ==> IsFirstWithKey(rs, LinkOf, r[i])
  {
    var r := DedupBy(rs, LinkOf);
    DedupByFromIsSubsequence(rs, LinkOf, {});
    forall i | 0 <= i < |r| ensures IsFirstWithKey(rs, LinkOf, r[i]) {
      DedupByFromFirst(rs, LinkOf, {}, i);
    }
    forall x | x in LinksOf(rs) ensures x in LinksOf(r) {
      var i :| 0 <= i < |rs| && LinkOf(rs[i]) == x;
      DedupByFromComplete(rs, LinkOf, {}, i);
    }
    r
  }

  /** `(a.date, a.title) <= (b.date, b.title)` as Python compares tuples. */
  predicate KeyLe(a: Record, b: Record) {
    StrLt(a.date, b.date) || (a.date == b.date && StrLe(a.title, b.title))
  }

  /** The order of `sort_records`: later (date, title) first. */
  predicate NewerOrSame(a: Record, b: Record) {
    KeyLe(b, a)
  }

  lemma NewerOrSameTotalPreorder()
    ensures TotalPreorder(NewerOrSame)
  {
    StrLeTotalOrder();
    forall a: Record, b: Record ensures NewerOrSame(a, b) || NewerOrSame(b, a) {
    }
    forall a: Record, b: Record, c: Record | NewerOrSame(a, b) && NewerOrSame(b, c)
      ensures NewerOrSame(a, c)
    {
    }
  }

  /** Ties of the order are records with the same date and title. */
  lemma NewerOrSameTies(x: Record, e: Record)
    ensures TiedWith(NewerOrSame, x)(e) <==> e.date == x.date && e.title == x.title
  {
    StrLeTotalOrder();
    var le: (Record, Record) -> bool := NewerOrSame;
    assert le(e, x) == NewerOrSame(e, x) && le(x, e) == NewerOrSame(x, e);
    assert TiedWith(le, x)(e) == (le(e, x) && le(x, e));
    StrLeReflexive(e.title);
  }

  /** `sort_records`: a stable sort by (date, title), descending. */
  function SortRecords(rs: seq<Record>): (r: seq<Record>)
    ensures multiset(r) == multiset(rs)
    ensures SortedBy(r, NewerOrSame)
  {
    NewerOrSameTotalPreorder();
    SortBySorted(rs, NewerOrSame);
    SortBy(rs, NewerOrSame)
  }

  /** Records with equal date and title keep their input order
      (`sorted` is stable also with `reverse=True`). */
  lemma SortRecordsStable(rs: seq<Record>, x: Record)
    ensures Filter(SortRecords(rs), TiedWith(NewerOrSame, x)) == Filter(rs, TiedWith(NewerOrSame, x))
  {
    NewerOrSameTotalPreorder();
    SortByStable(rs, NewerOrSame, x);
  }

  /** Sorting does not change the set of links. */
  lemma LinksOfPermutation(a: seq<Record>, b: seq<Record>)
    requires multiset(a) == multiset(b)
    ensures LinksOf(a) == LinksOf(b)
  {
    assert forall r :: r in a <==> r in multiset(a);
    assert forall r :: r in b <==> r in multiset(b);
  }

  // ---------------------------------------------------------------------
  // Selection

  /** `company_map.get(company, [])`. */
  function Candidates(m: map<string, seq<Record>>, company: string): seq<Record> {
    if company in m then m[company] else []
  }

  /** All candidates of the listed companies, company by company. */
  function Gather(companies: seq<string>, m: map<string, seq<Record>>): seq<Record> {
    if |companies| == 0 then [] else Candidates(m, companies[0]) + Gather(companies[1..], m)
  }

  /** The distinct links the selection can draw from. */
  function AllLinks(m: map<string, seq<Record>>): set<string> {
    LinksOf(Gather(CompanyOrder, m))
  }

  /** Phase one for one company: the candidates whose link is not yet
      selected, in order, until `room` are taken. */
  function Take(cands: seq<Record>, seen: set<string>, room: nat): (r: seq<Record>)
    ensures |r| <= room
    ensures DistinctBy(r, LinkOf)
    ensures forall i :: 0 <= i < |r| ==> r[i] in cands && r[i].link !in seen
  {
    if room == 0 || |cands| == 0 then []
    else if cands[0].link in seen then Take(cands[1..], seen, room)
    else
      var rest := Take(cands[1..], seen + {cands[0].link}, room - 1);
      assert forall i :: 1 <= i < |rest| + 1 ==> ([cands[0]] + rest)[i] == rest[i - 1];
      [cands[0]] + rest
  }

  /** A company short of its quota had nothing else to give: each of its
      links was taken or already selected. */
  lemma {:induction false} TakeComplete(cands: seq<Record>, seen: set<string>, room: nat)
    requires |Take(cands, seen, room)| < room
    ensures forall x :: x in cands ==> x.link in seen + LinksOf(Take(cands, seen, room))
  {
    if |cands| > 0 {
      var r := Take(cands, seen, room);
      if cands[0].link in seen {
        TakeComplete(cands[1..], seen, room);
      } else {
        var rest := Take(cands[1..], seen + {cands[0].link}, room - 1);
        TakeComplete(cands[1..], seen + {cands[0].link}, room - 1);
        assert r == [cands[0]] + rest;
        LinksOfConcat([cands[0]], rest);
        LinksOfSingleton(cands[0]);
      }
    }
  }

  /** Phase one company by company: each block is what `Take` gives that
      company, given the links the earlier blocks selected. */
  function PhaseOne(companies: seq<string>, m: map<string, seq<Record>>, seen: set<string>): (bs: seq<seq<Record>>)
    ensures |bs| == |companies|
    ensures forall k :: 0 <= k < |bs| ==> |bs[k]| <= MinPerCompany
    ensures forall k :: 0 <= k < |bs| ==> forall i :: 0 <= i < |bs[k]| ==> bs[k][i] in Candidates(m, companies[k])
  {
    if |companies| == 0 then []
    else
      var b := Take(Candidates(m, companies[0]), seen, MinPerCompany);
      var rest := PhaseOne(companies[1..], m, seen + LinksOf(b));
      assert forall k :: 1 <= k < |rest| + 1 ==> ([b] + rest)[k] == rest[k - 1];
      [b] + rest
  }

  function Flatten(bs: seq<seq<Record>>): seq<Record> {
    if |bs| == 0 then [] else bs[0] + Flatten(bs[1..])
  }

  /** The records phase one selects. */
  function PhaseOneRecords(m: map<string, seq<Record>>): seq<Record> {
    Flatten(PhaseOne(CompanyOrder, m, {}))
  }

  lemma DistinctByConcat(a: seq<Record>, b: seq<Record>)
    requires DistinctBy(a, LinkOf) && DistinctBy(b, LinkOf)
    requires forall i, j :: 0 <= i < |a| && 0 <= j < |b| ==> a[i].link != b[j].link
    ensures DistinctBy(a + b, LinkOf)
  {
    var c := a + b;
    forall i, j | 0 <= i < j < |c| ensures LinkOf(c[i]) != LinkOf(c[j]) {
      if j < |a| {
        assert c[i] == a[i] && c[j] == a[j];
      } else if i >= |a| {
        assert c[i] == b[i - |a|] && c[j] == b[j - |a|];
      } else {
        assert c[i] == a[i] && c[j] == b[j - |a|];
      }
    }
  }

  /** Phase one selects distinct links that were not seen before, all
      drawn from the companies' candidates. */
  lemma {:induction false} PhaseOneFacts(companies: seq<string>, m: map<string, seq<Record>>, seen: set<string>)
    ensures var f := Flatten(PhaseOne(companies, m, seen));
      && DistinctBy(f, LinkOf)
      && (forall i :: 0 <= i < |f| ==> f[i].link !in seen && f[i] in Gather(companies, m))
  {
    if |companies| > 0 {
      var b := Take(Candidates(m, companies[0]), seen, MinPerCompany);
      var rest := PhaseOne(companies[1..], m, seen + LinksOf(b));
      var bs := PhaseOne(companies, m, seen);
      assert bs == [b] + rest;
      assert bs[1..] == rest;
      PhaseOneFacts(companies[1..], m, seen + LinksOf(b));
      var g := Flatten(rest);
      assert Flatten(bs) == b + g;
      forall i, j | 0 <= i < |b| && 0 <= j < |g| ensures b[i].link != g[j].link {
        LinkIn(b, i);
      }
      DistinctByConcat(b, g);
      var gath := Gather(companies, m);
      assert gath == Candidates(m, companies[0]) + Gather(companies[1..], m);
      JoinFresh(b, g, seen, gath);
    }
  }

  /** Two runs of fresh records drawn from `gath` join into one. */
  lemma JoinFresh(b: seq<Record>, g: seq<Record>, seen: set<string>, gath: seq<Record>)
    requires forall i :: 0 <= i < |b| ==> b[i].link !in seen && b[i] in gath
    requires forall i :: 0 <= i < |g| ==> g[i].link !in seen && g[i] in gath
    ensures forall i :: 0 <= i < |b + g| ==> (b + g)[i].link !in seen && (b + g)[i] in gath
  {
    var f := b + g;
    forall i | 0 <= i < |f| ensures f[i].link !in seen && f[i] in gath {
      if i < |b| {
        assert f[i] == b[i];
      } else {
        assert f[i] == g[i - |b|];
      }
    }
  }

  /** Records whose link is not among `links`. */
  function Unselected(links: set<string>): Record -> bool {
    (r: Record) => r.link !in links
  }

  /** Phase two's candidates: every record of every company, in company
      order, whose link phase one did not select. */
  function Extras(companies: seq<string>, m: map<string, seq<Record>>, links: set<string>): (r: seq<Record>)
    ensures r == Filter(Gather(companies, m), Unselected(links))
  {
    if |companies| == 0 then []
    else
      FilterConcat(Candidates(m, companies[0]), Gather(companies[1..], m), Unselected(links));
      Filter(Candidates(m, companies[0]), Unselected(links)) + Extras(companies[1..], m, links)
  }

  lemma LinksOfUnselected(s: seq<Record>, links: set<string>)
    ensures LinksOf(Filter(s, Unselected(links))) == LinksOf(s) - links
  {
    var f := Filter(s, Unselected(links));
    forall x | x in LinksOf(s) - links ensures x in LinksOf(f) {
      var i :| 0 <= i < |s| && LinkOf(s[i]) == x;
      assert Unselected(links)(s[i]);
    }
    forall x | x in LinksOf(f) ensures x in LinksOf(s) - links {
      var i :| 0 <= i < |f| && LinkOf(f[i]) == x;
      assert Unselected(links)(f[i]);
    }
  }

  /** Phase two: walk the sorted extras, appending each record whose link
      is new, until `TargetCount` records are selected. */
  function Fill(extras: seq<Record>, sel: seq<Record>): seq<Record>
    decreases |extras|
  {
    if |extras| == 0 || |sel| >= TargetCount then sel
    else if extras[0].link in LinksOf(sel) then Fill(extras[1..], sel)
    else Fill(extras[1..], sel + [extras[0]])
  }

  /** What phase two keeps and adds: the selection so far is a prefix,
      links stay distinct, the additions come from the extras in order,
      and unless the target is reached every extra link is selected. */
  ghost predicate FillOk(extras: seq<Record>, sel: seq<Record>, r: seq<Record>) {
    && |sel| <= |r| && r[..|sel|] == sel
    && DistinctBy(r, LinkOf)
    && IsSubsequence(r[|sel|..], extras)
    && (|sel| <= TargetCount ==> |r| <= TargetCount)
    && (|r| < TargetCount ==> LinksOf(extras) <= LinksOf(r))
    && LinksOf(r) <= LinksOf(sel) + LinksOf(extras)
  }

  lemma PrefixLinks(sel: seq<Record>, r: seq<Record>)
    requires |sel| <= |r| && r[..|sel|] == sel
    ensures LinksOf(sel) <= LinksOf(r)
  {
    forall x | x in LinksOf(sel) ensures x in LinksOf(r) {
      var i :| 0 <= i < |sel| && LinkOf(sel[i]) == x;
      assert r[i] == sel[i];
      LinkIn(r, i);
    }
  }

  lemma FillSkipStep(extras: seq<Record>, sel: seq<Record>, r: seq<Record>)
    requires |extras| > 0 && extras[0].link in LinksOf(sel) && |sel| < TargetCount
    requires FillOk(extras[1..], sel, r)
    ensures FillOk(extras, sel, r)
  {
    SubsequenceDropHead(r[|sel|..], extras);
    HeadTail(extras);
    LinksOfConcat([extras[0]], extras[1..]);
    LinksOfSingleton(extras[0]);
    PrefixLinks(sel, r);
  }

  lemma FillAddStep(extras: seq<Record>, sel: seq<Record>, r: seq<Record>)
    requires |extras| > 0 && extras[0].link !in LinksOf(sel) && |sel| < TargetCount
    requires FillOk(extras[1..], sel + [extras[0]], r)
    ensures FillOk(extras, sel, r)
  {
    var sel2 := sel + [extras[0]];
    assert r[..|sel|] == sel2[..|sel|] == sel;
    assert r[|sel|..] == [extras[0]] + r[|sel2|..];
    HeadTail(extras);
    LinksOfConcat([extras[0]], extras[1..]);
    LinksOfConcat(sel, [extras[0]]);
    LinksOfSingleton(extras[0]);
    PrefixLinks(sel2, r);
  }

  lemma {:induction false} FillFacts(extras: seq<Record>, sel: seq<Record>)
    requires DistinctBy(sel, LinkOf)
    ensures FillOk(extras, sel, Fill(extras, sel))
    decreases |extras|
  {
    var r := Fill(extras, sel);
    if |extras| == 0 || |sel| >= TargetCount {
      assert r[|sel|..] == [];
    } else if extras[0].link in LinksOf(sel) {
      FillFacts(extras[1..], sel);
      FillSkipStep(extras, sel, r);
    } else {
      var sel2 := sel + [extras[0]];
      forall i | 0 <= i < |sel| ensures LinkOf(sel[i]) != LinkOf(extras[0]) {
        LinkIn(sel, i);
      }
      assert DistinctBy(sel2, LinkOf);
      FillFacts(extras[1..], sel2);
      FillAddStep(extras, sel, r);
    }
  }

  /** `select_records`: up to `MinPerCompany` records per company in
      `CompanyOrder`, then the other records newest first, de-duplicated
      by link and cut at `TargetCount`. */
  function SelectRecords(m: map<string, seq<Record>>): (r: seq<Record>)
    ensures |r| <= TargetCount
  {
    var first := PhaseOneRecords(m);
    if |first| >= TargetCount then first[..TargetCount]
    else
      var extras := SortRecords(Extras(CompanyOrder, m, LinksOf(first)));
      PhaseOneFacts(CompanyOrder, m, {});
      FillFacts(extras, first);
      // Phase two stops at `TargetCount`, so the final cut keeps every record.
      Fill(extras, first)
  }

  lemma SubsetCardinality(a: set<string>, b: set<string>)
    requires a <= b
    ensures |a| <= |b|
  {
    assert b == a + (b - a);
  }

  /** Phase two's count: starting from `first`, filling from the extras
      reaches the target or exhausts the links. */
  lemma PhaseTwoCount(g: seq<Record>, first: seq<Record>, ex: seq<Record>, es: seq<Record>, all: seq<Record>)
    requires DistinctBy(first, LinkOf) && |first| < TargetCount
    requires LinksOf(first) <= LinksOf(g)
    requires ex == Filter(g, Unselected(LinksOf(first)))
    requires multiset(es) == multiset(ex)
    requires FillOk(es, first, all)
    ensures |all| == Min(TargetCount, |LinksOf(g)|)
  {
    LinksOfUnselected(g, LinksOf(first));
    LinksOfPermutation(es, ex);
    assert LinksOf(es) == LinksOf(g) - LinksOf(first);
    LinksOfDistinct(all);
    assert LinksOf(all) <= LinksOf(g);
    SubsetCardinality(LinksOf(all), LinksOf(g));
    if |all| < TargetCount {
      assert LinksOf(es) <= LinksOf(all);
      assert LinksOf(first) <= LinksOf(all) by {
        PrefixLinks(first, all);
      }
      assert LinksOf(all) == LinksOf(g);
    }
  }

  /** Every record phase two adds is one of the extras. */
  lemma PhaseTwoDrawn(g: seq<Record>, first: seq<Record>, ex: seq<Record>, es: seq<Record>, all: seq<Record>)
    requires forall i :: 0 <= i < |first| ==> first[i] in g
    requires ex == Filter(g, Unselected(LinksOf(first)))
    requires multiset(es) == multiset(ex)
    requires FillOk(es, first, all)
    ensures forall i :: 0 <= i < |all| ==> all[i] in g
  {
    forall i | 0 <= i < |all| ensures all[i] in g {
      if i < |first| {
        assert all[i] == first[i];
      } else {
        assert all[i] == all[|first|..][i - |first|];
        SubsequenceMember(all[|first|..], es, all[i]);
        assert all[i] in multiset(ex);
      }
    }
  }

  /** Distinct links, as many as the input offers up to `TargetCount`,
      all drawn from the candidates. */
  lemma SelectRecordsCount(m: map<string, seq<Record>>)
    ensures DistinctBy(SelectRecords(m), LinkOf)
    ensures |SelectRecords(m)| == Min(TargetCount, |AllLinks(m)|)
    ensures forall i :: 0 <= i < |SelectRecords(m)| ==> SelectRecords(m)[i] in Gather(CompanyOrder, m)
  {
    var g := Gather(CompanyOrder, m);
    var first := PhaseOneRecords(m);
    PhaseOneFacts(CompanyOrder, m, {});
    FirstWithin(g, first);
    if |first| < TargetCount {
      PhaseTwoSelect(m, g, first);
    }
  }

  lemma FirstWithin(g: seq<Record>, first: seq<Record>)
    requires DistinctBy(first, LinkOf)
    requires forall i :: 0 <= i < |first| ==> first[i] in g
    ensures LinksOf(first) <= LinksOf(g) && |first| <= |LinksOf(g)|
  {
    forall x | x in LinksOf(first) ensures x in LinksOf(g) {
      var r :| r in first && LinkOf(r) == x;
      assert r in g;
    }
    LinksOfDistinct(first);
    SubsetCardinality(LinksOf(first), LinksOf(g));
  }

  lemma PhaseTwoSelect(m: map<string, seq<Record>>, g: seq<Record>, first: seq<Record>)
    requires g == Gather(CompanyOrder, m) && first == PhaseOneRecords(m)
    requires |first| < TargetCount && DistinctBy(first, LinkOf) && LinksOf(first) <= LinksOf(g)
    requires forall i :: 0 <= i < |first| ==> first[i] in g
    ensures DistinctBy(SelectRecords(m), LinkOf)
    ensures |SelectRecords(m)| == Min(TargetCount, |LinksOf(g)|)
    ensures forall i :: 0 <= i < |SelectRecords(m)| ==> SelectRecords(m)[i] in g
  {
    var ex := Extras(CompanyOrder, m, LinksOf(first));
    var es := SortRecords(ex);
    FillFacts(es, first);
    var all := Fill(es, first);
    assert SelectRecords(m) == all;
    PhaseTwoCount(g, first, ex, es, all);
    PhaseTwoDrawn(g, first, ex, es, all);
  }


  /** Phase one's records come first; after them the extras follow in
      `sort_records` order. */
  lemma SelectRecordsOrder(m: map<string, seq<Record>>)
    ensures var first := PhaseOneRecords(m);
      && (|first| >= TargetCount ==> SelectRecords(m) == first[..TargetCount])
      && (|first| < TargetCount ==>
            |first| <= |SelectRecords(m)| && SelectRecords(m)[..|first|] == first
            && SortedBy(SelectRecords(m)[|first|..], NewerOrSame))
  {
    var first := PhaseOneRecords(m);
    if |first| < TargetCount {
      PhaseOneFacts(CompanyOrder, m, {});
      var es := SortRecords(Extras(CompanyOrder, m, LinksOf(first)));
      FillFacts(es, first);
      var all := Fill(es, first);
      assert SelectRecords(m) == all;
      assert FillOk(es, first, all);
      SubsequenceSortedBy(all[|first|..], es, NewerOrSame);
    }
  }
}

=== FILE: post_list.dfy ===
/** The older post list with "All", "Dev" and "Life" buttons: a post is
    shown under "Dev" or "Life" when one of its tags names the button,
    ignoring case. */
module PostList {
  import opened Wrappers
  import opened Seqs
  import opened Strings
  import opened Feed

  datatype TagFilter = All | Dev | Life

  function FilterName(f: TagFilter): string {
    match f
    case All => "All"
    case Dev => "Dev"
    case Life => "Life"
  }

  /** `tag.toLowerCase() === filter.toLowerCase()`. */
  predicate TagMatches(tag: string, f: TagFilter) {
    ToLower(tag) == ToLower(FilterName(f))
  }

  /** Kept under `f`: always under "All"; otherwise the post must have
      tags (`post.tags?.some(...)` is `undefined`, which is falsy, when it
      has none) and one of them must match. */
  predicate Keep(p: Post, f: TagFilter) {
    f == All || (p.tags.Some? && exists k :: 0 <= k < |p.tags.value| && TagMatches(p.tags.value[k], f))
  }

  function FilteredPosts(posts: seq<Post>, f: TagFilter): (r: seq<Post>)
    ensures forall p :: p in r <==> p in posts && Keep(p, f)
  {
    Filter(posts, (p: Post) => Keep(p, f))
  }

  /** "All" keeps every post; every filter keeps the input order. */
  lemma FilteredPostsSpec(posts: seq<Post>, f: TagFilter)
    ensures f == All ==> FilteredPosts(posts, f) == posts
    ensures IsSubsequence(FilteredPosts(posts, f), posts)
    ensures f != All ==> forall p :: p in FilteredPosts(posts, f) ==> p.tags.Some?
  {
    FilterIsSubsequence(posts, (p: Post) => Keep(p, f));
    if f == All {
      FilterAll(posts, (p: Post) => Keep(p, f));
    }
  }

  /** The letters that lower-case to the ASCII letter `w`: itself, its
      capital, and for `k` also KELVIN SIGN. */
  predicate LowersTo(c: char, w: char) {
    c == w || c as int == w as int - 32 || (w == 'k' && c == '\U{212A}')
  }

  predicate IsLowerAsciiWord(w: string) {
    forall i :: 0 <= i < |w| ==> 'a' <= w[i] <= 'z'
  }

  /** A tag lower-cases to an ASCII word exactly when it has the word's
      length and each character is the letter or its capital. */
  lemma {:induction false} ToLowerEqualsWord(t: string, w: string)
    requires IsLowerAsciiWord(w)
    ensures ToLower(t) == w <==> |t| == |w| && forall i :: 0 <= i < |t| ==> LowersTo(t[i], w[i])
  {
    if |t| == 0 {
    } else if |w| == 0 {
      assert |ToLower(t)| >= 1;
    } else {
      ToLowerEqualsWord(t[1..], w[1..]);
      assert ToLower(t) == LowerChar(t[0]) + ToLower(t[1..]);
      if t[0] == '\U{0130}' {
        assert ToLower(t)[1] == '\U{0307}';
        assert !LowersTo(t[0], w[0]);
      } else {
        assert |LowerChar(t[0])| == 1;
        assert ToLower(t)[0] == LowerChar(t[0])[0];
        assert LowerChar(t[0])[0] == w[0] <==> LowersTo(t[0], w[0]);
        if ToLower(t) == w {
          assert ToLower(t[1..]) == w[1..];
        }
        if |t| == |w| && forall i :: 0 <= i < |t| ==> LowersTo(t[i], w[i]) {
          assert forall i :: 0 <= i < |t[1..]| ==> LowersTo(t[1..][i], w[1..][i]) by {
            forall i | 0 <= i < |t[1..]| ensures LowersTo(t[1..][i], w[1..][i]) {
              assert t[1..][i] == t[i + 1] && w[1..][i] == w[i + 1];
            }
          }
        }
      }
    }
  }

  /** A tag matches "Dev" iff it spells `dev` in any mix of cases. */
  lemma DevMatches(tag: string)
    ensures TagMatches(tag, Dev) <==>
              |tag| == 3 && (tag[0] == 'd' || tag[0] == 'D') && (tag[1] == 'e' || tag[1] == 'E') && (tag[2] == 'v' || tag[2] == 'V')
  {
    var w := "dev";
    assert ToLower(FilterName(Dev)) == w by {
      ToLowerIdempotent("dev");
      assert ToLower("Dev") == LowerChar('D') + ToLower("ev");
    }
    ToLowerEqualsWord(tag, w);
  }
}

=== FILE: resume_stage_order.dfy ===
/** Ordering of the stages of a resume experience entry: a sort by a
    fixed stage priority whose comparator breaks ties by the input index. */
module ResumeStageOrder {
  import opened Seqs
  import opened Sorting

  /** The stage keys; the priority table gives each one its rank. */
  datatype StageKey = Problem | Decision | Implementation | Verification | Result | Extension

  /** `label` is a Dafny keyword, so the label field is called `caption`. */
  datatype Stage = Stage(key: StageKey, caption: string, detail: string)

  /** Rank of each key: problem first, extension last. */
  function Priority(k: StageKey): (p: nat)
    ensures p < 6
  {
    match k
    case Problem => 0
    case Decision => 1
    case Implementation => 2
    case Verification => 3
    case Result => 4
    case Extension => 5
  }

  lemma PriorityInjective(a: StageKey, b: StageKey)
    requires Priority(a) == Priority(b)
    ensures a == b
  {
  }

  /** A stage paired with its position in the input, as the first `map`
      builds it. */
  datatype Indexed = Indexed(stage: Stage, index: nat)

  function WithIndex(stages: seq<Stage>): (r: seq<Indexed>)
    ensures |r| == |stages|
    ensures forall k :: 0 <= k < |r| ==> r[k] == Indexed(stages[k], k)
  {
    seq(|stages|, k requires 0 <= k < |stages| => Indexed(stages[k], k))
  }

  function Strip(items: seq<Indexed>): (r: seq<Stage>)
    ensures |r| == |items|
    ensures forall k :: 0 <= k < |r| ==> r[k] == items[k].stage
  {
    seq(|items|, k requires 0 <= k < |items| => items[k].stage)
  }

  /** The comparator: by priority, and by input index among equal
      priorities. Read as "`a` may come before `b`". */
  predicate ComparatorLe(a: Indexed, b: Indexed) {
    var d := Priority(a.stage.key) - Priority(b.stage.key);
    d < 0 || (d == 0 && a.index - b.index <= 0)
  }

  /** Priority order on stages alone. */
  predicate PriorityLe(a: Stage, b: Stage) {
    Priority(a.key) <= Priority(b.key)
  }

  /** `orderExperienceStages`: index the stages, sort with the comparator,
      drop the indices. */
  function OrderExperienceStages(stages: seq<Stage>): (r: seq<Stage>)
    ensures |r| == |stages|
  {
    Strip(SortBy(WithIndex(stages), ComparatorLe))
  }

  lemma PriorityLeTotalPreorder()
    ensures TotalPreorder(PriorityLe)
  {
  }

  /** Inserting an element whose index exceeds every index already placed
      compares exactly as the priority order does. */
  lemma {:induction false} InsertStrip(x: Stage, i: nat, items: seq<Indexed>)
    requires forall k :: 0 <= k < |items| ==> items[k].index < i
    ensures Strip(Insert(Indexed(x, i), items, ComparatorLe)) == Insert(x, Strip(items), PriorityLe)
  {
    if |items| > 0 {
      var h, rest, y := items[0], items[1..], Indexed(x, i);
      StripCons(h, rest);
      HeadTail(items);
      assert ComparatorLe(h, y) == PriorityLe(h.stage, x);
      if ComparatorLe(h, y) {
        InsertStrip(x, i, rest);
        StripCons(h, Insert(y, rest, ComparatorLe));
      } else {
        StripCons(y, items);
      }
    }
  }

  lemma StripCons(a: Indexed, items: seq<Indexed>)
    ensures Strip([a] + items) == [a.stage] + Strip(items)
  {
  }

  /** The comparator sort is the stable sort by priority: breaking ties by
      index is what stability means. */
  lemma {:induction false} OrderIsStableSort(stages: seq<Stage>)
    ensures OrderExperienceStages(stages) == SortBy(stages, PriorityLe)
  {
    if |stages| > 0 {
      var n := |stages| - 1;
      var init := stages[..n];
      OrderIsStableSort(init);
      var w := WithIndex(stages);
      WithIndexInit(stages, n);
      SortBySnoc(w, ComparatorLe, n);
      SortBySnoc(stages, PriorityLe, n);
      var sorted := SortBy(WithIndex(init), ComparatorLe);
      SortedIndicesBelow(init, n);
      InsertStrip(stages[n], n, sorted);
    }
  }

  lemma WithIndexInit(stages: seq<Stage>, n: nat)
    requires n + 1 == |stages|
    ensures WithIndex(stages)[..n] == WithIndex(stages[..n])
    ensures WithIndex(stages)[n] == Indexed(stages[n], n)
  {
  }

  /** The sorted indexed prefix holds only indices below its length. */
  lemma SortedIndicesBelow(init: seq<Stage>, n: nat)
    requires n == |init|
    ensures forall k :: 0 <= k < |SortBy(WithIndex(init), ComparatorLe)| ==>
              SortBy(WithIndex(init), ComparatorLe)[k].index < n
  {
    var w := WithIndex(init);
    var sorted := SortBy(w, ComparatorLe);
    forall k | 0 <= k < |sorted| ensures sorted[k].index < n {
      assert sorted[k] in multiset(w);
      var j :| 0 <= j < n && w[j] == sorted[k];
    }
  }

  /** The output is a permutation of the input. */
  lemma OrderIsPermutation(stages: seq<Stage>)
    ensures multiset(OrderExperienceStages(stages)) == multiset(stages)
  {
    OrderIsStableSort(stages);
  }

  /** The output is ordered by priority. */
  lemma OrderIsSorted(stages: seq<Stage>)
    ensures SortedBy(OrderExperienceStages(stages), PriorityLe)
    ensures forall i, j :: 0 <= i < j < |stages| ==>
              Priority(OrderExperienceStages(stages)[i].key) <= Priority(OrderExperienceStages(stages)[j].key)
  {
    OrderIsStableSort(stages);
    PriorityLeTotalPreorder();
    SortBySorted(stages, PriorityLe);
  }

  /** Stages with the same key keep their input order. */
  lemma OrderIsStable(stages: seq<Stage>, key: StageKey)
    ensures Filter(OrderExperienceStages(stages), (s: Stage) => s.key == key)
         == Filter(stages, (s: Stage) => s.key == key)
  {
    OrderIsStableSort(stages);
    PriorityLeTotalPreorder();
    var x := Stage(key, "", "");
    SortByStable(stages, PriorityLe, x);
    var same := (s: Stage) => s.key == key;
    forall s: Stage ensures TiedWith(PriorityLe, x)(s) == same(s) {
      if TiedWith(PriorityLe, x)(s) {
        PriorityInjective(s.key, key);
      }
    }
    FilterAgree(stages, TiedWith(PriorityLe, x), same);
    FilterAgree(OrderExperienceStages(stages), TiedWith(PriorityLe, x), same);
  }

  lemma OrderEmpty()
    ensures OrderExperienceStages([]) == []
  {
  }

  /** Ordering twice is ordering once. */
  lemma OrderIdempotent(stages: seq<Stage>)
    ensures OrderExperienceStages(OrderExperienceStages(stages)) == OrderExperienceStages(stages)
  {
    OrderIsStableSort(stages);
    OrderIsStableSort(OrderExperienceStages(stages));
    PriorityLeTotalPreorder();
    SortByIdempotent(stages, PriorityLe);
  }

  function Keys(stages: seq<Stage>): (r: seq<StageKey>)
    ensures |r| == |stages|
    ensures forall k :: 0 <= k < |r| ==> r[k] == stages[k].key
  {
    seq(|stages|, k requires 0 <= k < |stages| => stages[k].key)
  }

  lemma {:induction false} KeysCount(stages: seq<Stage>, key: StageKey)
    ensures multiset(Keys(stages))[key] == |Filter(stages, (s: Stage) => s.key == key)|
  {
    if |stages| > 0 {
      KeysCount(stages[1..], key);
      assert Keys(stages) == [stages[0].key] + Keys(stages[1..]);
    }
  }

  /** Keys in the order the priority table lists them. */
  predicate KeysAscending(keys: seq<StageKey>) {
    forall i, j :: 0 <= i < j < |keys| ==> Priority(keys[i]) <= Priority(keys[j])
  }

  /** The ordered key sequence is determined by the multiset of keys: the
      sorted arrangement of those keys. */
  lemma OrderKeys(stages: seq<Stage>, want: seq<StageKey>)
    requires KeysAscending(want)
    requires multiset(want) == multiset(Keys(stages))
    ensures Keys(OrderExperienceStages(stages)) == want
  {
    var got := Keys(OrderExperienceStages(stages));
    OrderIsSorted(stages);
    forall key ensures multiset(got)[key] == multiset(want)[key] {
      KeysCount(OrderExperienceStages(stages), key);
      KeysCount(stages, key);
      OrderIsStable(stages, key);
    }
    assert multiset(got) == multiset(want);
    forall a, b | Priority(a) <= Priority(b) && Priority(b) <= Priority(a) ensures a == b {
      PriorityInjective(a, b);
    }
    SortedUnique(got, want, (a: StageKey, b: StageKey) => Priority(a) <= Priority(b));
  }

  /** The repository's first test: five stages given out of order come
      back in priority order. */
  lemma CoreStagesExample(stages: seq<Stage>)
    requires Keys(stages) == [Result, Implementation, Problem, Verification, Decision]
    ensures Keys(OrderExperienceStages(stages)) == [Problem, Decision, Implementation, Verification, Result]
  {
    var want := [Problem, Decision, Implementation, Verification, Result];
    CoreKeys(Keys(stages), want);
    OrderKeys(stages, want);
  }

  lemma CoreKeys(ks: seq<StageKey>, want: seq<StageKey>)
    requires ks == [Result, Implementation, Problem, Verification, Decision]
    requires want == [Problem, Decision, Implementation, Verification, Result]
    ensures KeysAscending(want) && multiset(want) == multiset(ks)
  {
    assert multiset(ks) == multiset{Result, Implementation, Problem, Verification, Decision};
    assert multiset(want) == multiset{Problem, Decision, Implementation, Verification, Result};
  }

  /** The second test: extensions go last and keep their order. */
  lemma ExtensionExample(stages: seq<Stage>)
    requires Keys(stages) == [Extension, Result, Problem, Extension]
    ensures Keys(OrderExperienceStages(stages)) == [Problem, Result, Extension, Extension]
    ensures Filter(OrderExperienceStages(stages), (s: Stage) => s.key == Extension) == [stages[0], stages[3]]
  {
    var want := [Problem, Result, Extension, Extension];
    ExtensionKeys(Keys(stages), want);
    OrderKeys(stages, want);
    OrderIsStable(stages, Extension);
    ExtensionFilter(stages);
  }

  lemma ExtensionKeys(ks: seq<StageKey>, want: seq<StageKey>)
    requires ks == [Extension, Result, Problem, Extension]
    requires want == [Problem, Result, Extension, Extension]
    ensures KeysAscending(want) && multiset(want) == multiset(ks)
  {
    assert multiset(ks) == multiset{Extension, Result, Problem, Extension};
    assert multiset(want) == multiset{Problem, Result, Extension, Extension};
  }

  lemma ExtensionFilter(stages: seq<Stage>)
    requires |stages| == 4
    requires stages[0].key == Extension && stages[1].key != Extension
    requires stages[2].key != Extension && stages[3].key == Extension
    ensures Filter(stages, (s: Stage) => s.key == Extension) == [stages[0], stages[3]]
  {
    var p := (s: Stage) => s.key == Extension;
    var t3 := stages[3..];
    assert t3 == [stages[3]] && t3[1..] == [];
    assert Filter(t3, p) == [stages[3]];
    assert stages[2..][1..] == t3;
    assert stages[1..][1..] == stages[2..];
    assert Filter(stages[2..], p) == [stages[3]];
    assert Filter(stages[1..], p) == [stages[3]];
  }
}

=== FILE: scroll_visibility.dfy ===
/** The hook that shows and hides the mobile top header and bottom bar as
    the page scrolls, written as a transition function. The window
    (scroll position, the mobile media query) and session storage become
    inputs: each event carries the scroll position and whether the mobile
    query matches, and the stored reveal flag is an argument of the setup. */
module ScrollVisibility {
  import opened Wrappers
  import opened Strings

  /** Scroll position from which the home page reveals its bottom bar. */
  const RevealScrollY: int := 32
  /** At or above this position the page counts as "at the top". */
  const TopZoneY: int := 12
  /** Smaller moves than this are ignored for the direction decision. */
  const DeltaThreshold: int := 6

  datatype Visibility = Visibility(topHeaderVisible: bool, bottomBarVisible: bool)

  /** Both bars visible: the state before the first effect runs. */
  const InitialVisibility := Visibility(true, true)

  lemma InitialBothVisible()
    ensures InitialVisibility.topHeaderVisible && InitialVisibility.bottomBarVisible
  {
  }

  /** `isBlogPostPath`: the pattern `^/blog/[^/]+$`, without the multiline
      flag, so `$` is the end of the string. */
  predicate IsBlogPostPath(p: string) {
    |p| > 6 && p[..6] == "/blog/" && forall k :: 6 <= k < |p| ==> p[k] != '/'
  }

  /** A blog-post path is `/blog/` followed by one non-empty segment. */
  lemma BlogPostPathSpec(p: string)
    ensures IsBlogPostPath(p) <==> exists seg :: p == "/blog/" + seg && |seg| > 0 && '/' !in seg
  {
    if IsBlogPostPath(p) {
      var seg := p[6..];
      assert p == "/blog/" + seg;
      assert '/' !in seg by {
        forall k | 0 <= k < |seg| ensures seg[k] != '/' {
          assert seg[k] == p[k + 6];
        }
      }
    }
    if exists seg :: p == "/blog/" + seg && |seg| > 0 && '/' !in seg {
      var seg :| p == "/blog/" + seg && |seg| > 0 && '/' !in seg;
      forall k | 6 <= k < |p| ensures p[k] != '/' {
        assert p[k] == seg[k - 6];
      }
    }
  }

  lemma BlogPostPathExamples()
    ensures IsBlogPostPath("/blog/redis")
    ensures !IsBlogPostPath("/blog/") && !IsBlogPostPath("/blog")
    ensures !IsBlogPostPath("/blog/a/b") && !IsBlogPostPath("/")
  {
    assert "/blog/a/b"[7] == '/';
  }

  /** What the effect derives from the path once. */
  datatype Route = Route(isHome: bool, hideOnScroll: bool)

  function RouteOf(pathname: string): (r: Route)
    ensures r.isHome <==> pathname == "/"
    ensures r.hideOnScroll <==> IsBlogPostPath(pathname)
    ensures !(r.isHome && r.hideOnScroll)
  {
    Route(pathname == "/", IsBlogPostPath(pathname))
  }

  /** The effect's mutable state: what is shown, the last scroll position
      used for a direction decision, and the home reveal flag. */
  datatype State = State(visibility: Visibility, lastScrollY: int, revealed: bool)

  /** What `resolveHomeBottomVisibility` returns (`None` for `null`)
      together with the reveal flag after the call. */
  datatype Resolved = Resolved(home: Option<bool>, revealed: bool)

  /** Off the home page there is no opinion; on it, the bar is shown iff
      the page has ever been scrolled to `RevealScrollY` or further. */
  function ResolveHome(route: Route, revealed: bool, y: int): (r: Resolved)
    ensures !route.isHome ==> r.home.None? && r.revealed == revealed
    ensures route.isHome ==> r.home == Some(r.revealed) && (r.revealed <==> revealed || y >= RevealScrollY)
  {
    if !route.isHome then Resolved(None, revealed)
    else if revealed then Resolved(Some(true), true)
    else if y >= RevealScrollY then Resolved(Some(true), true)
    else Resolved(Some(false), false)
  }

  /** `updateVisibility`: whether a state update is issued, and the
      visibility afterwards. */
  datatype Updated = Updated(current: Visibility, changed: bool)

  function UpdateVisibility(cur: Visibility, next: Visibility): (r: Updated)
    ensures r.current == next
    ensures r.changed <==> cur != next
    ensures cur == next ==> r.current == cur && !r.changed
  {
    if cur.topHeaderVisible == next.topHeaderVisible && cur.bottomBarVisible == next.bottomBarVisible then
      Updated(cur, false)
    else
      Updated(next, true)
  }

  /** `showAll`: the header is shown, and the bottom bar too unless the
      home page has not been revealed yet. */
  function ShowAll(route: Route, s: State, y: int): (r: State)
    ensures r.visibility.topHeaderVisible
    ensures r.lastScrollY == s.lastScrollY
    ensures r.revealed == ResolveHome(route, s.revealed, y).revealed
  {
    var h := ResolveHome(route, s.revealed, y);
    State(UpdateVisibility(s.visibility, Visibility(true, h.home.GetOr(true))).current, s.lastScrollY, h.revealed)
  }

  /** The effect's setup: the stored flag is read (`false` when storage is
      unavailable), the position recorded, and everything shown. */
  function Setup(pathname: string, y: int, stored: bool): (r: State)
    ensures r.visibility.topHeaderVisible
    ensures r.lastScrollY == y
    ensures pathname != "/" ==> r.visibility == InitialVisibility
  {
    ShowAll(RouteOf(pathname), State(InitialVisibility, y, stored), y)
  }

  /** `handleScroll` at scroll position `y`; `mobile` is whether the
      media query matches. */
  function HandleScroll(route: Route, s: State, y: int, mobile: bool): (r: State)
    ensures !mobile || y <= TopZoneY ==> r.visibility.topHeaderVisible && r.lastScrollY == y
    ensures mobile && y > TopZoneY && -DeltaThreshold < y - s.lastScrollY < DeltaThreshold ==>
              r.visibility.topHeaderVisible == s.visibility.topHeaderVisible && r.lastScrollY == s.lastScrollY
    ensures mobile && y > TopZoneY && (y - s.lastScrollY >= DeltaThreshold || y - s.lastScrollY <= -DeltaThreshold) ==>
              (r.visibility.topHeaderVisible <==> y < s.lastScrollY) && r.lastScrollY == y
    ensures s.revealed ==> r.revealed
  {
    if !mobile then
      ShowAll(route, s.(lastScrollY := y), y)
    else if y <= TopZoneY then
      var h := ResolveHome(route, s.revealed, y);
      State(UpdateVisibility(s.visibility, Visibility(true, h.home.GetOr(true))).current, y, h.revealed)
    else
      var h := ResolveHome(route, s.revealed, y);
      var delta := y - s.lastScrollY;
      if -DeltaThreshold < delta < DeltaThreshold then
        if h.home.Some? && h.home.value != s.visibility.bottomBarVisible then
          State(UpdateVisibility(s.visibility, s.visibility.(bottomBarVisible := h.home.value)).current, s.lastScrollY, h.revealed)
        else
          s.(revealed := h.revealed)
      else
        var down := delta > 0;
        var bottom := if h.home.Some? then h.home.value else if route.hideOnScroll then !down else true;
        State(UpdateVisibility(s.visibility, Visibility(!down, bottom)).current, y, h.revealed)
  }

  /** `handleResize`: leaving the mobile layout shows everything. */
  function HandleResize(route: Route, s: State, y: int, mobile: bool): (r: State)
    ensures !mobile ==> r.visibility.topHeaderVisible
    ensures mobile ==> r == s
    ensures s.revealed ==> r.revealed
  {
    if !mobile then ShowAll(route, s, y) else s
  }

  /** The relation between the bars and the reveal flag that every
      reachable state satisfies: on the home page the bottom bar is shown
      iff revealed; on a blog post it goes with the header; elsewhere it
      is always shown. */
  predicate Consistent(route: Route, s: State) {
    (route.isHome ==> s.visibility.bottomBarVisible == s.revealed) &&
    (!route.isHome && route.hideOnScroll ==> s.visibility.bottomBarVisible == s.visibility.topHeaderVisible) &&
    (!route.isHome && !route.hideOnScroll ==> s.visibility.bottomBarVisible)
  }

  lemma SetupConsistent(pathname: string, y: int, stored: bool)
    ensures Consistent(RouteOf(pathname), Setup(pathname, y, stored))
  {
  }

  lemma ScrollConsistent(route: Route, s: State, y: int, mobile: bool)
    requires Consistent(route, s)
    ensures Consistent(route, HandleScroll(route, s, y, mobile))
  {
  }

  lemma ResizeConsistent(route: Route, s: State, y: int, mobile: bool)
    requires Consistent(route, s)
    ensures Consistent(route, HandleResize(route, s, y, mobile))
  {
  }

  /** On the home page, an event at `RevealScrollY` or beyond that reaches
      the resolver sets the reveal flag. */
  lemma ScrollReveals(route: Route, s: State, y: int, mobile: bool)
    requires route.isHome && y >= RevealScrollY
    ensures HandleScroll(route, s, y, mobile).revealed
    ensures Consistent(route, s) ==> HandleScroll(route, s, y, mobile).visibility.bottomBarVisible
  {
  }

  /** Events the window delivers to the hook. */
  datatype Event = Scroll(y: int, mobile: bool) | Resize(y: int, mobile: bool)

  function Step(route: Route, s: State, e: Event): State {
    match e
    case Scroll(y, mobile) => HandleScroll(route, s, y, mobile)
    case Resize(y, mobile) => HandleResize(route, s, y, mobile)
  }

  /** The state after a sequence of events. */
  function Run(route: Route, s: State, events: seq<Event>): (r: State)
    ensures s.revealed ==> r.revealed
    decreases |events|
  {
    if |events| == 0 then s else Run(route, Step(route, s, events[0]), events[1..])
  }

  lemma {:induction false} RunConsistent(route: Route, s: State, events: seq<Event>)
    requires Consistent(route, s)
    ensures Consistent(route, Run(route, s, events))
    decreases |events|
  {
    if |events| > 0 {
      var e := events[0];
      match e {
        case Scroll(y, mobile) => ScrollConsistent(route, s, y, mobile);
        case Resize(y, mobile) => ResizeConsistent(route, s, y, mobile);
      }
      RunConsistent(route, Step(route, s, e), events[1..]);
    }
  }

  /** From the page's first event on: once the home page has been scrolled
      to `RevealScrollY`, the bottom bar stays visible whatever follows. */
  lemma HomeRevealIsSticky(pathname: string, y0: int, stored: bool, before: seq<Event>, y: int, mobile: bool, after: seq<Event>)
    requires pathname == "/" && y >= RevealScrollY
    ensures var route := RouteOf(pathname);
            var s := Run(route, Setup(pathname, y0, stored), before + [Scroll(y, mobile)] + after);
            s.revealed && s.visibility.bottomBarVisible
  {
    var route := RouteOf(pathname);
    var s0 := Setup(pathname, y0, stored);
    SetupConsistent(pathname, y0, stored);
    var s1 := Run(route, s0, before);
    RunConsistent(route, s0, before);
    var s2 := HandleScroll(route, s1, y, mobile);
    ScrollReveals(route, s1, y, mobile);
    ScrollConsistent(route, s1, y, mobile);
    RunConsistent(route, s2, after);
    RunSplit(route, s0, before, Scroll(y, mobile), after);
  }

  lemma {:induction false} RunSplit(route: Route, s: State, a: seq<Event>, e: Event, b: seq<Event>)
    ensures Run(route, s, a + [e] + b) == Run(route, Step(route, Run(route, s, a), e), b)
    decreases |a|
  {
    if |a| == 0 {
      assert a + [e] + b == [e] + b;
      assert ([e] + b)[1..] == b;
    } else {
      assert (a + [e] + b)[1..] == a[1..] + [e] + b;
      RunSplit(route, Step(route, s, a[0]), a[1..], e, b);
    }
  }

  /** Off the home page, a reachable state hides the bottom bar only on a
      blog-post path and only together with the header. */
  lemma OffHomeBottomBar(route: Route, s: State)
    requires Consistent(route, s) && !route.isHome
    ensures !s.visibility.bottomBarVisible ==> route.hideOnScroll && !s.visibility.topHeaderVisible
  {
  }

  /** On a blog-post path, a mobile scroll step below the top zone hides
      the bottom bar iff it moves down by `DeltaThreshold` or more, or moves
      less than that while the bar was already hidden. */
  lemma BlogPostBottomBar(route: Route, s: State, y: int)
    requires Consistent(route, s) && !route.isHome && route.hideOnScroll && y > TopZoneY
    ensures var d := y - s.lastScrollY;
            var r := HandleScroll(route, s, y, true);
            !r.visibility.bottomBarVisible <==>
              d >= DeltaThreshold || (-DeltaThreshold < d < DeltaThreshold && !s.visibility.bottomBarVisible)
  {
  }
}

=== FILE: search.dfy ===
/** The command-palette actions: three fixed navigation actions followed
    by one action per post. Each `perform` callback is modelled by the
    address it navigates to. */
module Search {
  import opened Wrappers
  import opened Seqs
  import opened Strings
  import opened Feed

  datatype Action = Action(
    id: string,
    name: string,
    shortcut: seq<string>,
    keywords: string,
    section: string,
    subtitle: Option<string>,
    target: string)

  const PostSection := "\U{BE14}\U{B85C}\U{ADF8} \U{D3EC}\U{C2A4}\U{D2B8}"
  const MoveSection := "\U{C774}\U{B3D9}"

  const NavigationActions: seq<Action> := [
    Action("home", "\U{D648}\U{C73C}\U{B85C} \U{C774}\U{B3D9}", ["g", "h"], "home \U{BA54}\U{C778}", MoveSection, None, "/"),
    Action("blog", "\U{AE00} \U{BAA9}\U{B85D} \U{BCF4}\U{AE30}", ["g", "b"], "blog feed \U{AC8C}\U{C2DC}\U{AE00}", MoveSection, None, "/blog"),
    Action("resume", "\U{C774}\U{B825}\U{C11C} \U{BCF4}\U{AE30}", ["g", "r"], "resume cv \U{C790}\U{AE30}\U{C18C}\U{AC1C}\U{C11C}", MoveSection, None, "/resume")
  ]

  /** The ids of the navigation actions. */
  const NavigationIds: seq<string> := ["home", "blog", "resume"]

  /** `${post.tags?.join(' ')}`: the tags joined by spaces, or the text
      `undefined` when the post has no tag list. */
  function TagsText(tags: Option<seq<string>>): string {
    if tags.Some? then Join(tags.value, " ") else "undefined"
  }

  /** The template `${title} ${category} ${tags} ${description}`. */
  function Keywords(p: Post): string {
    p.title + " " + p.category + " " + TagsText(p.tags) + " " + p.description
  }

  function PostAction(p: Post): Action {
    Action(p.slug, p.title, [], Keywords(p), PostSection, Some(p.description), "/blog/" + p.slug)
  }

  /** `getSearchActions`: the navigation actions first, then the posts'. */
  function GetSearchActions(posts: seq<Post>): (r: seq<Action>)
    ensures |r| == 3 + |posts|
    ensures r[..3] == NavigationActions
    ensures forall k :: 0 <= k < |posts| ==> r[3 + k] == PostAction(posts[k])
  {
    NavigationActions + seq(|posts|, k requires 0 <= k < |posts| => PostAction(posts[k]))
  }

  /** The navigation actions lead, with ids home, blog, resume and the
      shortcuts g-h, g-b, g-r. */
  lemma NavigationFirst(posts: seq<Post>)
    ensures GetSearchActions(posts)[0].id == "home" && GetSearchActions(posts)[0].shortcut == ["g", "h"]
    ensures GetSearchActions(posts)[1].id == "blog" && GetSearchActions(posts)[1].shortcut == ["g", "b"]
    ensures GetSearchActions(posts)[2].id == "resume" && GetSearchActions(posts)[2].shortcut == ["g", "r"]
  {
    assert GetSearchActions(posts)[..3] == NavigationActions;
    assert GetSearchActions(posts)[0] == NavigationActions[0];
    assert GetSearchActions(posts)[1] == NavigationActions[1];
    assert GetSearchActions(posts)[2] == NavigationActions[2];
  }

  function ActionIds(actions: seq<Action>): (r: seq<string>)
    ensures |r| == |actions| && forall k :: 0 <= k < |r| ==> r[k] == actions[k].id
  {
    seq(|actions|, k requires 0 <= k < |actions| => actions[k].id)
  }

  function Slugs(posts: seq<Post>): (r: seq<string>)
    ensures |r| == |posts| && forall k :: 0 <= k < |r| ==> r[k] == posts[k].slug
  {
    seq(|posts|, k requires 0 <= k < |posts| => posts[k].slug)
  }

  /** The ids are the navigation ids followed by the post slugs. */
  lemma ActionIdsSplit(posts: seq<Post>)
    ensures ActionIds(GetSearchActions(posts)) == NavigationIds + Slugs(posts)
  {
    var r := GetSearchActions(posts);
    assert r[0] == NavigationActions[0] && r[1] == NavigationActions[1] && r[2] == NavigationActions[2];
  }

  lemma NavigationIdsDistinct()
    ensures Distinct(NavigationIds)
  {
    var ids := NavigationIds;
    assert ids[0][0] == 'h' && ids[1][0] == 'b' && ids[2][0] == 'r';
  }

  /** The palette's ids are unique exactly when the post slugs are unique
      and no slug is `home`, `blog` or `resume`. */
  lemma ActionIdsDistinct(posts: seq<Post>)
    ensures Distinct(ActionIds(GetSearchActions(posts))) <==>
            Distinct(Slugs(posts)) && forall k :: 0 <= k < |posts| ==> posts[k].slug !in NavigationIds
  {
    ActionIdsSplit(posts);
    NavigationIdsDistinct();
    DistinctAppend(NavigationIds, Slugs(posts));
  }

  /** Each action navigates to its own page: the navigation actions to
      the home, list and resume pages, a post's to `/blog/{slug}`. */
  lemma ActionTargets(posts: seq<Post>)
    ensures forall k :: 0 <= k < |posts| ==> GetSearchActions(posts)[3 + k].target == "/blog/" + posts[k].slug
    ensures GetSearchActions(posts)[0].target == "/" && GetSearchActions(posts)[1].target == "/blog"
    ensures GetSearchActions(posts)[2].target == "/resume"
  {
    var r := GetSearchActions(posts);
    assert r[0] == NavigationActions[0] && r[1] == NavigationActions[1] && r[2] == NavigationActions[2];
  }

  /** A post's action is found by its title, category, each tag and
      description: all occur in the keywords, in that order of fields. */
  lemma KeywordsMention(p: Post)
    ensures StartsWith(Keywords(p), p.title + " ")
    ensures Contains(Keywords(p), p.category)
    ensures Contains(Keywords(p), p.description)
    ensures p.tags.Some? ==> forall i :: 0 <= i < |p.tags.value| ==> Contains(Keywords(p), p.tags.value[i])
    ensures p.tags.None? ==> Contains(Keywords(p), "undefined")
  {
    var t := TagsText(p.tags);
    KeywordsShape(p, p.title + " " + p.category + " ", " " + p.description);
    ContainsIn(Keywords(p), p.title + " " + p.category + " " + t + " ", p.description, "");
    ContainsIn(Keywords(p), p.title + " ", p.category, " " + t + " " + p.description);
    if p.tags.Some? {
      forall i | 0 <= i < |p.tags.value| ensures Contains(Keywords(p), p.tags.value[i]) {
        TagInKeywords(p, i);
      }
    } else {
      ContainsIn(Keywords(p), p.title + " " + p.category + " ", "undefined", " " + p.description);
    }
  }

  lemma KeywordsShape(p: Post, pre: string, post: string)
    requires pre == p.title + " " + p.category + " " && post == " " + p.description
    ensures Keywords(p) == pre + TagsText(p.tags) + post
    ensures Keywords(p) == p.title + " " + p.category + " " + TagsText(p.tags) + " " + p.description + ""
    ensures Keywords(p) == p.title + " " + (p.category + " " + TagsText(p.tags) + " " + p.description)
    ensures Keywords(p) == p.title + " " + p.category + (" " + TagsText(p.tags) + " " + p.description)
    ensures StartsWith(Keywords(p), p.title + " ")
  {
    var k := Keywords(p);
    assert k[..|p.title + " "|] == p.title + " ";
  }

  lemma TagInKeywords(p: Post, i: nat)
    requires p.tags.Some? && i < |p.tags.value|
    ensures Contains(Keywords(p), p.tags.value[i])
  {
    var pre := p.title + " " + p.category + " ";
    var post := " " + p.description;
    KeywordsShape(p, pre, post);
    var j := JoinContains(p.tags.value, " ", i);
    OccursShift(TagsText(p.tags), p.tags.value[i], j, pre, post);
  }

  /** The repository's test post: in the model its action comes fourth,
      after the navigation actions, with the slug as id, the title as
      name, the post section, and `Redis` among its keywords. */
  lemma TestPostAction(p: Post)
    requires p.slug == "redis-basics" && p.title == "Redis Basics" && p.category == "Series"
    requires p.tags == Some(["Redis", "Caching"])
    ensures |GetSearchActions([p])| == 4
    ensures GetSearchActions([p])[3].id == "redis-basics" && GetSearchActions([p])[3].name == "Redis Basics"
    ensures GetSearchActions([p])[3].section == PostSection
    ensures Contains(GetSearchActions([p])[3].keywords, "Redis")
  {
    KeywordsMention(p);
    assert p.tags.value[0] == "Redis";
  }
}

=== FILE: seqs.dfy ===
/** Sequence helpers shared by the list-processing code: filtering,
    counting, first-occurrence de-duplication and the subsequence order
    that "keeps the input order" means. */
module Seqs {

  /** The smaller of two integers. */
  function Min(a: int, b: int): int {
    if a <= b then a else b
  }

  /** A non-empty sequence is its first element followed by the rest.
      Stated once here so that proofs about recursive functions of `s` can
      use it without re-deriving it next to their unfoldings. */
  lemma HeadTail<T>(s: seq<T>)
    requires |s| > 0
    ensures [s[0]] + s[1..] == s
  {
  }

  /** Taking one more element appends it. */
  lemma TakeSnoc<T>(s: seq<T>, i: int)
    requires 0 <= i < |s|
    ensures s[..i + 1] == s[..i] + [s[i]]
  {
  }

  /** A sequence is its first `i` elements followed by the rest. */
  lemma TakeDrop<T>(s: seq<T>, i: int)
    requires 0 <= i <= |s|
    ensures s[..i] + s[i..] == s
  {
  }

  /** A non-empty sequence is its prefix followed by its last element. */
  lemma SeqThree<T>(s: seq<T>, a: T, b: T, c: T)
    requires |s| == 3 && s[0] == a && s[1] == b && s[2] == c
    ensures s == [a, b, c]
  {
  }

  lemma Assoc<T>(a: seq<T>, b: seq<T>, c: seq<T>)
    ensures a + b + c == a + (b + c)
  {
  }

  lemma InitLast<T>(s: seq<T>)
    requires |s| > 0
    ensures s[..|s| - 1] + [s[|s| - 1]] == s
  {
  }

  /** The elements of `s` that satisfy `p`, in their original order
      (JavaScript's `Array.prototype.filter`, a Python list comprehension
      with an `if`). */
  function Filter<T>(s: seq<T>, p: T -> bool): (r: seq<T>)
    ensures |r| <= |s|
    ensures forall i :: 0 <= i < |r| ==> r[i] in s && p(r[i])
    ensures forall i :: 0 <= i < |s| && p(s[i]) ==> s[i] in r
  {
    if |s| == 0 then []
    else if p(s[0]) then [s[0]] + Filter(s[1..], p)
    else Filter(s[1..], p)
  }

  lemma {:induction false} FilterConcat<T>(a: seq<T>, b: seq<T>, p: T -> bool)
    ensures Filter(a + b, p) == Filter(a, p) + Filter(b, p)
  {
    if |a| == 0 {
      assert a + b == b;
    } else {
      assert (a + b)[1..] == a[1..] + b;
      FilterConcat(a[1..], b, p);
    }
  }

  /** Filters that agree on the elements of `s` select the same elements. */
  lemma {:induction false} FilterAgree<T>(s: seq<T>, p: T -> bool, q: T -> bool)
    requires forall x :: x in s ==> p(x) == q(x)
    ensures Filter(s, p) == Filter(s, q)
  {
    if |s| > 0 {
      FilterAgree(s[1..], p, q);
    }
  }

  /** An element the filter rejects can be dropped beforehand. */
  lemma FilterDropsOne<T>(a: seq<T>, x: T, b: seq<T>, p: T -> bool)
    requires !p(x)
    ensures Filter(a + [x] + b, p) == Filter(a + b, p)
  {
    var fa, fb := Filter(a, p), Filter(b, p);
    assert Filter([x], p) == [];
    FilterConcat(a, [x], p);
    assert Filter(a + [x], p) == fa;
    FilterConcat(a + [x], b, p);
    FilterConcat(a, b, p);
  }

  lemma FilterAll<T>(s: seq<T>, p: T -> bool)
    requires forall x :: x in s ==> p(x)
    ensures Filter(s, p) == s
  {
  }

  lemma FilterNone<T>(s: seq<T>, p: T -> bool)
    requires forall x :: x in s ==> !p(x)
    ensures Filter(s, p) == []
  {
  }

  lemma FilterMultiset<T>(s: seq<T>, t: seq<T>, p: T -> bool)
    requires multiset(s) == multiset(t)
    ensures multiset(Filter(s, p)) == multiset(Filter(t, p))
  {
    FilterMultisetCount(s, p);
    FilterMultisetCount(t, p);
  }

  lemma {:induction false} FilterMultisetCount<T>(s: seq<T>, p: T -> bool)
    ensures forall x :: multiset(Filter(s, p))[x] == if p(x) then multiset(s)[x] else 0
  {
    if |s| > 0 {
      FilterMultisetCount(s[1..], p);
      HeadTail(s);
    }
  }

  /** `a` can be obtained from `b` by deleting elements: the "order is
      preserved" half of every filter and de-duplication property. */
  predicate IsSubsequence<T(==)>(a: seq<T>, b: seq<T>)
    decreases |b|
  {
    if |a| == 0 then true
    else if |b| == 0 then false
    else if a[0] == b[0] then IsSubsequence(a[1..], b[1..])
    else IsSubsequence(a, b[1..])
  }

  lemma {:induction false} FilterIsSubsequence<T>(s: seq<T>, p: T -> bool)
    ensures IsSubsequence(Filter(s, p), s)
  {
    if |s| > 0 {
      FilterIsSubsequence(s[1..], p);
      if !p(s[0]) {
        var f := Filter(s[1..], p);
        SubsequenceDropHead(f, s);
      }
    }
  }

  lemma {:induction false} SubsequenceDropHead<T>(a: seq<T>, b: seq<T>)
    requires |b| > 0 && IsSubsequence(a, b[1..])
    ensures IsSubsequence(a, b)
    decreases |b|, 0
  {
    if |a| > 0 && a[0] == b[0] {
      SubsequenceTail(a, b[1..]);
    }
  }

  lemma {:induction false} SubsequenceTail<T>(a: seq<T>, b: seq<T>)
    requires |a| > 0 && IsSubsequence(a, b)
    ensures IsSubsequence(a[1..], b)
    decreases |b|, 1
  {
    if a[0] == b[0] {
      SubsequenceDropHead(a[1..], b);
    } else {
      SubsequenceTail(a, b[1..]);
      SubsequenceDropHead(a[1..], b);
    }
  }

  /** No value occurs twice. */
  predicate Distinct<T(==)>(s: seq<T>) {
    forall i, j :: 0 <= i < j < |s| ==> s[i] != s[j]
  }

  /** No key occurs twice. */
  predicate DistinctBy<T, K(==)>(s: seq<T>, key: T -> K) {
    forall i, j :: 0 <= i < j < |s| ==> key(s[i]) != key(s[j])
  }

  /** Number of occurrences of `x` in `s`. */
  function Count<T(==)>(s: seq<T>, x: T): (n: nat)
    ensures n == multiset(s)[x]
    ensures n <= |s|
  {
    if |s| == 0 then 0
    else
      HeadTail(s);
      (if s[0] == x then 1 else 0) + Count(s[1..], x)
  }

  /** Keeps the first element of `s` for each key not already in `seen`,
      in order; the loop `if key in seen: continue; seen.add(key)` and the
      insertion order of a JavaScript `Set` or `Map`. */
  function DedupByFrom<T, K(==)>(s: seq<T>, key: T -> K, seen: set<K>): (r: seq<T>)
    ensures DistinctBy(r, key)
    ensures forall i :: 0 <= i < |r| ==> r[i] in s && key(r[i]) !in seen
    ensures |r| <= |s|
  {
    if |s| == 0 then []
    else if key(s[0]) in seen then DedupByFrom(s[1..], key, seen)
    else [s[0]] + DedupByFrom(s[1..], key, seen + {key(s[0])})
  }

  /** Every key of `s` outside `seen` is kept. */
  lemma {:induction false} DedupByFromComplete<T, K>(s: seq<T>, key: T -> K, seen: set<K>, i: int)
    requires 0 <= i < |s| && key(s[i]) !in seen
    ensures exists j :: 0 <= j < |DedupByFrom(s, key, seen)| && key(DedupByFrom(s, key, seen)[j]) == key(s[i])
  {
    var r := DedupByFrom(s, key, seen);
    if key(s[0]) in seen {
      assert i > 0;
      DedupByFromComplete(s[1..], key, seen, i - 1);
    } else if i == 0 || key(s[i]) == key(s[0]) {
      assert key(r[0]) == key(s[i]);
    } else {
      DedupByFromComplete(s[1..], key, seen + {key(s[0])}, i - 1);
      var rest := DedupByFrom(s[1..], key, seen + {key(s[0])});
      var j :| 0 <= j < |rest| && key(rest[j]) == key(s[1..][i - 1]);
      assert r[j + 1] == rest[j];
    }
  }

  /** Each kept element is the first of `s` with its key. */
  lemma {:induction false} DedupByFromFirst<T, K>(s: seq<T>, key: T -> K, seen: set<K>, i: int)
    requires 0 <= i < |DedupByFrom(s, key, seen)|
    ensures IsFirstWithKey(s, key, DedupByFrom(s, key, seen)[i])
  {
    var r := DedupByFrom(s, key, seen);
    if key(s[0]) in seen {
      DedupByFromFirst(s[1..], key, seen, i);
      FirstWithKeyShift(s, key, r[i]);
    } else if i == 0 {
      assert s[0] == r[0];
    } else {
      var rest := DedupByFrom(s[1..], key, seen + {key(s[0])});
      assert r[i] == rest[i - 1];
      DedupByFromFirst(s[1..], key, seen + {key(s[0])}, i - 1);
      assert key(rest[i - 1]) !in seen + {key(s[0])};
      FirstWithKeyShift(s, key, r[i]);
    }
  }

  /** `x` occurs in `s` and no earlier element of `s` has its key. */
  ghost predicate IsFirstWithKey<T, K>(s: seq<T>, key: T -> K, x: T) {
    exists i :: 0 <= i < |s| && s[i] == x && forall j :: 0 <= j < i ==> key(s[j]) != key(x)
  }

  lemma FirstWithKeyShift<T, K>(s: seq<T>, key: T -> K, x: T)
    requires |s| > 0 && key(s[0]) != key(x) && IsFirstWithKey(s[1..], key, x)
    ensures IsFirstWithKey(s, key, x)
  {
    var i :| 0 <= i < |s[1..]| && s[1..][i] == x && forall j :: 0 <= j < i ==> key(s[1..][j]) != key(x);
    assert s[i + 1] == x;
    forall j | 0 <= j < i + 1 ensures key(s[j]) != key(x) {
      if j > 0 {
        assert s[j] == s[1..][j - 1];
      }
    }
  }

  function DedupBy<T, K(==)>(s: seq<T>, key: T -> K): seq<T> {
    DedupByFrom(s, key, {})
  }

  lemma {:induction false} DedupByFromIsSubsequence<T, K>(s: seq<T>, key: T -> K, seen: set<K>)
    ensures IsSubsequence(DedupByFrom(s, key, seen), s)
  {
    if |s| > 0 {
      if key(s[0]) in seen {
        DedupByFromIsSubsequence(s[1..], key, seen);
        SubsequenceDropHead(DedupByFrom(s[1..], key, seen), s);
      } else {
        DedupByFromIsSubsequence(s[1..], key, seen + {key(s[0])});
      }
    }
  }

  function Identity<T>(x: T): T {
    x
  }

  /** Distinct elements of `s`, first occurrences in order. */
  function Dedup<T(==)>(s: seq<T>): (r: seq<T>)
    ensures Distinct(r)
    ensures forall i :: 0 <= i < |r| ==> r[i] in s
    ensures forall i :: 0 <= i < |s| ==> s[i] in r
  {
    var r := DedupBy(s, Identity);
    assert forall i :: 0 <= i < |s| ==> s[i] in r by {
      forall i | 0 <= i < |s| ensures s[i] in r {
        DedupByFromComplete(s, Identity, {}, i);
      }
    }
    r
  }

  /** Some element of `s` has key `k`. */
  ghost predicate HasKey<T, K>(s: seq<T>, key: T -> K, k: K) {
    exists i :: 0 <= i < |s| && key(s[i]) == k
  }

  lemma HasKeyCons<T, K>(s: seq<T>, key: T -> K, k: K)
    requires |s| > 0
    ensures HasKey(s, key, k) <==> key(s[0]) == k || HasKey(s[1..], key, k)
  {
    if HasKey(s, key, k) && key(s[0]) != k {
      var i :| 0 <= i < |s| && key(s[i]) == k;
      assert key(s[1..][i - 1]) == k;
    }
    if HasKey(s[1..], key, k) {
      var i :| 0 <= i < |s[1..]| && key(s[1..][i]) == k;
      assert key(s[i + 1]) == k;
    }
  }

  /** Appending to the input appends to the de-duplicated sequence
      exactly when the key is new: the `if key not in seen` loop step. */
  lemma {:induction false} DedupByFromSnoc<T, K>(s: seq<T>, x: T, key: T -> K, seen: set<K>)
    ensures DedupByFrom(s + [x], key, seen) ==
              DedupByFrom(s, key, seen) + (if key(x) in seen || HasKey(s, key, key(x)) then [] else [x])
  {
    if |s| == 0 {
      assert s + [x] == [x];
    } else {
      assert (s + [x])[1..] == s[1..] + [x];
      HasKeyCons(s, key, key(x));
      if key(s[0]) in seen {
        DedupByFromSnoc(s[1..], x, key, seen);
      } else {
        DedupByFromSnoc(s[1..], x, key, seen + {key(s[0])});
      }
    }
  }

  lemma DedupSnoc<T>(s: seq<T>, x: T)
    ensures Dedup(s + [x]) == Dedup(s) + (if x in s then [] else [x])
  {
    DedupByFromSnoc(s, x, Identity, {});
    if x in s {
      var i :| 0 <= i < |s| && s[i] == x;
      assert Identity(s[i]) == Identity(x);
    }
    if HasKey(s, Identity, Identity(x)) {
      var i :| 0 <= i < |s| && Identity(s[i]) == Identity(x);
      assert s[i] == x;
    }
  }

  /** A distinct sequence is as long as the set of its elements. */
  lemma {:induction false} DistinctCardinality<T>(s: seq<T>)
    requires Distinct(s)
    ensures |set x | x in s| == |s|
  {
    if |s| > 0 {
      var t := s[..|s| - 1];
      assert Distinct(t);
      DistinctCardinality(t);
      assert (set x | x in s) == (set x | x in t) + {s[|s| - 1]};
      assert s[|s| - 1] !in (set x | x in t);
    }
  }

  /** Keys distinct means the set of keys is as large as the sequence. */
  lemma {:induction false} DistinctByCardinality<T, K>(s: seq<T>, key: T -> K)
    requires DistinctBy(s, key)
    ensures |set x | x in s :: key(x)| == |s|
  {
    if |s| > 0 {
      var t := s[..|s| - 1];
      assert DistinctBy(t, key);
      DistinctByCardinality(t, key);
      assert (set x | x in s :: key(x)) == (set x | x in t :: key(x)) + {key(s[|s| - 1])};
      assert key(s[|s| - 1]) !in (set x | x in t :: key(x));
    }
  }

  /** Under distinct keys an element occurs at most once. */
  lemma {:induction false} DistinctByCount<T, K>(s: seq<T>, key: T -> K, x: T)
    requires DistinctBy(s, key)
    ensures multiset(s)[x] <= 1
  {
    if |s| > 0 {
      assert DistinctBy(s[1..], key);
      DistinctByCount(s[1..], key, x);
      HeadTail(s);
      if s[0] == x {
        assert x !in s[1..];
      }
    }
  }

  /** Rearranging a sequence keeps its keys distinct. */
  lemma DistinctByPermutation<T, K>(a: seq<T>, b: seq<T>, key: T -> K)
    requires DistinctBy(a, key) && multiset(a) == multiset(b)
    ensures DistinctBy(b, key)
  {
    forall i, j | 0 <= i < j < |b| ensures key(b[i]) != key(b[j]) {
      assert b[i] in multiset(a) && b[j] in multiset(a);
      var ia :| 0 <= ia < |a| && a[ia] == b[i];
      var ja :| 0 <= ja < |a| && a[ja] == b[j];
      if b[i] == b[j] {
        assert b == b[..j] + [b[j]] + b[j + 1..];
        assert b[i] in b[..j];
        assert multiset(b)[b[i]] >= 2;
        DistinctByCount(a, key, b[i]);
      }
    }
  }

  /** In a distinct sequence every value occurs at most once. */
  lemma {:induction false} DistinctCount<T>(s: seq<T>, x: T)
    requires Distinct(s)
    ensures multiset(s)[x] <= 1
  {
    if |s| > 0 {
      DistinctCount(s[1..], x);
      HeadTail(s);
      if s[0] == x {
        assert x !in s[1..];
      }
    }
  }

  /** Rearranging a distinct sequence keeps it distinct. */
  /** Two arrangements of one multiset hold the same elements. */
  lemma SameMembers<T>(a: seq<T>, b: seq<T>)
    requires multiset(a) == multiset(b)
    ensures forall x :: x in a <==> x in b
  {
    forall x ensures x in a <==> x in b {
      assert x in a <==> x in multiset(a);
    }
  }

  /** A concatenation repeats nothing exactly when neither part does and
      the parts share no element. */
  lemma DistinctAppend<T>(a: seq<T>, b: seq<T>)
    ensures Distinct(a + b) <==>
            Distinct(a) && Distinct(b) && forall j :: 0 <= j < |b| ==> b[j] !in a
  {
    var c := a + b;
    if Distinct(c) {
      forall i, j | 0 <= i < j < |a| ensures a[i] != a[j] {
        assert c[i] == a[i] && c[j] == a[j];
      }
      forall i, j | 0 <= i < j < |b| ensures b[i] != b[j] {
        assert c[|a| + i] == b[i] && c[|a| + j] == b[j];
      }
      forall j | 0 <= j < |b| ensures b[j] !in a {
        forall i | 0 <= i < |a| ensures a[i] != b[j] {
          assert c[i] == a[i] && c[|a| + j] == b[j];
        }
      }
    }
    if Distinct(a) && Distinct(b) && forall j :: 0 <= j < |b| ==> b[j] !in a {
      forall i, j | 0 <= i < j < |c| ensures c[i] != c[j] {
        if j < |a| {
          assert c[i] == a[i] && c[j] == a[j];
        } else if i >= |a| {
          assert c[i] == b[i - |a|] && c[j] == b[j - |a|];
        } else {
          assert c[i] == a[i] && c[j] == b[j - |a|];
        }
      }
    }
  }

  lemma DistinctPermutation<T>(a: seq<T>, b: seq<T>)
    requires Distinct(a) && multiset(a) == multiset(b)
    ensures Distinct(b)
  {
    forall i, j | 0 <= i < j < |b| ensures b[i] != b[j] {
      if b[i] == b[j] {
        assert b == b[..j] + [b[j]] + b[j + 1..];
        assert b[i] in b[..j];
        assert multiset(b)[b[i]] >= 2;
        DistinctCount(a, b[i]);
      }
    }
  }

  /** Filtering a distinct sequence keeps it distinct. */
  lemma {:induction false} FilterDistinct<T>(s: seq<T>, p: T -> bool)
    requires Distinct(s)
    ensures Distinct(Filter(s, p))
  {
    if |s| > 0 {
      FilterDistinct(s[1..], p);
      if p(s[0]) {
        assert s[0] !in s[1..];
      }
    }
  }

  /** The elements of a subsequence come from the sequence. */
  lemma {:induction false} SubsequenceMember<T>(a: seq<T>, b: seq<T>, x: T)
    requires IsSubsequence(a, b) && x in a
    ensures x in b
    decreases |b|
  {
    if a[0] == b[0] {
      if x != a[0] {
        SubsequenceMember(a[1..], b[1..], x);
      }
    } else {
      SubsequenceMember(a, b[1..], x);
    }
  }

  function Sum(s: seq<int>): int {
    if |s| == 0 then 0 else s[0] + Sum(s[1..])
  }

  lemma {:induction false} SumSnoc(s: seq<int>, x: int)
    ensures Sum(s + [x]) == Sum(s) + x
  {
    if |s| == 0 {
      assert s + [x] == [x];
    } else {
      assert (s + [x])[1..] == s[1..] + [x];
      SumSnoc(s[1..], x);
    }
  }

  /** Non-decreasing. */
  predicate Ascending(s: seq<int>) {
    forall i, j :: 0 <= i < j < |s| ==> s[i] <= s[j]
  }

  predicate StrictlyAscending(s: seq<int>) {
    forall i, j :: 0 <= i < j < |s| ==> s[i] < s[j]
  }
}

=== FILE: series_navigation.dfy ===
/** Previous/next links of the series box on a post page: the first post
    of the series list whose order is one less, or one more, than the
    current post's. */
module SeriesNavigation {
  import opened Wrappers
  import opened Strings
  import opened Feed

  /** `p.series?.order === order`: a post without series never matches. */
  predicate HasOrder(p: Post, order: int) {
    p.series.Some? && p.series.value.order == order
  }

  /** `posts.find(p => p.series?.order === order)`. */
  function FindByOrder(posts: seq<Post>, order: int): (r: Option<Post>)
    ensures r.Some? ==> HasOrder(r.value, order) && r.value in posts
  {
    if |posts| == 0 then None
    else if HasOrder(posts[0], order) then Some(posts[0])
    else FindByOrder(posts[1..], order)
  }

  /** `find` returns the first match in list order, and nothing exactly
      when no post matches. */
  lemma {:induction false} FindByOrderFirst(posts: seq<Post>, order: int)
    ensures FindByOrder(posts, order).None? <==> forall k :: 0 <= k < |posts| ==> !HasOrder(posts[k], order)
    ensures FindByOrder(posts, order).Some? ==>
              exists k :: 0 <= k < |posts| && posts[k] == FindByOrder(posts, order).value
                          && forall j :: 0 <= j < k ==> !HasOrder(posts[j], order)
  {
    if |posts| > 0 && !HasOrder(posts[0], order) {
      FindByOrderFirst(posts[1..], order);
      if FindByOrder(posts, order).Some? {
        var k :| 0 <= k < |posts[1..]| && posts[1..][k] == FindByOrder(posts, order).value
                 && forall j :: 0 <= j < k ==> !HasOrder(posts[1..][j], order);
        assert posts[k + 1] == FindByOrder(posts, order).value;
        forall j | 0 <= j < k + 1 ensures !HasOrder(posts[j], order) {
          if j > 0 {
            assert posts[j] == posts[1..][j - 1];
          }
        }
      } else {
        forall k | 0 <= k < |posts| ensures !HasOrder(posts[k], order) {
          if k > 0 {
            assert posts[k] == posts[1..][k - 1];
          }
        }
      }
    }
  }

  function PrevPost(posts: seq<Post>, currentOrder: int): Option<Post> {
    FindByOrder(posts, currentOrder - 1)
  }

  function NextPost(posts: seq<Post>, currentOrder: int): Option<Post> {
    FindByOrder(posts, currentOrder + 1)
  }

  /** When both neighbours exist they are different posts: their orders
      differ by two. */
  lemma PrevNextDiffer(posts: seq<Post>, currentOrder: int)
    requires PrevPost(posts, currentOrder).Some? && NextPost(posts, currentOrder).Some?
    ensures PrevPost(posts, currentOrder).value != NextPost(posts, currentOrder).value
    ensures NextPost(posts, currentOrder).value.series.value.order
         == PrevPost(posts, currentOrder).value.series.value.order + 2
  {
  }

  /** What a navigation slot shows: a link to `/blog/<slug>` titled with
      the post's title, or an empty placeholder. */
  datatype Slot = Placeholder | LinkTo(href: string, title: string)

  function SlotFor(post: Option<Post>): (s: Slot)
    ensures s.Placeholder? <==> post.None?
    ensures s.LinkTo? ==> StartsWith(s.href, "/blog/") && s.href[6..] == post.value.slug && s.title == post.value.title
  {
    if post.Some? then LinkTo("/blog/" + post.value.slug, post.value.title) else Placeholder
  }

  /** The two slots: each is empty exactly when no post of the list has
      the neighbouring order. */
  lemma Slots(posts: seq<Post>, currentOrder: int)
    ensures SlotFor(PrevPost(posts, currentOrder)).Placeholder? <==>
              forall k :: 0 <= k < |posts| ==> !HasOrder(posts[k], currentOrder - 1)
    ensures SlotFor(NextPost(posts, currentOrder)).Placeholder? <==>
              forall k :: 0 <= k < |posts| ==> !HasOrder(posts[k], currentOrder + 1)
  {
    FindByOrderFirst(posts, currentOrder - 1);
    FindByOrderFirst(posts, currentOrder + 1);
  }
}

=== FILE: series_page.dfy ===
/** The series overview: posts grouped by series id, each group's posts in
    series order, its newest date, and the groups newest first. */
module SeriesPage {
  import opened Wrappers
  import opened Seqs
  import opened Strings
  import opened Sorting
  import opened Feed

  /** One entry of the insertion-ordered map the `forEach` fills: the
      series id, the title taken from its first post, and its posts in
      input order. */
  datatype Entry = Entry(id: string, title: string, posts: seq<Post>)

  datatype SeriesGroup = SeriesGroup(id: string, title: string, posts: seq<Post>, latestDate: string)

  function EntryId(e: Entry): string {
    e.id
  }

  /** Position of the entry for `id`, if the map has one. */
  function IndexOfId(entries: seq<Entry>, id: string): (r: Option<nat>)
    ensures r.Some? ==> r.value < |entries| && entries[r.value].id == id
    ensures r.None? ==> forall k :: 0 <= k < |entries| ==> entries[k].id != id
  {
    if |entries| == 0 then None
    else if entries[|entries| - 1].id == id then Some(|entries| - 1)
    else IndexOfId(entries[..|entries| - 1], id)
  }

  /** One step of the `forEach`: a post without series is skipped; a known
      id gets the post appended; a new id opens an entry with the post's
      series title. */
  function AddPost(entries: seq<Entry>, p: Post): (r: seq<Entry>)
  {
    if p.series.None? then entries
    else
      var id := p.series.value.id;
      match IndexOfId(entries, id)
      case Some(k) => entries[k := Entry(id, entries[k].title, entries[k].posts + [p])]
      case None => entries + [Entry(id, p.series.value.title, [p])]
  }

  /** The map after the whole `forEach`, entries in insertion order. */
  function Collect(posts: seq<Post>): seq<Entry>
  {
    if |posts| == 0 then []
    else AddPost(Collect(posts[..|posts| - 1]), posts[|posts| - 1])
  }

  /** The posts of series `id`, in input order. */
  function Members(posts: seq<Post>, id: string): seq<Post> {
    Filter(posts, (p: Post) => InSeries(p, id))
  }

  /** The ids of the series the posts belong to. */
  function SeriesIds(posts: seq<Post>): set<string> {
    set p | p in posts && p.series.Some? :: p.series.value.id
  }

  function EntryIds(entries: seq<Entry>): set<string> {
    set e | e in entries :: e.id
  }

  /** Entry `e` holds exactly the posts of its series, in input order, and
      the series title of the first of them. */
  predicate EntryFaithful(posts: seq<Post>, e: Entry) {
    && e.posts == Members(posts, e.id)
    && |e.posts| > 0
    && e.title == e.posts[0].series.value.title
  }

  /** What the map holds after the `forEach`. */
  predicate CollectSpec(posts: seq<Post>, entries: seq<Entry>) {
    && DistinctBy(entries, EntryId)
    && EntryIds(entries) == SeriesIds(posts)
    && (forall k :: 0 <= k < |entries| ==> EntryFaithful(posts, entries[k]))
  }

  lemma MembersSnoc(posts: seq<Post>, p: Post, id: string)
    ensures Members(posts + [p], id) == Members(posts, id) + (if InSeries(p, id) then [p] else [])
  {
    FilterConcat(posts, [p], (q: Post) => InSeries(q, id));
  }

  lemma SeriesIdsSnoc(posts: seq<Post>, p: Post)
    ensures SeriesIds(posts + [p]) == SeriesIds(posts) + (if p.series.Some? then {p.series.value.id} else {})
  {
    var r := posts + [p];
    assert forall q :: q in r <==> q in posts || q == p;
  }

  lemma MembersNone(posts: seq<Post>, id: string)
    requires id !in SeriesIds(posts)
    ensures Members(posts, id) == []
  {
    FilterNone(posts, (q: Post) => InSeries(q, id));
  }

  /** The grouping loop builds one entry per series id with that series'
      posts in input order and the title of its first post. */
  lemma {:induction false} CollectCorrect(posts: seq<Post>)
    ensures CollectSpec(posts, Collect(posts))
  {
    if |posts| > 0 {
      var init := posts[..|posts| - 1];
      var p := posts[|posts| - 1];
      assert posts == init + [p];
      CollectCorrect(init);
      var es := Collect(init);
      SeriesIdsSnoc(init, p);
      if p.series.None? {
        CollectSkip(init, p, es);
      } else {
        match IndexOfId(es, p.series.value.id)
        case Some(k) => CollectAppend(init, p, es, k);
        case None => CollectOpen(init, p, es);
      }
    }
  }

  lemma CollectSkip(init: seq<Post>, p: Post, es: seq<Entry>)
    requires CollectSpec(init, es) && p.series.None?
    requires SeriesIds(init + [p]) == SeriesIds(init)
    ensures CollectSpec(init + [p], AddPost(es, p))
  {
    forall k | 0 <= k < |es| ensures EntryFaithful(init + [p], es[k]) {
      MembersSnoc(init, p, es[k].id);
    }
  }

  lemma CollectAppend(init: seq<Post>, p: Post, es: seq<Entry>, k: nat)
    requires CollectSpec(init, es) && p.series.Some?
    requires IndexOfId(es, p.series.value.id) == Some(k)
    requires SeriesIds(init + [p]) == SeriesIds(init) + {p.series.value.id}
    ensures CollectSpec(init + [p], AddPost(es, p))
  {
    var id := p.series.value.id;
    var r := AddPost(es, p);
    var e := Entry(id, es[k].title, es[k].posts + [p]);
    assert r == es[k := e];
    ReplaceEntry(es, k, e);
    assert id in EntryIds(es);
    forall m | 0 <= m < |r| ensures EntryFaithful(init + [p], r[m]) {
      AppendFaithful(init, p, es, k, m);
    }
  }

  /** Replacing an entry by one with the same id keeps the ids. */
  lemma ReplaceEntry(es: seq<Entry>, k: nat, e: Entry)
    requires k < |es| && e.id == es[k].id && DistinctBy(es, EntryId)
    ensures DistinctBy(es[k := e], EntryId)
    ensures EntryIds(es[k := e]) == EntryIds(es)
  {
    var r := es[k := e];
    assert forall m :: 0 <= m < |r| ==> r[m].id == es[m].id;
    forall x ensures x in EntryIds(r) <==> x in EntryIds(es) {
      if x in EntryIds(r) {
        var f :| f in r && f.id == x;
        var m :| 0 <= m < |r| && r[m] == f;
        assert es[m] in es;
      }
      if x in EntryIds(es) {
        var f :| f in es && f.id == x;
        var m :| 0 <= m < |es| && es[m] == f;
        assert r[m] in r;
      }
    }
  }

  lemma AppendFaithful(init: seq<Post>, p: Post, es: seq<Entry>, k: nat, m: nat)
    requires CollectSpec(init, es) && p.series.Some?
    requires k < |es| && es[k].id == p.series.value.id && m < |es|
    ensures EntryFaithful(init + [p], es[k := Entry(es[k].id, es[k].title, es[k].posts + [p])][m])
  {
    var r := es[k := Entry(es[k].id, es[k].title, es[k].posts + [p])];
    MembersSnoc(init, p, r[m].id);
    assert EntryFaithful(init, es[m]);
    if m == k {
      assert r[k].posts[0] == es[k].posts[0];
    } else {
      assert r[m] == es[m];
      assert EntryId(es[m]) != EntryId(es[k]);
    }
  }

  lemma EntryIdsSnoc(es: seq<Entry>, e: Entry)
    ensures EntryIds(es + [e]) == EntryIds(es) + {e.id}
  {
    var r := es + [e];
    assert forall f :: f in r <==> f in es || f == e;
  }

  lemma DistinctSnoc(es: seq<Entry>, e: Entry)
    requires DistinctBy(es, EntryId) && e.id !in EntryIds(es)
    ensures DistinctBy(es + [e], EntryId)
  {
    var r := es + [e];
    forall i, j | 0 <= i < j < |r| ensures EntryId(r[i]) != EntryId(r[j]) {
      if j == |es| {
        assert r[i] == es[i] && es[i] in es;
      } else {
        assert r[i] == es[i] && r[j] == es[j];
      }
    }
  }

  lemma OpenFaithful(init: seq<Post>, p: Post, es: seq<Entry>, e: Entry, m: nat)
    requires CollectSpec(init, es) && p.series.Some?
    requires e == Entry(p.series.value.id, p.series.value.title, [p])
    requires e.id !in EntryIds(es) && e.id !in SeriesIds(init)
    requires m <= |es|
    ensures EntryFaithful(init + [p], (es + [e])[m])
  {
    var r := es + [e];
    MembersSnoc(init, p, r[m].id);
    if m < |es| {
      assert r[m] == es[m];
      assert es[m].id in EntryIds(es);
    } else {
      MembersNone(init, e.id);
    }
  }

  lemma CollectOpen(init: seq<Post>, p: Post, es: seq<Entry>)
    requires CollectSpec(init, es) && p.series.Some?
    requires IndexOfId(es, p.series.value.id).None?
    requires SeriesIds(init + [p]) == SeriesIds(init) + {p.series.value.id}
    ensures CollectSpec(init + [p], AddPost(es, p))
  {
    var id := p.series.value.id;
    var e := Entry(id, p.series.value.title, [p]);
    assert AddPost(es, p) == es + [e];
    assert id !in EntryIds(es) by {
      forall f | f in es ensures f.id != id {
        var k :| 0 <= k < |es| && es[k] == f;
      }
    }
    EntryIdsSnoc(es, e);
    DistinctSnoc(es, e);
    forall m | 0 <= m < |es| + 1 ensures EntryFaithful(init + [p], (es + [e])[m]) {
      OpenFaithful(init, p, es, e, m);
    }
  }

  /** The newest date among `posts`, starting from `latest`: the reduce
      with `post.date > latest ? post.date : latest`. */
  function LatestFrom(posts: seq<Post>, latest: string): (r: string)
  {
    if |posts| == 0 then latest
    else LatestFrom(posts[1..], if StrLt(latest, posts[0].date) then posts[0].date else latest)
  }

  /** The reduce yields the maximum of the start value and the dates. */
  lemma {:induction false} LatestFromIsMax(posts: seq<Post>, latest: string)
    ensures StrLe(latest, LatestFrom(posts, latest))
    ensures forall k :: 0 <= k < |posts| ==> StrLe(posts[k].date, LatestFrom(posts, latest))
    ensures LatestFrom(posts, latest) == latest || exists k :: 0 <= k < |posts| && posts[k].date == LatestFrom(posts, latest)
  {
    StrLeTotalOrder();
    StrLeReflexive(latest);
    if |posts| > 0 {
      var next := if StrLt(latest, posts[0].date) then posts[0].date else latest;
      LatestFromIsMax(posts[1..], next);
      StrLeReflexive(posts[0].date);
      var r := LatestFrom(posts, latest);
      forall k | 0 <= k < |posts| ensures StrLe(posts[k].date, r) {
        if k > 0 {
          assert posts[k] == posts[1..][k - 1];
        }
      }
      if r != latest && r != next {
        var k :| 0 <= k < |posts[1..]| && posts[1..][k].date == r;
        assert posts[k + 1].date == r;
      }
    }
  }

  /** A group: its posts stably ordered by series order, and the newest
      date among them (the reduce starts from the first post's date). */
  function MakeGroup(e: Entry): (g: SeriesGroup)
    ensures g.id == e.id && g.title == e.title && multiset(g.posts) == multiset(e.posts)
  {
    var sorted := SortBy(e.posts, OrderLe);
    SeriesGroup(e.id, e.title, sorted, LatestFrom(sorted, if |sorted| > 0 then sorted[0].date else ""))
  }

  /** "`a` may come before `b`" when listing groups newest first. */
  predicate LatestDescLe(a: SeriesGroup, b: SeriesGroup) {
    StrLe(b.latestDate, a.latestDate)
  }

  function Groups(entries: seq<Entry>): (gs: seq<SeriesGroup>)
    ensures |gs| == |entries|
    ensures forall k :: 0 <= k < |gs| ==> gs[k] == MakeGroup(entries[k])
  {
    seq(|entries|, k requires 0 <= k < |entries| => MakeGroup(entries[k]))
  }

  function GroupId(g: SeriesGroup): string {
    g.id
  }

  /** `getSeriesGroups`. The group comparator answers 1 or -1, never 0,
      like the feed's date comparator; the model uses the stable sort by
      newest date, which is one of the orders the engine may produce. */
  function GetSeriesGroups(posts: seq<Post>): (gs: seq<SeriesGroup>)
    ensures multiset(gs) == multiset(Groups(Collect(posts)))
  {
    SortBy(Groups(Collect(posts)), LatestDescLe)
  }

  function GroupIds(groups: seq<SeriesGroup>): set<string> {
    set g | g in groups :: g.id
  }

  /** The posts of `posts` whose series order is `o`, in order. */
  function WithOrder(posts: seq<Post>, o: int): seq<Post> {
    Filter(posts, HasOrder(o))
  }

  /** One group per series id: the group ids are the ids of the posts'
      series, and no two groups share an id. */
  lemma GroupsPerSeries(posts: seq<Post>)
    ensures GroupIds(GetSeriesGroups(posts)) == SeriesIds(posts)
    ensures DistinctBy(GetSeriesGroups(posts), GroupId)
  {
    var es := Collect(posts);
    CollectCorrect(posts);
    GroupsDistinct(es, GetSeriesGroups(posts));
    GroupsIds(es, GetSeriesGroups(posts));
  }

  lemma GroupsDistinct(es: seq<Entry>, gs: seq<SeriesGroup>)
    requires DistinctBy(es, EntryId) && multiset(gs) == multiset(Groups(es))
    ensures DistinctBy(gs, GroupId)
  {
    var unsorted := Groups(es);
    forall i, j | 0 <= i < j < |unsorted| ensures unsorted[i].id != unsorted[j].id {
      assert EntryId(es[i]) != EntryId(es[j]);
    }
    DistinctByPermutation(unsorted, gs, GroupId);
  }

  lemma GroupsIds(es: seq<Entry>, gs: seq<SeriesGroup>)
    requires multiset(gs) == multiset(Groups(es))
    ensures GroupIds(gs) == EntryIds(es)
  {
    var unsorted := Groups(es);
    forall id ensures id in GroupIds(gs) <==> id in EntryIds(es) {
      if id in GroupIds(gs) {
        var g :| g in gs && g.id == id;
        assert g in multiset(unsorted);
        var m :| 0 <= m < |unsorted| && unsorted[m] == g;
        assert es[m] in es;
      }
      if id in EntryIds(es) {
        var e :| e in es && e.id == id;
        var m :| 0 <= m < |es| && es[m] == e;
        assert unsorted[m] in multiset(gs);
      }
    }
  }

  /** Every group holds exactly the posts of its series (so a post without
      series is in none), ordered by series order with ties in input
      order; its title is the series title of the first of those posts in
      input order; its latest date is the newest of their dates. */
  lemma GroupContents(posts: seq<Post>, k: nat)
    requires k < |GetSeriesGroups(posts)|
    ensures var g := GetSeriesGroups(posts)[k];
            && multiset(g.posts) == multiset(Members(posts, g.id))
            && (forall i, j :: 0 <= i < j < |g.posts| ==> SeriesOrder(g.posts[i]) <= SeriesOrder(g.posts[j]))
            && (forall o :: WithOrder(g.posts, o) == WithOrder(Members(posts, g.id), o))
            && |Members(posts, g.id)| > 0
            && g.title == Members(posts, g.id)[0].series.value.title
            && (forall i :: 0 <= i < |g.posts| ==> StrLe(g.posts[i].date, g.latestDate))
            && (exists i :: 0 <= i < |g.posts| && g.posts[i].date == g.latestDate)
  {
    var es := Collect(posts);
    var gs := GetSeriesGroups(posts);
    var g := gs[k];
    CollectCorrect(posts);
    assert g in multiset(Groups(es));
    var m :| 0 <= m < |es| && Groups(es)[m] == g;
    var e := es[m];
    assert EntryFaithful(posts, e);
    GroupOfEntry(e);
  }

  lemma GroupOfEntry(e: Entry)
    requires |e.posts| > 0
    ensures var g := MakeGroup(e);
            && (forall i, j :: 0 <= i < j < |g.posts| ==> SeriesOrder(g.posts[i]) <= SeriesOrder(g.posts[j]))
            && (forall o :: WithOrder(g.posts, o) == WithOrder(e.posts, o))
            && (forall i :: 0 <= i < |g.posts| ==> StrLe(g.posts[i].date, g.latestDate))
            && (exists i :: 0 <= i < |g.posts| && g.posts[i].date == g.latestDate)
  {
    GroupOrdered(e.posts);
    var g := MakeGroup(e);
    assert |g.posts| > 0;
    GroupLatest(g.posts);
  }

  lemma GroupOrdered(posts: seq<Post>)
    ensures forall i, j :: 0 <= i < j < |SortBy(posts, OrderLe)| ==>
              SeriesOrder(SortBy(posts, OrderLe)[i]) <= SeriesOrder(SortBy(posts, OrderLe)[j])
    ensures forall o :: WithOrder(SortBy(posts, OrderLe), o) == WithOrder(posts, o)
  {
    OrderLeTotal();
    SortBySorted(posts, OrderLe);
    forall o ensures WithOrder(SortBy(posts, OrderLe), o) == WithOrder(posts, o) {
      GroupStable(posts, o);
    }
  }

  lemma GroupStable(posts: seq<Post>, o: int)
    ensures WithOrder(SortBy(posts, OrderLe), o) == WithOrder(posts, o)
  {
    OrderLeTotal();
    var x := Post("", "", "", "", "", None, None, Some(SeriesInfo("", "", o)));
    SortByStableClass(posts, OrderLe, x, HasOrder(o));
  }

  lemma GroupLatest(posts: seq<Post>)
    requires |posts| > 0
    ensures forall i :: 0 <= i < |posts| ==> StrLe(posts[i].date, LatestFrom(posts, posts[0].date))
    ensures exists i :: 0 <= i < |posts| && posts[i].date == LatestFrom(posts, posts[0].date)
  {
    LatestFromIsMax(posts, posts[0].date);
  }

  /** Groups are listed newest first. */
  lemma GroupsNewestFirst(posts: seq<Post>)
    ensures forall i, j :: 0 <= i < j < |GetSeriesGroups(posts)| ==>
              StrLe(GetSeriesGroups(posts)[j].latestDate, GetSeriesGroups(posts)[i].latestDate)
  {
    StrLeTotalOrder();
    assert TotalPreorder(LatestDescLe);
    SortBySorted(Groups(Collect(posts)), LatestDescLe);
  }
}

=== FILE: sliding_window.dfy ===
/** The array logic of the sliding-window visualizer: ten random digits,
    a window size clamped to [2, 5], and the running-sum scan for the
    window with the largest sum. */
module SlidingWindow {
  import opened Seqs

  const Length := 10
  const DefaultWindowSize := 3

  /** `initializeArray`, with the ten `Math.floor(Math.random() * 9)` draws
      passed in: each cell holds its draw plus one. */
  function InitialArray(draws: seq<int>): (a: seq<int>)
    requires |draws| == Length && forall k :: 0 <= k < Length ==> 0 <= draws[k] < 9
    ensures |a| == Length && forall k :: 0 <= k < Length ==> 1 <= a[k] <= 9 && a[k] == draws[k] + 1
  {
    seq(Length, k requires 0 <= k < Length => draws[k] + 1)
  }

  /** `Math.max(2, Math.min(5, value))` on the number typed in. */
  function ClampWindowSize(v: int): (w: int)
    ensures 2 <= w <= 5
    ensures 2 <= v <= 5 <==> w == v
    ensures v < 2 ==> w == 2
    ensures v > 5 ==> w == 5
  {
    if v < 2 then 2 else if v > 5 then 5 else v
  }

  /** The sum of the window of `w` cells starting at `s`. */
  function WindowSum(a: seq<int>, w: nat, s: nat): int
    requires s + w <= |a|
  {
    Sum(a[s..s + w])
  }

  /** Sliding one cell right drops the leftmost value and adds the next. */
  lemma Slide(a: seq<int>, w: nat, s: nat)
    requires s + w < |a|
    ensures WindowSum(a, w, s + 1) == WindowSum(a, w, s) - a[s] + a[s + w]
  {
    var big := a[s..s + w + 1];
    assert big == [a[s]] + a[s + 1..s + w + 1];
    assert big[1..] == a[s + 1..s + w + 1];
    assert big == a[s..s + w] + [a[s + w]];
    SumSnoc(a[s..s + w], a[s + w]);
  }

  /** The first window's sum, accumulated cell by cell. */
  method FirstWindow(a: seq<int>, w: nat) returns (sum: int)
    requires w <= |a|
    ensures sum == WindowSum(a, w, 0)
  {
    sum := 0;
    var i := 0;
    while i < w
      invariant 0 <= i <= w && sum == Sum(a[..i])
    {
      TakeSnoc(a, i);
      SumSnoc(a[..i], a[i]);
      sum := sum + a[i];
      i := i + 1;
    }
    assert a[0..w] == a[..w];
  }

  /** `slidingWindow`. `starts` lists the window starts in the order they
      are scored: every start from 0 to `|a| - w`, once each. The result is
      the largest window sum and the first start that reaches it (the
      update uses a strict `>`). */
  method Scan(a: seq<int>, w: nat) returns (maxSum: int, maxStart: nat, starts: seq<nat>)
    requires w <= |a|
    ensures starts == seq(|a| - w + 1, k requires 0 <= k <= |a| - w => k as nat)
    ensures maxStart + w <= |a| && maxSum == WindowSum(a, w, maxStart)
    ensures forall s: nat :: s + w <= |a| ==> WindowSum(a, w, s) <= maxSum
    ensures forall s: nat :: s < maxStart ==> WindowSum(a, w, s) < maxSum
  {
    var windowSum := FirstWindow(a, w);
    maxSum, maxStart := windowSum, 0;
    starts := [0];
    var i := w;
    while i < |a|
      invariant w <= i <= |a|
      invariant windowSum == WindowSum(a, w, i - w)
      invariant starts == seq(i - w + 1, k requires 0 <= k <= i - w => k as nat)
      invariant maxStart <= i - w && maxSum == WindowSum(a, w, maxStart)
      invariant forall s: nat :: s <= i - w ==> WindowSum(a, w, s) <= maxSum
      invariant forall s: nat :: s < maxStart ==> WindowSum(a, w, s) < maxSum
    {
      var step := i - w + 1;
      Slide(a, w, i - w);
      windowSum := windowSum - a[i - w] + a[i];
      starts := starts + [step];
      if windowSum > maxSum {
        maxSum, maxStart := windowSum, step;
      }
      i := i + 1;
    }
  }
}

=== FILE: sorting.dfy ===
/** Stable sorting by a total preorder: the behaviour of
    `Array.prototype.sort` with a consistent comparator (stable since
    ECMAScript 2019) and of Python's `sorted` (stable, also with
    `reverse=True`). Modelled as insertion sort: each element goes after
    every element already placed that is not greater than it. */
module Sorting {
  import opened Seqs

  /** `le` is total and transitive; elements with `le(a, b) && le(b, a)`
      are ties. */
  ghost predicate TotalPreorder<T(!new)>(le: (T, T) -> bool) {
    && (forall a, b :: le(a, b) || le(b, a))
    && (forall a, b, c :: le(a, b) && le(b, c) ==> le(a, c))
  }

  /** Every element is `le` every later one. */
  predicate SortedBy<T>(s: seq<T>, le: (T, T) -> bool) {
    forall i, j :: 0 <= i < j < |s| ==> le(s[i], s[j])
  }

  /** The elements tied with `x`. */
  function TiedWith<T>(le: (T, T) -> bool, x: T): T -> bool {
    e => le(e, x) && le(x, e)
  }

  /** Places `x` after the leading elements of `s` that are `le` it. */
  function Insert<T>(x: T, s: seq<T>, le: (T, T) -> bool): (r: seq<T>)
    ensures multiset(r) == multiset(s) + multiset{x}
    ensures |r| == |s| + 1
  {
    if |s| == 0 then [x]
    else if le(s[0], x) then
      HeadTail(s);
      [s[0]] + Insert(x, s[1..], le)
    else [x] + s
  }

  /** The stable sort of `s` by `le`. */
  function SortBy<T>(s: seq<T>, le: (T, T) -> bool): (r: seq<T>)
    ensures multiset(r) == multiset(s)
    ensures |r| == |s|
  {
    if |s| == 0 then []
    else
      assert s == s[..|s| - 1] + [s[|s| - 1]];
      Insert(s[|s| - 1], SortBy(s[..|s| - 1], le), le)
  }

  /** The sort places the last element into the sorted rest. */
  lemma SortBySnoc<T>(s: seq<T>, le: (T, T) -> bool, n: nat)
    requires n + 1 == |s|
    ensures SortBy(s, le) == Insert(s[n], SortBy(s[..n], le), le)
  {
  }

  lemma {:induction false} InsertSorted<T(!new)>(x: T, s: seq<T>, le: (T, T) -> bool)
    requires TotalPreorder(le) && SortedBy(s, le)
    ensures SortedBy(Insert(x, s, le), le)
  {
    if |s| > 0 && le(s[0], x) {
      InsertSorted(x, s[1..], le);
      var r := Insert(x, s, le);
      var t := Insert(x, s[1..], le);
      assert r == [s[0]] + t;
      forall j | 1 <= j < |r| ensures le(r[0], r[j]) {
        assert r[j] in multiset(t);
        assert r[j] in multiset(s[1..]) + multiset{x};
        if r[j] != x {
          assert r[j] in s[1..];
          var k :| 0 <= k < |s[1..]| && s[1..][k] == r[j];
          assert s[k + 1] == r[j];
        }
      }
    }
  }

  /** The sort returns its input ordered by `le`. */
  lemma {:induction false} SortBySorted<T(!new)>(s: seq<T>, le: (T, T) -> bool)
    requires TotalPreorder(le)
    ensures SortedBy(SortBy(s, le), le)
  {
    if |s| > 0 {
      SortBySorted(s[..|s| - 1], le);
      InsertSorted(s[|s| - 1], SortBy(s[..|s| - 1], le), le);
    }
  }

  /** Inserting into a sorted sequence keeps, within every class of tied
      elements, the order of appending at the end. */
  lemma {:induction false} InsertTies<T(!new)>(y: T, s: seq<T>, le: (T, T) -> bool, x: T)
    requires TotalPreorder(le) && SortedBy(s, le)
    ensures Filter(Insert(y, s, le), TiedWith(le, x)) == Filter(s + [y], TiedWith(le, x))
  {
    var p := TiedWith(le, x);
    if |s| == 0 {
    } else if le(s[0], y) {
      InsertTies(y, s[1..], le, x);
      FilterConcat([s[0]], Insert(y, s[1..], le), p);
      FilterConcat([s[0]], s[1..] + [y], p);
      HeadTailSnoc(s, y);
    } else {
      FilterConcat([y], s, p);
      FilterConcat(s, [y], p);
      if p(y) {
        forall e | e in s ensures !p(e) {
          var k :| 0 <= k < |s| && s[k] == e;
          assert le(s[0], e);
        }
        FilterNone(s, p);
      }
    }
  }

  lemma HeadTailSnoc<T>(s: seq<T>, y: T)
    requires |s| > 0
    ensures [s[0]] + (s[1..] + [y]) == s + [y]
  {
  }

  /** Stability: the sort keeps the input order of every class of tied
      elements. */
  lemma {:induction false} SortByStable<T(!new)>(s: seq<T>, le: (T, T) -> bool, x: T)
    requires TotalPreorder(le)
    ensures Filter(SortBy(s, le), TiedWith(le, x)) == Filter(s, TiedWith(le, x))
  {
    if |s| > 0 {
      var init := s[..|s| - 1];
      var last := s[|s| - 1];
      var p := TiedWith(le, x);
      SortBySorted(init, le);
      InsertTies(last, SortBy(init, le), le, x);
      SortByStable(init, le, x);
      FilterConcat(SortBy(init, le), [last], p);
      FilterConcat(init, [last], p);
      InitLast(s);
    }
  }

  /** Stability stated with any predicate that picks exactly the elements
      tied with `x`. */
  lemma SortByStableClass<T(!new)>(s: seq<T>, le: (T, T) -> bool, x: T, same: T -> bool)
    requires TotalPreorder(le)
    requires forall e :: same(e) == (le(e, x) && le(x, e))
    ensures Filter(SortBy(s, le), same) == Filter(s, same)
  {
    SortByStable(s, le, x);
    FilterAgree(SortBy(s, le), TiedWith(le, x), same);
    FilterAgree(s, TiedWith(le, x), same);
  }

  lemma {:induction false} InsertAtEnd<T>(x: T, s: seq<T>, le: (T, T) -> bool)
    requires forall i :: 0 <= i < |s| ==> le(s[i], x)
    ensures Insert(x, s, le) == s + [x]
  {
    if |s| > 0 {
      InsertAtEnd(x, s[1..], le);
      HeadTail(s);
    }
  }

  /** An input that is already sorted comes back unchanged. */
  lemma {:induction false} SortBySortedInput<T>(s: seq<T>, le: (T, T) -> bool)
    requires SortedBy(s, le)
    ensures SortBy(s, le) == s
  {
    if |s| > 0 {
      var init := s[..|s| - 1];
      SortBySortedInput(init, le);
      InsertAtEnd(s[|s| - 1], init, le);
    }
  }

  /** Sorting twice is sorting once. */
  lemma SortByIdempotent<T(!new)>(s: seq<T>, le: (T, T) -> bool)
    requires TotalPreorder(le)
    ensures SortBy(SortBy(s, le), le) == SortBy(s, le)
  {
    SortBySorted(s, le);
    SortBySortedInput(SortBy(s, le), le);
  }

  /** The first element of a sorted sequence is `le` all of its elements. */
  lemma SortedHeadLe<T>(s: seq<T>, le: (T, T) -> bool, x: T)
    requires SortedBy(s, le) && x in s && x != s[0]
    ensures le(s[0], x)
  {
    var k :| 0 <= k < |s| && s[k] == x;
  }

  /** Two sequences sorted by a total order (no ties between different
      elements) with the same elements are equal: sorting distinct keys
      has one answer. */
  lemma {:induction false} SortedUnique<T>(a: seq<T>, b: seq<T>, le: (T, T) -> bool)
    requires forall x, y :: le(x, y) && le(y, x) ==> x == y
    requires SortedBy(a, le) && SortedBy(b, le) && multiset(a) == multiset(b)
    ensures a == b
  {
    if |a| > 0 {
      assert a[0] in multiset(b);
      assert b[0] in multiset(a);
      var x, y := a[0], b[0];
      if x != y {
        SortedHeadLe(a, le, y);
        SortedHeadLe(b, le, x);
        assert false;
      }
      MultisetTail(a);
      MultisetTail(b);
      SortedTail(a, le);
      SortedTail(b, le);
      SortedUnique(a[1..], b[1..], le);
      HeadTail(a);
      HeadTail(b);
    }
  }

  lemma MultisetTail<T>(s: seq<T>)
    requires |s| > 0
    ensures multiset(s[1..]) == multiset(s) - multiset{s[0]}
  {
    HeadTail(s);
    assert multiset(s) == multiset{s[0]} + multiset(s[1..]);
  }

  lemma SortedTail<T>(s: seq<T>, le: (T, T) -> bool)
    requires SortedBy(s, le) && |s| > 0
    ensures SortedBy(s[1..], le)
  {
    forall i, j | 0 <= i < j < |s[1..]| ensures le(s[1..][i], s[1..][j]) {
      assert s[1..][i] == s[i + 1] && s[1..][j] == s[j + 1];
    }
  }

  /** Deleting elements from a sorted sequence leaves it sorted. */
  lemma {:induction false} SubsequenceSortedBy<T>(a: seq<T>, b: seq<T>, le: (T, T) -> bool)
    requires IsSubsequence(a, b) && SortedBy(b, le)
    ensures SortedBy(a, le)
    decreases |b|
  {
    if |a| > 0 {
      if a[0] == b[0] {
        SubsequenceSortedBy(a[1..], b[1..], le);
        forall j | 1 <= j < |a| ensures le(a[0], a[j]) {
          assert a[j] in a[1..];
          SubsequenceMember(a[1..], b[1..], a[j]);
          var k :| 0 <= k < |b[1..]| && b[1..][k] == a[j];
          assert b[k + 1] == a[j];
        }
      } else {
        SubsequenceSortedBy(a, b[1..], le);
      }
    }
  }
}

=== FILE: sorting_visualization.dfy ===
/** The array logic of the sorting visualizer: Lomuto quicksort, top-down
    merge sort and heap sort over a row of bars. Bars are compared by value
    only; a bar's `id` stands for its identity (the object the source moves
    around), which is what stability is about. */
module SortingVisualization {
  import opened Seqs

  /** A bar. The source's values are `Math.random() * 5 + 1`; they are only
      ever compared, so integers serve. */
  datatype Bar = Bar(value: int, id: nat)

  const Length := 10

  /** `initializeArray`, with the random values passed in: ten bars, each
      value in [1, 6), identified by position. */
  function InitialBars(values: seq<int>): (bars: seq<Bar>)
    requires |values| == Length && forall k :: 0 <= k < Length ==> 1 <= values[k] < 6
    ensures |bars| == Length
    ensures forall k :: 0 <= k < Length ==> bars[k] == Bar(values[k], k)
  {
    seq(Length, k requires 0 <= k < Length => Bar(values[k], k))
  }

  predicate SortedRange(s: seq<Bar>, lo: int, hi: int)
    requires 0 <= lo <= hi <= |s|
  {
    forall i, j :: lo <= i < j < hi ==> s[i].value <= s[j].value
  }

  predicate Sorted(s: seq<Bar>) {
    forall i, j :: 0 <= i < j < |s| ==> s[i].value <= s[j].value
  }

  /** `[arr[i], arr[j]] = [arr[j], arr[i]]`. */
  function Swap(s: seq<Bar>, i: int, j: int): (r: seq<Bar>)
    requires 0 <= i < |s| && 0 <= j < |s|
    ensures |r| == |s| && r[i] == s[j] && r[j] == s[i]
    ensures forall k :: 0 <= k < |s| && k != i && k != j ==> r[k] == s[k]
  {
    s[i := s[j]][j := s[i]]
  }

  /** `b` is `a` with the cells `[lo, hi)` permuted among themselves and the
      others untouched. */
  predicate Rearranged(a: seq<Bar>, b: seq<Bar>, lo: int, hi: int) {
    |a| == |b| && 0 <= lo <= hi <= |a| &&
    (forall k :: 0 <= k < |a| && !(lo <= k < hi) ==> b[k] == a[k]) &&
    multiset(b[lo..hi]) == multiset(a[lo..hi])
  }

  lemma SwapRearranges(s: seq<Bar>, lo: int, hi: int, i: int, j: int)
    requires 0 <= lo <= i < hi <= |s| && lo <= j < hi
    ensures Rearranged(s, Swap(s, i, j), lo, hi)
  {
    var t := s[lo..hi];
    assert Swap(s, i, j)[lo..hi] == t[i - lo := t[j - lo]][j - lo := t[i - lo]];
  }

  lemma RearrangedReflexive(a: seq<Bar>, lo: int, hi: int)
    requires 0 <= lo <= hi <= |a|
    ensures Rearranged(a, a, lo, hi)
  {
  }

  lemma RearrangedTransitive(a: seq<Bar>, b: seq<Bar>, c: seq<Bar>, lo: int, hi: int)
    requires Rearranged(a, b, lo, hi) && Rearranged(b, c, lo, hi)
    ensures Rearranged(a, c, lo, hi)
  {
  }

  /** Permuting a sub-range permutes every range around it. */
  lemma RearrangedWiden(a: seq<Bar>, b: seq<Bar>, lo2: int, hi2: int, lo: int, hi: int)
    requires Rearranged(a, b, lo2, hi2) && 0 <= lo <= lo2 && hi2 <= hi <= |a|
    ensures Rearranged(a, b, lo, hi)
  {
    assert a[lo..hi] == a[lo..lo2] + a[lo2..hi2] + a[hi2..hi];
    assert b[lo..hi] == b[lo..lo2] + b[lo2..hi2] + b[hi2..hi];
    assert a[lo..lo2] == b[lo..lo2];
    assert a[hi2..hi] == b[hi2..hi];
  }

  /** Every bar of a permuted range came from that range. */
  lemma RearrangedFrom(a: seq<Bar>, b: seq<Bar>, lo: int, hi: int, k: int) returns (k0: int)
    requires Rearranged(a, b, lo, hi) && lo <= k < hi
    ensures lo <= k0 < hi && b[k] == a[k0]
  {
    assert b[k] == b[lo..hi][k - lo];
    assert b[k] in multiset(a[lo..hi]);
    var m :| 0 <= m < hi - lo && a[lo..hi][m] == b[k];
    k0 := lo + m;
  }

  lemma RearrangedWhole(a: seq<Bar>, b: seq<Bar>)
    requires Rearranged(a, b, 0, |a|)
    ensures multiset(b) == multiset(a)
  {
    assert a[0..|a|] == a && b[0..|b|] == b;
  }

  // ---------------------------------------------------------------- quicksort

  /** What holds while `partition` scans: the cells `[low, i]` are below
      the pivot, `(i, j)` are not, and the pivot is still last. */
  predicate Scanned(a: seq<Bar>, b: seq<Bar>, low: int, high: int, i: int, j: int) {
    0 <= low <= high < |a| && low - 1 <= i < j <= high &&
    Rearranged(a, b, low, high + 1) && b[high] == a[high] &&
    (forall k :: low <= k <= i ==> b[k].value < a[high].value) &&
    (forall k :: i < k < j ==> b[k].value >= a[high].value)
  }

  /** A bar below the pivot is swapped to the end of the low block. */
  lemma ScanSmaller(a: seq<Bar>, b: seq<Bar>, low: int, high: int, i: int, i2: int, j: int, j2: int)
    requires Scanned(a, b, low, high, i, j) && j < high && b[j].value < a[high].value
    requires i2 == i + 1 && j2 == j + 1
    ensures Scanned(a, Swap(b, i2, j), low, high, i2, j2)
  {
    var c := Swap(b, i2, j);
    SwapRearranges(b, low, high + 1, i2, j);
    RearrangedTransitive(a, b, c, low, high + 1);
    forall k | low <= k <= i2 ensures c[k].value < a[high].value {
      if k == i2 {
        assert c[k] == b[j];
      } else {
        assert c[k] == b[k];
      }
    }
    forall k | i2 < k < j2 ensures c[k].value >= a[high].value {
      if k == j {
        assert c[k] == b[i2];
      } else {
        assert c[k] == b[k];
      }
    }
  }

  lemma ScanLarger(a: seq<Bar>, b: seq<Bar>, low: int, high: int, i: int, j: int)
    requires Scanned(a, b, low, high, i, j) && j < high && b[j].value >= a[high].value
    ensures Scanned(a, b, low, high, i, j + 1)
  {
  }

  /** The final swap puts the pivot between the two blocks. */
  lemma ScanPlacePivot(a: seq<Bar>, b: seq<Bar>, low: int, high: int, i: int)
    requires Scanned(a, b, low, high, i, high)
    ensures var c := Swap(b, i + 1, high);
            Rearranged(a, c, low, high + 1) && c[i + 1] == a[high] &&
            (forall k :: low <= k < i + 1 ==> c[k].value < a[high].value) &&
            (forall k :: i + 1 < k <= high ==> c[k].value >= a[high].value)
  {
    SwapRearranges(b, low, high + 1, i + 1, high);
    RearrangedTransitive(a, b, Swap(b, i + 1, high), low, high + 1);
  }

  /** `partition(low, high)` with the last cell as pivot (Lomuto). The bars
      before the returned index are smaller than the pivot, the pivot bar
      itself lands on it, and the bars after it are at least as large. */
  method Partition(a: seq<Bar>, low: int, high: int) returns (b: seq<Bar>, p: int)
    requires 0 <= low <= high < |a|
    ensures Rearranged(a, b, low, high + 1)
    ensures low <= p <= high && b[p] == a[high]
    ensures forall k :: low <= k < p ==> b[k].value < a[high].value
    ensures forall k :: p < k <= high ==> b[k].value >= a[high].value
  {
    var pivot := a[high].value;
    b := a;
    var i := low - 1;
    RearrangedReflexive(a, low, high + 1);
    for j := low to high
      invariant Scanned(a, b, low, high, i, j)
    {
      if b[j].value < pivot {
        var i2 := i + 1;
        ScanSmaller(a, b, low, high, i, i2, j, j + 1);
        b, i := Swap(b, i2, j), i2;
      } else {
        ScanLarger(a, b, low, high, i, j);
      }
    }
    ScanPlacePivot(a, b, low, high, i);
    b := Swap(b, i + 1, high);
    p := i + 1;
  }

  /** Every bar of a range satisfies a bound after permuting the range
      exactly when it did before. */
  lemma BoundKept(a: seq<Bar>, b: seq<Bar>, lo: int, hi: int, v: int)
    requires Rearranged(a, b, lo, hi)
    ensures (forall k :: lo <= k < hi ==> a[k].value < v) ==> (forall k :: lo <= k < hi ==> b[k].value < v)
    ensures (forall k :: lo <= k < hi ==> a[k].value >= v) ==> (forall k :: lo <= k < hi ==> b[k].value >= v)
    ensures (forall k :: lo <= k < hi ==> a[k].value <= v) ==> (forall k :: lo <= k < hi ==> b[k].value <= v)
  {
    forall k | lo <= k < hi ensures exists k0 :: lo <= k0 < hi && b[k] == a[k0] {
      var k0 := RearrangedFrom(a, b, lo, hi, k);
    }
  }

  /** A sorted block below the pivot, the pivot, and a sorted block not
      below it make a sorted range. */
  lemma JoinAroundPivot(b: seq<Bar>, low: int, p: int, high: int)
    requires 0 <= low <= p <= high < |b|
    requires SortedRange(b, low, p) && SortedRange(b, p + 1, high + 1)
    requires forall k :: low <= k < p ==> b[k].value < b[p].value
    requires forall k :: p < k <= high ==> b[k].value >= b[p].value
    ensures SortedRange(b, low, high + 1)
  {
  }

  /** `quickSortHelper(low, high)`: sorts the cells `[low, high]` and
      touches no other. */
  method QuickSortHelper(a: seq<Bar>, low: int, high: int) returns (b: seq<Bar>)
    requires 0 <= low <= high + 1 <= |a|
    ensures Rearranged(a, b, low, high + 1) && SortedRange(b, low, high + 1)
    decreases high - low
  {
    if low < high {
      var b1, pi := Partition(a, low, high);
      var b2 := QuickSortHelper(b1, low, pi - 1);
      b := QuickSortHelper(b2, pi + 1, high);
      QuickSortJoin(a, b1, b2, b, low, pi, high);
    } else {
      b := a;
      RearrangedReflexive(a, low, high + 1);
    }
  }

  /** The proof obligations of one `quickSortHelper` call that recursed. */
  lemma QuickSortJoin(a: seq<Bar>, b1: seq<Bar>, b2: seq<Bar>, b: seq<Bar>, low: int, pi: int, high: int)
    requires 0 <= low <= pi <= high < |a|
    requires Rearranged(a, b1, low, high + 1) && b1[pi] == a[high]
    requires forall k :: low <= k < pi ==> b1[k].value < a[high].value
    requires forall k :: pi < k <= high ==> b1[k].value >= a[high].value
    requires Rearranged(b1, b2, low, pi) && SortedRange(b2, low, pi)
    requires Rearranged(b2, b, pi + 1, high + 1) && SortedRange(b, pi + 1, high + 1)
    ensures Rearranged(a, b, low, high + 1) && SortedRange(b, low, high + 1)
  {
    QuickSortPermutes(a, b1, b2, b, low, pi, high);
    var pivot := a[high].value;
    BoundKept(b1, b2, low, pi, pivot);
    BoundKept(b2, b, pi + 1, high + 1, pivot);
    assert b[pi] == b1[pi];
    assert forall k :: low <= k < pi ==> b[k] == b2[k];
    JoinAroundPivot(b, low, pi, high);
  }

  lemma QuickSortPermutes(a: seq<Bar>, b1: seq<Bar>, b2: seq<Bar>, b: seq<Bar>, low: int, pi: int, high: int)
    requires 0 <= low <= pi <= high < |a|
    requires Rearranged(a, b1, low, high + 1)
    requires Rearranged(b1, b2, low, pi)
    requires Rearranged(b2, b, pi + 1, high + 1)
    ensures Rearranged(a, b, low, high + 1)
  {
    RearrangedWiden(b1, b2, low, pi, low, high + 1);
    RearrangedWiden(b2, b, pi + 1, high + 1, low, high + 1);
    RearrangedTransitive(a, b1, b2, low, high + 1);
    RearrangedTransitive(a, b2, b, low, high + 1);
  }

  /** `quickSort`: the whole row, sorted, with the same bars. */
  method QuickSort(a: seq<Bar>) returns (b: seq<Bar>)
    ensures Sorted(b) && multiset(b) == multiset(a)
  {
    b := QuickSortHelper(a, 0, |a| - 1);
    RearrangedWhole(a, b);
  }

  // --------------------------------------------------------------- merge sort

  /** The merge of two runs, the left bar first on a tie (`<=`). */
  function Merge(l: seq<Bar>, r: seq<Bar>): seq<Bar>
    decreases |l| + |r|
  {
    if |l| == 0 then r
    else if |r| == 0 then l
    else if l[0].value <= r[0].value then [l[0]] + Merge(l[1..], r)
    else [r[0]] + Merge(l, r[1..])
  }

  /** The bars of value `v`, in row order: what stability is about. */
  function Ties(s: seq<Bar>, v: int): seq<Bar> {
    Filter(s, HasValue(v))
  }

  function HasValue(v: int): Bar -> bool {
    (b: Bar) => b.value == v
  }

  lemma {:induction false} MergeMultiset(l: seq<Bar>, r: seq<Bar>)
    ensures multiset(Merge(l, r)) == multiset(l) + multiset(r)
    ensures |Merge(l, r)| == |l| + |r|
    decreases |l| + |r|
  {
    if |l| > 0 && |r| > 0 {
      if l[0].value <= r[0].value {
        MergeMultiset(l[1..], r);
        HeadTail(l);
      } else {
        MergeMultiset(l, r[1..]);
        HeadTail(r);
      }
    }
  }

  /** Merging two sorted runs gives a sorted run. */
  lemma {:induction false} MergeSorted(l: seq<Bar>, r: seq<Bar>)
    requires Sorted(l) && Sorted(r)
    ensures Sorted(Merge(l, r))
    decreases |l| + |r|
  {
    if |l| > 0 && |r| > 0 {
      var m := Merge(l, r);
      if l[0].value <= r[0].value {
        MergeSorted(l[1..], r);
        MergeLowerBound(l[1..], r, l[0].value);
      } else {
        MergeSorted(l, r[1..]);
        MergeLowerBound(l, r[1..], r[0].value);
      }
    }
  }

  /** A bound below both sorted runs bounds their merge. */
  lemma MergeLowerBound(l: seq<Bar>, r: seq<Bar>, v: int)
    requires Sorted(l) && Sorted(r)
    requires (|l| > 0 ==> v <= l[0].value) && (|r| > 0 ==> v <= r[0].value)
    ensures forall k :: 0 <= k < |Merge(l, r)| ==> v <= Merge(l, r)[k].value
  {
    MergeMultiset(l, r);
    var m := Merge(l, r);
    forall k | 0 <= k < |m| ensures v <= m[k].value {
      assert m[k] in multiset(m);
      if m[k] in multiset(l) {
        assert m[k] in l;
      } else {
        assert m[k] in r;
      }
    }
  }

  /** Merging sorted runs is stable: the bars of any one value come out
      with those of the left run first, each run in its own order. */
  lemma {:induction false} MergeStable(l: seq<Bar>, r: seq<Bar>, v: int)
    requires Sorted(l) && Sorted(r)
    ensures Ties(Merge(l, r), v) == Ties(l, v) + Ties(r, v)
    decreases |l| + |r|
  {
    if |l| == 0 {
      assert Ties(l, v) == [];
    } else if |r| == 0 {
      assert Ties(r, v) == [];
    } else if l[0].value <= r[0].value {
      MergeStable(l[1..], r, v);
      MergeStableLeft(l, r, v);
    } else {
      MergeStable(l, r[1..], v);
      MergeStableRight(l, r, v);
    }
  }

  /** The left head goes first: its tie, if any, leads. */
  lemma MergeStableLeft(l: seq<Bar>, r: seq<Bar>, v: int)
    requires |l| > 0 && |r| > 0 && l[0].value <= r[0].value
    requires Ties(Merge(l[1..], r), v) == Ties(l[1..], v) + Ties(r, v)
    ensures Ties(Merge(l, r), v) == Ties(l, v) + Ties(r, v)
  {
    var m := Merge(l[1..], r);
    assert Merge(l, r) == [l[0]] + m;
    FilterConcat([l[0]], m, HasValue(v));
    FilterConcat([l[0]], l[1..], HasValue(v));
    HeadTail(l);
    Assoc(Ties([l[0]], v), Ties(l[1..], v), Ties(r, v));
  }

  /** The right head goes first only when it is smaller than every bar
      left in the left run, so no tie of it remains there. */
  lemma MergeStableRight(l: seq<Bar>, r: seq<Bar>, v: int)
    requires |l| > 0 && |r| > 0 && l[0].value > r[0].value && Sorted(l)
    requires Ties(Merge(l, r[1..]), v) == Ties(l, v) + Ties(r[1..], v)
    ensures Ties(Merge(l, r), v) == Ties(l, v) + Ties(r, v)
  {
    var m := Merge(l, r[1..]);
    assert Merge(l, r) == [r[0]] + m;
    FilterConcat([r[0]], m, HasValue(v));
    FilterConcat([r[0]], r[1..], HasValue(v));
    HeadTail(r);
    if r[0].value == v {
      forall x | x in l ensures !HasValue(v)(x) {
        var k :| 0 <= k < |l| && l[k] == x;
        assert l[0].value <= l[k].value;
      }
      FilterNone(l, HasValue(v));
    } else {
      assert Ties([r[0]], v) == [];
    }
  }

  /** The recursion of `mergeSortHelper` on the cells it sorts: the left
      half is `[left, mid]` with `mid = floor((left + right) / 2)`, so it
      holds the larger half of an odd range. */
  function MergeSortSeq(s: seq<Bar>): seq<Bar>
    decreases |s|
  {
    if |s| <= 1 then s
    else
      var h := (|s| + 1) / 2;
      Merge(MergeSortSeq(s[..h]), MergeSortSeq(s[h..]))
  }

  lemma {:induction false} MergeSortPermutes(s: seq<Bar>)
    ensures multiset(MergeSortSeq(s)) == multiset(s) && |MergeSortSeq(s)| == |s|
    decreases |s|
  {
    if |s| > 1 {
      var h := (|s| + 1) / 2;
      MergeSortPermutes(s[..h]);
      MergeSortPermutes(s[h..]);
      MergeMultiset(MergeSortSeq(s[..h]), MergeSortSeq(s[h..]));
      TakeDrop(s, h);
    }
  }

  lemma {:induction false} MergeSortSorted(s: seq<Bar>)
    ensures Sorted(MergeSortSeq(s))
    decreases |s|
  {
    if |s| > 1 {
      var h := (|s| + 1) / 2;
      MergeSortSorted(s[..h]);
      MergeSortSorted(s[h..]);
      MergeSorted(MergeSortSeq(s[..h]), MergeSortSeq(s[h..]));
    }
  }

  /** Merge sort is stable: for every value, its bars keep their order. */
  lemma {:induction false} MergeSortStable(s: seq<Bar>, v: int)
    ensures Ties(MergeSortSeq(s), v) == Ties(s, v)
    decreases |s|
  {
    if |s| > 1 {
      var h := (|s| + 1) / 2;
      MergeSortStable(s[..h], v);
      MergeSortStable(s[h..], v);
      MergeSortSorted(s[..h]);
      MergeSortSorted(s[h..]);
      MergeStable(MergeSortSeq(s[..h]), MergeSortSeq(s[h..]), v);
      FilterConcat(s[..h], s[h..], HasValue(v));
      TakeDrop(s, h);
    }
  }

  /** One comparison of the first `merge` loop takes the left head. */
  lemma TakeLeft(l: seq<Bar>, r: seq<Bar>, out: seq<Bar>, i: int, i2: int, j: int)
    requires 0 <= i < |l| && 0 <= j < |r| && i2 == i + 1 && l[i].value <= r[j].value
    requires out + Merge(l[i..], r[j..]) == Merge(l, r)
    ensures (out + [l[i]]) + Merge(l[i2..], r[j..]) == Merge(l, r)
  {
    assert l[i..][0] == l[i] && l[i..][1..] == l[i2..];
    assert r[j..][0] == r[j];
    assert Merge(l[i..], r[j..]) == [l[i]] + Merge(l[i2..], r[j..]);
    Assoc(out, [l[i]], Merge(l[i2..], r[j..]));
  }

  /** ... or the right head. */
  lemma TakeRight(l: seq<Bar>, r: seq<Bar>, out: seq<Bar>, i: int, j: int, j2: int)
    requires 0 <= i < |l| && 0 <= j < |r| && j2 == j + 1 && l[i].value > r[j].value
    requires out + Merge(l[i..], r[j..]) == Merge(l, r)
    ensures (out + [r[j]]) + Merge(l[i..], r[j2..]) == Merge(l, r)
  {
    assert r[j..][0] == r[j] && r[j..][1..] == r[j2..];
    assert l[i..][0] == l[i];
    assert Merge(l[i..], r[j..]) == [r[j]] + Merge(l[i..], r[j2..]);
    Assoc(out, [r[j]], Merge(l[i..], r[j2..]));
  }

  /** The first loop of `merge`: compare heads while both copies last. */
  method MergeHeads(l: seq<Bar>, r: seq<Bar>) returns (out: seq<Bar>, i: int, j: int)
    ensures 0 <= i <= |l| && 0 <= j <= |r| && (i == |l| || j == |r|)
    ensures out + Merge(l[i..], r[j..]) == Merge(l, r)
  {
    out, i, j := [], 0, 0;
    assert l[0..] == l && r[0..] == r;
    while i < |l| && j < |r|
      invariant 0 <= i <= |l| && 0 <= j <= |r|
      invariant out + Merge(l[i..], r[j..]) == Merge(l, r)
      decreases |l| - i + |r| - j
    {
      if l[i].value <= r[j].value {
        var i2 := i + 1;
        TakeLeft(l, r, out, i, i2, j);
        out, i := out + [l[i]], i2;
      } else {
        var j2 := j + 1;
        TakeRight(l, r, out, i, j, j2);
        out, j := out + [r[j]], j2;
      }
    }
  }

  /** The tail loops of `merge`: copy what is left of one copy. */
  method CopyRest(out: seq<Bar>, rest: seq<Bar>) returns (res: seq<Bar>)
    ensures res == out + rest
  {
    res := out;
    var i := 0;
    while i < |rest|
      invariant 0 <= i <= |rest| && res == out + rest[..i]
    {
      TakeSnoc(rest, i);
      res := res + [rest[i]];
      i := i + 1;
    }
    assert rest[..i] == rest;
  }

  /** `merge(left, mid, right)`: copies `[left, mid]` and `[mid + 1,
      right]` out, then writes the cells `left..right` in order: by
      comparison while both copies last, then the rest of the left copy,
      then the rest of the right one. */
  method MergeRange(a: seq<Bar>, left: int, mid: int, right: int) returns (b: seq<Bar>)
    requires 0 <= left <= mid + 1 <= right + 1 <= |a|
    ensures b == a[..left] + Merge(a[left..mid + 1], a[mid + 1..right + 1]) + a[right + 1..]
    ensures |b| == |a|
  {
    var leftArr, rightArr := a[left..mid + 1], a[mid + 1..right + 1];
    var out, i, j := MergeHeads(leftArr, rightArr);
    MergeLeftover(leftArr, rightArr, out, i, j);
    out := CopyRest(out, leftArr[i..]);
    out := CopyRest(out, rightArr[j..]);
    MergeMultiset(leftArr, rightArr);
    SpliceLength(a, left, right, out);
    b := a[..left] + out + a[right + 1..];
  }

  /** Once one copy is used up, the merge of what is left is the rest of
      the other copy. */
  lemma MergeLeftover(l: seq<Bar>, r: seq<Bar>, out: seq<Bar>, i: int, j: int)
    requires 0 <= i <= |l| && 0 <= j <= |r| && (i == |l| || j == |r|)
    requires out + Merge(l[i..], r[j..]) == Merge(l, r)
    ensures out + l[i..] + r[j..] == Merge(l, r)
  {
    if i == |l| {
      assert Merge(l[i..], r[j..]) == r[j..];
      assert l[i..] == [];
    } else {
      assert Merge(l[i..], r[j..]) == l[i..];
      assert r[j..] == [];
    }
  }

  lemma SpliceLength(a: seq<Bar>, left: int, right: int, m: seq<Bar>)
    requires 0 <= left <= right + 1 <= |a| && |m| == right + 1 - left
    ensures |a[..left] + m + a[right + 1..]| == |a|
  {
  }

  /** `mergeSortHelper(left, right)`: sorts the cells `[left, right]` as
      `MergeSortSeq` does and touches no other. */
  method MergeSortHelper(a: seq<Bar>, left: int, right: int) returns (b: seq<Bar>)
    requires 0 <= left <= right + 1 <= |a|
    ensures b == a[..left] + MergeSortSeq(a[left..right + 1]) + a[right + 1..]
    ensures |b| == |a|
    decreases right - left
  {
    if left < right {
      var mid := (left + right) / 2;
      Midpoint(left, mid, right);
      var b1 := MergeSortHelper(a, left, mid);
      var b2 := MergeSortHelper(b1, mid + 1, right);
      b := MergeRange(b2, left, mid, right);
      MergeSortHelperJoin(a, b1, b2, b, left, mid, right);
    } else {
      b := a;
      SortSmallRange(a, left, right);
    }
  }

  lemma Midpoint(left: int, mid: int, right: int)
    requires left < right && mid == (left + right) / 2
    ensures left <= mid < right
  {
  }

  /** A range of at most one cell is already sorted. */
  lemma SortSmallRange(a: seq<Bar>, left: int, right: int)
    requires 0 <= left <= right + 1 <= |a| && left >= right
    ensures a == a[..left] + MergeSortSeq(a[left..right + 1]) + a[right + 1..]
  {
    assert a == a[..left] + a[left..right + 1] + a[right + 1..];
  }

  /** The three parts of a spliced sequence. */
  lemma Parts(t: seq<Bar>, p: seq<Bar>, m: seq<Bar>, q: seq<Bar>)
    requires t == p + m + q
    ensures t[..|p|] == p && t[|p|..|p| + |m|] == m && t[|p| + |m|..] == q
  {
  }

  /** After the first recursive call the right half is untouched. */
  lemma LeftHalfInPlace(a: seq<Bar>, b1: seq<Bar>, x: seq<Bar>, left: int, mid: int, right: int)
    requires 0 <= left <= mid < right < |a| && |x| == mid + 1 - left
    requires b1 == a[..left] + x + a[mid + 1..]
    ensures b1[..mid + 1] == a[..left] + x
    ensures b1[mid + 1..right + 1] == a[mid + 1..right + 1] && b1[right + 1..] == a[right + 1..]
  {
    Parts(b1, a[..left], x, a[mid + 1..]);
  }

  /** `merge` then reads exactly those halves. */
  lemma HalvesRead(b2: seq<Bar>, p: seq<Bar>, x: seq<Bar>, y: seq<Bar>, q: seq<Bar>, left: int, mid: int, right: int)
    requires b2 == p + x + y + q && |p| == left && |x| == mid + 1 - left && |y| == right - mid
    ensures b2[..left] == p && b2[left..mid + 1] == x && b2[mid + 1..right + 1] == y && b2[right + 1..] == q
  {
    Parts(b2, p, x + y, q);
    assert b2[left..right + 1] == x + y;
    assert (x + y)[..|x|] == x && (x + y)[|x|..] == y;
  }

  /** The split `mergeSortHelper` makes is the one `MergeSortSeq` makes. */
  lemma SameSplit(a: seq<Bar>, left: int, mid: int, right: int)
    requires 0 <= left < right < |a| && mid == (left + right) / 2
    ensures MergeSortSeq(a[left..right + 1])
            == Merge(MergeSortSeq(a[left..mid + 1]), MergeSortSeq(a[mid + 1..right + 1]))
  {
    var s := a[left..right + 1];
    var h := mid + 1 - left;
    HalfPoint(left, mid, right, |s|, h);
    var x, y := a[left..mid + 1], a[mid + 1..right + 1];
    assert s[..h] == x && s[h..] == y;
    UnfoldMergeSort(s, h, x, y);
  }

  /** The cell count of the left half. */
  lemma HalfPoint(left: int, mid: int, right: int, n: int, h: int)
    requires 0 <= left < right && mid == (left + right) / 2
    requires n == right + 1 - left && h == mid + 1 - left
    ensures h == (n + 1) / 2
  {
  }

  /** One step of the recursion, with the halves named. */
  lemma UnfoldMergeSort(s: seq<Bar>, h: int, x: seq<Bar>, y: seq<Bar>)
    requires |s| > 1 && h == (|s| + 1) / 2 && x == s[..h] && y == s[h..]
    ensures MergeSortSeq(s) == Merge(MergeSortSeq(x), MergeSortSeq(y))
  {
  }

  lemma MergeSortHelperJoin(a: seq<Bar>, b1: seq<Bar>, b2: seq<Bar>, b: seq<Bar>, left: int, mid: int, right: int)
    requires 0 <= left < right < |a| && mid == (left + right) / 2
    requires b1 == a[..left] + MergeSortSeq(a[left..mid + 1]) + a[mid + 1..]
    requires |b1| == |a| && b2 == b1[..mid + 1] + MergeSortSeq(b1[mid + 1..right + 1]) + b1[right + 1..]
    requires |b2| == |a| && b == b2[..left] + Merge(b2[left..mid + 1], b2[mid + 1..right + 1]) + b2[right + 1..]
    ensures b == a[..left] + MergeSortSeq(a[left..right + 1]) + a[right + 1..]
  {
    var x := MergeSortSeq(a[left..mid + 1]);
    var y := MergeSortSeq(a[mid + 1..right + 1]);
    MergeSortPermutes(a[left..mid + 1]);
    MergeSortPermutes(a[mid + 1..right + 1]);
    LeftHalfInPlace(a, b1, x, left, mid, right);
    assert b2 == a[..left] + x + y + a[right + 1..];
    HalvesRead(b2, a[..left], x, y, a[right + 1..], left, mid, right);
    SameSplit(a, left, mid, right);
  }

  /** `mergeSort`: the whole row, sorted, with the same bars, and bars of
      equal value in their original order. */
  method MergeSort(a: seq<Bar>) returns (b: seq<Bar>)
    ensures b == MergeSortSeq(a)
    ensures Sorted(b) && multiset(b) == multiset(a)
    ensures forall v :: Ties(b, v) == Ties(a, v)
  {
    b := MergeSortHelper(a, 0, |a| - 1);
    assert a[0..|a|] == a && a[..0] == [] && a[|a|..] == [];
    assert b == MergeSortSeq(a);
    MergeSortSorted(a);
    MergeSortPermutes(a);
    forall v ensures Ties(b, v) == Ties(a, v) {
      MergeSortStable(a, v);
    }
  }

  // ---------------------------------------------------------------- heap sort

  /** The bar at `k` is no larger than its parent `(k - 1) / 2`. */
  predicate BelowParent(s: seq<Bar>, k: int)
    requires 1 <= k < |s|
  {
    s[k].value <= s[(k - 1) / 2].value
  }

  /** Max-heap order on the first `n` cells for every node from `lo` on. */
  predicate HeapFrom(s: seq<Bar>, n: int, lo: int) {
    0 <= n <= |s| &&
    forall k :: 1 <= k < n && lo <= (k - 1) / 2 ==> BelowParent(s, k)
  }

  /** What `heapify(n, i)` needs: heap order everywhere from `lo` except
      below the node `i`, whose children are no larger than its parent. */
  predicate SiftReady(s: seq<Bar>, n: int, lo: int, i: int) {
    0 <= lo <= i < n <= |s| &&
    (forall k :: 1 <= k < n && lo <= (k - 1) / 2 && (k - 1) / 2 != i ==> BelowParent(s, k)) &&
    (forall k :: 1 <= k < n && (k - 1) / 2 == i && 1 <= i && lo <= (i - 1) / 2 ==> s[k].value <= s[(i - 1) / 2].value)
  }

  /** Swapping `i` with its larger child moves the disorder one level down. */
  lemma SiftStep(s: seq<Bar>, n: int, lo: int, i: int, largest: int)
    requires SiftReady(s, n, lo, i)
    requires largest == 2 * i + 1 || largest == 2 * i + 2
    requires largest < n && s[largest].value > s[i].value
    requires 2 * i + 1 < n ==> s[2 * i + 1].value <= s[largest].value
    requires 2 * i + 2 < n ==> s[2 * i + 2].value <= s[largest].value
    ensures SiftReady(Swap(s, i, largest), n, lo, largest)
  {
    var t := Swap(s, i, largest);
    assert (largest - 1) / 2 == i && t[i] == s[largest] && t[largest] == s[i];
    forall k | 1 <= k < n && lo <= (k - 1) / 2 && (k - 1) / 2 != largest
      ensures BelowParent(t, k)
    {
      var p := (k - 1) / 2;
      if p == i {
        assert k == 2 * i + 1 || k == 2 * i + 2;
        if k != largest {
          assert t[k] == s[k];
        }
      } else if k == i {
        assert (largest - 1) / 2 == i && 1 <= i && lo <= (i - 1) / 2;
        assert s[largest].value <= s[(i - 1) / 2].value;
        assert t[p] == s[p];
      } else {
        assert BelowParent(s, k);
        assert t[k] == s[k] && t[p] == s[p];
      }
    }
    forall k | 1 <= k < n && (k - 1) / 2 == largest
      ensures t[k].value <= t[i].value
    {
      assert k > largest && k != i;
      assert BelowParent(s, k);
      assert t[k] == s[k];
    }
  }

  /** With no larger child, the node already satisfies heap order. */
  lemma SiftDone(s: seq<Bar>, n: int, lo: int, i: int)
    requires SiftReady(s, n, lo, i)
    requires 2 * i + 1 < n ==> s[2 * i + 1].value <= s[i].value
    requires 2 * i + 2 < n ==> s[2 * i + 2].value <= s[i].value
    ensures HeapFrom(s, n, lo)
  {
    forall k | 1 <= k < n && lo <= (k - 1) / 2 ensures BelowParent(s, k) {
      if (k - 1) / 2 == i {
        assert k == 2 * i + 1 || k == 2 * i + 2;
      }
    }
  }

  /** `heapify(n, i)`: sift the bar at `i` down the first `n` cells, picking
      the larger child with a strict `>` (the left one on a tie), until it
      is no smaller than its children. Only the cells `[i, n)` move. */
  method Heapify(a: seq<Bar>, n: int, i: int, ghost lo: int) returns (b: seq<Bar>)
    requires SiftReady(a, n, lo, i)
    ensures Rearranged(a, b, i, n) && HeapFrom(b, n, lo)
    decreases n - i
  {
    var largest := i;
    var left, right := 2 * i + 1, 2 * i + 2;
    if left < n && a[left].value > a[largest].value {
      largest := left;
    }
    if right < n && a[right].value > a[largest].value {
      largest := right;
    }
    if largest != i {
      SiftStep(a, n, lo, i, largest);
      SwapRearranges(a, i, n, i, largest);
      var swapped := Swap(a, i, largest);
      b := Heapify(swapped, n, largest, lo);
      RearrangedWiden(swapped, b, largest, n, i, n);
      RearrangedTransitive(a, swapped, b, i, n);
    } else {
      SiftDone(a, n, lo, i);
      b := a;
      RearrangedReflexive(a, i, n);
    }
  }

  /** The root of a heap is its largest bar. */
  lemma {:induction false} RootIsMax(s: seq<Bar>, n: int, k: int)
    requires HeapFrom(s, n, 0) && 0 <= k < n
    ensures s[k].value <= s[0].value
    decreases k
  {
    if k > 0 {
      assert BelowParent(s, k);
      RootIsMax(s, n, (k - 1) / 2);
    }
  }

  /** The build loop: `heapify(n, i)` for `i` from `n / 2 - 1` down to 0
      turns the whole row into a max-heap. */
  method BuildHeap(a: seq<Bar>) returns (b: seq<Bar>)
    ensures HeapFrom(b, |b|, 0) && |b| == |a| && multiset(b) == multiset(a)
  {
    var n := |a|;
    b := a;
    RearrangedReflexive(a, 0, n);
    var i := n / 2 - 1;
    while i >= 0
      invariant -1 <= i < n && Rearranged(a, b, 0, n) && HeapFrom(b, n, i + 1)
      decreases i
    {
      var next := Heapify(b, n, i, i);
      RearrangedWiden(b, next, i, n, 0, n);
      RearrangedTransitive(a, b, next, 0, n);
      b := next;
      i := i - 1;
    }
    RearrangedWhole(a, b);
  }

  /** What holds between extractions: a heap on `[0, i]`, and a sorted
      tail `(i, n)` no smaller than anything in the heap. */
  predicate Extracting(s: seq<Bar>, i: int) {
    0 <= i < |s| && HeapFrom(s, i + 1, 0) && SortedRange(s, i + 1, |s|) &&
    forall k, m :: 0 <= k <= i < m < |s| ==> s[k].value <= s[m].value
  }

  /** One extraction: swap the root to the end of the heap, then sift the
      new root down the shorter heap. */
  lemma ExtractStep(s: seq<Bar>, i: int, t: seq<Bar>)
    requires Extracting(s, i) && i > 0
    requires Rearranged(Swap(s, 0, i), t, 0, i) && HeapFrom(t, i, 0)
    ensures Extracting(t, i - 1)
  {
    var w := Swap(s, 0, i);
    RootIsMax(s, i + 1, 0);
    forall k | 0 <= k < i ensures w[k].value <= w[i].value {
      RootIsMax(s, i + 1, if k == 0 then i else k);
    }
    BoundKept(w, t, 0, i, w[i].value);
    assert t[i] == w[i] == s[0];
    forall k, m | 0 <= k <= i - 1 < m < |t| ensures t[k].value <= t[m].value {
      if m > i {
        var k0 := RearrangedFrom(w, t, 0, i, k);
        RootIsMax(s, i + 1, if k0 == 0 then i else k0);
      }
    }
  }

  lemma SwapRootReady(s: seq<Bar>, i: int)
    requires Extracting(s, i) && i > 0
    ensures SiftReady(Swap(s, 0, i), i, 0, 0)
  {
    var t := Swap(s, 0, i);
    forall k | 1 <= k < i && 0 <= (k - 1) / 2 && (k - 1) / 2 != 0 ensures BelowParent(t, k) {
      assert BelowParent(s, k);
      assert t[k] == s[k] && t[(k - 1) / 2] == s[(k - 1) / 2];
    }
  }

  /** `heapSort`: build the heap, then move the root behind the heap
      `n - 1` times. */
  method HeapSort(a: seq<Bar>) returns (b: seq<Bar>)
    ensures Sorted(b) && multiset(b) == multiset(a)
  {
    b := BuildHeap(a);
    if |b| == 0 {
      return;
    }
    var i := |b| - 1;
    while i > 0
      invariant Extracting(b, i) && multiset(b) == multiset(a)
      decreases i
    {
      SwapRootReady(b, i);
      SwapRearranges(b, 0, |b|, 0, i);
      RearrangedWhole(b, Swap(b, 0, i));
      var next := Heapify(Swap(b, 0, i), i, 0, 0);
      ExtractStep(b, i, next);
      RearrangedWiden(Swap(b, 0, i), next, 0, i, 0, |b|);
      RearrangedWhole(Swap(b, 0, i), next);
      b := next;
      i := i - 1;
    }
  }
}

=== FILE: strings.dfy ===
/** Character classes and string operations that the JavaScript and Python
    code takes from its standard library: `\s`, `trim`, the string `<`
    order, `startsWith`, `toLowerCase`/`lower`, number formatting and
    `join`. Strings are sequences of Unicode scalar values. */
module Strings {
  import opened Seqs

  /** The characters `\s` matches in a JavaScript regular expression; also
      exactly the set `String.prototype.trim` removes (white space and line
      terminators). */
  predicate IsJsWhitespace(c: char) {
    || c == '\t' || c == '\n' || c == '\U{000B}' || c == '\U{000C}' || c == '\r' || c == ' '
    || c == '\U{00A0}' || c == '\U{1680}' || ('\U{2000}' <= c <= '\U{200A}')
    || c == '\U{2028}' || c == '\U{2029}' || c == '\U{202F}' || c == '\U{205F}'
    || c == '\U{3000}' || c == '\U{FEFF}'
  }

  /** The line terminators of JavaScript regular expressions: where `^` and
      `$` anchor under the `m` flag, and what `.` does not match. */
  predicate IsLineTerminator(c: char) {
    c == '\n' || c == '\r' || c == '\U{2028}' || c == '\U{2029}'
  }

  lemma LineTerminatorIsWhitespace(c: char)
    requires IsLineTerminator(c)
    ensures IsJsWhitespace(c)
  {
  }

  predicate NoWhitespace(s: string) {
    forall i :: 0 <= i < |s| ==> !IsJsWhitespace(s[i])
  }

  /** Number of white-space characters at the start of `s`. */
  function LeadingWhitespace(s: string): (n: nat)
    ensures n <= |s|
    ensures forall i :: 0 <= i < n ==> IsJsWhitespace(s[i])
    ensures n == |s| || !IsJsWhitespace(s[n])
  {
    if |s| == 0 || !IsJsWhitespace(s[0]) then 0 else 1 + LeadingWhitespace(s[1..])
  }

  /** Drops the leading white space: the result is the suffix of `s` that
      starts at its first non-white-space character. */
  function TrimStart(s: string): (r: string)
    ensures r == s[LeadingWhitespace(s)..]
    ensures |r| == 0 || !IsJsWhitespace(r[0])
  {
    s[LeadingWhitespace(s)..]
  }

  /** Drops the trailing white space: the result is the prefix of `s` that
      ends at its last non-white-space character. */
  function TrimEnd(s: string): (r: string)
    ensures |r| <= |s| && r == s[..|r|]
    ensures |r| == 0 || !IsJsWhitespace(r[|r| - 1])
    ensures forall i :: |r| <= i < |s| ==> IsJsWhitespace(s[i])
  {
    if |s| == 0 || !IsJsWhitespace(s[|s| - 1]) then s else TrimEnd(s[..|s| - 1])
  }

  /** `String.prototype.trim`: the slice of `s` between its leading and
      its trailing white space. */
  function Trim(s: string): (r: string)
    ensures |r| == 0 || (!IsJsWhitespace(r[0]) && !IsJsWhitespace(r[|r| - 1]))
    ensures LeadingWhitespace(s) + |r| <= |s|
    ensures r == s[LeadingWhitespace(s)..LeadingWhitespace(s) + |r|]
    ensures forall k :: LeadingWhitespace(s) + |r| <= k < |s| ==> IsJsWhitespace(s[k])
  {
    var i := LeadingWhitespace(s);
    var a := s[i..];
    var r := TrimEnd(a);
    assert forall k :: i + |r| <= k < |s| ==> s[k] == a[k - i];
    r
  }

  /** Trimming a string whose ends are not white space changes nothing. */
  lemma TrimNoop(s: string)
    requires |s| == 0 || (!IsJsWhitespace(s[0]) && !IsJsWhitespace(s[|s| - 1]))
    ensures Trim(s) == s
  {
  }

  /** `s` begins with `p` (`String.prototype.startsWith`, `str.startswith`). */
  predicate StartsWith(s: string, p: string) {
    |p| <= |s| && s[..|p|] == p
  }

  /** `needle` occurs in `haystack` (Python's `needle in haystack`). */
  predicate Contains(haystack: string, needle: string) {
    exists i :: 0 <= i <= |haystack| - |needle| && OccursAt(haystack, needle, i)
  }

  predicate OccursAt(haystack: string, needle: string, i: int) {
    0 <= i <= |haystack| - |needle| && haystack[i..i + |needle|] == needle
  }

  /** `sum(1 for kw in keywords if kw in haystack)`: how many of the
      keywords occur (a keyword listed twice counts twice). */
  function KeywordHits(haystack: string, keywords: seq<string>): (n: nat)
    ensures n <= |keywords|
    ensures n == 0 <==> forall i :: 0 <= i < |keywords| ==> !Contains(haystack, keywords[i])
  {
    if |keywords| == 0 then 0
    else (if Contains(haystack, keywords[0]) then 1 else 0) + KeywordHits(haystack, keywords[1..])
  }

  /** The hit count is the number of keywords that pass the `in` test. */
  lemma {:induction false} KeywordHitsCountsMatches(haystack: string, keywords: seq<string>)
    ensures KeywordHits(haystack, keywords) == |Filter(keywords, kw => Contains(haystack, kw))|
  {
    if |keywords| > 0 {
      KeywordHitsCountsMatches(haystack, keywords[1..]);
    }
  }

  /** A string occurs in any string built around it. */
  lemma ContainsIn(s: string, pre: string, x: string, post: string)
    requires s == pre + x + post
    ensures OccursAt(s, x, |pre|) && Contains(s, x)
  {
    assert s[|pre|..|pre| + |x|] == x;
    assert OccursAt(s, x, |pre|);
  }

  /** An occurrence of `a + b` is an occurrence of `a` followed by one of
      `b`. */
  lemma OccursSplit(s: string, a: string, b: string, i: int)
    requires OccursAt(s, a + b, i)
    ensures OccursAt(s, a, i) && OccursAt(s, b, i + |a|)
  {
    var j := i + |a|;
    assert s[i..j] == (a + b)[..|a|];
    assert s[j..j + |b|] == (a + b)[|a|..];
  }

  /** An occurrence inside `t` is an occurrence inside `pre + t + post`,
      shifted by `|pre|`. */
  lemma OccursShift(t: string, x: string, j: int, pre: string, post: string)
    requires OccursAt(t, x, j)
    ensures OccursAt(pre + t + post, x, |pre| + j) && Contains(pre + t + post, x)
  {
    var s := pre + t + post;
    assert s[|pre| + j..|pre| + j + |x|] == t[j..j + |x|];
    assert OccursAt(s, x, |pre| + j);
  }

  /** The string order of JavaScript's `<` and Python's `<` on `str`:
      lexicographic by character, a proper prefix first. */
  predicate StrLe(a: string, b: string) {
    if |a| == 0 then true
    else if |b| == 0 then false
    else if a[0] != b[0] then a[0] < b[0]
    else StrLe(a[1..], b[1..])
  }

  predicate StrLt(a: string, b: string) {
    StrLe(a, b) && a != b
  }

  lemma {:induction false} StrLeReflexive(a: string)
    ensures StrLe(a, a)
  {
    if |a| > 0 {
      StrLeReflexive(a[1..]);
    }
  }

  lemma {:induction false} StrLeTotal(a: string, b: string)
    ensures StrLe(a, b) || StrLe(b, a)
  {
    if |a| > 0 && |b| > 0 && a[0] == b[0] {
      StrLeTotal(a[1..], b[1..]);
    }
  }

  lemma {:induction false} StrLeAntisymmetric(a: string, b: string)
    requires StrLe(a, b) && StrLe(b, a)
    ensures a == b
  {
    if |a| > 0 && |b| > 0 {
      StrLeAntisymmetric(a[1..], b[1..]);
      HeadTail(a);
      HeadTail(b);
    }
  }

  lemma {:induction false} StrLeTransitive(a: string, b: string, c: string)
    requires StrLe(a, b) && StrLe(b, c)
    ensures StrLe(a, c)
  {
    if |a| > 0 && |b| > 0 && |c| > 0 && a[0] == b[0] && b[0] == c[0] {
      StrLeTransitive(a[1..], b[1..], c[1..]);
    }
  }

  /** `StrLe` is a total order; stated once for the sorting lemmas. */
  lemma StrLeTotalOrder()
    ensures forall a, b :: StrLe(a, b) || StrLe(b, a)
    ensures forall a, b, c :: StrLe(a, b) && StrLe(b, c) ==> StrLe(a, c)
    ensures forall a, b :: StrLe(a, b) && StrLe(b, a) ==> a == b
  {
    forall a, b ensures StrLe(a, b) || StrLe(b, a) {
      StrLeTotal(a, b);
    }
    forall a, b, c | StrLe(a, b) && StrLe(b, c) ensures StrLe(a, c) {
      StrLeTransitive(a, b, c);
    }
    forall a, b | StrLe(a, b) && StrLe(b, a) ensures a == b {
      StrLeAntisymmetric(a, b);
    }
  }

  predicate IsAsciiUpper(c: char) {
    'A' <= c <= 'Z'
  }

  /** Lower-case form of one character under `toLowerCase` / `lower`,
      reduced to the mappings whose result contains an ASCII character:
      A-Z, KELVIN SIGN (to `k`) and LATIN CAPITAL LETTER I WITH DOT ABOVE
      (to `i` and a combining dot). Every other character is kept as is;
      the callers only look for ASCII letters, digits and Hangul after
      lower-casing, which no other mapping produces. */
  function LowerChar(c: char): string {
    if IsAsciiUpper(c) then [(c as int + 32) as char]
    else if c == '\U{212A}' then "k"
    else if c == '\U{0130}' then "i\U{0307}"
    else [c]
  }

  function ToLower(s: string): (r: string)
    ensures forall i :: 0 <= i < |r| ==> !IsAsciiUpper(r[i])
    ensures |r| >= |s|
  {
    if |s| == 0 then [] else LowerChar(s[0]) + ToLower(s[1..])
  }

  lemma {:induction false} ToLowerConcat(a: string, b: string)
    ensures ToLower(a + b) == ToLower(a) + ToLower(b)
  {
    if |a| == 0 {
      assert a + b == b;
    } else {
      assert (a + b)[1..] == a[1..] + b;
      ToLowerConcat(a[1..], b);
    }
  }

  /** Lower-casing twice is lower-casing once: no mapping produces a
      character that lower-cases again. */
  lemma {:induction false} ToLowerTwice(s: string)
    ensures ToLower(ToLower(s)) == ToLower(s)
  {
    if |s| > 0 {
      var c := LowerChar(s[0]);
      ToLowerIdempotent(c);
      ToLowerConcat(c, ToLower(s[1..]));
      ToLowerTwice(s[1..]);
    }
  }

  /** Lower-casing a string that has no upper-case ASCII letter and none
      of the two special capitals is the identity. */
  lemma {:induction false} ToLowerIdempotent(s: string)
    requires forall i :: 0 <= i < |s| ==> !IsAsciiUpper(s[i]) && s[i] != '\U{212A}' && s[i] != '\U{0130}'
    ensures ToLower(s) == s
  {
    if |s| > 0 {
      ToLowerIdempotent(s[1..]);
    }
  }

  function DigitChar(d: nat): char
    requires d < 10
  {
    ("0123456789")[d]
  }

  /** Decimal form of a natural number, as a template literal or `str()`
      prints it: no sign, no leading zero. */
  function NatToString(n: nat): (r: string)
    ensures |r| >= 1
    ensures forall i :: 0 <= i < |r| ==> '0' <= r[i] <= '9'
    ensures n >= 10 <==> |r| >= 2
  {
    if n < 10 then [DigitChar(n)] else NatToString(n / 10) + [DigitChar(n % 10)]
  }

  /** Different numbers print differently. */
  lemma {:induction false} NatToStringInjective(m: nat, n: nat)
    requires NatToString(m) == NatToString(n)
    ensures m == n
  {
    if m >= 10 && n >= 10 {
      NatToStringLast(m);
      NatToStringLast(n);
      NatToStringInjective(m / 10, n / 10);
      DigitCharInjective(m % 10, n % 10);
      SameDigits(m, n);
    }
  }

  /** The decimal form of a number of two or more digits is the form of
      its tenth followed by its last digit. */
  lemma NatToStringLast(n: nat)
    requires n >= 10
    ensures var a := NatToString(n);
      a[..|a| - 1] == NatToString(n / 10) && a[|a| - 1] == DigitChar(n % 10)
  {
  }

  lemma DigitCharInjective(d: nat, e: nat)
    requires d < 10 && e < 10 && DigitChar(d) == DigitChar(e)
    ensures d == e
  {
  }

  lemma SameDigits(m: nat, n: nat)
    requires m / 10 == n / 10 && m % 10 == n % 10
    ensures m == n
  {
  }

  /** `parts.join(sep)` / `sep.join(parts)`. */
  function Join(parts: seq<string>, sep: string): string {
    if |parts| == 0 then ""
    else if |parts| == 1 then parts[0]
    else parts[0] + sep + Join(parts[1..], sep)
  }

  /** Every part occurs in the joined string; `j` is where. */
  lemma {:induction false} JoinContains(parts: seq<string>, sep: string, i: nat) returns (j: nat)
    requires i < |parts|
    ensures OccursAt(Join(parts, sep), parts[i], j)
  {
    if |parts| == 1 {
      j := 0;
      ContainsIn(Join(parts, sep), "", parts[0], "");
    } else if i == 0 {
      j := 0;
      ContainsIn(Join(parts, sep), "", parts[0], sep + Join(parts[1..], sep));
    } else {
      var k := JoinContains(parts[1..], sep, i - 1);
      OccursShift(Join(parts[1..], sep), parts[i], k, parts[0] + sep, "");
      assert Join(parts, sep) == parts[0] + sep + Join(parts[1..], sep) + "";
      j := |parts[0] + sep| + k;
    }
  }
}

=== FILE: toc_forest.dfy ===
/** The table-of-contents item and the forest the heading parser builds
    from the level-tagged headings with a stack of open headings. */
module TocForest {
  import opened Seqs

  /** One heading: its anchor id, its text and its level (the number of
      `#`). */
  datatype Heading = Heading(id: string, text: string, level: nat)

  /** A heading with the headings nested under it. */
  datatype Toc = Toc(heading: Heading, children: seq<Toc>)

  function Level(t: Toc): nat {
    t.heading.level
  }

  /** Pre-order listing of a forest: each heading, then its subtree. */
  function Flatten(f: seq<Toc>): seq<Heading>
    decreases f
  {
    if |f| == 0 then [] else FlattenTree(f[0]) + Flatten(f[1..])
  }

  function FlattenTree(t: Toc): seq<Heading>
    decreases t
  {
    [t.heading] + Flatten(t.children)
  }

  /** Every tree of `f` is nested properly and a later sibling is never
      deeper than an earlier one. */
  predicate WellNested(f: seq<Toc>)
    decreases f
  {
    && (forall i :: 0 <= i < |f| ==> TreeNested(f[i]))
    && (forall i :: 0 < i < |f| ==> Level(f[i - 1]) >= Level(f[i]))
  }

  /** Every child is deeper than its parent, recursively. */
  predicate TreeNested(t: Toc)
    decreases t
  {
    && (forall i :: 0 <= i < |t.children| ==> Level(t.children[i]) > Level(t))
    && WellNested(t.children)
  }

  /** The headings of the top-level entries. */
  function Roots(f: seq<Toc>): (r: seq<Heading>)
    ensures |r| == |f|
    ensures forall i :: 0 <= i < |f| ==> r[i] == f[i].heading
  {
    if |f| == 0 then [] else [f[0].heading] + Roots(f[1..])
  }

  /** The right spine: the last top-level heading, its last child, and so
      on down. These are the headings the parser's stack can hold. */
  function Spine(f: seq<Toc>): (r: seq<Heading>)
    decreases f
  {
    if |f| == 0 then [] else [f[|f| - 1].heading] + Spine(f[|f| - 1].children)
  }

  /** Appends `t` as the last child of the spine entry at depth `d - 1`,
      or as a new top-level entry when `d` is 0. */
  function AppendAt(f: seq<Toc>, d: nat, t: Toc): seq<Toc>
    requires d <= |Spine(f)|
    decreases d
  {
    if d == 0 then f + [t]
    else
      var last := f[|f| - 1];
      f[..|f| - 1] + [Toc(last.heading, AppendAt(last.children, d - 1, t))]
  }

  // ---------------------------------------------------------------------
  // The parser's loop
  // ---------------------------------------------------------------------

  /** The heading at `k` is top-level: no earlier heading is deeper-rooted
      than it, i.e. every earlier heading has a level at least its own. */
  predicate IsTopLevelAt(items: seq<Heading>, k: int)
    requires 0 <= k < |items|
  {
    forall j :: 0 <= j < k ==> items[j].level >= items[k].level
  }

  /** The top-level headings of `items`, in order. */
  function TopLevel(items: seq<Heading>): seq<Heading> {
    if |items| == 0 then []
    else
      TopLevel(items[..|items| - 1])
        + (if IsTopLevelAt(items, |items| - 1) then [items[|items| - 1]] else [])
  }

  /** What the loop has built after reading `items`: their forest, with
      `lastRoot` the position of the last top-level heading, which has the
      smallest level read so far. */
  ghost predicate Built(items: seq<Heading>, forest: seq<Toc>, lastRoot: nat) {
    && Flatten(forest) == items
    && WellNested(forest)
    && RootsTracked(items, forest, lastRoot)
  }

  /** The top-level entries are the top-level headings, the last of them
      at `lastRoot`. */
  ghost predicate RootsTracked(items: seq<Heading>, forest: seq<Toc>, lastRoot: nat) {
    && Roots(forest) == TopLevel(items)
    && (|items| > 0 ==>
          && |forest| > 0 && lastRoot < |items| && items[lastRoot] == forest[|forest| - 1].heading
          && LevelsAtLeast(items, items[lastRoot].level))
  }

  /** Every heading of `items` has a level of at least `level`. */
  ghost predicate LevelsAtLeast(items: seq<Heading>, level: nat) {
    forall j :: 0 <= j < |items| ==> items[j].level >= level
  }

  lemma LevelsSnoc(items: seq<Heading>, h: Heading, level: nat)
    requires LevelsAtLeast(items, level) && h.level >= level
    ensures LevelsAtLeast(items + [h], level)
  {
    var r := items + [h];
    forall j | 0 <= j < |r| ensures r[j].level >= level {
      if j < |items| {
        assert r[j] == items[j];
      }
    }
  }

  /** The stack loop: for each heading, pop the open headings whose level is
      at least its own, attach it under the open heading left on top (or at
      top level when none is left), and open it. The stack always holds the
      first `depth` entries of the forest's right spine, so it is kept as
      that number. */
  method BuildForest(items: seq<Heading>) returns (forest: seq<Toc>)
    ensures Flatten(forest) == items
    ensures WellNested(forest)
    ensures Roots(forest) == TopLevel(items)
    ensures forest == Nest(items)
  {
    forest := [];
    var depth: nat := 0;
    ghost var lastRoot: nat := 0;
    for i := 0 to |items|
      invariant depth == |Spine(forest)|
      invariant Built(items[..i], forest, lastRoot)
    {
      var h := items[i];
      depth := PopDeeper(Spine(forest), h);
      TakeSnoc(items, i);
      BuildStep(items[..i], h, forest, lastRoot, depth);
      forest := AppendAt(forest, depth, Toc(h, []));
      lastRoot := if depth == 0 then i else lastRoot;
      depth := depth + 1;
    }
    assert items[..|items|] == items;
    NestDetermined(forest, items);
  }

  /** The popping loop: from the top of the stack `open`, drop the open
      headings whose level is at least that of `h`; what is left is the
      stack of `h`'s ancestors. */
  method PopDeeper(open: seq<Heading>, h: Heading) returns (depth: nat)
    ensures depth <= |open|
    ensures depth > 0 ==> open[depth - 1].level < h.level
    ensures forall k :: depth <= k < |open| ==> open[k].level >= h.level
  {
    depth := |open|;
    while depth > 0 && open[depth - 1].level >= h.level
      invariant depth <= |open|
      invariant forall k :: depth <= k < |open| ==> open[k].level >= h.level
      decreases depth
    {
      depth := depth - 1;
    }
  }

  /** One turn of the loop keeps `Built`. */
  lemma BuildStep(prefix: seq<Heading>, h: Heading, forest: seq<Toc>, lastRoot: nat, depth: nat)
    requires Built(prefix, forest, lastRoot)
    requires depth <= |Spine(forest)|
    requires depth > 0 ==> Spine(forest)[depth - 1].level < h.level
    requires forall k :: depth <= k < |Spine(forest)| ==> Spine(forest)[k].level >= h.level
    ensures Built(prefix + [h], AppendAt(forest, depth, Toc(h, [])), if depth == 0 then |prefix| else lastRoot)
    ensures |Spine(AppendAt(forest, depth, Toc(h, [])))| == depth + 1
  {
    FlattenStep(prefix, h, forest, depth);
    WellNestedStep(h, forest, depth);
    SpineAppendLeaf(forest, depth, h);
    TopLevelStep(prefix, h, forest, lastRoot, depth);
  }

  lemma WellNestedStep(h: Heading, forest: seq<Toc>, depth: nat)
    requires WellNested(forest)
    requires depth <= |Spine(forest)|
    requires depth > 0 ==> Spine(forest)[depth - 1].level < h.level
    requires forall k :: depth <= k < |Spine(forest)| ==> Spine(forest)[k].level >= h.level
    ensures WellNested(AppendAt(forest, depth, Toc(h, [])))
  {
    assert TreeNested(Toc(h, []));
    WellNestedAppendAt(forest, depth, Toc(h, []));
  }

  lemma FlattenStep(prefix: seq<Heading>, h: Heading, forest: seq<Toc>, depth: nat)
    requires Flatten(forest) == prefix
    requires depth <= |Spine(forest)|
    ensures Flatten(AppendAt(forest, depth, Toc(h, []))) == prefix + [h]
  {
    FlattenAppendAt(forest, depth, Toc(h, []));
    assert FlattenTree(Toc(h, [])) == [h];
  }

  lemma TopLevelStep(prefix: seq<Heading>, h: Heading, forest: seq<Toc>, lastRoot: nat, depth: nat)
    requires WellNested(forest) && RootsTracked(prefix, forest, lastRoot)
    requires depth <= |Spine(forest)|
    requires depth > 0 ==> Spine(forest)[depth - 1].level < h.level
    requires forall k :: depth <= k < |Spine(forest)| ==> Spine(forest)[k].level >= h.level
    ensures RootsTracked(prefix + [h], AppendAt(forest, depth, Toc(h, [])), if depth == 0 then |prefix| else lastRoot)
  {
    var items := prefix + [h];
    SpineFacts(forest);
    RootsAppendAt(forest, depth, Toc(h, []));
    AppendAtLast(forest, depth, Toc(h, []));
    assert items[..|prefix|] == prefix;
    if depth == 0 {
      TopLevelAtRoot(prefix, h, forest, lastRoot);
      LevelsSnoc(prefix, h, h.level);
    } else {
      TopLevelNested(prefix, h, forest, lastRoot, depth);
      LevelsSnoc(prefix, h, prefix[lastRoot].level);
      assert items[lastRoot] == prefix[lastRoot];
    }
  }

  /** A heading the loop attaches at top level is top-level. */
  lemma TopLevelAtRoot(prefix: seq<Heading>, h: Heading, forest: seq<Toc>, lastRoot: nat)
    requires RootsTracked(prefix, forest, lastRoot)
    requires |Spine(forest)| > 0 <==> |forest| > 0
    requires |forest| > 0 ==> Spine(forest)[0] == forest[|forest| - 1].heading
    requires forall k :: 0 <= k < |Spine(forest)| ==> Spine(forest)[k].level >= h.level
    ensures IsTopLevelAt(prefix + [h], |prefix|)
    ensures LevelsAtLeast(prefix, h.level)
  {
    if |prefix| > 0 {
      assert prefix[lastRoot] == Spine(forest)[0];
    }
    forall j | 0 <= j < |prefix| ensures prefix[j].level >= h.level {
      assert prefix[j].level >= prefix[lastRoot].level;
    }
    var items := prefix + [h];
    forall j | 0 <= j < |prefix| ensures items[j].level >= items[|prefix|].level {
      assert items[j] == prefix[j];
    }
  }

  /** A heading the loop attaches under an open heading is not
      top-level: the last top-level heading is shallower. */
  lemma TopLevelNested(prefix: seq<Heading>, h: Heading, forest: seq<Toc>, lastRoot: nat, depth: nat)
    requires 0 < depth <= |Spine(forest)|
    requires RootsTracked(prefix, forest, lastRoot)
    requires |forest| > 0 ==> Spine(forest)[0] == forest[|forest| - 1].heading
    requires forall k :: 0 < k < |Spine(forest)| ==> Spine(forest)[k - 1].level < Spine(forest)[k].level
    requires Spine(forest)[depth - 1].level < h.level
    ensures lastRoot < |prefix| && prefix[lastRoot].level < h.level
    ensures !IsTopLevelAt(prefix + [h], |prefix|)
  {
    var spine := Spine(forest);
    SpineIncreasing(spine, 0, depth - 1);
    assert |forest| > 0;
    assert (prefix + [h])[lastRoot] == prefix[lastRoot] == spine[0];
  }

  lemma {:induction false} SpineIncreasing(spine: seq<Heading>, a: int, b: int)
    requires 0 <= a <= b < |spine|
    requires forall k :: 0 < k < |spine| ==> spine[k - 1].level < spine[k].level
    ensures spine[a].level <= spine[b].level
    decreases b - a
  {
    if a < b {
      SpineIncreasing(spine, a + 1, b);
    }
  }

  // ---------------------------------------------------------------------
  // Facts about AppendAt
  // ---------------------------------------------------------------------

  lemma {:induction false} FlattenConcat(a: seq<Toc>, b: seq<Toc>)
    ensures Flatten(a + b) == Flatten(a) + Flatten(b)
  {
    if |a| == 0 {
      assert a + b == b;
    } else {
      assert (a + b)[0] == a[0];
      assert (a + b)[1..] == a[1..] + b;
      FlattenConcat(a[1..], b);
    }
  }

  lemma FlattenJoin(h: Heading, kids: seq<Toc>, rest: seq<Toc>, a: seq<Heading>, b: seq<Heading>)
    requires Flatten(kids) == a && Flatten(rest) == b
    ensures Flatten([Toc(h, kids)] + rest) == [h] + a + b
  {
    assert ([Toc(h, kids)] + rest)[1..] == rest;
  }

  lemma SplitJoin<T>(s: seq<T>, k: int)
    requires 1 <= k <= |s|
    ensures [s[0]] + s[1..k] + s[k..] == s
  {
  }

  lemma FlattenSingle(t: Toc)
    ensures Flatten([t]) == FlattenTree(t)
  {
    assert [t][1..] == [];
  }

  lemma {:induction false} FlattenAppendAt(f: seq<Toc>, d: nat, t: Toc)
    requires d <= |Spine(f)|
    ensures Flatten(AppendAt(f, d, t)) == Flatten(f) + FlattenTree(t)
    decreases d
  {
    if d == 0 {
      FlattenSnoc(f, t);
    } else {
      var init := f[..|f| - 1];
      var last := f[|f| - 1];
      FlattenAppendAt(last.children, d - 1, t);
      FlattenSnoc(init, Toc(last.heading, AppendAt(last.children, d - 1, t)));
      FlattenLast(f);
    }
  }

  lemma FlattenSnoc(init: seq<Toc>, x: Toc)
    ensures Flatten(init + [x]) == Flatten(init) + FlattenTree(x)
  {
    FlattenConcat(init, [x]);
    FlattenSingle(x);
  }

  lemma FlattenLast(f: seq<Toc>)
    requires |f| > 0
    ensures Flatten(f) == Flatten(f[..|f| - 1]) + FlattenTree(f[|f| - 1])
  {
    FlattenSnoc(f[..|f| - 1], f[|f| - 1]);
    InitLast(f);
  }

  lemma {:induction false} SpineAppendLeaf(f: seq<Toc>, d: nat, h: Heading)
    requires d <= |Spine(f)|
    ensures Spine(AppendAt(f, d, Toc(h, []))) == Spine(f)[..d] + [h]
    decreases d
  {
    if d == 0 {
      assert Spine([]) == [];
    } else {
      var last := f[|f| - 1];
      SpineAppendLeaf(last.children, d - 1, h);
    }
  }

  lemma RootsAppendAt(f: seq<Toc>, d: nat, t: Toc)
    requires d <= |Spine(f)|
    ensures Roots(AppendAt(f, d, t)) == if d == 0 then Roots(f) + [t.heading] else Roots(f)
  {
    var r := AppendAt(f, d, t);
    if d == 0 {
      assert Roots(r) == Roots(f) + [t.heading];
    } else {
      assert |r| == |f|;
      forall k | 0 <= k < |f| ensures Roots(r)[k] == Roots(f)[k] {
        if k < |f| - 1 {
          assert r[k] == f[k];
        }
      }
    }
  }

  /** The last top-level entry after `AppendAt`: `t` itself at depth 0,
      otherwise the same heading as before. */
  lemma AppendAtLast(f: seq<Toc>, d: nat, t: Toc)
    requires d <= |Spine(f)|
    ensures var r := AppendAt(f, d, t);
            |r| > 0 && r[|r| - 1].heading == if d == 0 then t.heading else f[|f| - 1].heading
  {
  }

  /** The spine read through the `WellNested` facts: its first entry is
      the last top-level entry, and each later entry is the last child of
      the one before. */
  lemma {:induction false} SpineFacts(f: seq<Toc>)
    requires WellNested(f)
    ensures |Spine(f)| > 0 <==> |f| > 0
    ensures |f| > 0 ==> Spine(f)[0] == f[|f| - 1].heading
    ensures forall k :: 0 < k < |Spine(f)| ==> Spine(f)[k - 1].level < Spine(f)[k].level
    decreases f
  {
    if |f| > 0 {
      var last := f[|f| - 1];
      assert TreeNested(last);
      SpineFacts(last.children);
      var s := Spine(f);
      forall k | 0 < k < |s| ensures s[k - 1].level < s[k].level {
        if k == 1 {
          assert s[1] == last.children[|last.children| - 1].heading;
        } else {
          assert s[k - 1] == Spine(last.children)[k - 2];
          assert s[k] == Spine(last.children)[k - 1];
        }
      }
    }
  }

  lemma {:induction false} WellNestedAppendAt(f: seq<Toc>, d: nat, t: Toc)
    requires WellNested(f) && TreeNested(t)
    requires d <= |Spine(f)|
    requires d > 0 ==> Spine(f)[d - 1].level < Level(t)
    requires d < |Spine(f)| ==> Spine(f)[d].level >= Level(t)
    ensures WellNested(AppendAt(f, d, t))
    decreases d
  {
    if d == 0 {
      WellNestedSnoc(f, t);
    } else {
      var last := f[|f| - 1];
      assert TreeNested(last);
      assert Spine(f) == [last.heading] + Spine(last.children);
      WellNestedAppendAt(last.children, d - 1, t);
      ChildAppended(last, d - 1, t);
      WellNestedReplaceLast(f, Toc(last.heading, AppendAt(last.children, d - 1, t)));
    }
  }

  /** A new last top-level entry no deeper than the current last one keeps
      the forest well nested. */
  lemma WellNestedSnoc(f: seq<Toc>, t: Toc)
    requires WellNested(f) && TreeNested(t)
    requires |f| > 0 ==> Level(f[|f| - 1]) >= Level(t)
    ensures WellNested(f + [t])
  {
    var r := f + [t];
    forall i | 0 <= i < |r| ensures TreeNested(r[i]) {
      if i < |f| {
        assert r[i] == f[i];
      }
    }
  }

  /** The last top-level entry with a new set of children, all deeper than
      it and well nested, keeps the forest well nested. */
  lemma WellNestedReplaceLast(f: seq<Toc>, last': Toc)
    requires WellNested(f) && |f| > 0 && TreeNested(last')
    requires last'.heading == f[|f| - 1].heading
    ensures WellNested(f[..|f| - 1] + [last'])
  {
    var n := |f|;
    var r := f[..n - 1] + [last'];
    forall i | 0 <= i < |r| ensures TreeNested(r[i]) {
      if i < n - 1 {
        assert r[i] == f[i];
      }
    }
    forall i | 0 < i < |r| ensures Level(r[i - 1]) >= Level(r[i]) {
      assert Level(r[i - 1]) == Level(f[i - 1]);
      assert Level(r[i]) == Level(f[i]);
    }
  }

  /** Appending under a tree keeps it nested when the new entry is deeper
      than the tree's root whenever it becomes a direct child. */
  lemma ChildAppended(last: Toc, d: nat, t: Toc)
    requires TreeNested(last) && d <= |Spine(last.children)|
    requires WellNested(AppendAt(last.children, d, t))
    requires d == 0 ==> Level(t) > Level(last)
    ensures TreeNested(Toc(last.heading, AppendAt(last.children, d, t)))
  {
    AppendAtTops(last.children, d, t, Level(last));
  }

  /** `AppendAt` adds a top-level entry only at depth 0, so top-level
      entries deeper than `level` stay so when `t` is. */
  lemma AppendAtTops(f: seq<Toc>, d: nat, t: Toc, level: nat)
    requires d <= |Spine(f)|
    requires forall i :: 0 <= i < |f| ==> Level(f[i]) > level
    requires d == 0 ==> Level(t) > level
    ensures forall i :: 0 <= i < |AppendAt(f, d, t)| ==> Level(AppendAt(f, d, t)[i]) > level
  {
    var r := AppendAt(f, d, t);
    forall i | 0 <= i < |r| ensures Level(r[i]) > level {
      if i < |f| - 1 || (d == 0 && i < |f|) {
        assert r[i] == f[i];
      } else if d > 0 {
        assert r[i].heading == f[i].heading;
      }
    }
  }

  // ---------------------------------------------------------------------
  // The forest described without a stack
  // ---------------------------------------------------------------------

  /** The first position at or after `from` whose heading has a level of
      at most `level`, or the end. */
  function DeeperEnd(items: seq<Heading>, from: nat, level: nat): (k: nat)
    requires from <= |items|
    ensures from <= k <= |items|
    ensures forall j :: from <= j < k ==> items[j].level > level
    ensures k == |items| || items[k].level <= level
    decreases |items| - from
  {
    if from == |items| || items[from].level <= level then from else DeeperEnd(items, from + 1, level)
  }

  /** Reference forest: the first heading's subtree is the run of deeper
      headings right after it, nested the same way, and the rest of the
      headings form the following siblings. */
  function Nest(items: seq<Heading>): seq<Toc>
    decreases |items|
  {
    if |items| == 0 then []
    else
      var k := DeeperEnd(items, 1, items[0].level);
      [Toc(items[0], Nest(items[1..k]))] + Nest(items[k..])
  }

  lemma WellNestedTail(f: seq<Toc>)
    requires WellNested(f) && |f| > 0
    ensures WellNested(f[1..])
  {
    var r := f[1..];
    forall i | 0 < i < |r| ensures Level(r[i - 1]) >= Level(r[i]) {
      assert r[i - 1] == f[i] && r[i] == f[i + 1];
    }
  }

  /** A tree followed by a well-nested forest whose first entry is no
      deeper than the tree's root is well nested. */
  lemma WellNestedCons(t: Toc, rest: seq<Toc>)
    requires TreeNested(t) && WellNested(rest)
    requires |rest| > 0 ==> Level(t) >= Level(rest[0])
    ensures WellNested([t] + rest)
  {
    var f := [t] + rest;
    forall i | 0 < i < |f| ensures TreeNested(f[i]) {
      assert f[i] == rest[i - 1];
    }
    forall i | 1 < i < |f| ensures Level(f[i - 1]) >= Level(f[i]) {
      assert f[i - 1] == rest[i - 2] && f[i] == rest[i - 1];
    }
  }

  /** Every heading of `hs` is deeper than `level`. */
  ghost predicate AllDeeper(hs: seq<Heading>, level: nat) {
    forall j :: 0 <= j < |hs| ==> hs[j].level > level
  }

  lemma AllDeeperJoin(h: Heading, a: seq<Heading>, b: seq<Heading>, level: nat)
    requires h.level > level && AllDeeper(a, level) && AllDeeper(b, level)
    ensures AllDeeper([h] + a + b, level)
  {
    var r := [h] + a + b;
    forall j | 0 <= j < |r| ensures r[j].level > level {
      if 0 < j <= |a| {
        assert r[j] == a[j - 1];
      } else if j > |a| {
        assert r[j] == b[j - 1 - |a|];
      }
    }
  }

  /** Everything under a forest whose top entries are deeper than `level`
      is deeper than `level`. */
  lemma {:induction false} DescendantsDeeper(f: seq<Toc>, level: nat)
    requires WellNested(f)
    requires forall i :: 0 <= i < |f| ==> Level(f[i]) > level
    ensures AllDeeper(Flatten(f), level)
    decreases f
  {
    if |f| > 0 {
      var t := f[0];
      assert TreeNested(t);
      DescendantsDeeper(t.children, Level(t));
      AllDeeperWeaken(Flatten(t.children), Level(t), level);
      WellNestedTail(f);
      DescendantsDeeper(f[1..], level);
      AllDeeperJoin(t.heading, Flatten(t.children), Flatten(f[1..]), level);
    }
  }

  lemma AllDeeperWeaken(hs: seq<Heading>, level: nat, lower: nat)
    requires AllDeeper(hs, level) && lower <= level
    ensures AllDeeper(hs, lower)
  {
  }

  lemma FlattenEmpty(f: seq<Toc>)
    ensures |Flatten(f)| == 0 <==> |f| == 0
    ensures |f| > 0 ==> Flatten(f)[0] == f[0].heading
  {
  }

  /** The reference forest of a heading, a run of deeper headings and the
      rest, when the rest does not start deeper: the heading with the run
      nested under it, then the rest's forest. */
  lemma NestJoin(h: Heading, a: seq<Heading>, b: seq<Heading>)
    requires AllDeeper(a, h.level)
    requires |b| > 0 ==> b[0].level <= h.level
    ensures Nest([h] + a + b) == [Toc(h, Nest(a))] + Nest(b)
  {
    var items := [h] + a + b;
    DeeperEndJoin(h, a, b);
    assert items[1..1 + |a|] == a;
    assert items[1 + |a|..] == b;
  }

  /** After a heading, the run of deeper headings `a` ends where `b`
      starts. */
  lemma DeeperEndJoin(h: Heading, a: seq<Heading>, b: seq<Heading>)
    requires AllDeeper(a, h.level)
    requires |b| > 0 ==> b[0].level <= h.level
    ensures DeeperEnd([h] + a + b, 1, h.level) == 1 + |a|
  {
    var items := [h] + a + b;
    forall j | 1 <= j < 1 + |a| ensures items[j].level > h.level {
      assert items[j] == a[j - 1];
    }
    if 1 + |a| < |items| {
      assert items[1 + |a|] == b[0];
    }
    DeeperEndIs(items, 1, h.level, 1 + |a|);
  }

  /** `DeeperEnd` is the first position that is not deeper. */
  lemma {:induction false} DeeperEndIs(items: seq<Heading>, from: nat, level: nat, m: nat)
    requires from <= m <= |items|
    requires forall j :: from <= j < m ==> items[j].level > level
    requires m == |items| || items[m].level <= level
    ensures DeeperEnd(items, from, level) == m
    decreases m - from
  {
    if from < m {
      DeeperEndIs(items, from + 1, level, m);
    }
  }

  /** A properly nested forest is determined by its pre-order listing: it
      is the reference forest of that listing. */
  lemma {:induction false} NestDetermined(f: seq<Toc>, items: seq<Heading>)
    requires WellNested(f) && Flatten(f) == items
    ensures f == Nest(items)
    decreases |items|
  {
    FlattenEmpty(f);
    if |f| > 0 {
      var t := f[0];
      var rest := f[1..];
      assert Flatten(f) == [t.heading] + Flatten(t.children) + Flatten(rest);
      assert TreeNested(t);
      DescendantsDeeper(t.children, Level(t));
      WellNestedTail(f);
      FlattenEmpty(rest);
      if |rest| > 0 {
        assert Level(f[0]) >= Level(f[1]);
      }
      NestJoin(t.heading, Flatten(t.children), Flatten(rest));
      NestDetermined(t.children, Flatten(t.children));
      NestDetermined(rest, Flatten(rest));
      HeadTail(f);
    }
  }

  /** The reference forest lists every heading once, in document order. */
  lemma {:induction false} NestFlattens(items: seq<Heading>)
    ensures Flatten(Nest(items)) == items
    decreases |items|
  {
    if |items| > 0 {
      var k := DeeperEnd(items, 1, items[0].level);
      var kids := Nest(items[1..k]);
      var rest := Nest(items[k..]);
      NestFlattens(items[1..k]);
      NestFlattens(items[k..]);
      FlattenJoin(items[0], kids, rest, items[1..k], items[k..]);
      SplitJoin(items, k);
    }
  }

  /** The first entry of the reference forest is the first heading. */
  lemma NestHead(items: seq<Heading>)
    ensures |Nest(items)| > 0 <==> |items| > 0
    ensures |items| > 0 ==> Nest(items)[0].heading == items[0]
  {
  }

  /** The top entries of the reference forest of deeper headings are
      deeper. */
  lemma {:induction false} NestRootsDeeper(items: seq<Heading>, level: nat)
    requires AllDeeper(items, level)
    ensures forall i :: 0 <= i < |Nest(items)| ==> Level(Nest(items)[i]) > level
    decreases |items|
  {
    if |items| > 0 {
      var k := DeeperEnd(items, 1, items[0].level);
      assert AllDeeper(items[k..], level) by {
        forall j | 0 <= j < |items[k..]| ensures items[k..][j].level > level {
          assert items[k..][j] == items[k + j];
        }
      }
      NestRootsDeeper(items[k..], level);
      var f := Nest(items);
      forall i | 0 <= i < |f| ensures Level(f[i]) > level {
        if i > 0 {
          assert f[i] == Nest(items[k..])[i - 1];
        }
      }
    }
  }

  /** The reference forest is properly nested. */
  lemma {:induction false} NestWellNested(items: seq<Heading>)
    ensures WellNested(Nest(items))
    decreases |items|
  {
    if |items| > 0 {
      var k := DeeperEnd(items, 1, items[0].level);
      var kids := Nest(items[1..k]);
      var rest := Nest(items[k..]);
      NestWellNested(items[1..k]);
      NestWellNested(items[k..]);
      assert AllDeeper(items[1..k], items[0].level) by {
        forall j | 0 <= j < |items[1..k]| ensures items[1..k][j].level > items[0].level {
          assert items[1..k][j] == items[1 + j];
        }
      }
      NestRootsDeeper(items[1..k], items[0].level);
      assert TreeNested(Toc(items[0], kids));
      NestHead(items[k..]);
      if k < |items| {
        assert items[k..][0] == items[k];
      }
      WellNestedCons(Toc(items[0], kids), rest);
    }
  }

  /** A heading followed by a deeper one gets it as its child, whatever
      the gap in levels (h2 then h4 nests); followed by one of its own
      level or shallower, they are siblings. */
  lemma NestPair(a: Heading, b: Heading)
    ensures a.level < b.level ==> Nest([a, b]) == [Toc(a, [Toc(b, [])])]
    ensures a.level >= b.level ==> Nest([a, b]) == [Toc(a, []), Toc(b, [])]
  {
    var items := [a, b];
    assert items[1..][1..] == [];
    if a.level < b.level {
      assert DeeperEnd(items, 1, a.level) == 2;
      assert Nest(items[1..2]) == [Toc(b, [])];
      assert items[2..] == [];
    } else {
      assert DeeperEnd(items, 1, a.level) == 1;
      assert items[1..1] == [];
      assert items[1..] == [b];
      assert Nest([b]) == [Toc(b, [])];
    }
  }
}

=== FILE: toss_analysis.dfy ===
/** The pure parts of the script that analyses the Toss article corpus:
    pulling the article URLs out of the corpus list, the per-article
    keyword frequencies and top keywords, the category hit counts, and the
    integer fields of the summary. Fetching and parsing the articles is not
    part of this model. */
module TossAnalysis {
  import opened Wrappers
  import opened Seqs
  import opened Strings
  import opened Sorting

  // ---------------------------------------------------------------------
  // Article URLs

  const ArticlePrefix: string := "https://toss.tech/article/"

  /** The class `[A-Za-z0-9_-]`. */
  predicate IsIdChar(c: char) {
    'A' <= c <= 'Z' || 'a' <= c <= 'z' || '0' <= c <= '9' || c == '_' || c == '-'
  }

  /** Length of the run of identifier characters starting at `k`. */
  function IdRun(md: string, k: nat): (n: nat)
    requires k <= |md|
    ensures k + n <= |md|
    ensures forall j :: k <= j < k + n ==> IsIdChar(md[j])
    ensures k + n == |md| || !IsIdChar(md[k + n])
    decreases |md| - k
  {
    if k == |md| || !IsIdChar(md[k]) then 0 else 1 + IdRun(md, k + 1)
  }

  /** An article URL: the prefix and a non-empty identifier. */
  predicate IsArticleUrl(u: string) {
    && |u| > |ArticlePrefix| && u[..|ArticlePrefix|] == ArticlePrefix
    && forall j :: |ArticlePrefix| <= j < |u| ==> IsIdChar(u[j])
  }

  /** The pattern `https://toss\.tech/article/[A-Za-z0-9_-]+` at `i`: the
      prefix and the whole run of identifier characters after it. */
  function UrlAt(md: string, i: nat): (r: Option<string>)
    requires i <= |md|
    ensures r.Some? ==> IsArticleUrl(r.value) && OccursAt(md, r.value, i)
    ensures r.Some? ==> i + |r.value| == |md| || !IsIdChar(md[i + |r.value|])
  {
    if !OccursAt(md, ArticlePrefix, i) then None
    else
      var n := IdRun(md, i + |ArticlePrefix|);
      if n == 0 then None
      else
        var u := md[i..i + |ArticlePrefix| + n];
        assert u[..|ArticlePrefix|] == md[i..i + |ArticlePrefix|];
        Some(u)
  }

  /** `re.findall` of the pattern from `i`: the non-overlapping matches
      left to right. */
  function FindUrls(md: string, i: nat): (r: seq<string>)
    requires i <= |md|
    ensures forall j :: 0 <= j < |r| ==> IsArticleUrl(r[j]) && Contains(md, r[j])
    decreases |md| - i
  {
    if i == |md| then []
    else
      match UrlAt(md, i)
      case None => FindUrls(md, i + 1)
      case Some(u) =>
        var rest := FindUrls(md, i + |u|);
        assert forall j :: 1 <= j < |rest| + 1 ==> ([u] + rest)[j] == rest[j - 1];
        [u] + rest
  }

  /** A URL starts at `k` on its own: at the start of the text or after a
      character that cannot belong to an earlier URL. */
  predicate IsBoundary(md: string, k: int) {
    0 <= k <= |md| && (k == 0 || (!IsIdChar(md[k - 1]) && md[k - 1] != '/'))
  }

  /** The shape of the prefix that rules out a second match inside a
      first one: `h` only at offsets 0 and 16, and `/` after offset 16
      where `t` follows offset 0. */
  predicate SelfAvoiding(p: string) {
    && |p| > 17 && p[0] == 'h' && p[1] == 't' && p[16] == 'h' && p[17] == '/'
    && forall j :: 1 <= j < |p| && j != 16 ==> p[j] != 'h'
  }

  lemma PrefixLetters()
    ensures SelfAvoiding(ArticlePrefix)
  {
    var p := ArticlePrefix;
    assert p == "https://toss.tec" + "h/article/";
    assert forall j :: 1 <= j < 16 ==> p[j] == "https://toss.tec"[j];
    assert forall j :: 17 <= j < |p| ==> p[j] == "h/article/"[j - 16];
  }

  /** A self-avoiding pattern cannot occur again before its first
      occurrence ends. */
  lemma NoSelfOverlap(md: string, p: string, i: int, k: int)
    requires SelfAvoiding(p) && OccursAt(md, p, i) && i < k < i + |p|
    ensures !OccursAt(md, p, k)
  {
    var d := k - i;
    assert md[k] == md[i..i + |p|][d] == p[d];
    if d == 16 {
      assert md[k + 1] == md[i..i + |p|][d + 1] == p[d + 1];
    }
    if k + |p| <= |md| {
      assert md[k..k + |p|][0] == md[k] && md[k..k + |p|][1] == md[k + 1];
    }
  }

  /** A URL found at `i` hides no boundary-led URL inside it. */
  lemma NoUrlInside(md: string, i: nat, k: nat)
    requires i <= |md| && UrlAt(md, i).Some?
    requires i < k < i + |UrlAt(md, i).value|
    ensures !(IsBoundary(md, k) && OccursAt(md, ArticlePrefix, k))
  {
    var u := UrlAt(md, i).value;
    var p := ArticlePrefix;
    var n := |p|;
    assert OccursAt(md, p, i) && IsArticleUrl(u) && OccursAt(md, u, i);
    if k < i + n {
      PrefixLetters();
      NoSelfOverlap(md, p, i, k);
    } else if k == i + n {
      assert md[k - 1] == md[i..i + n][n - 1] == p[n - 1];
    } else {
      assert md[k - 1] == md[i..i + |u|][k - 1 - i] == u[k - 1 - i];
    }
  }

  /** Every article URL that starts on a boundary at or after `i` is
      found. */
  lemma {:induction false} FindUrlsComplete(md: string, i: nat, k: nat)
    requires i <= k <= |md| && IsBoundary(md, k) && UrlAt(md, k).Some?
    ensures UrlAt(md, k).value in FindUrls(md, i)
    decreases |md| - i
  {
    if i < k {
      match UrlAt(md, i)
      case None =>
        FindUrlsComplete(md, i + 1, k);
      case Some(u) =>
        if k < i + |u| {
          NoUrlInside(md, i, k);
          assert false;
        } else {
          FindUrlsComplete(md, i + |u|, k);
        }
    }
  }

  /** `extract_urls`: the distinct matches, sorted. */
  function ExtractUrls(md: string): (r: seq<string>)
    ensures Distinct(r) && SortedBy(r, StrLe)
    ensures forall j :: 0 <= j < |r| ==> IsArticleUrl(r[j]) && Contains(md, r[j])
  {
    var found := Dedup(FindUrls(md, 0));
    StrLeTotalOrder();
    SortBySorted(found, StrLe);
    var r := SortBy(found, StrLe);
    DistinctPermutation(found, r);
    assert forall j :: 0 <= j < |r| ==> r[j] in multiset(found);
    r
  }

  /** Every article URL standing on its own in the text is listed. */
  lemma ExtractUrlsComplete(md: string, k: nat)
    requires k <= |md| && IsBoundary(md, k) && UrlAt(md, k).Some?
    ensures UrlAt(md, k).value in ExtractUrls(md)
  {
    FindUrlsComplete(md, 0, k);
    var found := Dedup(FindUrls(md, 0));
    assert UrlAt(md, k).value in multiset(found);
  }

  /** Where `re.findall` tries next after position `i`: just past the
      match at `i`, or one character on when there is none. */
  function NextTry(md: string, i: nat): (j: nat)
    requires i < |md|
    ensures i < j <= |md|
    ensures UrlAt(md, i).None? <==> j == i + 1
  {
    match UrlAt(md, i)
    case None => i + 1
    case Some(u) => i + |u|
  }

  /** The scan that starts at `i` tries a match at `k`. */
  ghost predicate Tries(md: string, i: nat, k: nat)
    requires i <= |md|
    decreases |md| - i
  {
    i == k || (i < k && i < |md| && Tries(md, NextTry(md, i), k))
  }

  /** No match the scan from `i` makes before `k` extends past `k`. */
  ghost predicate Uncovered(md: string, i: nat, k: nat)
    requires i <= |md|
  {
    forall m: nat :: i <= m < k && m <= |md| && Tries(md, i, m) && UrlAt(md, m).Some? ==>
      m + |UrlAt(md, m).value| <= k
  }

  /** The scan only moves forward. */
  lemma {:induction false} TriesForward(md: string, i: nat, k: nat)
    requires i <= |md| && Tries(md, i, k)
    ensures i <= k <= |md|
    decreases |md| - i
  {
    if i != k {
      TriesForward(md, NextTry(md, i), k);
    }
  }

  /** The scan tries exactly the positions that no earlier match covers. */
  lemma {:induction false} TriesIffUncovered(md: string, i: nat, k: nat)
    requires i <= k <= |md|
    ensures Tries(md, i, k) <==> Uncovered(md, i, k)
    decreases |md| - i
  {
    if i < k {
      var j := NextTry(md, i);
      assert Tries(md, i, i);
      if k < j {
        assert !Tries(md, j, k);
        assert !Uncovered(md, i, k);
      } else {
        TriesIffUncovered(md, j, k);
        if Uncovered(md, i, k) {
          forall m: nat | j <= m < k && m <= |md| && Tries(md, j, m) && UrlAt(md, m).Some?
            ensures m + |UrlAt(md, m).value| <= k
          {
            assert Tries(md, i, m);
          }
        }
        if Uncovered(md, j, k) {
          forall m: nat | i <= m < k && m <= |md| && Tries(md, i, m) && UrlAt(md, m).Some?
            ensures m + |UrlAt(md, m).value| <= k
          {
            if m != i {
              TriesForward(md, j, m);
            }
          }
        }
      }
    }
  }

  /** `re.findall` reports exactly the matches at the positions the scan
      tries. */
  lemma {:induction false} FindUrlsTried(md: string, i: nat, u: string)
    requires i <= |md|
    ensures u in FindUrls(md, i) <==>
              exists k: nat :: i <= k <= |md| && Tries(md, i, k) && UrlAt(md, k) == Some(u)
    decreases |md| - i
  {
    if i == |md| {
      assert UrlAt(md, i).None?;
    } else {
      var j := NextTry(md, i);
      FindUrlsTried(md, j, u);
      assert Tries(md, i, i);
      if exists k: nat :: i <= k <= |md| && Tries(md, i, k) && UrlAt(md, k) == Some(u) {
        var k: nat :| i <= k <= |md| && Tries(md, i, k) && UrlAt(md, k) == Some(u);
        if k != i {
          TriesForward(md, j, k);
        }
      }
    }
  }

  /** `extract_urls` keeps every match and adds none. */
  lemma ExtractUrlsMembers(md: string, u: string)
    ensures u in ExtractUrls(md) <==> u in FindUrls(md, 0)
  {
    var found := Dedup(FindUrls(md, 0));
    assert multiset(ExtractUrls(md)) == multiset(SortBy(found, StrLe)) == multiset(found);
    assert u in ExtractUrls(md) <==> u in multiset(found);
  }

  /** `extract_urls` lists exactly the URLs matched at a position that no
      earlier match of the scan covers. */
  lemma ExtractUrlsExactly(md: string, u: string)
    ensures u in ExtractUrls(md) <==>
              exists k: nat :: k <= |md| && Uncovered(md, 0, k) && UrlAt(md, k) == Some(u)
  {
    ExtractUrlsMembers(md, u);
    FindUrlsTried(md, 0, u);
    forall k: nat | k <= |md|
      ensures Tries(md, 0, k) <==> Uncovered(md, 0, k)
    {
      TriesIffUncovered(md, 0, k);
    }
  }

  /** A URL that starts right after a character which is neither an
      identifier character nor `/` is found: `x` before the prefix. */
  lemma LetterBeforeUrl()
    ensures ArticlePrefix + "a" in ExtractUrls("x" + ArticlePrefix + "a")
  {
    var md := "x" + ArticlePrefix + "a";
    var u := ArticlePrefix + "a";
    assert md[1..1 + |ArticlePrefix|] == ArticlePrefix;
    assert IdRun(md, |md|) == 0;
    assert IdRun(md, 1 + |ArticlePrefix|) == 1;
    assert md[1..1 + |ArticlePrefix| + 1] == u;
    assert UrlAt(md, 0).None?;
    assert UrlAt(md, 1) == Some(u);
    assert Tries(md, 0, 0);
    ExtractUrlsExactly(md, u);
  }

  /** A run of `n` identifier characters followed by the end or by another
      character is the run `IdRun` measures. */
  lemma {:induction false} IdRunExact(md: string, k: nat, n: nat)
    requires k + n <= |md|
    requires forall j :: k <= j < k + n ==> IsIdChar(md[j])
    requires k + n == |md| || !IsIdChar(md[k + n])
    ensures IdRun(md, k) == n
    decreases n
  {
    if n > 0 {
      IdRunExact(md, k + 1, n - 1);
    }
  }

  /** The prefix followed by a whole identifier is matched as one URL. */
  lemma UrlAtPrefixed(id: string, rest: string)
    requires |id| > 0 && forall j :: 0 <= j < |id| ==> IsIdChar(id[j])
    requires |rest| == 0 || !IsIdChar(rest[0])
    ensures UrlAt(ArticlePrefix + id + rest, 0) == Some(ArticlePrefix + id)
  {
    var md := ArticlePrefix + id + rest;
    var p := ArticlePrefix;
    assert md[..|p|] == p;
    assert forall j :: 0 <= j < |id| ==> md[|p| + j] == id[j];
    if |rest| > 0 {
      assert md[|p| + |id|] == rest[0];
    }
    IdRunExact(md, |p|, |id|);
    assert md[0..|p| + |id|] == p + id;
  }

  /** A URL glued to the end of another is not found: the identifier run
      of the first swallows `https` of the second and stops at `:`. */
  lemma GluedUrlMissed()
    ensures ExtractUrls(ArticlePrefix + "ahttps" + "://toss.tech/article/b") == [ArticlePrefix + "ahttps"]
  {
    var md := ArticlePrefix + "ahttps" + "://toss.tech/article/b";
    var u := ArticlePrefix + "ahttps";
    UrlAtPrefixed("ahttps", "://toss.tech/article/b");
    FindUrlsNone(md, |u|);
    assert FindUrls(md, 0) == [u];
    assert Dedup([u]) == DedupByFrom([u], Identity, {}) == [u] + DedupByFrom([], Identity, {Identity(u)});
    assert SortBy([u], StrLe) == Insert(u, [], StrLe);
  }

  /** No match starts in the last characters of `md` from `i` on when the
      remaining text is shorter than the prefix. */
  lemma {:induction false} FindUrlsNone(md: string, i: nat)
    requires i <= |md| && |md| - i < |ArticlePrefix|
    ensures FindUrls(md, i) == []
    decreases |md| - i
  {
    if i < |md| {
      assert UrlAt(md, i).None?;
      FindUrlsNone(md, i + 1);
    }
  }

  // ---------------------------------------------------------------------
  // Keyword frequencies

  /** A key: at least three characters, none of them an ASCII capital. */
  predicate IsKey(k: string) {
    |k| >= 3 && forall j :: 0 <= j < |k| ==> !IsAsciiUpper(k[j])
  }

  /** The lower-cased tokens of length at least 3, in order: the keys the
      frequency loop counts. */
  function Keys(words: seq<string>): (r: seq<string>)
    ensures forall i :: 0 <= i < |r| ==> IsKey(r[i])
  {
    if |words| == 0 then []
    else
      var k := ToLower(words[|words| - 1]);
      Keys(words[..|words| - 1]) + (if |k| >= 3 then [k] else [])
  }

  /** Some token lower-cases to `k`. */
  ghost predicate IsTokenOf(words: seq<string>, k: string) {
    exists i :: 0 <= i < |words| && ToLower(words[i]) == k
  }

  /** One more token adds its key when that is at least three long. */
  lemma KeysSnoc(words: seq<string>, i: nat)
    requires i < |words|
    ensures Keys(words[..i + 1]) == Keys(words[..i]) + (if |ToLower(words[i])| >= 3 then [ToLower(words[i])] else [])
  {
    assert words[..i + 1][..i] == words[..i];
  }

  /** A key is exactly the lower-cased form of some token, when that is at
      least three characters long. */
  lemma {:induction false} KeysMembership(words: seq<string>, k: string)
    ensures k in Keys(words) <==> |k| >= 3 && IsTokenOf(words, k)
  {
    if |words| > 0 {
      var n := |words| - 1;
      var init := words[..n];
      KeysMembership(init, k);
      assert words[..n + 1] == words;
      KeysSnoc(words, n);
      if IsTokenOf(init, k) {
        var i :| 0 <= i < |init| && ToLower(init[i]) == k;
        assert words[i] == init[i];
      }
      if IsTokenOf(words, k) {
        var i :| 0 <= i < |words| && ToLower(words[i]) == k;
        if i < n {
          assert init[i] == words[i];
        }
      }
    }
  }

  /** `order` and `freq` are the dictionary the counting loop builds from
      `keys`. */
  ghost predicate FreqOf(keys: seq<string>, order: seq<string>, freq: map<string, nat>) {
    && order == Dedup(keys)
    && (forall k :: k in freq <==> k in keys)
    && (forall k :: k in freq ==> freq[k] == Count(keys, k))
  }

  /** One loop step on a new key. */
  lemma FreqAdd(keys: seq<string>, order: seq<string>, freq: map<string, nat>, key: string)
    requires FreqOf(keys, order, freq) && key !in freq
    ensures FreqOf(keys + [key], order + [key], freq[key := 1])
  {
    DedupSnoc(keys, key);
    CountSnocAll(keys, key);
  }

  /** One loop step on a key already counted. */
  lemma FreqBump(keys: seq<string>, order: seq<string>, freq: map<string, nat>, key: string)
    requires FreqOf(keys, order, freq) && key in freq
    ensures FreqOf(keys + [key], order, freq[key := freq[key] + 1])
  {
    DedupSnoc(keys, key);
    CountSnocAll(keys, key);
  }

  lemma CountSnocAll(s: seq<string>, x: string)
    ensures forall k :: Count(s + [x], k) == Count(s, k) + (if x == k then 1 else 0)
  {
    assert multiset(s + [x]) == multiset(s) + multiset{x};
  }

  /** The counting loop: `order` is the insertion order of the dictionary
      (first occurrences) and `freq` the number of occurrences of each key. */
  method TokenFrequencies(words: seq<string>) returns (order: seq<string>, freq: map<string, nat>)
    ensures order == Dedup(Keys(words))
    ensures forall k :: k in freq <==> k in Keys(words)
    ensures forall k :: k in freq ==> freq[k] == Count(Keys(words), k)
  {
    order := [];
    freq := map[];
    for i := 0 to |words|
      invariant FreqOf(Keys(words[..i]), order, freq)
    {
      var key := ToLower(words[i]);
      KeysSnoc(words, i);
      if |key| >= 3 {
        if key in freq {
          FreqBump(Keys(words[..i]), order, freq, key);
          freq := freq[key := freq[key] + 1];
        } else {
          FreqAdd(Keys(words[..i]), order, freq, key);
          order := order + [key];
          freq := freq[key := 1];
        }
      } else {
        assert Keys(words[..i]) + [] == Keys(words[..i]);
      }
    }
    assert words[..|words|] == words;
  }

  /** A dictionary item: a key and its frequency. */
  type Item = (string, nat)

  /** `sorted(..., key=count, reverse=True)`: higher counts first. */
  predicate ByCountDesc(a: Item, b: Item) {
    b.1 <= a.1
  }

  lemma ByCountDescTotalPreorder()
    ensures TotalPreorder(ByCountDesc)
  {
  }

  const TopCount: nat := 12

  /** The twelve most frequent items: the stable sort by descending count,
      cut at `TopCount`. */
  function TopItems(items: seq<Item>): (r: seq<Item>)
    ensures |r| == Min(TopCount, |items|)
    ensures SortedBy(r, ByCountDesc)
    ensures forall i :: 0 <= i < |r| ==> r[i] in items
  {
    ByCountDescTotalPreorder();
    SortBySorted(items, ByCountDesc);
    var sorted := SortBy(items, ByCountDesc);
    var r := sorted[..Min(TopCount, |sorted|)];
    assert forall i :: 0 <= i < |r| ==> r[i] in multiset(sorted);
    r
  }

  /** An item left out has a count no higher than any item kept, and
      items are only left out once `TopCount` are kept. */
  lemma TopItemsComplete(items: seq<Item>, x: Item)
    requires x in items && x !in TopItems(items)
    ensures |TopItems(items)| == TopCount
    ensures forall i :: 0 <= i < |TopItems(items)| ==> x.1 <= TopItems(items)[i].1
  {
    ByCountDescTotalPreorder();
    SortBySorted(items, ByCountDesc);
    var sorted := SortBy(items, ByCountDesc);
    var m := Min(TopCount, |sorted|);
    assert x in multiset(sorted);
    TakeDrop(sorted, m);
    assert x in sorted[m..];
    var j :| m <= j < |sorted| && sorted[j] == x;
    forall i | 0 <= i < m ensures x.1 <= sorted[i].1 {
      assert ByCountDesc(sorted[i], sorted[j]);
    }
  }

  /** Items with count `c`. */
  function HasCount(c: nat): Item -> bool {
    (x: Item) => x.1 == c
  }

  /** Ties keep dictionary order: the kept items of any one count are the
      first items of that count in `items`. */
  lemma TopItemsTies(items: seq<Item>, c: nat)
    ensures var kept := Filter(TopItems(items), HasCount(c));
      var all := Filter(items, HasCount(c));
      |kept| <= |all| && kept == all[..|kept|]
  {
    ByCountDescTotalPreorder();
    var sorted := SortBy(items, ByCountDesc);
    var m := Min(TopCount, |sorted|);
    assert TopItems(items) == sorted[..m];
    SortByCountStable(items, c);
    FilterTakePrefix(sorted, m, HasCount(c));
  }

  /** Sorting by descending count keeps the items of each count in their
      original order. */
  lemma SortByCountStable(items: seq<Item>, c: nat)
    ensures Filter(SortBy(items, ByCountDesc), HasCount(c)) == Filter(items, HasCount(c))
  {
    ByCountDescTotalPreorder();
    var x: Item := ("", c);
    SortByStableClass(items, ByCountDesc, x, HasCount(c));
  }

  /** Filtering a prefix gives a prefix of the filtered sequence. */
  lemma FilterTakePrefix<T>(s: seq<T>, m: nat, p: T -> bool)
    requires m <= |s|
    ensures |Filter(s[..m], p)| <= |Filter(s, p)|
    ensures Filter(s[..m], p) == Filter(s, p)[..|Filter(s[..m], p)|]
  {
    TakeDrop(s, m);
    FilterConcat(s[..m], s[m..], p);
  }

  /** The keys of the kept items. */
  function TopKeywords(items: seq<Item>): (r: seq<string>)
    ensures |r| <= TopCount
    ensures forall i :: 0 <= i < |r| ==> exists j :: 0 <= j < |items| && items[j].0 == r[i]
  {
    var top := TopItems(items);
    seq(|top|, i requires 0 <= i < |top| => top[i].0)
  }

  /** The dictionary's items in insertion order. */
  function ItemsOf(order: seq<string>, freq: map<string, nat>): (r: seq<Item>)
    requires forall k :: k in order ==> k in freq
    ensures |r| == |order|
    ensures forall i :: 0 <= i < |r| ==> r[i] == (order[i], freq[order[i]])
  {
    seq(|order|, i requires 0 <= i < |order| => (order[i], freq[order[i]]))
  }

  /** Every kept item is a key with its number of occurrences. */
  lemma TopSound(keys: seq<string>, order: seq<string>, freq: map<string, nat>)
    requires FreqOf(keys, order, freq)
    ensures forall k :: k in order ==> k in freq
    ensures var t := TopItems(ItemsOf(order, freq));
      forall i :: 0 <= i < |t| ==> t[i].0 in keys && t[i].1 == Count(keys, t[i].0)
  {
    assert forall k :: k in order ==> k in keys;
    var items := ItemsOf(order, freq);
    var t := TopItems(items);
    forall i | 0 <= i < |t| ensures t[i].0 in keys && t[i].1 == Count(keys, t[i].0) {
      var j :| 0 <= j < |items| && items[j] == t[i];
      assert order[j] in keys;
    }
  }

  /** A key that is not kept counts no more than any kept one, and only
      once twelve are kept. */
  lemma TopMissing(keys: seq<string>, order: seq<string>, freq: map<string, nat>, k: string)
    requires FreqOf(keys, order, freq) && k in keys
    requires forall k' :: k' in order ==> k' in freq
    requires var t := TopItems(ItemsOf(order, freq)); forall i :: 0 <= i < |t| ==> t[i].0 != k
    ensures var t := TopItems(ItemsOf(order, freq));
      |t| == TopCount && forall i :: 0 <= i < |t| ==> Count(keys, k) <= t[i].1
  {
    var items := ItemsOf(order, freq);
    var t := TopItems(items);
    assert k in order;
    var j :| 0 <= j < |order| && order[j] == k;
    assert items[j] == (k, Count(keys, k));
    assert items[j] !in t by {
      forall i | 0 <= i < |t| ensures t[i] != items[j] {
        assert t[i].0 != k;
      }
    }
    TopItemsComplete(items, items[j]);
  }

  /** What the kept keys of a counted dictionary satisfy: keys of the
      input, distinct, most frequent first, and no key left out that is
      more frequent than one kept. */
  ghost predicate TopKeysOf(keys: seq<string>, top: seq<string>) {
    && |top| <= TopCount
    && (forall i :: 0 <= i < |top| ==> top[i] in keys)
    && Distinct(top)
    && (forall i, j :: 0 <= i < j < |top| ==> Count(keys, top[i]) >= Count(keys, top[j]))
    && (forall k :: k in keys && k !in top ==>
          |top| == TopCount && forall i :: 0 <= i < |top| ==> Count(keys, k) <= Count(keys, top[i]))
  }

  /** The kept items' keys, in order. */
  lemma TopKeys(order: seq<string>, freq: map<string, nat>, top: seq<string>)
    requires forall k :: k in order ==> k in freq
    requires top == TopKeywords(ItemsOf(order, freq))
    ensures var t := TopItems(ItemsOf(order, freq));
      |top| == |t| && forall i :: 0 <= i < |top| ==> top[i] == t[i].0
  {
  }

  lemma TopKeysDistinct(order: seq<string>, freq: map<string, nat>, top: seq<string>)
    requires Distinct(order) && forall k :: k in order ==> k in freq
    requires top == TopKeywords(ItemsOf(order, freq))
    ensures Distinct(top)
  {
    var items := ItemsOf(order, freq);
    var t := TopItems(items);
    TopKeys(order, freq, top);
    forall i, j | 0 <= i < j < |top| ensures top[i] != top[j] {
      TopItemsDistinct(order, freq, items, t, i, j);
    }
  }

  lemma TopKeysOrdered(keys: seq<string>, order: seq<string>, freq: map<string, nat>, top: seq<string>)
    requires FreqOf(keys, order, freq) && forall k :: k in order ==> k in freq
    requires top == TopKeywords(ItemsOf(order, freq))
    requires var t := TopItems(ItemsOf(order, freq));
      forall i :: 0 <= i < |t| ==> t[i].0 in keys && t[i].1 == Count(keys, t[i].0)
    ensures forall i, j :: 0 <= i < j < |top| ==> Count(keys, top[i]) >= Count(keys, top[j])
  {
    var t := TopItems(ItemsOf(order, freq));
    TopKeys(order, freq, top);
    forall i, j | 0 <= i < j < |top| ensures Count(keys, top[i]) >= Count(keys, top[j]) {
      assert ByCountDesc(t[i], t[j]);
    }
  }

  lemma TopKeysComplete(keys: seq<string>, order: seq<string>, freq: map<string, nat>, top: seq<string>)
    requires FreqOf(keys, order, freq) && forall k :: k in order ==> k in freq
    requires top == TopKeywords(ItemsOf(order, freq))
    requires var t := TopItems(ItemsOf(order, freq));
      forall i :: 0 <= i < |t| ==> t[i].0 in keys && t[i].1 == Count(keys, t[i].0)
    ensures forall k :: k in keys && k !in top ==>
              |top| == TopCount && forall i :: 0 <= i < |top| ==> Count(keys, k) <= Count(keys, top[i])
  {
    forall k | k in keys && k !in top
      ensures |top| == TopCount && forall i :: 0 <= i < |top| ==> Count(keys, k) <= Count(keys, top[i])
    {
      TopKeyMissing(keys, order, freq, top, k);
    }
  }

  /** One key left out of the kept keys. */
  lemma TopKeyMissing(keys: seq<string>, order: seq<string>, freq: map<string, nat>, top: seq<string>, k: string)
    requires FreqOf(keys, order, freq) && forall k :: k in order ==> k in freq
    requires top == TopKeywords(ItemsOf(order, freq))
    requires var t := TopItems(ItemsOf(order, freq));
      forall i :: 0 <= i < |t| ==> t[i].0 in keys && t[i].1 == Count(keys, t[i].0)
    requires k in keys && k !in top
    ensures |top| == TopCount && forall i :: 0 <= i < |top| ==> Count(keys, k) <= Count(keys, top[i])
  {
    var t := TopItems(ItemsOf(order, freq));
    TopKeys(order, freq, top);
    forall i | 0 <= i < |t| ensures t[i].0 != k {
      assert top[i] in top;
    }
    TopMissing(keys, order, freq, k);
  }

  /** The kept keys of the dictionary the counting loop builds. */
  lemma TopKeysSound(keys: seq<string>, order: seq<string>, freq: map<string, nat>, top: seq<string>)
    requires FreqOf(keys, order, freq) && forall k :: k in order ==> k in freq
    requires top == TopKeywords(ItemsOf(order, freq))
    ensures TopKeysOf(keys, top)
  {
    TopSound(keys, order, freq);
    var t := TopItems(ItemsOf(order, freq));
    TopKeys(order, freq, top);
    assert forall i :: 0 <= i < |top| ==> top[i] in keys;
    TopKeysDistinct(order, freq, top);
    TopKeysOrdered(keys, order, freq, top);
    TopKeysComplete(keys, order, freq, top);
  }

  /** `top_keywords` of one article from its tokens: at most twelve
      distinct lower-cased keys of at least three characters, most
      frequent first, and no key left out that is more frequent than one
      listed. */
  method TopKeywordsOf(words: seq<string>) returns (top: seq<string>)
    ensures forall i :: 0 <= i < |top| ==> IsKey(top[i])
    ensures TopKeysOf(Keys(words), top)
  {
    var order, freq := TokenFrequencies(words);
    var keys := Keys(words);
    TopSound(keys, order, freq);
    top := TopKeywords(ItemsOf(order, freq));
    TopKeysSound(keys, order, freq, top);
    AllKeys(keys, top);
  }

  lemma AllKeys(keys: seq<string>, top: seq<string>)
    requires forall i :: 0 <= i < |keys| ==> IsKey(keys[i])
    requires forall i :: 0 <= i < |top| ==> top[i] in keys
    ensures forall i :: 0 <= i < |top| ==> IsKey(top[i])
  {
    forall i | 0 <= i < |top| ensures IsKey(top[i]) {
      var j :| 0 <= j < |keys| && keys[j] == top[i];
    }
  }

  /** Kept items have distinct keys: the keys of the dictionary are
      distinct and every kept item is one of its items. */
  lemma TopItemsDistinct(order: seq<string>, freq: map<string, nat>, items: seq<Item>, t: seq<Item>, i: int, j: int)
    requires Distinct(order) && forall k :: k in order ==> k in freq
    requires items == ItemsOf(order, freq) && t == TopItems(items)
    requires 0 <= i < j < |t|
    ensures t[i].0 != t[j].0
  {
    ByCountDescTotalPreorder();
    var sorted := SortBy(items, ByCountDesc);
    assert t == sorted[..|t|];
    assert t[i] == sorted[i] && t[j] == sorted[j];
    assert forall a, b :: 0 <= a < b < |items| ==> items[a].0 != items[b].0;
    assert DistinctBy(items, ItemKey);
    DistinctByPermutation(items, sorted, ItemKey);
    assert ItemKey(sorted[i]) != ItemKey(sorted[j]);
  }

  function ItemKey(x: Item): string {
    x.0
  }

  // ---------------------------------------------------------------------
  // Category scores and the summary

  const Categories: seq<string> := ["uiux", "frontend", "design_system", "quality"]

  /** The keyword lists of the four categories, in the same order. */
  const CategoryKeywords: seq<seq<string>> := [
    ["ux", "ui", "사용자", "인터랙션", "리서치", "문구", "에러", "리옵스", "디자인", "접근성"],
    ["frontend", "프론트엔드", "react", "react native", "web", "배포", "테스트", "eslint", "sdk", "코드 리뷰"],
    ["design system", "디자인 시스템", "token", "토큰", "tds", "컬러 시스템", "컴포넌트", "component"],
    ["품질", "테스트", "qa", "e2e", "안정화", "신뢰성", "회귀", "로깅", "모니터링"]
  ]

  /** The names listed in `names`. */
  function NameSet(names: seq<string>): set<string> {
    set i | 0 <= i < |names| :: names[i]
  }

  function CategorySet(): set<string> {
    NameSet(Categories)
  }

  /** Every name scored by its keyword list: the number of keywords that
      occur in the text, which is 0 exactly when none does. */
  function ScoresOf(names: seq<string>, lists: seq<seq<string>>, lowered: string): (r: map<string, int>)
    requires |names| == |lists| && Distinct(names)
    ensures r.Keys == NameSet(names)
    ensures forall i :: 0 <= i < |names| ==>
              r[names[i]] == |Filter(lists[i], kw => Contains(lowered, kw))|
    ensures forall i :: 0 <= i < |names| ==>
              (r[names[i]] == 0 <==> forall j :: 0 <= j < |lists[i]| ==> !Contains(lowered, lists[i][j]))
  {
    assert forall i :: 0 <= i < |names| ==>
      KeywordHits(lowered, lists[i]) == |Filter(lists[i], kw => Contains(lowered, kw))| by {
      forall i | 0 <= i < |names| {
        KeywordHitsCountsMatches(lowered, lists[i]);
      }
    }
    map i | 0 <= i < |names| :: names[i] := KeywordHits(lowered, lists[i])
  }

  lemma CategoriesDistinct()
    ensures |Categories| == |CategoryKeywords| && Distinct(Categories)
  {
  }

  /** `category_scores` of one article: every category, scored by how many
      of its keywords occur in the lower-cased text. */
  function CategoryScores(lowered: string): (r: map<string, int>)
    ensures r.Keys == CategorySet()
  {
    CategoriesDistinct();
    ScoresOf(Categories, CategoryKeywords, lowered)
  }

  /** Each category's score is the number of its keywords that occur in
      the text. */
  lemma CategoryScoresCount(lowered: string, i: int)
    requires 0 <= i < |Categories|
    ensures CategoryScores(lowered)[Categories[i]]
              == |Filter(CategoryKeywords[i], kw => Contains(lowered, kw))|
  {
    var names, lists := Categories, CategoryKeywords;
    CategoriesDistinct();
    assert ScoresOf(names, lists, lowered)[names[i]] == |Filter(lists[i], kw => Contains(lowered, kw))|;
  }

  /** One article of the dataset; only the fields the summary reads are
      constrained. */
  datatype Article = Article(url: string, title: string, wordCount: nat, categoryScores: map<string, int>,
                             topKeywords: seq<string>, excerpt: string)

  /** The integer fields of the summary. */
  datatype Summary = Summary(articleCount: nat, categoryTotals: map<string, int>, maxWordCount: nat, minWordCount: nat)

  function ScoreOf(a: Article, c: string): int {
    if c in a.categoryScores then a.categoryScores[c] else 0
  }

  /** Sum of the articles' scores for category `c`. */
  function TotalScore(articles: seq<Article>, c: string): int {
    if |articles| == 0 then 0
    else TotalScore(articles[..|articles| - 1], c) + ScoreOf(articles[|articles| - 1], c)
  }

  /** Totals add up over a split of the articles, so they do not depend on
      how the list is cut into batches. */
  lemma {:induction false} TotalScoreConcat(a: seq<Article>, b: seq<Article>, c: string)
    ensures TotalScore(a + b, c) == TotalScore(a, c) + TotalScore(b, c)
  {
    if |b| == 0 {
      assert a + b == a;
    } else {
      assert (a + b)[..|a + b| - 1] == a + b[..|b| - 1];
      TotalScoreConcat(a, b[..|b| - 1], c);
    }
  }

  /** Every article's categories lie in `cats`. */
  predicate KnownWithin(articles: seq<Article>, cats: set<string>) {
    forall i :: 0 <= i < |articles| ==> articles[i].categoryScores.Keys <= cats
  }

  /** Every article's categories are known ones. */
  predicate KnownCategories(articles: seq<Article>) {
    KnownWithin(articles, CategorySet())
  }

  /** The loop over the rows that adds every score to its category's
      total; `None` is the `KeyError` of a category outside `cats`. */
  method SumScores(articles: seq<Article>, cats: set<string>) returns (r: Option<map<string, int>>)
    ensures r.None? <==> !KnownWithin(articles, cats)
    ensures r.Some? ==> r.value.Keys == cats
    ensures r.Some? ==> forall c :: c in cats ==> r.value[c] == TotalScore(articles, c)
  {
    var totals: map<string, int> := map c | c in cats :: 0;
    for i := 0 to |articles|
      invariant totals.Keys == cats
      invariant forall c :: c in cats ==> totals[c] == TotalScore(articles[..i], c)
      invariant KnownWithin(articles[..i], cats)
    {
      var scores := articles[i].categoryScores;
      if !(scores.Keys <= cats) {
        assert !KnownWithin(articles, cats) by {
          assert articles[i].categoryScores.Keys == scores.Keys;
        }
        return None;
      }
      TakeSnoc(articles, i);
      var next := articles[..i + 1];
      assert next[..i] == articles[..i] && next[i] == articles[i];
      totals := map c | c in cats :: totals[c] + ScoreOf(articles[i], c);
    }
    assert articles[..|articles|] == articles;
    r := Some(totals);
  }

  /** `max` and `min` of the word counts, with `default=0`. */
  method WordCountRange(articles: seq<Article>) returns (mx: nat, mn: nat)
    ensures |articles| == 0 ==> mx == 0 && mn == 0
    ensures |articles| > 0 ==>
              (exists i :: 0 <= i < |articles| && articles[i].wordCount == mx)
              && (exists i :: 0 <= i < |articles| && articles[i].wordCount == mn)
              && forall i :: 0 <= i < |articles| ==> mn <= articles[i].wordCount <= mx
  {
    mx, mn := 0, 0;
    if |articles| > 0 {
      mx, mn := articles[0].wordCount, articles[0].wordCount;
      for i := 1 to |articles|
        invariant exists j :: 0 <= j < i && articles[j].wordCount == mx
        invariant exists j :: 0 <= j < i && articles[j].wordCount == mn
        invariant forall j :: 0 <= j < i ==> mn <= articles[j].wordCount <= mx
      {
        if articles[i].wordCount > mx {
          mx := articles[i].wordCount;
        }
        if articles[i].wordCount < mn {
          mn := articles[i].wordCount;
        }
      }
    }
  }

  /** `generate`'s summary: `None` is the `KeyError` an article with an
      unknown category raises; otherwise the count, the per-category
      totals with every category present, and the largest and smallest
      word counts (0 for no articles). */
  method Generate(articles: seq<Article>) returns (r: Option<Summary>)
    ensures r.None? <==> !KnownCategories(articles)
    ensures r.Some? ==> r.value.articleCount == |articles|
    ensures r.Some? ==> r.value.categoryTotals.Keys == CategorySet()
    ensures r.Some? ==> forall c :: c in CategorySet() ==> r.value.categoryTotals[c] == TotalScore(articles, c)
    ensures r.Some? && |articles| == 0 ==> r.value.maxWordCount == 0 && r.value.minWordCount == 0
    ensures r.Some? && |articles| > 0 ==>
              (exists i :: 0 <= i < |articles| && articles[i].wordCount == r.value.maxWordCount)
              && (exists i :: 0 <= i < |articles| && articles[i].wordCount == r.value.minWordCount)
              && forall i :: 0 <= i < |articles| ==>
                   r.value.minWordCount <= articles[i].wordCount <= r.value.maxWordCount
  {
    var cats := CategorySet();
    var totals := SumScores(articles, cats);
    if totals.None? {
      return None;
    }
    var mx, mn := WordCountRange(articles);
    r := Some(Summary(|articles|, totals.value, mx, mn));
  }
}

=== FILE: two_pointer.dfy ===
/** The array logic of the two-pointer visualizer: a sorted array, a target
    sum, and two pointers closing in from both ends. */
module TwoPointer {
  import opened Seqs

  /** `initializeArray`: the values 1 to 10. */
  function InitialArray(): (a: seq<int>)
    ensures |a| == 10 && StrictlyAscending(a)
    ensures forall i :: 0 <= i < 10 ==> a[i] == i + 1
  {
    [1, 2, 3, 4, 5, 6, 7, 8, 9, 10]
  }

  const DefaultTarget := 15

  datatype Outcome = Found(left: nat, right: nat, steps: nat) | NotFound(steps: nat)

  /** No pair outside `[left, right]` sums to the target. */
  predicate PairsWithin(arr: seq<int>, target: int, left: int, right: int) {
    forall i, j :: 0 <= i < j < |arr| && arr[i] + arr[j] == target ==> left <= i && j <= right
  }

  /** Moving the pointer whose element is too small (or too large) skips no
      pair. */
  lemma Advance(arr: seq<int>, target: int, left: int, right: int)
    requires Ascending(arr) && 0 <= left < right < |arr| && PairsWithin(arr, target, left, right)
    ensures arr[left] + arr[right] < target ==> PairsWithin(arr, target, left + 1, right)
    ensures arr[left] + arr[right] > target ==> PairsWithin(arr, target, left, right - 1)
  {
    forall i, j | 0 <= i < j < |arr| && arr[i] + arr[j] == target
      ensures arr[left] + arr[right] < target ==> left + 1 <= i
      ensures arr[left] + arr[right] > target ==> j <= right - 1
    {
      if i == left {
        assert arr[j] <= arr[right];
      }
      if j == right {
        assert arr[left] <= arr[i];
      }
    }
  }

  /** One move of `twoPointerSearch`: exactly one pointer steps inward. */
  predicate OneMove(p: (int, int), q: (int, int)) {
    q == (p.0 + 1, p.1) || q == (p.0, p.1 - 1)
  }

  /** `twoPointerSearch`. `probes` lists the `(left, right)` pair inspected
      at each step. Every probe has `left < right`, so the branch that
      marks both pointers on one cell never runs; each step moves one
      pointer by one, so a failing search takes exactly `n - 1` steps; and
      on a sorted array a pair summing to the target is always found. */
  method Search(arr: seq<int>, target: int) returns (r: Outcome, probes: seq<(int, int)>)
    ensures |probes| == r.steps <= if |arr| == 0 then 0 else |arr| - 1
    ensures forall k :: 0 <= k < |probes| ==> 0 <= probes[k].0 < probes[k].1 < |arr|
    ensures |probes| > 0 ==> probes[0] == (0, |arr| - 1)
    ensures forall k :: 0 < k < |probes| ==> OneMove(probes[k - 1], probes[k])
    ensures r.Found? ==> r.left < r.right < |arr| && arr[r.left] + arr[r.right] == target
    ensures r.Found? ==> |probes| > 0 && probes[|probes| - 1] == (r.left, r.right)
    ensures r.NotFound? ==> r.steps == if |arr| == 0 then 0 else |arr| - 1
    ensures Ascending(arr) && (exists i, j :: 0 <= i < j < |arr| && arr[i] + arr[j] == target) ==> r.Found?
  {
    var left, right, steps := 0, |arr| - 1, 0;
    probes := [];
    while left < right
      invariant 0 <= left && right < |arr| && left <= right + 1
      invariant |arr| > 0 ==> left <= right
      invariant steps == |probes| == left + (|arr| - 1 - right)
      invariant forall k :: 0 <= k < |probes| ==> 0 <= probes[k].0 < probes[k].1 < |arr|
      invariant |probes| > 0 ==> probes[0] == (0, |arr| - 1)
      invariant forall k :: 0 < k < |probes| ==> OneMove(probes[k - 1], probes[k])
      invariant |probes| > 0 ==> OneMove(probes[|probes| - 1], (left, right))
      invariant Ascending(arr) ==> PairsWithin(arr, target, left, right)
      decreases right - left
    {
      steps := steps + 1;
      probes := probes + [(left, right)];
      var sum := arr[left] + arr[right];
      if sum == target {
        return Found(left, right, steps), probes;
      }
      if Ascending(arr) {
        Advance(arr, target, left, right);
      }
      if sum < target {
        left := left + 1;
      } else {
        right := right - 1;
      }
    }
    return NotFound(steps), probes;
  }

  /** With the default data the search succeeds: 5 + 10 = 15. */
  method SearchInitial() returns (r: Outcome)
    ensures r.Found? && r.left < r.right < 10 && InitialArray()[r.left] + InitialArray()[r.right] == DefaultTarget
  {
    var a := InitialArray();
    assert a[4] + a[9] == DefaultTarget;
    var probes;
    r, probes := Search(a, DefaultTarget);
  }
}

=== FILE: typing_animation.dfy ===
/** The typing animation of the home page: `getDisplayText` shows the
    first N visible characters of an HTML string with its tags emitted
    whole, and a timer advances N one character per tick. */
module TypingAnimation {
  import opened Wrappers
  import opened Seqs

  /** How the scanner of `getDisplayText` sees its input: a visible
      character, or a piece of markup emitted in one go (a complete tag, or
      a `>` met outside any tag). */
  datatype Piece = Visible(c: char) | Markup(s: string)

  function PieceText(p: Piece): string {
    match p
    case Visible(c) => [c]
    case Markup(s) => s
  }

  function Render(ps: seq<Piece>): string {
    if |ps| == 0 then "" else PieceText(ps[0]) + Render(ps[1..])
  }

  function CountVisible(ps: seq<Piece>): nat {
    if |ps| == 0 then 0 else (if ps[0].Visible? then 1 else 0) + CountVisible(ps[1..])
  }

  /** The tag buffer, when the scanner is inside a tag. */
  function OpenText(open: Option<string>): string {
    open.GetOr("")
  }

  /** The pieces of `s` when the scan starts with buffer `open`. A `<`
      starts a fresh buffer (dropping an earlier unfinished one), a `>`
      emits the buffer with the `>`, and a buffer still open at the end is
      never emitted. */
  function PiecesFrom(s: string, open: Option<string>): seq<Piece>
    decreases |s|
  {
    if |s| == 0 then []
    else if s[0] == '<' then PiecesFrom(s[1..], Some("<"))
    else if s[0] == '>' then [Markup(OpenText(open) + ">")] + PiecesFrom(s[1..], None)
    else if open.Some? then PiecesFrom(s[1..], Some(open.value + [s[0]]))
    else [Visible(s[0])] + PiecesFrom(s[1..], None)
  }

  function Pieces(s: string): seq<Piece> {
    PiecesFrom(s, None)
  }

  /** The pieces up to, not including, the `n+1`-th visible character. */
  function Cut(ps: seq<Piece>, n: int): seq<Piece> {
    if |ps| == 0 then []
    else if ps[0].Visible? then (if n > 0 then [ps[0]] + Cut(ps[1..], n - 1) else [])
    else [ps[0]] + Cut(ps[1..], n)
  }

  /** The reference meaning of `getDisplayText(s, n)`. */
  function DisplayText(s: string, n: int): string {
    Render(Cut(Pieces(s), n))
  }

  /** What is left to output after one more input character, by the
      character and the scanner's state. */
  lemma ScanStep(rest: string, c: char, t: string, open: Option<string>, n: int)
    requires |rest| > 0 && c == rest[0] && t == rest[1..]
    ensures var out := Render(Cut(PiecesFrom(rest, open), n));
      && (c == '<' ==> out == Render(Cut(PiecesFrom(t, Some("<")), n)))
      && (c == '>' ==> out == (OpenText(open) + ">") + Render(Cut(PiecesFrom(t, None), n)))
      && (c != '<' && c != '>' && open.Some? ==> out == Render(Cut(PiecesFrom(t, Some(open.value + [c])), n)))
      && (c != '<' && c != '>' && open.None? && n > 0 ==> out == [c] + Render(Cut(PiecesFrom(t, None), n - 1)))
      && (c != '<' && c != '>' && open.None? && n <= 0 ==> out == "")
  {
    if c == '>' {
      var p := Markup(OpenText(open) + ">");
      var ps := PiecesFrom(t, None);
      assert ([p] + ps)[0] == p && ([p] + ps)[1..] == ps;
      RenderCons(p, Cut(ps, n));
    } else if c != '<' && open.None? && n > 0 {
      var p := Visible(c);
      var ps := PiecesFrom(t, None);
      assert ([p] + ps)[0] == p && ([p] + ps)[1..] == ps;
      RenderCons(p, Cut(ps, n - 1));
    } else if c != '<' && open.None? {
      var ps := PiecesFrom(t, None);
      assert ([Visible(c)] + ps)[0] == Visible(c);
    }
  }

  lemma DropOne(s: string, i: int)
    requires 0 <= i < |s|
    ensures s[i..][0] == s[i] && s[i..][1..] == s[i + 1..]
  {
  }

  /** The loop invariant of `getDisplayText`: the output so far followed
      by what the rest of the input still yields is the whole answer. */
  ghost predicate Yields(html: string, i: int, open: Option<string>, k: int, result: string, d: string) {
    0 <= i <= |html| && result + Render(Cut(PiecesFrom(html[i..], open), k)) == d
  }

  lemma StepOpenTag(html: string, i: int, j: int, open: Option<string>, k: int, result: string, d: string)
    requires Yields(html, i, open, k, result, d) && i < |html| && j == i + 1 && html[i] == '<'
    ensures Yields(html, j, Some("<"), k, result, d)
  {
    DropOne(html, i);
    ScanStep(html[i..], html[i], html[j..], open, k);
  }

  lemma StepCloseTag(html: string, i: int, j: int, open: Option<string>, k: int, result: string, d: string, buf: string)
    requires Yields(html, i, open, k, result, d) && i < |html| && j == i + 1 && html[i] == '>'
    requires OpenText(open) == buf
    ensures Yields(html, j, None, k, result + (buf + ">"), d)
  {
    DropOne(html, i);
    ScanStep(html[i..], html[i], html[j..], open, k);
    Assoc(result, buf + ">", Render(Cut(PiecesFrom(html[j..], None), k)));
  }

  lemma StepInTag(html: string, i: int, j: int, buf: string, k: int, result: string, d: string)
    requires Yields(html, i, Some(buf), k, result, d) && i < |html| && j == i + 1
    requires html[i] != '<' && html[i] != '>'
    ensures Yields(html, j, Some(buf + [html[i]]), k, result, d)
  {
    DropOne(html, i);
    ScanStep(html[i..], html[i], html[j..], Some(buf), k);
  }

  lemma StepVisible(html: string, i: int, j: int, k: int, k2: int, result: string, d: string)
    requires Yields(html, i, None, k, result, d) && i < |html| && j == i + 1
    requires html[i] != '<' && html[i] != '>' && k > 0 && k2 == k - 1
    ensures Yields(html, j, None, k2, result + [html[i]], d)
  {
    DropOne(html, i);
    ScanStep(html[i..], html[i], html[j..], None, k);
    Assoc(result, [html[i]], Render(Cut(PiecesFrom(html[j..], None), k2)));
  }

  lemma StepStop(html: string, i: int, k: int, result: string, d: string)
    requires Yields(html, i, None, k, result, d) && i < |html|
    requires html[i] != '<' && html[i] != '>' && k <= 0
    ensures result == d
  {
    DropOne(html, i);
    ScanStep(html[i..], html[i], html[i + 1..], None, k);
    assert result + "" == result;
  }

  /** `getDisplayText`: the character loop with its early exit. */
  method GetDisplayText(html: string, visibleChars: int) returns (result: string)
    ensures result == DisplayText(html, visibleChars)
  {
    result := "";
    var visibleCount := 0;
    var inTag := false;
    var tagBuffer := "";
    var i := 0;
    ghost var d := DisplayText(html, visibleChars);
    ghost var st: Option<string> := None;
    ghost var k := visibleChars;
    YieldsStart(html, visibleChars, d);
    while i < |html|
      invariant !inTag ==> tagBuffer == ""
      invariant st == if inTag then Some(tagBuffer) else None
      invariant k == visibleChars - visibleCount
      invariant Yields(html, i, st, k, result, d)
    {
      var c := html[i];
      var j := i + 1;
      if c == '<' {
        StepOpenTag(html, i, j, st, k, result, d);
        inTag := true;
        tagBuffer := "<";
        st := Some("<");
      } else if c == '>' {
        StepCloseTag(html, i, j, st, k, result, d, tagBuffer);
        inTag := false;
        tagBuffer := tagBuffer + ">";
        result := result + tagBuffer;
        tagBuffer := "";
        st := None;
      } else if inTag {
        StepInTag(html, i, j, tagBuffer, k, result, d);
        tagBuffer := tagBuffer + [c];
        st := Some(tagBuffer);
      } else {
        if visibleCount < visibleChars {
          StepVisible(html, i, j, k, k - 1, result, d);
          result := result + [c];
          visibleCount := visibleCount + 1;
          k := k - 1;
        } else {
          StepStop(html, i, k, result, d);
          break;
        }
      }
      i := j;
    }
    if i == |html| {
      YieldsEnd(html, i, st, k, result, d);
    }
  }

  lemma YieldsStart(html: string, n: int, d: string)
    requires d == DisplayText(html, n)
    ensures Yields(html, 0, None, n, "", d)
  {
    assert html[0..] == html;
  }

  lemma YieldsEnd(html: string, i: int, open: Option<string>, k: int, result: string, d: string)
    requires Yields(html, i, open, k, result, d) && i == |html|
    ensures result == d
  {
    assert html[i..] == [];
    assert result + "" == result;
  }

  lemma {:induction false} RenderConcat(a: seq<Piece>, b: seq<Piece>)
    ensures Render(a + b) == Render(a) + Render(b)
  {
    if |a| == 0 {
      assert a + b == b;
    } else {
      assert (a + b)[0] == a[0] && (a + b)[1..] == a[1..] + b;
      RenderConcat(a[1..], b);
    }
  }

  lemma {:induction false} CountConcat(a: seq<Piece>, b: seq<Piece>)
    ensures CountVisible(a + b) == CountVisible(a) + CountVisible(b)
  {
    if |a| == 0 {
      assert a + b == b;
    } else {
      assert (a + b)[0] == a[0] && (a + b)[1..] == a[1..] + b;
      CountConcat(a[1..], b);
    }
  }

  /** The output is made of whole pieces: a prefix of the piece sequence. */
  lemma {:induction false} CutIsPrefix(ps: seq<Piece>, n: int)
    ensures Cut(ps, n) <= ps
  {
    if |ps| > 0 {
      CutIsPrefix(ps[1..], if ps[0].Visible? then n - 1 else n);
    }
  }

  /** Exactly `min(n, total)` visible characters are emitted. */
  lemma {:induction false} CutCount(ps: seq<Piece>, n: int)
    ensures CountVisible(Cut(ps, n)) == if n <= 0 then 0 else if n < CountVisible(ps) then n else CountVisible(ps)
  {
    if |ps| > 0 {
      if ps[0].Visible? {
        if n > 0 {
          CutCount(ps[1..], n - 1);
          assert ([ps[0]] + Cut(ps[1..], n - 1))[1..] == Cut(ps[1..], n - 1);
        }
      } else {
        CutCount(ps[1..], n);
        assert ([ps[0]] + Cut(ps[1..], n))[1..] == Cut(ps[1..], n);
      }
    }
  }

  /** Asking for one more character only extends the output. */
  lemma {:induction false} CutMonotone(ps: seq<Piece>, n: int)
    ensures Cut(ps, n) <= Cut(ps, n + 1)
  {
    if |ps| > 0 {
      CutMonotone(ps[1..], if ps[0].Visible? then n - 1 else n);
    }
  }

  lemma {:induction false} CutAll(ps: seq<Piece>, n: int)
    requires n >= CountVisible(ps)
    ensures Cut(ps, n) == ps
  {
    if |ps| > 0 {
      CutAll(ps[1..], if ps[0].Visible? then n - 1 else n);
    }
  }

  /** With nothing to show, the output is the markup before the first
      visible character. */
  lemma {:induction false} CutZero(ps: seq<Piece>)
    ensures var c := Cut(ps, 0);
            CountVisible(c) == 0 && |c| <= |ps| &&
            (forall k :: 0 <= k < |c| ==> c[k] == ps[k] && c[k].Markup?) &&
            (|c| < |ps| ==> ps[|c|].Visible?)
  {
    CutCount(ps, 0);
    CutIsPrefix(ps, 0);
    if |ps| > 0 && !ps[0].Visible? {
      CutZero(ps[1..]);
    }
  }

  lemma RenderPrefix(a: seq<Piece>, b: seq<Piece>)
    requires a <= b
    ensures Render(a) <= Render(b)
  {
    assert b == a + b[|a|..];
    RenderConcat(a, b[|a|..]);
  }

  /** `getDisplayText(s, n)` is a prefix of `getDisplayText(s, n + 1)`, for
      every input. */
  lemma DisplayMonotone(s: string, n: int)
    ensures DisplayText(s, n) <= DisplayText(s, n + 1)
  {
    CutMonotone(Pieces(s), n);
    RenderPrefix(Cut(Pieces(s), n), Cut(Pieces(s), n + 1));
  }

  /** The visible characters shown are `min(n, total)`. */
  lemma DisplayCount(s: string, n: int)
    ensures CountVisible(Cut(Pieces(s), n)) == if n <= 0 then 0 else if n < CountVisible(Pieces(s)) then n else CountVisible(Pieces(s))
  {
    CutCount(Pieces(s), n);
  }

  /** The open buffer once `s` has been scanned. */
  function EndOpen(s: string, open: Option<string>): Option<string>
    decreases |s|
  {
    if |s| == 0 then open
    else if s[0] == '<' then EndOpen(s[1..], Some("<"))
    else if s[0] == '>' then EndOpen(s[1..], None)
    else if open.Some? then EndOpen(s[1..], Some(open.value + [s[0]]))
    else EndOpen(s[1..], None)
  }

  lemma {:induction false} PiecesConcat(a: string, b: string, open: Option<string>)
    ensures PiecesFrom(a + b, open) == PiecesFrom(a, open) + PiecesFrom(b, EndOpen(a, open))
    decreases |a|
  {
    if |a| == 0 {
      assert a + b == b;
    } else {
      assert (a + b)[0] == a[0] && (a + b)[1..] == a[1..] + b;
      var next := if a[0] == '<' then Some("<")
                  else if a[0] == '>' then None
                  else if open.Some? then Some(open.value + [a[0]])
                  else None;
      PiecesConcat(a[1..], b, next);
    }
  }

  lemma {:induction false} UnclosedEmitsNothing(u: string, open: Option<string>)
    requires open.Some? && '>' !in u
    ensures PiecesFrom(u, open) == []
    decreases |u|
  {
    if |u| > 0 {
      assert u[0] in u;
      assert forall k :: 0 <= k < |u| - 1 ==> u[1..][k] == u[k + 1];
      UnclosedEmitsNothing(u[1..], if u[0] == '<' then Some("<") else Some(open.value + [u[0]]));
    }
  }

  /** A tag left open at the end is never emitted, whatever the count. */
  lemma TrailingTagDropped(t: string, u: string, n: int)
    requires '>' !in u
    ensures Pieces(t + ['<'] + u) == Pieces(t)
    ensures DisplayText(t + ['<'] + u, n) == DisplayText(t, n)
  {
    PiecesConcat(t, ['<'] + u, None);
    assert (['<'] + u)[1..] == u;
    UnclosedEmitsNothing(u, Some("<"));
    assert t + ['<'] + u == t + (['<'] + u);
  }

  /** No `<` appears while a tag is open. */
  predicate NoNestedOpen(s: string, inTag: bool)
    decreases |s|
  {
    if |s| == 0 then true
    else if s[0] == '<' then !inTag && NoNestedOpen(s[1..], true)
    else if s[0] == '>' then NoNestedOpen(s[1..], false)
    else NoNestedOpen(s[1..], inTag)
  }

  /** A piece in front renders in front. */
  lemma RenderCons(p: Piece, rest: seq<Piece>)
    ensures Render([p] + rest) == PieceText(p) + Render(rest)
  {
    assert ([p] + rest)[0] == p && ([p] + rest)[1..] == rest;
  }

  lemma PrefixJoin(x: string, r: string, t: string, y: string)
    requires r <= t && y == x + t
    ensures x + r <= y
  {
    assert y[..|x + r|] == x + r;
  }

  lemma {:induction false} RenderIsPrefix(s: string, open: Option<string>)
    requires NoNestedOpen(s, open.Some?)
    ensures Render(PiecesFrom(s, open)) <= OpenText(open) + s
    decreases |s|
  {
    if |s| > 0 {
      var c, t := s[0], s[1..];
      HeadTail(s);
      var o := OpenText(open);
      if c == '<' {
        RenderIsPrefix(t, Some("<"));
        assert o + s == "<" + t;
      } else if c == '>' {
        var rest := PiecesFrom(t, None);
        RenderIsPrefix(t, None);
        RenderCons(Markup(o + ">"), rest);
        Assoc(o, ">", t);
        PrefixJoin(o + ">", Render(rest), t, o + s);
      } else if open.Some? {
        RenderIsPrefix(t, Some(o + [c]));
        Assoc(o, [c], t);
      } else {
        var rest := PiecesFrom(t, None);
        RenderIsPrefix(t, None);
        RenderCons(Visible(c), rest);
        PrefixJoin([c], Render(rest), t, o + s);
      }
    }
  }

  /** Without a `<` inside a tag, every output is a prefix of the input. */
  lemma DisplayIsPrefix(s: string, n: int)
    requires NoNestedOpen(s, false)
    ensures DisplayText(s, n) <= s
  {
    RenderIsPrefix(s, None);
    CutIsPrefix(Pieces(s), n);
    RenderPrefix(Cut(Pieces(s), n), Pieces(s));
  }

  /** Markup the way an HTML author writes it: tags do not nest, every
      `>` closes a tag, and no tag is left open. */
  predicate WellTagged(s: string, inTag: bool)
    decreases |s|
  {
    if |s| == 0 then !inTag
    else if s[0] == '<' then !inTag && WellTagged(s[1..], true)
    else if s[0] == '>' then inTag && WellTagged(s[1..], false)
    else WellTagged(s[1..], inTag)
  }

  lemma {:induction false} RenderWellTagged(s: string, open: Option<string>)
    requires WellTagged(s, open.Some?)
    ensures Render(PiecesFrom(s, open)) == OpenText(open) + s
    decreases |s|
  {
    if |s| > 0 {
      var c, t := s[0], s[1..];
      HeadTail(s);
      var o := OpenText(open);
      if c == '<' {
        RenderWellTagged(t, Some("<"));
        assert o + s == "<" + t;
      } else if c == '>' {
        var rest := PiecesFrom(t, None);
        RenderWellTagged(t, None);
        RenderCons(Markup(o + ">"), rest);
        Assoc(o, ">", t);
      } else if open.Some? {
        RenderWellTagged(t, Some(o + [c]));
        Assoc(o, [c], t);
      } else {
        var rest := PiecesFrom(t, None);
        RenderWellTagged(t, None);
        RenderCons(Visible(c), rest);
      }
    }
  }

  /** Index of the first `c` in `s`. */
  function FirstIndex(s: string, c: char): (r: nat)
    requires c in s
    ensures r < |s| && s[r] == c
    ensures forall k :: 0 <= k < r ==> s[k] != c
  {
    if s[0] == c then 0
    else
      assert c in s[1..] by {
        var k :| 0 <= k < |s| && s[k] == c;
        assert s[1..][k - 1] == c;
      }
      1 + FirstIndex(s[1..], c)
  }

  /** `text.replace(/<[^>]*>/g, '')`: from each `<` that has a `>` after
      it, everything through the first such `>` is deleted. */
  function StripTags(s: string): (r: string)
    ensures |r| <= |s|
    decreases |s|
  {
    if |s| == 0 then ""
    else if s[0] == '<' && '>' in s[1..] then StripTags(s[1..][FirstIndex(s[1..], '>') + 1..])
    else [s[0]] + StripTags(s[1..])
  }

  /** Inside a well-formed tag the scanner emits nothing visible up to the
      closing `>`, and the text after it is well-formed again. */
  lemma {:induction false} SkipTag(t: string, b: string)
    requires WellTagged(t, true)
    ensures '>' in t
    ensures var j := FirstIndex(t, '>');
            WellTagged(t[j + 1..], false) &&
            CountVisible(PiecesFrom(t, Some(b))) == CountVisible(PiecesFrom(t[j + 1..], None))
    decreases |t|
  {
    assert t[0] in t;
    if t[0] == '>' {
      assert FirstIndex(t, '>') == 0;
      assert ([Markup(b + ">")] + PiecesFrom(t[1..], None))[1..] == PiecesFrom(t[1..], None);
    } else {
      SkipTag(t[1..], b + [t[0]]);
      assert '>' in t by {
        var k := FirstIndex(t[1..], '>');
        assert t[k + 1] == '>';
      }
      assert FirstIndex(t, '>') == 1 + FirstIndex(t[1..], '>');
      assert t[1..][FirstIndex(t[1..], '>') + 1..] == t[FirstIndex(t, '>') + 1..];
    }
  }

  /** For well-formed markup, the regex-stripped length the timer counts
      up to is the number of characters the scanner shows. */
  lemma {:induction false} StripCount(s: string)
    requires WellTagged(s, false)
    ensures |StripTags(s)| == CountVisible(Pieces(s))
    decreases |s|
  {
    if |s| > 0 {
      if s[0] == '<' {
        SkipTag(s[1..], "<");
        var j := FirstIndex(s[1..], '>');
        StripCount(s[1..][j + 1..]);
      } else {
        assert s[0] != '>';
        StripCount(s[1..]);
        assert ([Visible(s[0])] + PiecesFrom(s[1..], None))[1..] == PiecesFrom(s[1..], None);
      }
    }
  }

  /** The component's animation state. */
  datatype Typing = Typing(displayText: string, charIndex: int, isComplete: bool)

  const TypingStart := Typing("", 0, false)

  function TotalVisibleChars(text: string): nat {
    |StripTags(text)|
  }

  /** One timer tick: show one more character, or mark the animation
      complete; a completed animation schedules nothing. */
  function Tick(text: string, st: Typing): (r: Typing)
    ensures st.isComplete ==> r == st
    ensures !st.isComplete && st.charIndex < TotalVisibleChars(text) ==>
              r == Typing(DisplayText(text, st.charIndex + 1), st.charIndex + 1, false)
    ensures !st.isComplete && st.charIndex >= TotalVisibleChars(text) ==>
              r.isComplete && r.charIndex == st.charIndex && r.displayText == st.displayText
  {
    if st.isComplete then st
    else if st.charIndex < TotalVisibleChars(text) then
      Typing(DisplayText(text, st.charIndex + 1), st.charIndex + 1, false)
    else st.(isComplete := true)
  }

  function Ticks(text: string, k: nat): Typing {
    if k == 0 then TypingStart else Tick(text, Ticks(text, k - 1))
  }

  /** `charIndex` counts the ticks up to the stripped length; the next
      tick completes the animation and nothing changes after that. */
  lemma {:induction false} TicksProgress(text: string, k: nat)
    ensures k <= TotalVisibleChars(text) ==>
              Ticks(text, k) == Typing(if k == 0 then "" else DisplayText(text, k), k, false)
    ensures k > TotalVisibleChars(text) ==>
              Ticks(text, k) == Typing(Ticks(text, TotalVisibleChars(text)).displayText, TotalVisibleChars(text), true)
  {
    if k > 0 {
      TicksProgress(text, k - 1);
    }
  }

  /** For well-formed markup with some text in it, the finished animation
      shows the whole input. */
  lemma AnimationShowsAll(text: string, k: nat)
    requires WellTagged(text, false) && TotalVisibleChars(text) > 0
    requires k >= TotalVisibleChars(text)
    ensures Ticks(text, k).displayText == text
  {
    var n := TotalVisibleChars(text);
    TicksProgress(text, n);
    TicksProgress(text, k);
    StripCount(text);
    CutAll(Pieces(text), n);
    RenderWellTagged(text, None);
  }
}

=== FILE: wrappers.dfy ===
/** The optional value used wherever the source has `undefined`, `null` or
    a missing key: a missing series, a missing tag list, a `find` that
    matched nothing. */
module Wrappers {

  datatype Option<+T> = None | Some(value: T) {

    /** Returns the value in Some or a default value if None */
    function GetOr(default: T): T {
      match this
      case Some(v) => v
      case None => default
    }
  }
}
